=== FILE: README.md ===
# euCy core in Dafny

A model of the text engine of euCy: it reads EU legislative texts (proposals and
adopted acts) and edits them. The model covers these parts.

- Finding the structure. `text_parts` splits a document into citations, recitals,
  enacting terms (with and without a table of contents) and annex. The segmenters
  `citations`, `recitals`, `articles` and `article_elements` then cut the parts
  into elements: paragraphs, subparagraphs, points and indents.
- The character-to-token index. `chars_to_tokens_dict` builds it and
  `char_to_token` searches it, in the contract, expand and strict alignment modes.
- The edit layer.
  - Tagging spans as deleted or replaced: `_delete_text` and `_replace_text`.
  - Inserting new elements: `_add_element`.
  - Three generations of `modify_doc`, which rebuild a document's text from the
    edit metadata. They also move the surviving spans and the parts.
  - The paragraph-level rebuild of an article whose elements were edited
    (`process_article_elements_modifications`).
- The complexity measures of `EuWrapper`: structural size, average depth,
  element counts and reference counts.
- The reference-range utilities of euplexcy: `_resolve_range` with the letter
  and Roman numeral conversions, `range_intersect`, the merge of overlapping
  reference matches, and `_split_match_dict`.

Modelling choices:

- Documents are immutable values. A token is a record of character offsets; a
  span is a token range or, in the edit engine, a record of character offsets
  plus its edit flags.
- Regular expressions are an oracle. A `Finder` function returns the matches of
  a named pattern with given flags over a text. The model proves the cascades,
  partitions, filters and offsets built on top of those matches.
- Python exceptions are values of a `Result` type, so every error path the
  modelled operations take on a document that has its parts is an outcome of the
  model. Examples are IndexError on `s[-1]` of an empty
  string, TypeError from `min` over `None`, and AttributeError from `.end()` on a
  string.
- Several things the code gets from elsewhere are parameters:
  - a random placeholder span;
  - a floating-point estimate;
  - the group order from `determine_span_group_order`;
  - the `is_modified_span` test;
  - the blank-pipeline segmenter that `get_paragraph_subelements` runs.

Modules:

| file | module | models |
|---|---|---|
| py_base.dfy | PyBase | exceptions, slicing, `strip`, `replace`, `lower`, `str(n)`/`int(s)`, a raising loop |
| tokens.dfy | Tokens | tokens, token spans, `chars_to_tokens_dict`, `char_to_token`, `char_span` |
| regex.dfy | Regex | the named patterns and the search oracle |
| structure.dfy | Structure | `text_parts` |
| segmentation.dfy | Segmentation | `citations`, `recitals`, `articles`, `article_elements` |
| numerals.dfy | Numerals | `letter_to_int`, `int_to_letter`, `roman_to_int`, `int_to_roman` |
| flatten.dfy | Nesting | `flatten` |
| markup.dfy | Markup | `element_text_to_markup` |
| spans.dfy | Spans | edit metadata, `_delete_text`, `_replace_text`, `get_element_text` |
| edit_doc.dfy | EditDocs | the edited document, `_add_element`, `get_element_by_num` |
| article_edits.dfy | ArticleEdits | `eucy/modify/article_elements.py` |
| rebuild.dfy | Rebuild | `modify_doc` of `eucy/modify/__init__.py` |
| early_rebuild.dfy | EarlyRebuild | `modify_doc` of `eucy/modify.py` and `eucy/modfiy.py` |
| metrics.dfy | Metrics | `structural_size`, `avg_depth`, counts, `reference_count`, `no_text` |
| references.dfy | References | `_resolve_range`, `range_intersect`, match merging and splitting |

Where the documented behaviour and the code disagree, the model follows the code:

- `articles` uses the single-article pattern whatever number of matches it
  finds, not only when there is exactly one (eucy/elements.py:265-276).
- `text_parts` never reaches its "citations only" branch. "No recitals" is set
  only after "no citations" (eucy/structure.py:206-232). Citations alone arise
  only from the both-parts search, when it finds no recitals opener.
- `modify_doc` (both the package version and `eucy/modify.py`) emits a kept
  span's text with its trailing whitespace and then copies the old text from the
  span's end. That whitespace therefore appears twice. A rebuild without edits
  is the identity only when no span has trailing whitespace.
- A `deletion_threshold` flags a replaced span as deleted when its stripped
  replacement is LONGER than the threshold, not shorter (eucy/utils.py:56-58).
- `any_modified_article_elements` and the span collection in
  `process_article_elements_modifications` reuse the name `p_i` for the points
  loop. A later subparagraph's indents are then looked up under the wrong
  paragraph (eucy/modify/article_elements.py:14-22).
- The newer `modify_doc` moves the annex by `enacting.end - annex.start`, the
  opposite sign of the earlier version (eucy/modify/__init__.py:417-420).
- `get_element_by_num`, as its assertions are written, only serves citation
  and recital lookups (eucy/utils.py:789-795).

## Model

| member | source | states |
|---|---|---|
| PyBase.MapAll | eucy/elements.py:591-606 | a loop appending `f(x)` succeeds exactly when every call does, then holds each call's result in order; otherwise it raises the first failing element's exception |
| PyBase.MapAllRaises | eucy/elements.py:591-606 | when every failing call raises the same exception, the loop raises that exception |
| PyBase.PySlice | eucy/modify/__init__.py:224-225 | `s[i:j]` with Python's clamping and negative indices: an in-range slice is the Dafny slice, a reversed range is empty |
| PyBase.PyGet | eucy/utils.py:809-812 | `s[i]` succeeds exactly for `-len(s) <= i < len(s)`, with negative indices counting from the end |
| PyBase.InsertAt | eucy/utils.py:238-242 | the two comprehensions around the new span: one longer, the new item at `i`, everything before and after it unchanged |
| PyBase.Strip | eucy/utils.py:636 | `strip` leaves no whitespace at either end and, with the removed prefix and suffix, gives back the string |
| PyBase.ParseIntOfStr | euplexcy/entities/references.py:187-188 | `int(str(n)) == n` for every natural number |
| PyBase.ParseInt | euplexcy/entities/references.py:187-188 | on the strings a range pattern captures, `int(s)` succeeds exactly on ASCII digits with optional whitespace around them, giving a natural number |
| Tokens.BuildIndex | eucy/utils.py:465-467 | one entry per token, mapping the token's characters (shifted by the character offset) to its number (shifted by the token offset) |
| Tokens.SpanIndexCorrect | eucy/utils.py:440-468 | for a well-formed document the span index maps a span-relative character to `t` exactly when span token `t` contains that character |
| Tokens.SpanIndexSound | eucy/utils.py:440-468 | every key of the span index maps to the span token that contains it |
| Tokens.SpanIndexComplete | eucy/utils.py:440-468 | every character of every span token is a key mapping to that token |
| Tokens.MinKey | eucy/utils.py:500-501 | `min(keys)` is a key and no key is smaller |
| Tokens.MaxKey | eucy/utils.py:493-494 | `max(keys)` is a key and no key is larger |
| Tokens.ContractKey | eucy/utils.py:498-502 | the contract search lands on a key with no key between it and the start character, or on the smallest key when none lies below |
| Tokens.ExpandKey | eucy/utils.py:491-495 | the expand search lands on the nearest key above the character, or on the largest key with the +1 offset when none lies above |
| Tokens.CharToToken | eucy/utils.py:471-504 | a key is looked up directly; a strict miss is None; a miss in the other modes raises ValueError on an empty index and otherwise takes the contract or expand neighbour |
| Tokens.CharToTokenFinds | eucy/utils.py:490-504 | on a non-empty index the contract and expand modes always find a token |
| Tokens.TokenStartingAt | eucy/structure.py:343 | the first token starting at a character, or proof that none does |
| Tokens.TokenEndingAt | eucy/structure.py:343 | the first token ending at a character, or proof that none does |
| Tokens.CharSpanStrict | eucy/structure.py:343 | `char_span(a, b)` in strict mode is a valid span whose first token starts at `a` and last token ends at `b`, or None |
| Regex.FirstHit | eucy/structure.py:67-94 | a `while True` cascade of searches returns the first query that matches and its first match, every earlier query having found nothing; None exactly when no query matches |
| Regex.LongMatches | eucy/elements.py:100 | the filter keeps exactly the matches whose text is longer than `k` characters |
| Regex.LongMatchesSubsequence | eucy/elements.py:100 | the filter keeps the matches in their order |
| Structure.ToToken | eucy/structure.py:44-51 | `_to_token`: a covered character gives its token; otherwise the nearest covered character below `c - 1` (skipping `c - 1` itself), or 0 |
| Structure.ScanDown | eucy/structure.py:46-51 | the downward scan ends at the nearest covered character below its start, or at token 0 |
| Structure.ToTokenSkipsPrevious | eucy/structure.py:46-50 | in "ab", with one token per character, the end of the text maps to token 0, not to token 1 |
| Structure.EnactingSplit | eucy/structure.py:67-94 | the strict opening formula, then the lenient one, then the first article heading; StructureException exactly when none matches |
| Structure.MiddleEnd | eucy/structure.py:104-143 | "Done at" first, then the annex heading; else a hit of the last-resort search raises AttributeError (`.end()` on a string) and no hit leaves the middle open |
| Structure.Middle | eucy/structure.py:145-152 | without an end match the middle is unchanged; with one the result is a span of the document starting at the middle's first token |
| Structure.LawStart | eucy/structure.py:163-189 | without an explanatory-memorandum mark the law starts at character 0 |
| Structure.BothParts | eucy/structure.py:235-305 | recitals exist exactly when one of the four recitals openers matches and run from the token at the end of the first opener found to the end of the front; citations exist exactly when the citations opener matches and run from the token at the end of its first match to where the recitals start, or to the end of the front without recitals |
| Structure.FrontParts | eucy/structure.py:156-305 | no opener gives neither part; a recitals opener alone gives recitals to the end of the front; citations only come from a citations opener; citations meet recitals |
| Structure.FrontPartsBoth | eucy/structure.py:190-305 | when the citations opener is found, after the law start or anywhere ignoring case, the front is split as both parts from the start of that opener's first match |
| Structure.Toc | eucy/structure.py:310-350 | without a table of contents both enacting entries are the enacting span; a heading in the enacting text moves only `enacting`; a heading in the recitals cuts them and fails with AttributeError only when there are no citations to fall back on |
| Structure.TextParts | eucy/structure.py:39-358 | StructureException exactly when the enacting split fails; otherwise the errors are AttributeError or ValueError and the annex is always None |
| Segmentation.Pieces | eucy/elements.py:135-142 | each element runs from its start to the next start, the last one to the end of the text |
| Segmentation.PiecesTile | eucy/elements.py:135-142 | for ascending starts the pieces, joined, give back the text from the first start on: no gap, no overlap |
| Segmentation.CharRange | eucy/elements.py:153-156 | a character range becomes a token span inside the enclosing span; it raises exactly when the character index is empty, and then ValueError |
| Segmentation.CharRangeLooksUp | eucy/elements.py:153-156 | the span of a character range runs from the token `char_to_token` finds for its start in contract mode to the one it finds for its end in expand mode, each `None` read as the slice default, clamped to the enclosing span |
| Segmentation.SlicesAt | eucy/elements.py:135-159 | span `i` of the list is the span of character range `i` |
| Segmentation.PieceSpans | eucy/elements.py:135-159 | one span inside the enclosing span per start, span `i` being the character range from start `i` to the next start (the last one to the end of the text); ValueError exactly when there are starts and the character index is empty; no starts give no spans |
| Segmentation.PieceSpansTile | eucy/elements.py:135-159 | for ascending starts that each fall inside a token, element `i` begins at the token holding start `i` and ends where element `i + 1` begins, and the last one ends with the enclosing span |
| Segmentation.NumberedPieces | eucy/elements.py:501-526 | one element per start, inside the enclosing span, numbered from 1 in order, carrying its number string and spanning the piece from its start to the next |
| Segmentation.CitationMatches | eucy/elements.py:80-100 | the case-insensitive search is used only when the case-sensitive one finds nothing; only matches of more than four characters are kept |
| Segmentation.Citations | eucy/elements.py:67-121 | no part gives no citations; otherwise one span per kept match, inside the part and covering that match's character range, or ValueError |
| Segmentation.CitationsRetryOnlyOnMiss | eucy/elements.py:80-98 | when the case-sensitive search finds something, whatever the case-insensitive one would find makes no difference |
| Segmentation.NumberedIffShape | eucy/elements.py:181-183 | the greedy scan accepts exactly the strings the parenthesis or dot pattern matches at position 0 |
| Segmentation.Classify | eucy/elements.py:180-186 | every numbered match is in exactly one class: parenthesised first, then dot-numbered, else other |
| Segmentation.NumberedStarts | eucy/elements.py:189-192 | choosing the parenthesised starts keeps every one of them and drops only dot-numbered ones, and only when no "other" start exists |
| Segmentation.RecitalsFrom | eucy/elements.py:195-198 | the recitals are the pieces between the starts that have more than six tokens, in their order and each as often as among the pieces, inside the part; ValueError exactly when there are starts and the character index is empty |
| Segmentation.LongSpansSubsequence | eucy/elements.py:197-198 | the token-count filter (more than six tokens at this call) keeps the pieces in their order |
| Segmentation.Recitals | eucy/elements.py:124-237 | the result is empty exactly when there is no part; otherwise it is the first strategy's result that is not empty (numbered, then "whereas", then paragraphs), every recital having more than six tokens and lying in the part; the loop never ends exactly when all three strategies yield nothing |
| Segmentation.RecitalsFirstStrategyWins | eucy/elements.py:165-201 | once the numbered strategy yields recitals, the later searches make no difference |
| Segmentation.ArticleMatches | eucy/elements.py:253-280 | the identifier matches longer than four characters, else the long single-article matches |
| Segmentation.SingleArticleAnyCount | eucy/elements.py:265-276 | without identifier matches every long single-article match becomes an article, whatever their number |
| Segmentation.FirstCandidate | eucy/elements.py:329-332 | the number string is the stripped first candidate when there is more than one; a `None` first candidate raises AttributeError |
| Segmentation.FirstCandidates | eucy/elements.py:284-336 | the number strings of all articles, in order; AttributeError exactly when some article's first of several candidates is `None` |
| Segmentation.NumberCandidates | eucy/elements.py:309-327 | one candidate per `article_num` match, else one present candidate per `article_any_num` match |
| Segmentation.Articles | eucy/elements.py:240-342 | no part gives no articles; otherwise one article per kept match, numbered from 1, spanning the piece from its match to the next, and carrying the number string its own text's candidates give |
| Segmentation.Paragraphs | eucy/elements.py:354-425 | every paragraph lies inside the article; the only error is ValueError |
| Segmentation.ParagraphsFallback | eucy/elements.py:370-425 | without any paragraph match the article is its own single paragraph when its stripped text is longer than one character, else there are none |
| Segmentation.ParagraphsNumbered | eucy/elements.py:381-413 | with paragraph matches there is one paragraph per match, numbered from 1, carrying that match's number string and spanning the piece from its start to the next |
| Segmentation.ParStarts | eucy/elements.py:384-393 | a paragraph starts at group 1 of an unnumbered match when the pattern has groups, else at the match start |
| Segmentation.DropTitles | eucy/elements.py:465-476 | one element per piece that is not a heading |
| Segmentation.DropTitlesMeaning | eucy/elements.py:445-476 | every element kept is a non-heading piece carrying its place before dropping, and the places ascend |
| Segmentation.Subparagraphs | eucy/elements.py:427-482 | no subparagraph start gives none; otherwise at most one subparagraph per start, each the piece at its place among the starts, numbered by that place in ascending order, without a number string, not a heading, inside the paragraph; the only error is ValueError |
| Segmentation.Points | eucy/elements.py:484-532 | one point per identifier match, numbered from 1, carrying the match text, spanning the piece from its match to the next, inside the subparagraph |
| Segmentation.Indents | eucy/elements.py:534-581 | one indent per identifier match, numbered from 1, without a number string, spanning the piece from its match to the next, inside the subparagraph |
| Segmentation.SubparKids | eucy/elements.py:600-603 | the points and indents of one subparagraph, or ValueError when either search fails |
| Segmentation.ParTree | eucy/elements.py:591-606 | the subparagraphs of one paragraph with one entry of points and indents each; the only error is ValueError |
| Segmentation.ArticleFrom | eucy/elements.py:584-613 | the four lists, each element carrying the values its own call writes, keep the paragraphs and have one entry per paragraph and per subparagraph; the only error is ValueError |
| Segmentation.ArticleElements | eucy/elements.py:345-613 | TypeError exactly for an argument that is not a span; otherwise the four lists are shaped alike |
| Segmentation.LastPosWins | eucy/elements.py:407-573 | a range reads the `element_pos` of the last write to it |
| Segmentation.LastNumstrWins | eucy/elements.py:409-524 | a range reads the `element_numstr` of the last write that sets one |
| Segmentation.SubparOverwritesPar | eucy/elements.py:407-474 | when each of two paragraphs is its own single subparagraph, the second paragraph reads position 1, written by `_subparagraphs` after `_paragraphs` wrote 2 |
| Segmentation.SettleTreeOwn | eucy/elements.py:407-573 | when each paragraph has its own write, every write below the paragraphs is in the store, subparagraphs and indents carry no number string, and no two writes share a range, every element reads what its own call wrote |
| Segmentation.ParagraphsFit | eucy/elements.py:381-424 | with no paragraph match every paragraph is the article itself; otherwise there is one paragraph per match, with no number string when the match has no group |
| Segmentation.ArticleElementsApart | eucy/elements.py:345-613 | when no two writes of one `article_elements` call share a range, its result is the tree of the calls, as each call numbered its elements |
| Segmentation.ParsOwnWrites | eucy/elements.py:407-424 | every paragraph has its own write: the one `_paragraphs` makes, or, for the article standing as its own paragraph, the article's values |
| Segmentation.ArticleElementsNested | eucy/elements.py:345-613 | every paragraph lies inside the article, every subparagraph inside its paragraph, every point and indent inside its subparagraph |
| Numerals.LetterToInt | eucy/utils.py:635-637 | with ASCII lower-casing, succeeds exactly when the lower-cased, stripped text is one character; an ASCII letter of either case gives its alphabet position |
| Numerals.IntToLetter | eucy/utils.py:640-641 | positions 1 to 26 give lower-case letters; the code point is `96 + num`; outside the Unicode scalar values (surrogates included) it raises |
| Numerals.LetterRoundTrip | eucy/utils.py:635-641 | a letter goes to a position in 1..26 and back to its lower-case form |
| Numerals.LetterPositionRoundTrip | eucy/utils.py:635-641 | a position in 1..26 goes to its letter and back |
| Numerals.RomanToInt | eucy/utils.py:644-657 | IndexError exactly on the empty string, KeyError exactly on a character outside IVXLCDM, otherwise a value |
| Numerals.IntToRoman | eucy/utils.py:660-685 | the result is written in IVXLCDM only |
| Numerals.GreedyValue | eucy/utils.py:677-683 | over the numeral table, the generator spells a positive number with exactly its value |
| Numerals.RomanRoundTrip | eucy/utils.py:644-685 | `roman_to_int(int_to_roman(n)) == n` for every positive `n` |
| Numerals.IntToRomanZero | eucy/utils.py:644-685 | zero gives the empty string, which does not convert back (IndexError) |
| Numerals.IntToRomanNegative | eucy/utils.py:677-683 | from -999 to -1 the floor division borrows a thousand: the result is the numeral of `n + 1000` |
| Nesting.FlattenAppend | eucy/utils.py:17-26 | flattening distributes over concatenation |
| Nesting.FlattenLength | eucy/utils.py:17-26 | every item at any depth appears exactly once |
| Nesting.FlattenShallow | eucy/utils.py:17-26 | a list without nested lists flattens to its own items |
| Nesting.FlattenWrap | eucy/utils.py:17-26 | wrapping a list in another list changes nothing |
| Markup.OpenTag | eucy/utils.py:882 | the opening tag starts with `<` and the element type and ends with `>` |
| Markup.ElementTextToMarkup | eucy/utils.py:859-884 | no element type returns the text; otherwise the result opens with a tag and, unless `keep_open`, ends with the closing tag |
| Markup.MarkupRoundTrip | eucy/utils.py:859-884 | the element text can always be read back out of the markup |
| Spans.ElementText | eucy/utils.py:831-856 | the replacement when asked for and present, else the span's text |
| Spans.DeleteText | eucy/utils.py:65-97 | the span is flagged deleted; with `keep_ws` its replacement is its leading plus trailing whitespace (all whitespace), else None; nothing else changes |
| Spans.ReplaceText | eucy/utils.py:29-62 | TypeError exactly for a non-string; without `keep_ws` the text is returned; a deleted span raises ValueError; otherwise the new text is stored between the span's own whitespace and the deleted flag is set exactly when a threshold is given and the stripped result is longer than it; nothing else about the span changes |
| Spans.ReplaceTextWrapper | eucy/modify/__init__.py:72-102 | the wrapper returns the span, so without `keep_ws` nothing changes; it fails exactly when `_replace_text` does |
| Spans.StoredReplacementStrips | eucy/utils.py:50-54 | the stored replacement starts with the span's leading whitespace, which `lstrip` removes again |
| Spans.DeletedTextIsBlank | eucy/utils.py:65-97 | after deletion with `keep_ws` the element text is whitespace only |
| EditDocs.WithGroup | eucy/utils.py:238-242 | assigning a span group changes that group only |
| EditDocs.NonNew | eucy/utils.py:188-190 | exactly the members not flagged as new |
| EditDocs.InsertIndex | eucy/utils.py:137-143 | 'end' is the group length, 'start' is 0, an accepted integer is kept |
| EditDocs.NewCharPos | eucy/utils.py:194-235 | the start of the original member at the index or the end of the last one; in an empty group an article raises ValueError, a recital goes after the last citation or before the first article, a citation before the first article; IndexError when nothing is found |
| EditDocs.NewSpan | eucy/utils.py:153-184 | the new span is flagged new; its replacement is the new text (a given span's text with whitespace) between blank lines with `add_ws`, else the text or the span's element text; a given span keeps its offsets |
| EditDocs.AddElement | eucy/utils.py:119-242 | AssertionError for an unknown type or a position out of range; otherwise it fails exactly when no `char_pos` can be found among the members still original once the new span's range is flagged new; on success the new span with its `char_pos` sits at the index, every member of every group with the new span's character range sees its replacement text, new flag and `char_pos`, all other members and the text are unchanged |
| EditDocs.AddedSpanMarksItsRange | eucy/utils.py:173-242 | re-adding the second of two citations as a span flags the member itself new, so the new element goes after the first citation and both views of that range carry its `char_pos` |
| EditDocs.AddElementRemovable | eucy/utils.py:237-242 | removing the new element gives back the old group with the writes seen through the members sharing its range, and the old group itself when no member does |
| EditDocs.AddElementKeepsPositions | eucy/utils.py:184-242 | every new element in every group keeps a `char_pos` |
| EditDocs.CitationAlwaysBeforeArticles | eucy/utils.py:211-219 | in a document without original citations a new citation goes before the first article still original after the writes, whatever the recitals |
| EditDocs.GetElementByNum | eucy/utils.py:772-828 | AssertionError unless `article` and `par` are None and `subpar`, `point`, `indent` are falsy; then a citation or recital lookup with 1-based (and negative) indices, else ValueError |
| ArticleEdits.Get2 | eucy/modify/article_elements.py:14-17 | `l[i][j]` succeeds exactly when both indices are in range |
| ArticleEdits.AnyModifiedMatchesCollect | eucy/modify/article_elements.py:6-24 | wherever the collection succeeds, the detection answers whether some collected element is modified |
| ArticleEdits.AnyModifiedMissesIndent | eucy/modify/article_elements.py:11-22 | with the reused `p_i`, a modified indent of a later subparagraph can go unseen |
| ArticleEdits.ParagraphSubelements | eucy/modify/article_elements.py:26-82 | every sub-element of the paragraph gets its own range moved by exactly `par_offset` |
| ArticleEdits.SortByKey | eucy/modify/article_elements.py:125-126 | a stable sort by `char_pos` if set, else the start: sorted, and a permutation of the input |
| ArticleEdits.SortedHeadIsMinimal | eucy/modify/article_elements.py:125-126 | the first span after sorting carries the smallest key |
| ArticleEdits.StoreReplacement | eucy/modify/article_elements.py:152 | `replace_text(..., deletion_threshold=2)` fails exactly on a deleted span and otherwise stores the text with the span's whitespace, flagging it deleted when the stripped result has more than two characters |
| ArticleEdits.ProcessOne | eucy/modify/article_elements.py:129-170 | a span already processed, or one neither deleted nor carrying replacement text, leaves everything as it was; no span's offsets change |
| ArticleEdits.ProcessAll | eucy/modify/article_elements.py:129-170 | processing never changes a span's offsets |
| ArticleEdits.ProcessAllKeepsShared | eucy/modify/article_elements.py:129-170 | when spans with equal offsets start out holding the same extension values, as spaCy's per-range storage makes them, they still do after processing |
| ArticleEdits.DeletionReachesEarlierSpans | eucy/modify/article_elements.py:138-149 | a deleted span deletes and marks processed every collected span that starts and ends no later than it: one lying wholly before it, and one equal to it, included |
| ArticleEdits.ReplacementLeavesEqualSpans | eucy/modify/article_elements.py:156-161 | processing a replacement leaves every span with the replaced span's offsets (the spans `other_span == span` skips) as it was |
| ArticleEdits.Put | eucy/modify/article_elements.py:147-149 | a write to a span's extension values is seen through every id whose span has the same offsets and through no other id; no offset changes |
| ArticleEdits.ReplacedParagraphKept | tests/test_modify.py:95-110 | a replaced paragraph whose sole subparagraph has the same offsets is kept, and the article reads as the text before it, the replacement, and the text after it |
| ArticleEdits.ProcessAllUntouched | eucy/modify/article_elements.py:129-170 | with nothing deleted or replaced, processing leaves every span as it was |
| ArticleEdits.WalkParsCorrect | eucy/modify/article_elements.py:183-217 | the walk keeps exactly the paragraphs that are neither processed nor deleted, in order, and each kept paragraph's new range holds its emitted text |
| ArticleEdits.NestSubelements | eucy/modify/article_elements.py:211-223 | one list of sub-elements per kept paragraph, or the `[[]]`, `[[[]]]`, `[[[[]]]]` placeholders when none is kept |
| ArticleEdits.ProcessArticle | eucy/modify/article_elements.py:85-229 | the bare text comes back exactly when there are no elements; otherwise the kept paragraphs' ranges hold in the rebuilt article, and with none kept the sub-paragraph, point and indent lists are the `[[]]`, `[[[]]]`, `[[[[]]]]` defaults; offsets never change |
| ArticleEdits.FinishKeeps | eucy/modify/article_elements.py:176-229 | the result is bare exactly when no span was collected, and then it is the article text; otherwise the kept paragraphs' ranges hold in the rebuilt text, and with none kept the sub-paragraph, point and indent lists are the `[[]]`, `[[[]]]`, `[[[[]]]]` defaults |
| ArticleEdits.ProcessArticleIdentity | eucy/modify/article_elements.py:85-229 | with nothing flagged and gap-free paragraphs from the first element on, the rebuilt article text is the original |
| Rebuild.GroupKey | eucy/modify/__init__.py:191-203 | the smallest start of the original members, else the smallest `char_pos` and the text length; TypeError exactly when a group without originals has a new member without `char_pos` |
| Rebuild.SortGroups | eucy/modify/__init__.py:196-203 | the groups are sorted by key, as a permutation |
| Rebuild.Dedup | eucy/modify/__init__.py:184-187 | dict keys: each group once, the same set |
| Rebuild.Intro | eucy/modify/__init__.py:260-262 | "Whereas:" is put only before the first new recital of a document without original recitals |
| Rebuild.ArticleText | eucy/modify/__init__.py:285-301 | without article elements an article emits its replacement or its text with whitespace; a missing element entry raises IndexError |
| Rebuild.DeletionStep | eucy/modify/__init__.py:218-245 | a deletion (a deleted span, or one whose replacement strips to fewer than five characters) copies old text only while nothing has been read, then its stored replacement text: the whitespace `_delete_text` kept, or the short replacement itself; it is marked processed and deleted and gets no new range |
| Rebuild.NewStep | eucy/modify/__init__.py:248-278 | a new element copies the old text to its `char_pos` (to the end without one), then the intro and its text, whose range holds; the cursor moves to `char_pos` |
| Rebuild.KeptStep | eucy/modify/__init__.py:281-325 | a kept span copies the gap and then its text, whose range holds; outside the articles the text is the replacement or the text with whitespace |
| Rebuild.NewAnnex | eucy/modify/__init__.py:413-428 | the annex keeps its length and is placed `enacting.end - annex.start` after the new enacting end; AttributeError without an enacting part |
| Rebuild.AnnexMovesBack | eucy/modify/__init__.py:417-420 | an annex that started `gap` characters after the enacting part now starts `gap` characters before its end |
| Rebuild.PartOf | eucy/modify/__init__.py:395-409 | an empty group gives no part, else the first member's start to the last member's end |
| Rebuild.Survivors | eucy/modify/__init__.py:346-355 | one survivor per member not deleted, and no survivor is deleted |
| Rebuild.Assemble | eucy/modify/__init__.py:329-431 | the old text from the cursor is appended, each group is its walk's survivors, the parts are recomputed; AttributeError exactly when the annex cannot move |
| Rebuild.ModifyDocWith | eucy/modify/__init__.py:196-329 | TypeError when a group has no key; otherwise the groups are walked once each, sorted by key |
| Rebuild.ModifyDocGroups | eucy/modify/__init__.py:131-431 | every walked group keeps all its members but the deletions, unwalked groups are empty, and every kept member's range holds its emitted text |
| Rebuild.ModifyDocReference | eucy/modify/__init__.py:131-431 | a document without edits emits every gap and every span with its whitespace, then the rest of the old text; it can only fail on the annex |
| Rebuild.ModifyDocIdentity | eucy/modify/__init__.py:131-431 | a document without edits whose spans follow each other and have no trailing whitespace comes back with its text |
| Rebuild.TrailingWhitespaceRepeats | eucy/modify/__init__.py:301-329 | "ab c" with a citation "ab" comes back as "ab  c" |
| EarlyRebuild.StepSpec | eucy/modify.py:126-157 | a dropped span copies old text only while the cursor is 0 and emits nothing else; a kept span copies the gap and its text, whose range holds |
| EarlyRebuild.WalkPlaced | eucy/modify.py:126-157 | every member is placed: dropped exactly when the version drops it, otherwise with a range that holds its text |
| EarlyRebuild.RunPlaced | eucy/modify.py:115-161 | after the walk every member of every group is placed and each group carries over exactly its retained members |
| EarlyRebuild.RunIdentity | eucy/modify.py:115-161 | a document the version copies verbatim comes back with its old text |
| EarlyRebuild.RunLands | eucy/modify.py:115-161 | in such a document every member lands where it stood |
| EarlyRebuild.DeleteFlag | eucy/modify.py:43-70 | the early `delete_text` sets only the deleted flag |
| EarlyRebuild.DeleteFlagEmitsNothing | eucy/modify.py:131-142 | a span flagged by the early `delete_text` leaves no trace once something has been read |
| EarlyRebuild.ReplaceTextChecked | eucy/modify.py:7-39 | a non-string is an AssertionError; without `keep_ws` the span is returned unchanged; a deleted span raises ValueError; otherwise the text is stored between the span's own whitespace |
| EarlyRebuild.ShiftPart | eucy/modify.py:198-236 | a part keeps its distances to its first and last element; IndexError when its group is empty in either document |
| EarlyRebuild.MoveAnnex | eucy/modify.py:240-254 | the annex keeps its gap after the enacting part and its length; AttributeError without an enacting part |
| EarlyRebuild.AnnexVersionsAgree | eucy/modify.py:244-249 | the two engines put the annex at the same place exactly when it started right at the enacting end |
| EarlyRebuild.EarlyPartsFail | eucy/modify.py:189-257 | recomputing the parts fails exactly when a part's group was emptied or an annex has no enacting part |
| EarlyRebuild.ModifyEarly | eucy/modify.py:73-262 | fails exactly as the parts do; otherwise the members not dropped, with ranges holding their text, and the moved parts |
| EarlyRebuild.EarlyIdentity | eucy/modify.py:73-262 | an untouched document in order without trailing whitespace comes back with the same text, members and parts |
| EarlyRebuild.TrailingWhitespaceEarly | eucy/modify.py:145-161 | "ab c" with a citation "ab" comes back as "ab  c" |
| EarlyRebuild.ModifyEarliest | eucy/modfiy.py:4-103 | every member, deleted or not, is carried over with a range that holds its text |
| EarlyRebuild.EarliestIdentity | eucy/modfiy.py:4-103 | an untouched document in order comes back with its text, whatever whitespace follows its spans |
| EarlyRebuild.TrailingWhitespaceEarliest | eucy/modfiy.py:55-74 | the same "ab c" document comes back as "ab c" |
| Metrics.StructuralSize | eucy/eucy.py:195-223 | the enacting size, plus the recital count unless `parts` is "enacting" |
| Metrics.ArticleSizeCounts | eucy/eucy.py:208-217 | an article's size is the number of its subparagraphs, points and indents |
| Metrics.ArticleLevelsFacts | eucy/eucy.py:241-268 | one level per paragraph at the paragraph level, one per indent and point a level deeper, all levels within 1..3 |
| Metrics.AvgDepth | eucy/eucy.py:226-289 | None without articles or for an unknown basis; by element, None exactly when no article has a level; by article, a value exactly when there are articles |
| Metrics.AvgDepthBounds | eucy/eucy.py:226-289 | the element average lies in [1, 3], the article average in [0, 3] |
| Metrics.ReferenceCountTallies | eucy/eucy.py:292-311 | the counter has "internal" and "external", every other key is a relation that occurs, and each maps to its number of references |
| Metrics.Measure | eucy/eucy.py:85-117 | no measure exactly when the text is too short besides its title; otherwise the three counts; the enacting size of `structural_size` and the full size exceeding it by the recitals; the reference counter, which has "internal" and "external" and maps every key to its independent tally; the two averages of `avg_depth`, within [1, 3] by element and [0, 3] by article for shaped article trees |
| References.ReadBounds | euplexcy/entities/references.py:185-211 | decimal exactly when both bounds parse as integers; a decimal lower bound with a non-decimal upper one gives no reading |
| References.RomanBeforeLetter | euplexcy/entities/references.py:190-197 | bounds both marked Roman are read as Roman numerals or not at all |
| References.LetterReading | euplexcy/entities/references.py:198-209 | non-decimal bounds not both Roman, both holding a letter, are read from their last characters |
| References.LettersFrom | euplexcy/entities/references.py:224 | positions inside the alphabet convert; each result is the letter of its position; the only error is ValueError |
| References.ResolveRange | euplexcy/entities/references.py:175-225 | no range match or no reading gives `[text]`; otherwise the reading's expansion; the only error is ValueError |
| References.ResolveRangeDecimal | euplexcy/entities/references.py:213-220 | decimal bounds expand to every number between them, each reading back as that number; a reversed range gives nothing |
| References.ResolveRangeRoman | euplexcy/entities/references.py:213-222 | Roman bounds with a positive lower value expand to numerals that read back as every number between them |
| References.ResolveRangeLetter | euplexcy/entities/references.py:213-224 | letter bounds inside the alphabet expand to letters that read back as every position between them |
| References.RangeIntersectMeaning | euplexcy/entities/references.py:268-269 | None exactly when the two ranges share no integer, otherwise exactly the integers they share |
| References.AddMatches | euplexcy/entities/references.py:276-300 | the result keeps the first match's kind unless it was an element match, and the sentence of two matches from one sentence |
| References.AddMatchesCases | euplexcy/entities/references.py:276-300 | the swallowing match, or the span from the first start to the second end cut from the first match's sentence |
| References.OfKind | euplexcy/entities/references.py:302 | exactly the matches of the kind |
| References.NotOfKind | euplexcy/entities/references.py:303 | exactly the matches of other kinds; the two filters partition the list |
| References.RemoveFirst | euplexcy/entities/references.py:312 | `list.remove` takes away one occurrence |
| References.Absorb | euplexcy/entities/references.py:306-312 | every pooled match is either absorbed or left over |
| References.AbsorbKeeps | euplexcy/entities/references.py:306-312 | what a match absorbs lies in its sentence, and the grown match stays in it with its kind |
| References.RunPass | euplexcy/entities/references.py:305-316 | one merged match per input match, each keeping its sentence and, unless it is an element match, its kind; the pool splits into absorbed and left over |
| References.FirstPassShape | euplexcy/entities/references.py:302-319 | the first pass keeps every element-act match; the leftovers are element or act matches |
| References.CombineConserves | euplexcy/entities/references.py:271-341 | every match is in the result or absorbed exactly once; the element-act matches open the result in order, each in its sentence |
| References.CombineOnlyElements | euplexcy/entities/references.py:271-341 | with only element matches the result is the input |
| References.SplitMatch | euplexcy/entities/references.py:351-389 | no positions give the match alone; otherwise one untyped piece before each split and one after the last, each in the match's sentence with its document offsets, its range shifted by the match start; the last piece ends a full match length past the last split's end |
| References.SplitMatchTiles | euplexcy/entities/references.py:351-389 | for ordered positions the pieces with the split texts between them spell the match text |

## Left out

- spaCy itself is not modelled: tokenisation, `nlp(text)`, sentence splitting, span groups as objects, and the extension registry (`set_extension`, `has_extension`). A document is a text with tokens given as character offsets. The rebuilt document is not re-tokenised: new spans and parts are the character ranges the rebuild records.
- The regular-expression patterns are an oracle (`Regex.Finder`). Whether a pattern matches is taken as given; the model proves what the code does with the matches.
- `_add_element` draws a random placeholder span in a loop; the placeholder is a parameter.
- `text_parts` guesses the last article's position with floating point (`0.9 * len`); the estimate is a parameter of `Structure.TextParts`.
- `avg_depth` divides floats; `Metrics.AvgDepth` uses exact rationals (`real`).
- `word_count`, `find_title`, the reference search pipeline, `get_sentences`, `clean_text`, `text_from_html` and the HTML helpers are outside this model. `title` and the reference entities are inputs to `Metrics.Measure`.
- `determine_span_group_order`, `is_modified_span`, `set_extensions` and `article_elements_dict` are not part of this model. The group order and the modification test are parameters of `Rebuild.ModifyDoc`.
- `get_paragraph_subelements` runs `subparagraphs`, `points` and `indents` on a blank pipeline. That segmenter is a parameter (`segment`) of the article rebuild.
- A document without parts is not modelled: `EditDoc.parts` is always a record, while `doc._.parts` is None on a document that skipped the structure step (one with no text, eucy/eucy.py:87-92). The rebuild engines then raise TypeError (eucy/modify/__init__.py:412) or AttributeError (eucy/modify.py:199).
- The options of `modify_doc` are not parameters. The model always rebuilds with `return_doc` and `add_spans` set: with `return_doc` false the code returns the rebuilt text, which is the model's text; with `add_spans` false it returns the re-tokenised document without span groups (eucy/modify/__init__.py:331-338, eucy/modify.py:163-171, eucy/modfiy.py:76-84).
- The newer `modify_doc` ends by running `EuWrapper` over the rebuilt document (eucy/modify/__init__.py:433-438), which recomputes the structure and the metrics. The model stops at the rebuilt text, spans and parts; the metrics are modelled separately.
- The `delete_spans` argument of the `eucy/modify.py` version is documented but never read (eucy/modify.py:73, 82, 131): short or deleted spans are dropped whatever its value, so it is not a parameter.
- Warnings (`warnings.warn`, including the empty-group warning of `_delete_text`) are not modelled.
- Segmentation of a `Doc` argument, rather than a span, is left out. That path calls `doc.char_span.char_span`, which does not exist on spaCy documents.
- Extension values of article elements are kept per arena id. A write goes to every id whose span has the same character offsets, as spaCy stores them per character range; span labels, which article elements do not carry, are not part of that key. The document's span groups are a separate store, so an article that serves as its own single paragraph does not share its values with that paragraph.
- `match_reference_text`, `reference_spans` beyond the merge and split helpers, and the relation classification of euplexcy are left out. Their inputs are regex matches and a language model.
- `get_element_by_num` branches after its assertions (article elements) cannot be reached; they are not modelled.
- Segmentation.CharRange: its own contract states when it fails and containment. Which tokens bound the result is stated by Segmentation.CharRangeLooksUp.
- Segmentation.Slices: its own contract states count, failure and containment. Which span each range gives is stated by Segmentation.SlicesAt.
- Segmentation.PieceSpansTile: states tiling only when every start falls inside a token. A start on whitespace between tokens is looked up in contract mode, which gives the token before the whitespace, while the previous piece's end is looked up in expand mode; the two pieces then overlap. That case is not stated.
- Segmentation.ArticleElements: the extension values are keyed by token range, not by character range, and `element_type` is not modelled. Only the article's own values and the writes of this call are in the store; values written earlier to other spans of the document over the same range are not.
- Segmentation.Paragraphs: its own contract states containment and the error only. The count, the numbering and the fallback paragraph are stated by Segmentation.ParagraphsFallback and Segmentation.ParagraphsNumbered.
- Segmentation.DropTitles: its own contract states the count only. What is kept and how it is numbered is stated by Segmentation.DropTitlesMeaning.
- Structure.LawStart: only the case without an explanatory memorandum is stated. The proposal searches are oracle calls whose result is the match end.
- Structure.Middle: states where the result starts and that it is a span, not where the cut falls.
- Structure.Toc: states which entries change and when it fails, not where the recitals are cut.
- Structure.TextParts: states the error cases and the absent annex. The parts themselves are stated by Structure.FrontParts, Structure.Middle and Structure.Toc.
- Numerals.LetterToInt: lower-casing is ASCII-only. Python's `lower()` maps other letters too ('Á' to 'á') and can give two characters ('İ'), where `ord` raises TypeError. The range patterns that feed it capture ASCII letters only.
- Numerals.IntToLetter: code points 0xD800-0xDFFF raise ValueError, where Python's `chr` returns a surrogate character. Dafny's `char` holds Unicode scalar values only. Callers pass positions of ASCII letters.
- Tokens.CharSpanStrict: only the strict alignment mode that `text_parts` uses is modelled. The contract states what a span found means, not when none is found.
- ArticleEdits.ProcessOne: states that offsets are kept and processed spans are skipped. The effect of a deletion is stated by ArticleEdits.DeletionReachesEarlierSpans. For replacements, ArticleEdits.ReplacementLeavesEqualSpans states which spans are left alone; the text pushed into the others is stated only through the stored-text contract of ArticleEdits.StoreReplacement.
- ArticleEdits.ProcessAll: states that offsets are kept. That the per-range storage stays consistent is stated by ArticleEdits.ProcessAllKeepsShared; what each step does is stated through ArticleEdits.ProcessOne and its lemmas, and by ArticleEdits.ProcessAllUntouched.
- ArticleEdits.ProcessArticle: states the kept paragraphs and their ranges. The sub-element lists come from the segmenter parameter and are stated by ArticleEdits.ParagraphSubelements.
- Rebuild.ArticleText: the branch that rebuilds an article from modified elements is stated through ArticleEdits.ProcessArticle. Unpacking its string result into two names is modelled as a failure unless the string has exactly two characters.

=== FILE: article_edits.dfy ===
/**
 * The paragraph-level rebuild of one article (`eucy/modify/article_elements.py`):
 * detecting modified article elements, propagating each deletion or
 * replacement to the elements around it, and stitching the article text back
 * together from its paragraphs.
 *
 * Article-element spans are Python objects that several lists share, so they
 * live in an arena and the element lists hold arena ids; an update to an id
 * is seen through every list that holds it. spaCy keeps a span's extension
 * values per character range, and two article-element spans with the same
 * offsets compare equal, so an update is also seen through every id whose
 * span has the same offsets, and the processing loop skips all of them.
 */
module ArticleEdits {
  import opened PyBase
  import opened Spans
  import opened Nesting

  type Id = nat
  type Arena = seq<Span>

  /** The span object an id stands for. */
  function At(arena: Arena, i: Id): Span
  {
    if i < |arena| then arena[i] else Plain(0, 0, 0)
  }

  /**
   * Spans that spaCy compares equal. Article-element spans carry no label,
   * so two of them are equal exactly when their character offsets are.
   */
  predicate SameChars(a: Span, b: Span)
  {
    a.start == b.start && a.end == b.end
  }

  /** `target` holding the extension values of `src`. */
  function WithMeta(target: Span, src: Span): Span
  {
    target.(deleted := src.deleted, replacement := src.replacement, newElement := src.newElement,
            charPos := src.charPos, added := src.added)
  }

  /**
   * The arena agrees with spaCy's storage of extension values, which is kept
   * per character range: ids whose spans have the same offsets hold the same
   * span.
   */
  predicate Shared(arena: Arena)
  {
    forall i, j :: 0 <= i < |arena| && 0 <= j < |arena| && SameChars(arena[i], arena[j]) ==> arena[i] == arena[j]
  }

  /** Ids whose spans spaCy compares equal, and so share their extension values. */
  predicate Aliases(arena: Arena, i: Id, j: Id)
  {
    i < |arena| && j < |arena| && SameChars(arena[i], arena[j])
  }

  /** Span `j` after a write of `s` to span `i`. */
  function PutAt(arena: Arena, i: Id, s: Span, j: Id): Span
  {
    if Aliases(arena, i, j) then WithMeta(At(arena, j), s) else At(arena, j)
  }

  /**
   * Writes the extension values of the span an id stands for. Because spaCy
   * keys them by character range, the write is seen through every id whose
   * span has the same offsets; no offset changes.
   */
  function Put(arena: Arena, i: Id, s: Span): (r: Arena)
    ensures SameFrame(arena, r)
    ensures forall j :: !Aliases(arena, i, j) ==> At(r, j) == At(arena, j)
    ensures forall j :: Aliases(arena, i, j) ==> At(r, j) == WithMeta(At(arena, j), s)
    ensures i < |arena| && SameOffsets(s, arena[i]) ==> At(r, i) == s
    ensures Shared(arena) ==> Shared(r)
  {
    seq(|arena|, j requires 0 <= j < |arena| => PutAt(arena, i, s, j))
  }

  /**
   * One article's `article_elements` dictionary: the paragraphs, per
   * paragraph its subparagraphs, and per subparagraph its indents and points.
   */
  datatype Elements = Elements(
    pars: seq<Id>,
    subpars: seq<seq<Id>>,
    indents: seq<seq<seq<Id>>>,
    points: seq<seq<seq<Id>>>)

  /** `l[i][j]` for non-negative indices, raising IndexError on either lookup. */
  function Get2<T>(l: seq<seq<T>>, i: nat, j: nat): (r: Result<T>)
    ensures r.Ok? <==> i < |l| && j < |l[i]|
    ensures r.Ok? ==> r.value == l[i][j]
  {
    if i < |l| && j < |l[i]| then Ok(l[i][j]) else Err(IndexError)
  }

  // ---------------------------------------------------------------------
  // Walking the element lists
  // ---------------------------------------------------------------------

  /**
   * The paragraph index after the points loop of one subparagraph: that loop
   * reuses the name `p_i` for its own counter, so a non-empty points list
   * leaves its last index behind and the following subparagraphs look up
   * their indents and points under it.
   */
  function AfterPoints(pts: seq<Id>, cur: nat): nat
  {
    if |pts| > 0 then |pts| - 1 else cur
  }

  /**
   * The order in which `process_article_elements_modifications` collects the
   * element spans, subparagraphs `subs[sIdx..]` onward, with `cur` the
   * current value of `p_i`.
   */
  function CollectSubs(ae: Elements, subs: seq<Id>, sIdx: nat, cur: nat): Result<seq<Id>>
    decreases |subs| - sIdx
  {
    if sIdx >= |subs| then Ok([])
    else
      var ind :- Get2(ae.indents, cur, sIdx);
      var pts :- Get2(ae.points, cur, sIdx);
      var rest :- CollectSubs(ae, subs, sIdx + 1, AfterPoints(pts, cur));
      Ok([subs[sIdx]] + ind + pts + rest)
  }

  function CollectPars(ae: Elements, pIdx: nat): Result<seq<Id>>
    decreases |ae.pars| - pIdx
  {
    if pIdx >= |ae.pars| then Ok([])
    else
      var subs :- PyGet(ae.subpars, pIdx);
      var inner :- CollectSubs(ae, subs, 0, pIdx);
      var rest :- CollectPars(ae, pIdx + 1);
      Ok([ae.pars[pIdx]] + inner + rest)
  }

  /** All element spans of an article, in the order the rebuild collects them. */
  function Collect(ae: Elements): Result<seq<Id>>
  {
    CollectPars(ae, 0)
  }

  predicate AnyIn(ids: seq<Id>, arena: Arena, isModified: Span -> bool)
  {
    exists i | 0 <= i < |ids| :: isModified(At(arena, ids[i]))
  }

  /** `any_modified_article_elements` from subparagraph `sIdx` on, `cur` being `p_i`. */
  function AnyModifiedSubs(ae: Elements, arena: Arena, isModified: Span -> bool,
                           subs: seq<Id>, sIdx: nat, cur: nat): Result<bool>
    decreases |subs| - sIdx
  {
    if sIdx >= |subs| then Ok(false)
    else if isModified(At(arena, subs[sIdx])) then Ok(true)
    else
      var ind :- Get2(ae.indents, cur, sIdx);
      if AnyIn(ind, arena, isModified) then Ok(true)
      else
        var pts :- Get2(ae.points, cur, sIdx);
        if AnyIn(pts, arena, isModified) then Ok(true)
        else AnyModifiedSubs(ae, arena, isModified, subs, sIdx + 1, AfterPoints(pts, cur))
  }

  function AnyModifiedPars(ae: Elements, arena: Arena, isModified: Span -> bool, pIdx: nat): Result<bool>
    decreases |ae.pars| - pIdx
  {
    if pIdx >= |ae.pars| then Ok(false)
    else if isModified(At(arena, ae.pars[pIdx])) then Ok(true)
    else
      var subs :- PyGet(ae.subpars, pIdx);
      var found :- AnyModifiedSubs(ae, arena, isModified, subs, 0, pIdx);
      if found then Ok(true) else AnyModifiedPars(ae, arena, isModified, pIdx + 1)
  }

  /**
   * `any_modified_article_elements(article_elements)`, with the unseen
   * `is_modified_span` as a parameter.
   */
  function AnyModified(ae: Elements, arena: Arena, isModified: Span -> bool): Result<bool>
  {
    AnyModifiedPars(ae, arena, isModified, 0)
  }

  /**
   * The detection and the rebuild walk the same elements: wherever the
   * collection succeeds, the detection answers whether some collected
   * element is modified.
   */
  lemma {:induction false} AnyModifiedMatchesCollect(ae: Elements, arena: Arena, isModified: Span -> bool)
    requires Collect(ae).Ok?
    ensures AnyModified(ae, arena, isModified) == Ok(AnyIn(Collect(ae).value, arena, isModified))
  {
    AnyModifiedParsMatch(ae, arena, isModified, 0);
  }

  lemma {:induction false} AnyInAppend(a: seq<Id>, b: seq<Id>, arena: Arena, isModified: Span -> bool)
    ensures AnyIn(a + b, arena, isModified) <==> AnyIn(a, arena, isModified) || AnyIn(b, arena, isModified)
  {
    if AnyIn(a + b, arena, isModified) {
      var i :| 0 <= i < |a + b| && isModified(At(arena, (a + b)[i]));
      if i >= |a| {
        assert b[i - |a|] == (a + b)[i];
      }
    }
    if AnyIn(b, arena, isModified) {
      var i :| 0 <= i < |b| && isModified(At(arena, b[i]));
      assert (a + b)[|a| + i] == b[i];
    }
    if AnyIn(a, arena, isModified) {
      var i :| 0 <= i < |a| && isModified(At(arena, a[i]));
      assert (a + b)[i] == a[i];
    }
  }

  lemma AnyInSingle(x: Id, arena: Arena, isModified: Span -> bool)
    ensures AnyIn([x], arena, isModified) <==> isModified(At(arena, x))
  {
    assert [x][0] == x;
  }

  lemma {:induction false} AnyModifiedSubsMatch(ae: Elements, arena: Arena, isModified: Span -> bool,
                                                subs: seq<Id>, sIdx: nat, cur: nat)
    requires CollectSubs(ae, subs, sIdx, cur).Ok?
    ensures AnyModifiedSubs(ae, arena, isModified, subs, sIdx, cur)
              == Ok(AnyIn(CollectSubs(ae, subs, sIdx, cur).value, arena, isModified))
    decreases |subs| - sIdx
  {
    if sIdx < |subs| {
      var ind := Get2(ae.indents, cur, sIdx).value;
      var pts := Get2(ae.points, cur, sIdx).value;
      var rest := CollectSubs(ae, subs, sIdx + 1, AfterPoints(pts, cur)).value;
      AnyModifiedSubsMatch(ae, arena, isModified, subs, sIdx + 1, AfterPoints(pts, cur));
      AnyInAppend([subs[sIdx]] + ind + pts, rest, arena, isModified);
      AnyInAppend([subs[sIdx]] + ind, pts, arena, isModified);
      AnyInAppend([subs[sIdx]], ind, arena, isModified);
      AnyInSingle(subs[sIdx], arena, isModified);
      assert CollectSubs(ae, subs, sIdx, cur).value == [subs[sIdx]] + ind + pts + rest;
    }
  }

  lemma {:induction false} AnyModifiedParsMatch(ae: Elements, arena: Arena, isModified: Span -> bool, pIdx: nat)
    requires CollectPars(ae, pIdx).Ok?
    ensures AnyModifiedPars(ae, arena, isModified, pIdx)
              == Ok(AnyIn(CollectPars(ae, pIdx).value, arena, isModified))
    decreases |ae.pars| - pIdx
  {
    if pIdx < |ae.pars| {
      var subs := ae.subpars[pIdx];
      var inner := CollectSubs(ae, subs, 0, pIdx).value;
      var rest := CollectPars(ae, pIdx + 1).value;
      AnyModifiedSubsMatch(ae, arena, isModified, subs, 0, pIdx);
      AnyModifiedParsMatch(ae, arena, isModified, pIdx + 1);
      AnyInAppend([ae.pars[pIdx]] + inner, rest, arena, isModified);
      AnyInAppend([ae.pars[pIdx]], inner, arena, isModified);
      AnyInSingle(ae.pars[pIdx], arena, isModified);
      assert CollectPars(ae, pIdx).value == [ae.pars[pIdx]] + inner + rest;
    }
  }

  /**
   * The reused `p_i` in action: one paragraph with two subparagraphs, the
   * first holding two points. The second subparagraph's indents are then
   * looked up under paragraph 1, so its modified indent (id 5) goes unseen.
   */
  lemma AnyModifiedMissesIndent()
    ensures var ae := Elements([0], [[1, 2]], [[[], [5]], [[], []]], [[[3, 4], []], [[], []]]);
            var arena := [Plain(0, 1, 1), Plain(0, 1, 1), Plain(1, 2, 2), Plain(0, 1, 1),
                          Plain(1, 2, 2), Plain(1, 2, 2).(deleted := true)];
            AnyModified(ae, arena, (s: Span) => s.deleted) == Ok(false)
            && At(arena, ae.indents[0][1][0]).deleted
  {
    var ae := Elements([0], [[1, 2]], [[[], [5]], [[], []]], [[[3, 4], []], [[], []]]);
    var arena := [Plain(0, 1, 1), Plain(0, 1, 1), Plain(1, 2, 2), Plain(0, 1, 1),
                  Plain(1, 2, 2), Plain(1, 2, 2).(deleted := true)];
    var m := (s: Span) => s.deleted;
    assert !AnyIn([3, 4], arena, m);
    assert AnyModifiedSubs(ae, arena, m, [1, 2], 2, 1) == Ok(false);
    assert AnyModifiedSubs(ae, arena, m, [1, 2], 1, 1) == Ok(false);
    assert AnyModifiedSubs(ae, arena, m, [1, 2], 0, 0) == Ok(false);
  }

  // ---------------------------------------------------------------------
  // Sub-elements of a rebuilt paragraph
  // ---------------------------------------------------------------------

  /** A character range `[start, end)`. */
  datatype Range = Range(start: int, end: int)

  /**
   * What `subparagraphs`, `points` and `indents` find in a paragraph text:
   * the subparagraphs, and per subparagraph its points and its indents.
   */
  datatype SubElements = SubElements(subpars: seq<Range>, points: seq<seq<Range>>, indents: seq<seq<Range>>)

  function ShiftRanges(rs: seq<Range>, off: int): (r: seq<Range>)
    ensures |r| == |rs|
    ensures forall i :: 0 <= i < |rs| ==> r[i] == Range(rs[i].start + off, rs[i].end + off)
  {
    seq(|rs|, i requires 0 <= i < |rs| => Range(rs[i].start + off, rs[i].end + off))
  }

  function ShiftLists(l: seq<seq<Range>>, off: int): (r: seq<seq<Range>>)
    ensures |r| == |l|
    ensures forall i :: 0 <= i < |l| ==> r[i] == ShiftRanges(l[i], off)
  {
    seq(|l|, i requires 0 <= i < |l| => ShiftRanges(l[i], off))
  }

  /**
   * `get_paragraph_subelements(text, par_offset)`: the sub-elements found by
   * the (unseen) segmenters, each given the new range of its own range moved
   * by exactly `par_offset`.
   */
  function ParagraphSubelements(segment: string -> SubElements, text: string, parOffset: int): (r: SubElements)
    ensures var e := segment(text);
      && |r.subpars| == |e.subpars| && |r.points| == |e.points| && |r.indents| == |e.indents|
      && (forall i :: 0 <= i < |e.subpars| ==>
            r.subpars[i].start - e.subpars[i].start == parOffset
            && r.subpars[i].end - e.subpars[i].end == parOffset)
      && (forall i, j :: 0 <= i < |e.points| && 0 <= j < |e.points[i]| ==>
            |r.points[i]| == |e.points[i]|
            && r.points[i][j].start - e.points[i][j].start == parOffset
            && r.points[i][j].end - e.points[i][j].end == parOffset)
      && (forall i, j :: 0 <= i < |e.indents| && 0 <= j < |e.indents[i]| ==>
            |r.indents[i]| == |e.indents[i]|
            && r.indents[i][j].start - e.indents[i][j].start == parOffset
            && r.indents[i][j].end - e.indents[i][j].end == parOffset)
  {
    var e := segment(text);
    SubElements(ShiftRanges(e.subpars, parOffset), ShiftLists(e.points, parOffset), ShiftLists(e.indents, parOffset))
  }

  // ---------------------------------------------------------------------
  // Sorting the collected spans
  // ---------------------------------------------------------------------

  /** The sort key: `char_pos` when it is set and truthy, else `start_char`. */
  function SortKey(s: Span): int
  {
    if s.charPos.Some? && s.charPos.value != 0 then s.charPos.value else s.start
  }

  predicate SortedByKey(ids: seq<Id>, arena: Arena)
  {
    forall i, j :: 0 <= i < j < |ids| ==> SortKey(At(arena, ids[i])) <= SortKey(At(arena, ids[j]))
  }

  /** Inserts `x` after every element whose key is not larger (which keeps `sorted` stable). */
  function InsertByKey(x: Id, s: seq<Id>, arena: Arena): (r: seq<Id>)
    requires SortedByKey(s, arena)
    ensures SortedByKey(r, arena)
    ensures multiset(r) == multiset(s) + multiset{x}
    ensures |r| == |s| + 1
    ensures r[0] == x || (|s| > 0 && r[0] == s[0])
  {
    if |s| == 0 then [x]
    else if SortKey(At(arena, s[0])) <= SortKey(At(arena, x)) then
      SortedByKeyTail(s, arena);
      var rest := InsertByKey(x, s[1..], arena);
      assert s == [s[0]] + s[1..];
      assert SortKey(At(arena, s[0])) <= SortKey(At(arena, rest[0]));
      SortedByKeyCons(s[0], rest, arena);
      [s[0]] + rest
    else
      SortedByKeyCons(x, s, arena);
      [x] + s
  }

  lemma SortedByKeyTail(s: seq<Id>, arena: Arena)
    requires |s| > 0 && SortedByKey(s, arena)
    ensures SortedByKey(s[1..], arena)
  {
    forall i, j | 0 <= i < j < |s| - 1
      ensures SortKey(At(arena, s[1..][i])) <= SortKey(At(arena, s[1..][j]))
    {
      assert s[1..][i] == s[i + 1] && s[1..][j] == s[j + 1];
    }
  }

  /** A span keyed no larger than the head of a sorted list can go in front of it. */
  lemma SortedByKeyCons(x: Id, s: seq<Id>, arena: Arena)
    requires SortedByKey(s, arena) && (|s| > 0 ==> SortKey(At(arena, x)) <= SortKey(At(arena, s[0])))
    ensures SortedByKey([x] + s, arena)
  {
    var r := [x] + s;
    forall i, j | 0 <= i < j < |r|
      ensures SortKey(At(arena, r[i])) <= SortKey(At(arena, r[j]))
    {
      if i == 0 {
        assert r[j] == s[j - 1];
        assert SortKey(At(arena, s[0])) <= SortKey(At(arena, s[j - 1])) || j - 1 == 0;
      } else {
        assert r[i] == s[i - 1] && r[j] == s[j - 1];
      }
    }
  }

  /** `sorted(spans, key=...)`. */
  function SortByKey(ids: seq<Id>, arena: Arena): (r: seq<Id>)
    ensures SortedByKey(r, arena)
    ensures multiset(r) == multiset(ids)
    ensures |r| == |ids|
  {
    if |ids| == 0 then []
    else
      assert ids == ids[..|ids| - 1] + [ids[|ids| - 1]];
      InsertByKey(ids[|ids| - 1], SortByKey(ids[..|ids| - 1], arena), arena)
  }

  /** The first span after sorting carries the smallest key of all collected spans. */
  lemma SortedHeadIsMinimal(ids: seq<Id>, arena: Arena, k: nat)
    requires k < |ids|
    ensures var r := SortByKey(ids, arena);
            |r| > 0 && SortKey(At(arena, r[0])) <= SortKey(At(arena, ids[k]))
  {
    var r := SortByKey(ids, arena);
    assert ids[k] in multiset(ids);
    assert ids[k] in multiset(r);
    var m :| 0 <= m < |r| && r[m] == ids[k];
  }

  // ---------------------------------------------------------------------
  // Propagating deletions and replacements
  // ---------------------------------------------------------------------

  predicate SameOffsets(a: Span, b: Span)
  {
    a.start == b.start && a.end == b.end && a.wsEnd == b.wsEnd
  }

  /** Two arenas that differ only in edit metadata, never in offsets. */
  predicate SameFrame(a: Arena, b: Arena)
  {
    |a| == |b| && forall j :: 0 <= j < |a| ==> SameOffsets(a[j], b[j])
  }

  /**
   * `other_span._.replace_text(t, keep_ws=True, deletion_threshold=2)`:
   * raises ValueError on a deleted span; otherwise stores `t` with the span's
   * whitespace and flags the span deleted when the stripped result has MORE
   * than two characters.
   */
  function StoreReplacement(doc: string, s: Span, t: string): (r: Result<Span>)
    ensures r.Ok? <==> !s.deleted
    ensures r.Ok? ==>
      && r.value.replacement == Some(WsStart(doc, s) + t + WsEnd(doc, s))
      && (r.value.deleted <==> |Strip(r.value.replacement.value)| > 2)
      && SameOffsets(r.value, s)
  {
    match ReplaceText(doc, s, StrArg(t), true, Some(2))
    case Err(e) => Err(e)
    case Ok(Stored(s')) => Ok(s')
    case Ok(Returned(_)) => Ok(s)
  }

  /** Stores a replacement on the span an id stands for. */
  function PutReplacement(doc: string, arena: Arena, o: Id, t: string): (r: Result<Arena>)
    ensures r.Ok? <==> !At(arena, o).deleted
    ensures r.Ok? ==> SameFrame(arena, r.value)
    ensures r.Ok? ==> forall j :: !Aliases(arena, o, j) ==> At(r.value, j) == At(arena, j)
    ensures r.Ok? && Shared(arena) ==> Shared(r.value)
  {
    match StoreReplacement(doc, At(arena, o), t)
    case Err(e) => Err(e)
    case Ok(s') => Ok(Put(arena, o, s'))
  }

  /** What processing the deleted span `sp` does to one other span. */
  function DeleteOne(doc: string, sp: Span, o: Id, arena: Arena): (r: Result<Arena>)
    ensures r.Ok? ==> SameFrame(arena, r.value)
    ensures r.Ok? ==> forall j :: !Aliases(arena, o, j) ==> At(r.value, j) == At(arena, j)
    ensures r.Ok? && Shared(arena) ==> Shared(r.value)
    ensures o < |arena| && arena[o].start <= sp.start && arena[o].end <= sp.end ==>
              r.Ok? && At(r.value, o).deleted && At(r.value, o).added
  {
    var os := At(arena, o);
    if os.start <= sp.start && os.end <= sp.end then
      assert o < |arena| ==> Aliases(arena, o, o);
      Ok(Put(arena, o, os.(deleted := true, added := true)))
    else if os.start <= sp.start && os.end >= sp.end then
      PutReplacement(doc, arena, o, Replace(Text(doc, os), Text(doc, sp), ""))
    else
      Ok(arena)
  }

  /** What processing the replaced span `sp` does to one other span. */
  function ReplaceOne(doc: string, sp: Span, o: Id, arena: Arena): (r: Result<Arena>)
    ensures r.Ok? ==> SameFrame(arena, r.value)
    ensures r.Ok? ==> forall j :: !Aliases(arena, o, j) ==> At(r.value, j) == At(arena, j)
    ensures r.Ok? && Shared(arena) ==> Shared(r.value)
  {
    var os := At(arena, o);
    var spText := ElementText(doc, sp, true);
    if os.start <= sp.start && os.end <= sp.end then
      PutReplacement(doc, arena, o, PySlice(spText, os.start - sp.start, os.end - sp.start))
    else if os.start <= sp.start && os.end >= sp.end then
      PutReplacement(doc, arena, o, Replace(Text(doc, os), Text(doc, sp), spText))
    else
      Ok(arena)
  }

  lemma SameFrameTrans(a: Arena, b: Arena, c: Arena)
    requires SameFrame(a, b) && SameFrame(b, c)
    ensures SameFrame(a, c)
  {
  }

  /**
   * The inner loop over all collected spans, skipping every span equal to
   * the processed span `sp` (the processed span among them).
   */
  function PropagateOthers(doc: string, sp: Span, deleting: bool, others: seq<Id>, arena: Arena)
    : (r: Result<Arena>)
    ensures r.Ok? ==> SameFrame(arena, r.value)
    decreases |others|
  {
    if |others| == 0 then Ok(arena)
    else
      var o := others[0];
      var next :- if SameChars(At(arena, o), sp) then Ok(arena)
                  else if deleting then DeleteOne(doc, sp, o, arena)
                  else ReplaceOne(doc, sp, o, arena);
      var r :- PropagateOthers(doc, sp, deleting, others[1..], next);
      SameFrameTrans(arena, next, r);
      Ok(r)
  }

  /**
   * One step of the processing loop: a span already processed is skipped; a
   * deleted span is marked processed and deletes every span that starts no
   * later and ends no later than it does (a one-sided test, not
   * containment); a span with non-empty replacement text pushes its text
   * into the spans it covers and into the spans that cover it.
   */
  function ProcessOne(doc: string, x: Id, all: seq<Id>, arena: Arena): (r: Result<Arena>)
    ensures r.Ok? ==> SameFrame(arena, r.value)
    ensures At(arena, x).added ==> r == Ok(arena)
    ensures (!At(arena, x).added && !At(arena, x).deleted
             && (At(arena, x).replacement.None? || |At(arena, x).replacement.value| == 0)) ==> r == Ok(arena)
  {
    var sp := At(arena, x);
    if sp.added then Ok(arena)
    else if sp.deleted then
      var marked := Put(arena, x, sp.(added := true));
      var r :- PropagateOthers(doc, sp, true, all, marked);
      SameFrameTrans(arena, marked, r);
      Ok(r)
    else if sp.replacement.Some? && |sp.replacement.value| > 0 then
      PropagateOthers(doc, sp, false, all, arena)
    else
      Ok(arena)
  }

  /** The processing loop over the sorted spans. */
  function ProcessAll(doc: string, order: seq<Id>, all: seq<Id>, arena: Arena): (r: Result<Arena>)
    ensures r.Ok? ==> SameFrame(arena, r.value)
    decreases |order|
  {
    if |order| == 0 then Ok(arena)
    else
      var next :- ProcessOne(doc, order[0], all, arena);
      var r :- ProcessAll(doc, order[1..], all, next);
      SameFrameTrans(arena, next, r);
      Ok(r)
  }

  /** Propagating a deletion or a replacement keeps equal spans holding the same extension values. */
  lemma {:induction false} PropagateKeepsShared(doc: string, sp: Span, deleting: bool, others: seq<Id>, arena: Arena)
    ensures PropagateOthers(doc, sp, deleting, others, arena).Ok? && Shared(arena) ==> Shared(PropagateOthers(doc, sp, deleting, others, arena).value)
    decreases |others|
  {
    if |others| > 0 && PropagateOthers(doc, sp, deleting, others, arena).Ok? && Shared(arena) {
      var o := others[0];
      var next := if SameChars(At(arena, o), sp) then Ok(arena)
                  else if deleting then DeleteOne(doc, sp, o, arena)
                  else ReplaceOne(doc, sp, o, arena);
      PropagateKeepsShared(doc, sp, deleting, others[1..], next.value);
    }
  }

  /** One step of the processing loop keeps equal spans holding the same extension values. */
  lemma ProcessOneKeepsShared(doc: string, x: Id, all: seq<Id>, arena: Arena)
    ensures ProcessOne(doc, x, all, arena).Ok? && Shared(arena) ==> Shared(ProcessOne(doc, x, all, arena).value)
  {
    var sp := At(arena, x);
    if !sp.added && sp.deleted {
      PropagateKeepsShared(doc, sp, true, all, Put(arena, x, sp.(added := true)));
    } else if !sp.added && sp.replacement.Some? && |sp.replacement.value| > 0 {
      PropagateKeepsShared(doc, sp, false, all, arena);
    }
  }

  /**
   * The processing loop keeps the arena agreeing with spaCy's per-range
   * storage: spans with equal offsets end up holding the same values.
   */
  lemma {:induction false} ProcessAllKeepsShared(doc: string, order: seq<Id>, all: seq<Id>, arena: Arena)
    ensures ProcessAll(doc, order, all, arena).Ok? && Shared(arena) ==> Shared(ProcessAll(doc, order, all, arena).value)
    decreases |order|
  {
    if |order| > 0 && ProcessAll(doc, order, all, arena).Ok? && Shared(arena) {
      ProcessOneKeepsShared(doc, order[0], all, arena);
      ProcessAllKeepsShared(doc, order[1..], all, ProcessOne(doc, order[0], all, arena).value);
    }
  }

  /**
   * A deleted span wipes out every collected span that starts no later and
   * ends no later than it, including spans lying wholly before it and spans
   * equal to it.
   */
  lemma {:induction false} DeletionReachesEarlierSpans(doc: string, x: Id, others: seq<Id>, arena: Arena, k: nat)
    requires Shared(arena)
    requires x < |arena| && !arena[x].added && arena[x].deleted
    requires k < |others| && others[k] < |arena|
    requires arena[others[k]].start <= arena[x].start && arena[others[k]].end <= arena[x].end
    requires ProcessOne(doc, x, others, arena).Ok?
    ensures At(ProcessOne(doc, x, others, arena).value, others[k]).deleted
    ensures At(ProcessOne(doc, x, others, arena).value, others[k]).added
  {
    var sp := arena[x];
    var o := others[k];
    var marked := Put(arena, x, sp.(added := true));
    if SameChars(arena[o], sp) {
      assert arena[o] == sp;
      assert At(marked, o).deleted && At(marked, o).added;
      PropagateKeepsMarks(doc, sp, others, marked, o);
    } else {
      PropagateMarks(doc, sp, others, marked, k);
    }
  }

  lemma {:induction false} PropagateMarks(doc: string, sp: Span, others: seq<Id>, arena: Arena, k: nat)
    requires Shared(arena)
    requires k < |others| && others[k] < |arena| && !SameChars(arena[others[k]], sp)
    requires arena[others[k]].start <= sp.start && arena[others[k]].end <= sp.end
    requires PropagateOthers(doc, sp, true, others, arena).Ok?
    ensures At(PropagateOthers(doc, sp, true, others, arena).value, others[k]).deleted
    ensures At(PropagateOthers(doc, sp, true, others, arena).value, others[k]).added
    decreases |others|
  {
    var o := others[0];
    var next := if SameChars(At(arena, o), sp) then Ok(arena) else DeleteOne(doc, sp, o, arena);
    if k == 0 {
      assert next.Ok? && At(next.value, o).deleted && At(next.value, o).added;
      PropagateKeepsMarks(doc, sp, others[1..], next.value, o);
    } else {
      assert others[1..][k - 1] == others[k];
      PropagateMarks(doc, sp, others[1..], next.value, k - 1);
    }
  }

  /** Once deleted and processed, a span stays so while a deletion propagates. */
  lemma {:induction false} PropagateKeepsMarks(doc: string, sp: Span, others: seq<Id>, arena: Arena, o: Id)
    requires Shared(arena)
    requires At(arena, o).deleted && At(arena, o).added && o < |arena|
    requires PropagateOthers(doc, sp, true, others, arena).Ok?
    ensures At(PropagateOthers(doc, sp, true, others, arena).value, o).deleted
    ensures At(PropagateOthers(doc, sp, true, others, arena).value, o).added
    decreases |others|
  {
    if |others| > 0 {
      var p := others[0];
      var next := if SameChars(At(arena, p), sp) then Ok(arena) else DeleteOne(doc, sp, p, arena);
      assert next.Ok?;
      if !SameChars(At(arena, p), sp) {
        DeleteOneKeeps(doc, sp, p, arena, o);
      }
      PropagateKeepsMarks(doc, sp, others[1..], next.value, o);
    }
  }

  lemma DeleteOneKeeps(doc: string, sp: Span, p: Id, arena: Arena, o: Id)
    ensures var r := DeleteOne(doc, sp, p, arena);
            Shared(arena) && o < |arena| && At(arena, o).deleted && At(arena, o).added && r.Ok? ==> At(r.value, o).deleted && At(r.value, o).added
  {
    var os := At(arena, p);
    if !(os.start <= sp.start && os.end <= sp.end) && os.start <= sp.start && os.end >= sp.end {
      assert Shared(arena) && o < |arena| && At(arena, o).deleted && DeleteOne(doc, sp, p, arena).Ok? ==> !Aliases(arena, p, o);
    }
  }

  /**
   * The replaced span's own text is never pushed into a span equal to it:
   * processing a replacement leaves every span with the same offsets as it
   * was.
   */
  lemma ReplacementLeavesEqualSpans(doc: string, x: Id, all: seq<Id>, arena: Arena, o: Id)
    requires x < |arena| && o < |arena| && SameChars(arena[o], arena[x])
    requires !arena[x].added && !arena[x].deleted
    requires ProcessOne(doc, x, all, arena).Ok?
    ensures At(ProcessOne(doc, x, all, arena).value, o) == arena[o]
  {
    if arena[x].replacement.Some? && |arena[x].replacement.value| > 0 {
      PropagateLeavesEqual(doc, arena[x], false, all, arena, o);
    }
  }

  lemma {:induction false} PropagateLeavesEqual(doc: string, sp: Span, deleting: bool, others: seq<Id>, arena: Arena, o: Id)
    requires o < |arena| && SameChars(arena[o], sp)
    requires PropagateOthers(doc, sp, deleting, others, arena).Ok?
    ensures At(PropagateOthers(doc, sp, deleting, others, arena).value, o) == arena[o]
    decreases |others|
  {
    if |others| > 0 {
      var p := others[0];
      var next := if SameChars(At(arena, p), sp) then Ok(arena)
                  else if deleting then DeleteOne(doc, sp, p, arena)
                  else ReplaceOne(doc, sp, p, arena);
      assert next.Ok?;
      assert !SameChars(At(arena, p), sp) ==> !Aliases(arena, p, o);
      assert At(next.value, o) == arena[o];
      PropagateLeavesEqual(doc, sp, deleting, others[1..], next.value, o);
    }
  }

  /** With nothing flagged, processing changes no span. */
  predicate Unflagged(s: Span)
  {
    !s.added && !s.deleted && s.replacement.None?
  }

  lemma {:induction false} ProcessAllUntouched(doc: string, order: seq<Id>, all: seq<Id>, arena: Arena)
    requires forall i :: 0 <= i < |order| ==> Unflagged(At(arena, order[i]))
    ensures ProcessAll(doc, order, all, arena) == Ok(arena)
    decreases |order|
  {
    if |order| > 0 {
      assert ProcessOne(doc, order[0], all, arena) == Ok(arena);
      assert forall i :: 0 <= i < |order[1..]| ==> Unflagged(At(arena, order[1..][i])) by {
        forall i | 0 <= i < |order[1..]| ensures Unflagged(At(arena, order[1..][i])) {
          assert order[1..][i] == order[i + 1];
        }
      }
      ProcessAllUntouched(doc, order[1..], all, arena);
    }
  }

  // ---------------------------------------------------------------------
  // Rebuilding the article text
  // ---------------------------------------------------------------------

  /** A kept paragraph and the range its text occupies in the document being built. */
  datatype NewPar = NewPar(id: Id, newStart: int, newEnd: int)

  /** The state of the paragraph walk: text so far, read cursor, kept paragraphs. */
  datatype Walk = Walk(text: string, cursor: int, kept: seq<NewPar>)

  /** A paragraph the walk skips: processed by an earlier deletion, or deleted itself. */
  predicate Skipped(s: Span)
  {
    s.added || s.deleted
  }

  /**
   * One turn of the loop over `article_elements['pars']`. A skipped
   * paragraph only moves the cursor on by the length of its original text. A
   * kept paragraph gets the article text from the cursor up to its start,
   * then its replacement text (or its text); the cursor again moves on by
   * its ORIGINAL text's length, not to its end.
   */
  function WalkStep(doc: string, p: Id, arena: Arena, articleText: string, oldOffset: int,
                    newOffset: int, w: Walk): Walk
  {
    var s := At(arena, p);
    var step := |Text(doc, s)|;
    if Skipped(s) then w.(cursor := w.cursor + step)
    else
      var before := w.text + PySlice(articleText, w.cursor, s.start - oldOffset);
      var after := before + ElementText(doc, s, true);
      Walk(after, w.cursor + step, w.kept + [NewPar(p, newOffset + |before|, newOffset + |after|)])
  }

  function WalkPars(doc: string, pars: seq<Id>, arena: Arena, articleText: string, oldOffset: int,
                    newOffset: int, w: Walk): Walk
    decreases |pars|
  {
    if |pars| == 0 then w
    else WalkPars(doc, pars[1..], arena, articleText, oldOffset, newOffset,
                  WalkStep(doc, pars[0], arena, articleText, oldOffset, newOffset, w))
  }

  /** The ids of the paragraphs the walk keeps. */
  function KeptIds(pars: seq<Id>, arena: Arena): (r: seq<Id>)
    ensures |r| <= |pars|
  {
    if |pars| == 0 then []
    else if Skipped(At(arena, pars[0])) then KeptIds(pars[1..], arena)
    else [pars[0]] + KeptIds(pars[1..], arena)
  }

  function Ids(ks: seq<NewPar>): (r: seq<Id>)
    ensures |r| == |ks|
  {
    seq(|ks|, i requires 0 <= i < |ks| => ks[i].id)
  }

  /** Every kept paragraph's recorded range holds exactly the text emitted for it. */
  predicate RangesHold(doc: string, arena: Arena, newOffset: int, w: Walk)
  {
    forall k :: 0 <= k < |w.kept| ==>
      && 0 <= w.kept[k].newStart - newOffset <= w.kept[k].newEnd - newOffset <= |w.text|
      && w.text[w.kept[k].newStart - newOffset..w.kept[k].newEnd - newOffset]
           == ElementText(doc, At(arena, w.kept[k].id), true)
  }

  /** One turn of the walk keeps the recorded ranges valid and records at most the paragraph it visits. */
  lemma StepCorrect(doc: string, p: Id, arena: Arena, articleText: string, oldOffset: int,
                    newOffset: int, w: Walk)
    requires RangesHold(doc, arena, newOffset, w)
    ensures var r := WalkStep(doc, p, arena, articleText, oldOffset, newOffset, w);
            && RangesHold(doc, arena, newOffset, r)
            && Ids(r.kept) == Ids(w.kept) + (if Skipped(At(arena, p)) then [] else [p])
  {
    var r := WalkStep(doc, p, arena, articleText, oldOffset, newOffset, w);
    var s := At(arena, p);
    if !Skipped(s) {
      var gap := PySlice(articleText, w.cursor, s.start - oldOffset);
      ExtendRanges(doc, arena, newOffset, w, gap, p, r);
      assert Ids(r.kept) == Ids(w.kept) + [p];
    }
  }

  /** Appending a kept paragraph keeps every recorded range valid. */
  lemma ExtendRanges(doc: string, arena: Arena, newOffset: int, w: Walk, gap: string, id: Id, w': Walk)
    requires RangesHold(doc, arena, newOffset, w)
    requires w'.text == w.text + gap + ElementText(doc, At(arena, id), true)
    requires w'.kept == w.kept + [NewPar(id, newOffset + |w.text + gap|, newOffset + |w'.text|)]
    ensures RangesHold(doc, arena, newOffset, w')
  {
    var before := w.text + gap;
    forall k | 0 <= k < |w'.kept|
      ensures 0 <= w'.kept[k].newStart - newOffset <= w'.kept[k].newEnd - newOffset <= |w'.text|
      ensures w'.text[w'.kept[k].newStart - newOffset..w'.kept[k].newEnd - newOffset]
                == ElementText(doc, At(arena, w'.kept[k].id), true)
    {
      if k < |w.kept| {
        assert w'.kept[k] == w.kept[k];
        assert w.text <= w'.text;
      } else {
        assert w'.text[|before|..] == ElementText(doc, At(arena, id), true);
      }
    }
  }

  /**
   * The paragraph walk keeps exactly the paragraphs that are neither
   * processed nor deleted, in their original order, and each kept
   * paragraph's new range in the rebuilt text holds its emitted text.
   */
  lemma {:induction false} WalkParsCorrect(doc: string, pars: seq<Id>, arena: Arena, articleText: string,
                                           oldOffset: int, newOffset: int, w: Walk)
    requires RangesHold(doc, arena, newOffset, w)
    ensures var r := WalkPars(doc, pars, arena, articleText, oldOffset, newOffset, w);
            Ids(r.kept) == Ids(w.kept) + KeptIds(pars, arena) && RangesHold(doc, arena, newOffset, r)
    decreases |pars|
  {
    if |pars| > 0 {
      var w' := WalkStep(doc, pars[0], arena, articleText, oldOffset, newOffset, w);
      StepCorrect(doc, pars[0], arena, articleText, oldOffset, newOffset, w);
      WalkParsCorrect(doc, pars[1..], arena, articleText, oldOffset, newOffset, w');
      var tail := KeptIds(pars[1..], arena);
      if Skipped(At(arena, pars[0])) {
        assert KeptIds(pars, arena) == tail;
      } else {
        assert KeptIds(pars, arena) == [pars[0]] + tail;
        assert Ids(w.kept) + [pars[0]] + tail == Ids(w.kept) + ([pars[0]] + tail);
      }
    }
  }

  /** The walk only ever appends to the text it has built. */
  lemma {:induction false} WalkExtends(doc: string, pars: seq<Id>, arena: Arena, articleText: string,
                                       oldOffset: int, newOffset: int, w: Walk)
    ensures w.text <= WalkPars(doc, pars, arena, articleText, oldOffset, newOffset, w).text
    decreases |pars|
  {
    if |pars| > 0 {
      var w' := WalkStep(doc, pars[0], arena, articleText, oldOffset, newOffset, w);
      WalkExtends(doc, pars[1..], arena, articleText, oldOffset, newOffset, w');
    }
  }

  /** The nested element lists of the rebuilt article. */
  datatype NewElements = NewElements(
    pars: seq<NewPar>,
    subpars: seq<Nested<Range>>,
    points: seq<Nested<Range>>,
    indents: seq<Nested<Range>>)

  function Items(rs: seq<Range>): (r: seq<Nested<Range>>)
    ensures |r| == |rs|
  {
    seq(|rs|, i requires 0 <= i < |rs| => Item(rs[i]))
  }

  function ListsOf(l: seq<seq<Range>>): (r: seq<Nested<Range>>)
    ensures |r| == |l|
  {
    seq(|l|, i requires 0 <= i < |l| => Sub(Items(l[i])))
  }

  /** The sub-elements re-found in a kept paragraph's emitted text, placed at its new start. */
  function KeptSubelements(doc: string, arena: Arena, segment: string -> SubElements, np: NewPar): SubElements
  {
    ParagraphSubelements(segment, ElementText(doc, At(arena, np.id), true), np.newStart)
  }

  /**
   * The lists appended per kept paragraph, or the `[[]]`, `[[[]]]`,
   * `[[[[]]]]` placeholders when no paragraph is kept.
   */
  function NestSubelements(doc: string, arena: Arena, segment: string -> SubElements, kept: seq<NewPar>)
    : (r: NewElements)
    ensures r.pars == kept
    ensures |kept| == 0 ==>
      && r.subpars == [Sub([])]
      && r.points == [Sub([Sub([])])]
      && r.indents == [Sub([Sub([Sub([])])])]
    ensures |kept| > 0 ==> |r.subpars| == |r.points| == |r.indents| == |kept|
  {
    if |kept| == 0 then
      NewElements([], [Sub([])], [Sub([Sub([])])], [Sub([Sub([Sub([])])])])
    else
      var subs := seq(|kept|, i requires 0 <= i < |kept| => KeptSubelements(doc, arena, segment, kept[i]));
      NewElements(kept,
                  seq(|subs|, i requires 0 <= i < |subs| => Sub(Items(subs[i].subpars))),
                  seq(|subs|, i requires 0 <= i < |subs| => Sub(ListsOf(subs[i].points))),
                  seq(|subs|, i requires 0 <= i < |subs| => Sub(ListsOf(subs[i].indents))))
  }

  /** What the rebuild hands back: the bare text when there are no element spans, else text and elements. */
  datatype ArticleResult = Bare(text: string) | Pair(text: string, elements: NewElements)

  /**
   * An assembled article keeps exactly the unprocessed paragraphs, their
   * ranges hold in its text, and without paragraphs its sub-element lists
   * are the empty defaults.
   */
  predicate PairKeepsPars(doc: string, pars: seq<Id>, newOffset: int, a: ArticleResult, processed: Arena)
    requires a.Pair?
  {
    && Ids(a.elements.pars) == KeptIds(pars, processed)
    && RangesHold(doc, processed, newOffset, Walk(a.text, 0, a.elements.pars))
    && (|a.elements.pars| == 0 ==> a.elements.subpars == [Sub([])]
                                   && a.elements.points == [Sub([Sub([])])]
                                   && a.elements.indents == [Sub([Sub([Sub([])])])])
  }

  /**
   * `process_article_elements_modifications(article_elements, article_text,
   * old_char_offset, new_char_offset)`, returning the result and the arena
   * with the edit metadata it leaves behind. The text before the first
   * SORTED span is copied, then the paragraphs are walked, then the rest of
   * the article text from the final cursor is appended.
   *
   * In the rebuilt article the kept paragraphs are exactly the paragraphs
   * left neither processed nor deleted by the processing loop, in their
   * original order; each one's new range holds its replacement text (or its
   * own text); and when none is kept the nested lists are the one-element
   * placeholders.
   */
  function ProcessArticle(doc: string, ae: Elements, arena: Arena, articleText: string,
                          oldOffset: int, newOffset: int, segment: string -> SubElements)
    : (r: Result<(ArticleResult, Arena)>)
    ensures r.Ok? ==> SameFrame(arena, r.value.1)
    ensures r.Ok? ==> Collect(ae).Ok? && (r.value.0.Bare? <==> Collect(ae).value == [])
    ensures r.Ok? && r.value.0.Bare? ==> r.value.0.text == articleText
    ensures Collect(ae).Err? ==> r.Err?
    ensures r.Ok? && r.value.0.Pair? ==> PairKeepsPars(doc, ae.pars, newOffset, r.value.0, r.value.1)
  {
    var all :- Collect(ae);
    var sorted := SortByKey(all, arena);
    var processed :- ProcessAll(doc, sorted, sorted, arena);
    FinishKeeps(doc, ae.pars, sorted, processed, articleText, oldOffset, newOffset, segment);
    Ok((Finish(doc, ae.pars, sorted, processed, articleText, oldOffset, newOffset, segment), processed))
  }

  /**
   * The article once its sorted elements are processed: the text as it was
   * when there are none, else the assembly from the first sorted element's
   * position in the article.
   */
  function Finish(doc: string, pars: seq<Id>, sorted: seq<Id>, processed: Arena, articleText: string,
                  oldOffset: int, newOffset: int, segment: string -> SubElements): ArticleResult
  {
    if |sorted| == 0 then Bare(articleText)
    else Assemble(doc, pars, processed, articleText, oldOffset, newOffset, segment, At(processed, sorted[0]).start - oldOffset)
  }

  lemma FinishKeeps(doc: string, pars: seq<Id>, sorted: seq<Id>, processed: Arena, articleText: string,
                    oldOffset: int, newOffset: int, segment: string -> SubElements)
    ensures var a := Finish(doc, pars, sorted, processed, articleText, oldOffset, newOffset, segment);
      && (a.Bare? <==> |sorted| == 0)
      && (a.Bare? ==> a.text == articleText)
      && (a.Pair? ==> PairKeepsPars(doc, pars, newOffset, a, processed))
  {
    if |sorted| > 0 {
      AssembleKeeps(doc, pars, processed, articleText, oldOffset, newOffset, segment, At(processed, sorted[0]).start - oldOffset);
    }
  }

  /**
   * The article once its elements are processed: the text before the first
   * element (`first` article characters) is copied, the paragraphs are
   * walked, and the rest of the article text from the final cursor is
   * appended.
   */
  function Assemble(doc: string, pars: seq<Id>, processed: Arena, articleText: string,
                    oldOffset: int, newOffset: int, segment: string -> SubElements, first: int)
    : (r: ArticleResult)
    ensures r.Pair?
  {
    var w0 := Walk(PySlice(articleText, 0, first), first, []);
    var w := WalkPars(doc, pars, processed, articleText, oldOffset, newOffset, w0);
    Pair(w.text + PySliceFrom(articleText, w.cursor), NestSubelements(doc, processed, segment, w.kept))
  }

  /** The assembled article keeps the unprocessed paragraphs, and their ranges hold in its text. */
  lemma AssembleKeeps(doc: string, pars: seq<Id>, processed: Arena, articleText: string,
                      oldOffset: int, newOffset: int, segment: string -> SubElements, first: int)
    ensures var r := Assemble(doc, pars, processed, articleText, oldOffset, newOffset, segment, first);
            && Ids(r.elements.pars) == KeptIds(pars, processed)
            && RangesHold(doc, processed, newOffset, Walk(r.text, 0, r.elements.pars))
            && (|r.elements.pars| == 0 ==> r.elements.subpars == [Sub([])]
                                           && r.elements.points == [Sub([Sub([])])]
                                           && r.elements.indents == [Sub([Sub([Sub([])])])])
  {
    var w0 := Walk(PySlice(articleText, 0, first), first, []);
    PairKeeps(doc, pars, processed, articleText, oldOffset, newOffset, w0);
  }

  /** The paragraph walk from an empty start keeps the unprocessed paragraphs, and their ranges hold in the finished article. */
  lemma PairKeeps(doc: string, pars: seq<Id>, processed: Arena, articleText: string,
                  oldOffset: int, newOffset: int, w0: Walk)
    requires w0.kept == []
    ensures var w := WalkPars(doc, pars, processed, articleText, oldOffset, newOffset, w0);
            Ids(w.kept) == KeptIds(pars, processed)
            && RangesHold(doc, processed, newOffset, Walk(w.text + PySliceFrom(articleText, w.cursor), 0, w.kept))
  {
    WalkParsCorrect(doc, pars, processed, articleText, oldOffset, newOffset, w0);
    var w := WalkPars(doc, pars, processed, articleText, oldOffset, newOffset, w0);
    RangesGrow(doc, processed, newOffset, w, w.text + PySliceFrom(articleText, w.cursor));
  }

  /** Recorded ranges stay valid when text is appended. */
  lemma RangesGrow(doc: string, arena: Arena, newOffset: int, w: Walk, text: string)
    requires RangesHold(doc, arena, newOffset, w) && w.text <= text
    ensures RangesHold(doc, arena, newOffset, Walk(text, 0, w.kept))
  {
    forall k | 0 <= k < |w.kept|
      ensures text[w.kept[k].newStart - newOffset..w.kept[k].newEnd - newOffset]
                == ElementText(doc, At(arena, w.kept[k].id), true)
    {
      assert text[..|w.text|] == w.text;
    }
  }

  // ---------------------------------------------------------------------
  // An article without modifications
  // ---------------------------------------------------------------------

  /**
   * Paragraphs that are unflagged and follow each other without gaps inside
   * the article text, the first one starting at article position `c`.
   */
  predicate Chain(doc: string, pars: seq<Id>, arena: Arena, articleText: string, oldOffset: int, c: int)
    decreases |pars|
  {
    |pars| > 0 ==>
      var s := At(arena, pars[0]);
      && Unflagged(s)
      && s.start - oldOffset == c
      && s.start <= s.end <= oldOffset + |articleText|
      && Chain(doc, pars[1..], arena, articleText, oldOffset, c + (s.end - s.start))
  }

  /** The article text is the document text from the article's start. */
  predicate ArticleIn(doc: string, articleText: string, oldOffset: int)
  {
    0 <= oldOffset && oldOffset + |articleText| <= |doc|
    && articleText == doc[oldOffset..oldOffset + |articleText|]
  }

  /** Over gap-free unflagged paragraphs the walk copies the article text verbatim. */
  lemma {:induction false} WalkIdentity(doc: string, pars: seq<Id>, arena: Arena, articleText: string,
                                        oldOffset: int, newOffset: int, w: Walk)
    requires ArticleIn(doc, articleText, oldOffset)
    requires 0 <= w.cursor <= |articleText| && w.text == articleText[..w.cursor]
    requires Chain(doc, pars, arena, articleText, oldOffset, w.cursor)
    ensures var r := WalkPars(doc, pars, arena, articleText, oldOffset, newOffset, w);
            0 <= r.cursor <= |articleText| && r.text == articleText[..r.cursor]
    decreases |pars|
  {
    if |pars| > 0 {
      var s := At(arena, pars[0]);
      var c := w.cursor;
      var e := s.end - oldOffset;
      assert Text(doc, s) == doc[s.start..s.end];
      SliceOfSlice(doc, oldOffset, |articleText|, c, e);
      assert doc[s.start..s.end] == articleText[c..e];
      assert ElementText(doc, s, true) == articleText[c..e];
      assert PySlice(articleText, c, s.start - oldOffset) == [];
      var w' := WalkStep(doc, pars[0], arena, articleText, oldOffset, newOffset, w);
      assert w'.cursor == e;
      assert w'.text == articleText[..c] + [] + articleText[c..e];
      assert articleText[..c] + [] == articleText[..c];
      PrefixJoin(articleText, c, e);
      WalkIdentity(doc, pars[1..], arena, articleText, oldOffset, newOffset, w');
    }
  }

  /** Sorting unflagged spans without `char_pos` puts a span with the smallest start first. */
  lemma SortedUntouched(all: seq<Id>, arena: Arena, start0: int)
    requires |all| > 0 && At(arena, all[0]).start == start0
    requires forall i :: 0 <= i < |all| ==>
               Unflagged(At(arena, all[i])) && At(arena, all[i]).charPos.None? && At(arena, all[i]).start >= start0
    ensures var sorted := SortByKey(all, arena);
            && (forall i :: 0 <= i < |sorted| ==> Unflagged(At(arena, sorted[i])))
            && At(arena, sorted[0]).start == start0
  {
    var sorted := SortByKey(all, arena);
    forall i | 0 <= i < |sorted|
      ensures Unflagged(At(arena, sorted[i])) && At(arena, sorted[i]).charPos.None? && At(arena, sorted[i]).start >= start0
    {
      assert sorted[i] in multiset(sorted);
      assert sorted[i] in multiset(all);
      var m :| 0 <= m < |all| && all[m] == sorted[i];
    }
    SortedHeadIsMinimal(all, arena, 0);
  }

  /**
   * With no element flagged, no `char_pos`, and paragraphs that start at the
   * article's first element and follow each other without gaps, the rebuilt
   * article text is the original article text. The walk advances by each
   * paragraph's length rather than jumping to its end, so the gap-free
   * condition is what makes this hold.
   */
  lemma ProcessArticleIdentity(doc: string, ae: Elements, arena: Arena, articleText: string,
                               oldOffset: int, newOffset: int, segment: string -> SubElements)
    requires Collect(ae).Ok? && |ae.pars| > 0
    requires var all := Collect(ae).value;
             forall i :: 0 <= i < |all| ==>
               Unflagged(At(arena, all[i])) && At(arena, all[i]).charPos.None?
               && At(arena, all[i]).start >= At(arena, ae.pars[0]).start
    requires ArticleIn(doc, articleText, oldOffset) && At(arena, ae.pars[0]).start >= oldOffset
    requires Chain(doc, ae.pars, arena, articleText, oldOffset, At(arena, ae.pars[0]).start - oldOffset)
    ensures var r := ProcessArticle(doc, ae, arena, articleText, oldOffset, newOffset, segment);
            r.Ok? && r.value.0.Pair? && r.value.0.text == articleText
  {
    UntouchedProcessing(doc, ae, arena);
    var first := At(arena, ae.pars[0]).start - oldOffset;
    var sorted := SortByKey(Collect(ae).value, arena);
    ChainedAssembly(doc, ae.pars, arena, articleText, oldOffset, newOffset, segment, first);
    ProcessArticleFinish(doc, ae, arena, articleText, oldOffset, newOffset, segment, sorted);
    FinishAssembles(doc, ae.pars, sorted, arena, articleText, oldOffset, newOffset, segment, first);
  }

  /** Assembling from the first paragraph of a gap-free chain gives the article text back. */
  lemma ChainedAssembly(doc: string, pars: seq<Id>, arena: Arena, articleText: string,
                        oldOffset: int, newOffset: int, segment: string -> SubElements, first: int)
    requires |pars| > 0 && ArticleIn(doc, articleText, oldOffset) && At(arena, pars[0]).start - oldOffset == first
    requires At(arena, pars[0]).start >= oldOffset
    requires Chain(doc, pars, arena, articleText, oldOffset, first)
    ensures Assemble(doc, pars, arena, articleText, oldOffset, newOffset, segment, first).text == articleText
  {
    ChainHead(doc, pars, arena, articleText, oldOffset, first);
    AssembleIdentity(doc, pars, arena, articleText, oldOffset, newOffset, segment, first);
  }

  lemma ChainHead(doc: string, pars: seq<Id>, arena: Arena, articleText: string, oldOffset: int, c: int)
    requires |pars| > 0 && Chain(doc, pars, arena, articleText, oldOffset, c)
    ensures c <= At(arena, pars[0]).end - oldOffset <= |articleText|
  {
  }

  /** Unflagged elements without `char_pos` leave the arena as it was, the first paragraph sorted first. */
  lemma UntouchedProcessing(doc: string, ae: Elements, arena: Arena)
    requires Collect(ae).Ok? && |ae.pars| > 0
    requires var all := Collect(ae).value;
             forall i :: 0 <= i < |all| ==>
               Unflagged(At(arena, all[i])) && At(arena, all[i]).charPos.None?
               && At(arena, all[i]).start >= At(arena, ae.pars[0]).start
    ensures var sorted := SortByKey(Collect(ae).value, arena);
            && |sorted| > 0 && ProcessAll(doc, sorted, sorted, arena) == Ok(arena)
            && At(arena, sorted[0]).start == At(arena, ae.pars[0]).start
  {
    var all := Collect(ae).value;
    assert all[0] == ae.pars[0];
    var sorted := SortByKey(all, arena);
    SortedUntouched(all, arena, At(arena, ae.pars[0]).start);
    ProcessAllUntouched(doc, sorted, sorted, arena);
  }

  /** Processing that leaves the arena as it was finishes the sorted elements over that arena. */
  lemma ProcessArticleFinish(doc: string, ae: Elements, arena: Arena, articleText: string,
                             oldOffset: int, newOffset: int, segment: string -> SubElements, sorted: seq<Id>)
    requires Collect(ae).Ok? && sorted == SortByKey(Collect(ae).value, arena)
    requires ProcessAll(doc, sorted, sorted, arena) == Ok(arena)
    ensures ProcessArticle(doc, ae, arena, articleText, oldOffset, newOffset, segment)
            == Ok((Finish(doc, ae.pars, sorted, arena, articleText, oldOffset, newOffset, segment), arena))
  {
  }

  lemma FinishAssembles(doc: string, pars: seq<Id>, sorted: seq<Id>, arena: Arena, articleText: string,
                        oldOffset: int, newOffset: int, segment: string -> SubElements, first: int)
    requires |sorted| > 0 && At(arena, sorted[0]).start - oldOffset == first
    ensures Finish(doc, pars, sorted, arena, articleText, oldOffset, newOffset, segment)
            == Assemble(doc, pars, arena, articleText, oldOffset, newOffset, segment, first)
  {
  }

  /** Assembling over a gap-free chain of unflagged paragraphs gives the article text back. */
  lemma AssembleIdentity(doc: string, pars: seq<Id>, arena: Arena, articleText: string,
                         oldOffset: int, newOffset: int, segment: string -> SubElements, first: int)
    requires ArticleIn(doc, articleText, oldOffset) && 0 <= first <= |articleText|
    requires Chain(doc, pars, arena, articleText, oldOffset, first)
    ensures Assemble(doc, pars, arena, articleText, oldOffset, newOffset, segment, first).text == articleText
  {
    var w0 := Walk(PySlice(articleText, 0, first), first, []);
    assert PySlice(articleText, 0, first) == articleText[..first];
    WalkIdentity(doc, pars, arena, articleText, oldOffset, newOffset, w0);
    var w := WalkPars(doc, pars, arena, articleText, oldOffset, newOffset, w0);
    assert PySliceFrom(articleText, w.cursor) == articleText[w.cursor..];
    PrefixJoin(articleText, w.cursor, |articleText|);
    assert articleText[w.cursor..|articleText|] == articleText[w.cursor..];
    assert articleText[..|articleText|] == articleText;
    assert Assemble(doc, pars, arena, articleText, oldOffset, newOffset, segment, first).text
           == w.text + PySliceFrom(articleText, w.cursor);
  }

  // ---------------------------------------------------------------------
  // A paragraph and its sole subparagraph
  // ---------------------------------------------------------------------

  /** An article whose one paragraph runs from 3 to 11. */
  function EqualSpansDoc(): string
  {
    "xx ABCDEFGH yy"
  }

  /**
   * The paragraph (id 0) and its sole subparagraph (id 1) cover the same
   * characters, so both see the replacement stored on the paragraph.
   */
  function EqualSpansArena(): (r: Arena)
    ensures Shared(r)
  {
    var p := Plain(3, 11, 12).(replacement := Some("XXXXXXXXXXXX"));
    [p, p]
  }

  /**
   * A replaced paragraph whose sole subparagraph has the same offsets is
   * kept, with its replacement text: the two spans compare equal, so
   * neither pushes text into the other and neither is flagged deleted.
   */
  lemma ReplacedParagraphKept(ae: Elements, arena: Arena, segment: string -> SubElements)
    requires ae == Elements([0], [[1]], [[[]]], [[[]]]) && arena == EqualSpansArena()
    ensures var r := ProcessArticle(EqualSpansDoc(), ae, arena, EqualSpansDoc(), 0, 0, segment);
            r.Ok? && r.value.0.Pair? && Ids(r.value.0.elements.pars) == [0]
            && r.value.0.text == "xx XXXXXXXXXXXX yy"
  {
    var doc := EqualSpansDoc();
    EqualSpansCollect(ae);
    EqualSpansSorted(arena);
    EqualSpansUnchanged(doc, arena);
    ProcessArticleFinish(doc, ae, arena, doc, 0, 0, segment, [0, 1]);
    FinishAssembles(doc, [0], [0, 1], arena, doc, 0, 0, segment, 3);
    EqualSpansAssembled(doc, arena, segment);
  }

  lemma EqualSpansCollect(ae: Elements)
    requires ae == Elements([0], [[1]], [[[]]], [[[]]])
    ensures Collect(ae) == Ok([0, 1])
  {
    assert Get2(ae.indents, 0, 0) == Ok([]) && Get2(ae.points, 0, 0) == Ok([]);
    assert CollectSubs(ae, [1], 1, 0) == Ok([]);
    assert [1] + [] + [] + [] == [1];
    assert CollectSubs(ae, [1], 0, 0) == Ok([1]);
    assert CollectPars(ae, 1) == Ok([]);
    assert [0] + [1] + [] == [0, 1];
  }

  lemma EqualSpansSorted(arena: Arena)
    requires arena == EqualSpansArena()
    ensures SortByKey([0, 1], arena) == [0, 1]
  {
    assert SortByKey([0], arena) == [0];
    assert [0, 1][..1] == [0];
  }

  /** Neither span changes anything: each skips the other as equal to itself. */
  lemma EqualSpansUnchanged(doc: string, arena: Arena)
    requires arena == EqualSpansArena()
    ensures ProcessAll(doc, [0, 1], [0, 1], arena) == Ok(arena)
  {
    var sp := arena[0];
    assert PropagateOthers(doc, sp, false, [1], arena) == Ok(arena);
    assert PropagateOthers(doc, sp, false, [0, 1], arena) == Ok(arena);
    assert ProcessOne(doc, 0, [0, 1], arena) == Ok(arena);
    assert ProcessOne(doc, 1, [0, 1], arena) == Ok(arena);
    assert ProcessAll(doc, [1], [0, 1], arena) == Ok(arena);
  }

  lemma EqualSpansAssembled(doc: string, arena: Arena, segment: string -> SubElements)
    requires doc == EqualSpansDoc() && arena == EqualSpansArena()
    ensures var a := Assemble(doc, [0], arena, doc, 0, 0, segment, 3);
            Ids(a.elements.pars) == [0] && a.text == "xx XXXXXXXXXXXX yy"
  {
    var w0 := Walk(PySlice(doc, 0, 3), 3, []);
    assert PySlice(doc, 0, 3) == "xx ";
    assert PySlice(doc, 3, 3) == "";
    assert |Text(doc, arena[0])| == 8;
    var w1 := WalkStep(doc, 0, arena, doc, 0, 0, w0);
    assert w1 == Walk("xx XXXXXXXXXXXX", 11, [NewPar(0, 3, 15)]);
    assert WalkPars(doc, [0], arena, doc, 0, 0, w0) == w1;
    assert PySliceFrom(doc, 11) == " yy";
    assert Ids([NewPar(0, 3, 15)]) == [0];
  }
}

=== FILE: early_rebuild.dfy ===
/**
 * The two earlier versions of `modify_doc`: `eucy/modify.py` (shadowed by
 * the `eucy/modify/` package) and the misspelt `eucy/modfiy.py`. Both walk
 * the citations, recitals and articles in that fixed order with one read
 * cursor over the old text. The early version knows deletions, emits a
 * kept span's replacement or its text with whitespace, and moves the parts
 * keeping their distances to the first and last element; the earliest one
 * emits every span, as its replacement or its bare text, and recomputes no
 * parts.
 */
module EarlyRebuild {
  import opened PyBase
  import opened Spans
  import opened ArticleEdits
  import opened EditDocs
  import Rebuild

  /** `eucy/modify.py` or `eucy/modfiy.py`. */
  datatype Version = Early | Earliest

  /** Only the early version drops spans, with the same deletion test as the newer engine. */
  predicate Drops(v: Version, s: Span)
  {
    v == Early && Rebuild.IsDeletion(s)
  }

  /** The text a kept span is emitted as: its replacement, else its text (with whitespace in the early version). */
  function KeptText(v: Version, doc: string, s: Span): string
  {
    if s.replacement.Some? then s.replacement.value
    else if v == Early then TextWithWs(doc, s)
    else Text(doc, s)
  }

  /** The outcome of one span: text so far, cursor, and the span with its new range. */
  datatype Moved = Moved(text: string, cursor: nat, placed: Rebuild.Placed)

  /** One span: the gap and the text it emits, where the cursor goes, and the span as placed. */
  function Step(v: Version, doc: string, s: Span, text: string, cursor: nat): (r: Moved)
    ensures r.cursor == s.end
  {
    if Drops(v, s) then
      var lead := if cursor == 0 && s.start > 0 then PySlice(doc, 0, s.start) else [];
      Moved(text + lead, s.end, Rebuild.Placed(s.(deleted := true), None, ""))
    else
      var before := text + PySlice(doc, cursor, s.start);
      Moved(before + KeptText(v, doc, s), s.end, Rebuild.Placed(s, Some(Range(|before|, |before| + |KeptText(v, doc, s)|)), KeptText(v, doc, s)))
  }

  /**
   * A dropped span copies the old text before it only while the cursor is
   * still 0, emits nothing itself and is flagged deleted; a kept span gets
   * the gap from the cursor and then its text, and its recorded range holds
   * that text.
   */
  lemma StepSpec(v: Version, doc: string, s: Span, text: string, cursor: nat)
    ensures var r := Step(v, doc, s, text, cursor);
      && (Drops(v, s) ==>
            && r.text == text + (if cursor == 0 && s.start > 0 then PySlice(doc, 0, s.start) else [])
            && r.placed.span == s.(deleted := true) && r.placed.newRange.None?)
      && (!Drops(v, s) ==>
            var before := text + PySlice(doc, cursor, s.start);
            && r.text == before + KeptText(v, doc, s)
            && r.placed == Rebuild.Placed(s, Some(Range(|before|, |r.text|)), KeptText(v, doc, s)))
      && text <= r.text && Rebuild.RangeHolds(r.text, r.placed)
  {
    if !Drops(v, s) {
      var before := text + PySlice(doc, cursor, s.start);
      var after := before + KeptText(v, doc, s);
      assert after[|before|..|after|] == KeptText(v, doc, s);
    }
  }

  /** The walk over one group. */
  datatype Walked = Walked(text: string, cursor: nat, placed: seq<Rebuild.Placed>)

  /** The spans of placed spans. */
  function SpansOf(ps: seq<Rebuild.Placed>): (r: seq<Span>)
    ensures |r| == |ps| && forall i :: 0 <= i < |ps| ==> r[i] == ps[i].span
  {
    if |ps| == 0 then [] else [ps[0].span] + SpansOf(ps[1..])
  }

  /** The members a version carries into the new document, in order: without the deleted ones in the early version, all of them in the earliest. */
  function NewMembers(v: Version, ps: seq<Rebuild.Placed>): (r: seq<Rebuild.Placed>)
    ensures v == Earliest ==> r == ps
    ensures forall i :: 0 <= i < |r| ==> r[i] in ps
    ensures v == Early ==> forall i :: 0 <= i < |r| ==> !r[i].span.deleted
  {
    if v == Earliest || |ps| == 0 then ps
    else if ps[0].span.deleted then NewMembers(v, ps[1..])
    else [ps[0]] + NewMembers(v, ps[1..])
  }

  /** The members of `g` a version keeps, as a plain filter over the input. */
  function Retained(v: Version, g: seq<Span>): (r: seq<Span>)
  {
    if |g| == 0 then []
    else if Drops(v, g[0]) then Retained(v, g[1..])
    else [g[0]] + Retained(v, g[1..])
  }

  /**
   * The placed spans `ps` stand for the members of `g`: each dropped exactly
   * when the version drops it, each kept member recorded unchanged, and
   * every recorded range holds its text in `text`.
   */
  predicate Placements(v: Version, g: seq<Span>, ps: seq<Rebuild.Placed>, text: string)
  {
    && |ps| == |g|
    && forall i :: 0 <= i < |g| ==>
      && SameOffsets(ps[i].span, g[i])
      && (ps[i].newRange.Some? <==> !Drops(v, g[i]))
      && (!Drops(v, g[i]) ==> ps[i].span == g[i])
      && (Drops(v, g[i]) ==> ps[i].span.deleted)
      && Rebuild.RangeHolds(text, ps[i])
  }

  /** The walk over the spans `g` from text `text` and cursor `cursor`: one placed span per member. */
  function Walk(v: Version, doc: string, g: seq<Span>, text: string, cursor: nat): (r: Walked)
    ensures |r.placed| == |g|
    ensures r.cursor == (if |g| == 0 then cursor else g[|g| - 1].end)
    decreases |g|
  {
    if |g| == 0 then Walked(text, cursor, [])
    else
      var m := Step(v, doc, g[0], text, cursor);
      var rest := Walk(v, doc, g[1..], m.text, m.cursor);
      assert m.cursor == g[0].end;
      assert |g| > 1 ==> g[1..][|g| - 2] == g[|g| - 1];
      Walked(rest.text, rest.cursor, [m.placed] + rest.placed)
  }

  /**
   * Every member of `g` is placed by the walk: dropped exactly when the
   * version drops it, otherwise recorded unchanged with a range that holds
   * its text.
   */
  lemma {:induction false} WalkPlaced(v: Version, doc: string, g: seq<Span>, text: string, cursor: nat)
    ensures var r := Walk(v, doc, g, text, cursor); text <= r.text && Placements(v, g, r.placed, r.text)
    decreases |g|
  {
    if |g| > 0 {
      var m := Step(v, doc, g[0], text, cursor);
      StepSpec(v, doc, g[0], text, cursor);
      var rest := Walk(v, doc, g[1..], m.text, m.cursor);
      WalkPlaced(v, doc, g[1..], m.text, m.cursor);
      Rebuild.RangeHoldsGrow1(m.text, rest.text, m.placed);
      var ps := [m.placed] + rest.placed;
      assert Walk(v, doc, g, text, cursor) == Walked(rest.text, rest.cursor, ps);
      forall i | 0 <= i < |g|
        ensures && SameOffsets(ps[i].span, g[i])
                && (ps[i].newRange.Some? <==> !Drops(v, g[i]))
                && (!Drops(v, g[i]) ==> ps[i].span == g[i])
                && (Drops(v, g[i]) ==> ps[i].span.deleted)
                && Rebuild.RangeHolds(rest.text, ps[i])
      {
        if i > 0 {
          assert ps[i] == rest.placed[i - 1] && g[i] == g[1..][i - 1];
        }
      }
    }
  }

  /** The members the walk carries over are exactly the members the version retains. */
  lemma {:induction false} WalkRetains(v: Version, doc: string, g: seq<Span>, text: string, cursor: nat)
    ensures SpansOf(NewMembers(v, Walk(v, doc, g, text, cursor).placed)) == Retained(v, g)
    decreases |g|
  {
    if |g| > 0 {
      var m := Step(v, doc, g[0], text, cursor);
      var rest := Walk(v, doc, g[1..], m.text, m.cursor);
      WalkRetains(v, doc, g[1..], m.text, m.cursor);
      var ps := [m.placed] + rest.placed;
      assert ps[0] == m.placed && ps[1..] == rest.placed;
      assert Walk(v, doc, g, text, cursor).placed == ps;
    }
  }

  /** The text of all three groups, with the new members of each. */
  datatype Pass = Pass(text: string, citations: seq<Rebuild.Placed>, recitals: seq<Rebuild.Placed>,
                       articles: seq<Rebuild.Placed>)

  /** All spans of the document in walk order. */
  function AllSpans(d: EditDoc): seq<Span>
  {
    d.citations + d.recitals + d.articles
  }

  /** The walk over citations, recitals and articles, in that order, followed by the rest of the old text. */
  function Run(v: Version, d: EditDoc): Pass
  {
    var c := Walk(v, d.text, d.citations, "", 0);
    var rc := Walk(v, d.text, d.recitals, c.text, c.cursor);
    var a := Walk(v, d.text, d.articles, rc.text, rc.cursor);
    Pass(a.text + PySliceFrom(d.text, a.cursor), c.placed, rc.placed, a.placed)
  }

  /** Placements survive appending text. */
  lemma PlacementsGrow(v: Version, g: seq<Span>, ps: seq<Rebuild.Placed>, t: string, t': string)
    requires Placements(v, g, ps, t) && t <= t'
    ensures Placements(v, g, ps, t')
  {
    forall i | 0 <= i < |g| ensures Rebuild.RangeHolds(t', ps[i]) {
      Rebuild.RangeHoldsGrow1(t, t', ps[i]);
    }
  }

  /**
   * After the whole walk every member of every group is placed, with its
   * range holding in the final text, and each group carries over exactly
   * its retained members.
   */
  lemma RunPlaced(v: Version, d: EditDoc)
    ensures var r := Run(v, d);
      && Placements(v, d.citations, r.citations, r.text)
      && Placements(v, d.recitals, r.recitals, r.text)
      && Placements(v, d.articles, r.articles, r.text)
      && SpansOf(NewMembers(v, r.citations)) == Retained(v, d.citations)
      && SpansOf(NewMembers(v, r.recitals)) == Retained(v, d.recitals)
      && SpansOf(NewMembers(v, r.articles)) == Retained(v, d.articles)
  {
    var c := Walk(v, d.text, d.citations, "", 0);
    var rc := Walk(v, d.text, d.recitals, c.text, c.cursor);
    var a := Walk(v, d.text, d.articles, rc.text, rc.cursor);
    var text := a.text + PySliceFrom(d.text, a.cursor);
    WalkPlaced(v, d.text, d.citations, "", 0);
    WalkPlaced(v, d.text, d.recitals, c.text, c.cursor);
    WalkPlaced(v, d.text, d.articles, rc.text, rc.cursor);
    PlacementsGrow(v, d.citations, c.placed, c.text, text);
    PlacementsGrow(v, d.recitals, rc.placed, rc.text, text);
    PlacementsGrow(v, d.articles, a.placed, a.text, text);
    WalkRetains(v, d.text, d.citations, "", 0);
    WalkRetains(v, d.text, d.recitals, c.text, c.cursor);
    WalkRetains(v, d.text, d.articles, rc.text, rc.cursor);
  }

  // ---------------------------------------------------------------------
  // Untouched documents
  // ---------------------------------------------------------------------

  /** A member a version copies verbatim: no replacement, and not dropped. */
  predicate Copied(v: Version, s: Span)
  {
    s.replacement.None? && !Drops(v, s)
  }

  /** Members a version copies verbatim, each ending where its emitted text ends. */
  predicate Verbatim(v: Version, g: seq<Span>)
  {
    forall i :: 0 <= i < |g| ==> Copied(v, g[i]) && Tight(v, g[i])
  }

  /** Spans one after another from `c`, inside a text of length `n`. */
  predicate InOrder(g: seq<Span>, c: nat, n: nat)
  {
    |g| == 0 || (c <= g[0].start <= g[0].end <= n && InOrder(g[1..], g[0].end, n))
  }

  /** A span whose emitted text is its own text: always in the earliest version, without trailing whitespace in the early one. */
  predicate Tight(v: Version, s: Span)
  {
    v == Earliest || s.wsEnd == s.end
  }

  /**
   * Copied spans in order are emitted as the old text itself, and each
   * lands where it stood, shifted by what was emitted before the walk.
   */
  lemma {:induction false} WalkCopies(v: Version, doc: string, g: seq<Span>, text: string, c: nat)
    requires c <= |doc| && InOrder(g, c, |doc|)
    requires Verbatim(v, g)
    ensures var r := Walk(v, doc, g, text, c);
      && c <= r.cursor <= |doc|
      && r.text == text + doc[c..r.cursor]
    decreases |g|
  {
    if |g| > 0 {
      var h := g[0];
      var m := Step(v, doc, h, text, c);
      StepCopies(v, doc, h, text, c);
      WalkCopies(v, doc, g[1..], m.text, h.end);
      var rest := Walk(v, doc, g[1..], m.text, h.end);
      JoinAfter(doc, text, c, h.end, rest.cursor);
    }
  }

  /** Every placed span sits at its old span's offsets moved by `off`. */
  predicate LandsAt(g: seq<Span>, ps: seq<Rebuild.Placed>, off: int)
  {
    |ps| == |g| && forall i :: 0 <= i < |g| ==> ps[i].newRange == Some(Range(g[i].start + off, g[i].end + off))
  }

  /** Copied spans in order each land where they stood, shifted by what was emitted before the walk. */
  lemma {:induction false} WalkLands(v: Version, doc: string, g: seq<Span>, text: string, c: nat)
    requires c <= |doc| && InOrder(g, c, |doc|)
    requires Verbatim(v, g)
    ensures LandsAt(g, Walk(v, doc, g, text, c).placed, |text| - c)
    decreases |g|
  {
    if |g| > 0 {
      var h := g[0];
      var m := Step(v, doc, h, text, c);
      VerbatimTail(v, g);
      InOrderTail(g, c, |doc|);
      StepCopies(v, doc, h, text, c);
      WalkLands(v, doc, g[1..], m.text, h.end);
      LandsCons(g, m.placed, Walk(v, doc, g[1..], m.text, h.end).placed, |text| - c);
    }
  }

  lemma LandsCons(g: seq<Span>, p: Rebuild.Placed, ps: seq<Rebuild.Placed>, off: int)
    requires |g| > 0 && p.newRange == Some(Range(g[0].start + off, g[0].end + off))
    requires LandsAt(g[1..], ps, off)
    ensures LandsAt(g, [p] + ps, off)
  {
    forall i | 0 <= i < |g|
      ensures ([p] + ps)[i].newRange == Some(Range(g[i].start + off, g[i].end + off))
    {
      if i > 0 {
        assert ([p] + ps)[i] == ps[i - 1] && g[i] == g[1..][i - 1];
      }
    }
  }

  lemma VerbatimTail(v: Version, g: seq<Span>)
    requires |g| > 0 && Verbatim(v, g)
    ensures Copied(v, g[0]) && Tight(v, g[0]) && Verbatim(v, g[1..])
  {
    assert forall i :: 0 <= i < |g| - 1 ==> g[1..][i] == g[i + 1];
  }

  lemma InOrderTail(g: seq<Span>, c: nat, n: nat)
    requires |g| > 0 && InOrder(g, c, n)
    ensures c <= g[0].start <= g[0].end <= n && InOrder(g[1..], g[0].end, n)
  {
  }

  /** A copied span extends the text by the old text up to its end, and lands where it stood. */
  lemma StepCopies(v: Version, doc: string, h: Span, text: string, c: nat)
    requires c <= h.start <= h.end <= |doc| && Copied(v, h) && Tight(v, h)
    ensures Step(v, doc, h, text, c).text == text + doc[c..h.end]
    ensures |Step(v, doc, h, text, c).text| - h.end == |text| - c
    ensures Step(v, doc, h, text, c).placed.newRange == Some(Range(h.start + (|text| - c), h.end + (|text| - c)))
  {
    assert KeptText(v, doc, h) == doc[h.start..h.end];
    assert PySlice(doc, c, h.start) == doc[c..h.start];
    assert doc[c..h.start] + doc[h.start..h.end] == doc[c..h.end];
  }

  lemma JoinAfter(doc: string, text: string, a: nat, b: nat, e: nat)
    requires a <= b <= e <= |doc|
    ensures text + doc[a..b] + doc[b..e] == text + doc[a..e]
  {
    assert doc[a..b] + doc[b..e] == doc[a..e];
  }

  /** Joining `InOrder` runs. */
  lemma {:induction false} InOrderSplit(a: seq<Span>, b: seq<Span>, c: nat, n: nat)
    requires InOrder(a + b, c, n)
    ensures InOrder(a, c, n)
    ensures InOrder(b, if |a| == 0 then c else a[|a| - 1].end, n)
    decreases |a|
  {
    if |a| > 0 {
      assert (a + b)[1..] == a[1..] + b;
      InOrderSplit(a[1..], b, a[0].end, n);
    } else {
      assert a + b == b;
    }
  }

  /** Where the cursor stands after the spans `g`, read from `c`. */
  function EndOf(g: seq<Span>, c: nat): nat
  {
    if |g| == 0 then c else g[|g| - 1].end
  }

  /** A document whose spans a version copies verbatim, in order. */
  predicate Untouched(v: Version, d: EditDoc)
  {
    && InOrder(AllSpans(d), 0, |d.text|)
    && Verbatim(v, AllSpans(d))
  }

  /** Each group of an untouched document is in order after the one before, and copied verbatim. */
  lemma GroupsReady(v: Version, d: EditDoc)
    requires Untouched(v, d)
    ensures var e1 := EndOf(d.citations, 0); var e2 := EndOf(d.recitals, e1);
      && InOrder(d.citations, 0, |d.text|) && InOrder(d.recitals, e1, |d.text|) && InOrder(d.articles, e2, |d.text|)
      && e1 <= e2 <= |d.text|
      && Verbatim(v, d.citations) && Verbatim(v, d.recitals) && Verbatim(v, d.articles)
  {
    var all := AllSpans(d);
    assert all == d.citations + (d.recitals + d.articles);
    InOrderSplit(d.citations, d.recitals + d.articles, 0, |d.text|);
    InOrderSplit(d.recitals, d.articles, EndOf(d.citations, 0), |d.text|);
    InOrderEnd(d.citations, 0, |d.text|);
    InOrderEnd(d.recitals, EndOf(d.citations, 0), |d.text|);
    var n1 := |d.citations|;
    var n2 := |d.recitals|;
    forall i | 0 <= i < n1 ensures Copied(v, d.citations[i]) && Tight(v, d.citations[i]) {
      assert d.citations[i] == all[i];
    }
    forall i | 0 <= i < n2 ensures Copied(v, d.recitals[i]) && Tight(v, d.recitals[i]) {
      assert d.recitals[i] == all[n1 + i];
    }
    forall i | 0 <= i < |d.articles| ensures Copied(v, d.articles[i]) && Tight(v, d.articles[i]) {
      assert d.articles[i] == all[n1 + n2 + i];
    }
  }

  lemma {:induction false} InOrderEnd(g: seq<Span>, c: nat, n: nat)
    requires c <= n && InOrder(g, c, n)
    ensures c <= EndOf(g, c) <= n
    decreases |g|
  {
    if |g| > 1 {
      InOrderEnd(g[1..], g[0].end, n);
      assert EndOf(g[1..], g[0].end) == EndOf(g, c);
    }
  }

  lemma JoinRest(doc: string, e2: nat, e3: nat)
    requires e2 <= e3 <= |doc|
    ensures doc[..e2] + doc[e2..e3] + doc[e3..] == doc
  {
  }

  /** A document a version copies verbatim comes back with its old text. */
  lemma RunIdentity(v: Version, d: EditDoc)
    requires Untouched(v, d)
    ensures Run(v, d).text == d.text
  {
    var doc := d.text;
    GroupsReady(v, d);
    FrontCopied(v, d);
    var e2 := EndOf(d.recitals, EndOf(d.citations, 0));
    var c := Walk(v, doc, d.citations, "", 0);
    var rc := Walk(v, doc, d.recitals, c.text, c.cursor);
    var a := Walk(v, doc, d.articles, rc.text, rc.cursor);
    WalkCopies(v, doc, d.articles, rc.text, e2);
    JoinRest(doc, e2, a.cursor);
  }

  /** The walk over the citations of a verbatim document copies the old text up to their end. */
  lemma CitationsCopied(v: Version, d: EditDoc)
    requires Untouched(v, d)
    ensures var e1 := EndOf(d.citations, 0);
      var c := Walk(v, d.text, d.citations, "", 0);
      && e1 <= |d.text| && c.text == d.text[..e1] && c.cursor == e1
  {
    GroupsReady(v, d);
    var e1 := EndOf(d.citations, 0);
    WalkCopies(v, d.text, d.citations, "", 0);
    assert "" + d.text[0..e1] == d.text[..e1];
  }

  /** The walk over the citations and the recitals of a verbatim document copies the old text up to their end. */
  lemma FrontCopied(v: Version, d: EditDoc)
    requires Untouched(v, d)
    ensures var e1 := EndOf(d.citations, 0); var e2 := EndOf(d.recitals, e1);
      var c := Walk(v, d.text, d.citations, "", 0);
      && e1 <= e2 <= |d.text|
      && c.text == d.text[..e1] && c.cursor == e1
      && Walk(v, d.text, d.recitals, c.text, c.cursor).text == d.text[..e2]
      && Walk(v, d.text, d.recitals, c.text, c.cursor).cursor == e2
  {
    var doc := d.text;
    GroupsReady(v, d);
    CitationsCopied(v, d);
    var e1 := EndOf(d.citations, 0);
    var e2 := EndOf(d.recitals, e1);
    var c := Walk(v, doc, d.citations, "", 0);
    WalkCopies(v, doc, d.recitals, c.text, e1);
    JoinFront(doc, e1, e2);
  }

  lemma JoinFront(doc: string, e1: nat, e2: nat)
    requires e1 <= e2 <= |doc|
    ensures doc[..e1] + doc[e1..e2] == doc[..e2]
  {
  }

  /** In a document a version copies verbatim, every member lands where it stood. */
  lemma RunLands(v: Version, d: EditDoc)
    requires Untouched(v, d)
    ensures LandsAt(d.citations, Run(v, d).citations, 0)
    ensures LandsAt(d.recitals, Run(v, d).recitals, 0)
    ensures LandsAt(d.articles, Run(v, d).articles, 0)
  {
    CitationsLand(v, d);
    RecitalsLand(v, d);
    ArticlesLand(v, d);
  }

  lemma CitationsLand(v: Version, d: EditDoc)
    requires Untouched(v, d)
    ensures LandsAt(d.citations, Run(v, d).citations, 0)
  {
    GroupsReady(v, d);
    WalkLands(v, d.text, d.citations, "", 0);
  }

  lemma RecitalsLand(v: Version, d: EditDoc)
    requires Untouched(v, d)
    ensures LandsAt(d.recitals, Run(v, d).recitals, 0)
  {
    GroupsReady(v, d);
    FrontCursors(v, d);
    var c := Walk(v, d.text, d.citations, "", 0);
    var rc := Walk(v, d.text, d.recitals, c.text, c.cursor);
    assert Run(v, d).recitals == rc.placed;
    assert |c.text| - c.cursor == 0;
    WalkLands(v, d.text, d.recitals, c.text, c.cursor);
  }

  lemma ArticlesLand(v: Version, d: EditDoc)
    requires Untouched(v, d)
    ensures LandsAt(d.articles, Run(v, d).articles, 0)
  {
    GroupsReady(v, d);
    FrontCursors(v, d);
    var c := Walk(v, d.text, d.citations, "", 0);
    var rc := Walk(v, d.text, d.recitals, c.text, c.cursor);
    var a := Walk(v, d.text, d.articles, rc.text, rc.cursor);
    assert Run(v, d).articles == a.placed;
    assert |rc.text| - rc.cursor == 0;
    WalkLands(v, d.text, d.articles, rc.text, rc.cursor);
  }

  /** After the citations and the recitals of a verbatim document, the text emitted is as long as the old text read. */
  lemma FrontCursors(v: Version, d: EditDoc)
    requires Untouched(v, d)
    ensures var e1 := EndOf(d.citations, 0); var e2 := EndOf(d.recitals, e1);
      var c := Walk(v, d.text, d.citations, "", 0);
      var rc := Walk(v, d.text, d.recitals, c.text, c.cursor);
      && e1 <= e2 <= |d.text|
      && c.cursor == e1 && |c.text| == e1 && rc.cursor == e2 && |rc.text| == e2
  {
    FrontCopied(v, d);
  }

  // ---------------------------------------------------------------------
  // The early version: deletions and parts
  // ---------------------------------------------------------------------

  /** `delete_text(span)` of the early version: only the deleted flag, no whitespace kept. */
  function DeleteFlag(s: Span): (r: Span)
    ensures r.deleted && r.replacement == s.replacement
    ensures r.(deleted := s.deleted) == s
  {
    s.(deleted := true)
  }

  /**
   * The early `replace_text(span, new_text, ...)` asserts that it got a
   * string before it stores anything, so a non-string is an
   * AssertionError there rather than the TypeError of `_replace_text`.
   */
  function ReplaceTextChecked(doc: string, s: Span, newText: Arg, keepWs: bool, threshold: Option<int>)
    : (r: Result<Span>)
    ensures newText.OtherArg? <==> r == Err(AssertionError)
    ensures newText.StrArg? && !keepWs ==> r == Ok(s)
    ensures newText.StrArg? && keepWs && s.deleted ==> r == Err(ValueError)
    ensures r.Ok? && keepWs ==> r.value.replacement == Some(WsStart(doc, s) + newText.s + WsEnd(doc, s))
  {
    if newText.OtherArg? then Err(AssertionError)
    else ReplaceTextWrapper(doc, s, newText, keepWs, threshold)
  }

  /**
   * A span flagged by the early `delete_text` leaves no trace in the text
   * once something has been read, where the newer `_delete_text` keeps its
   * surrounding whitespace.
   */
  lemma DeleteFlagEmitsNothing(doc: string, s: Span, text: string, cursor: nat)
    requires cursor > 0 && s.replacement.None?
    ensures Step(Early, doc, DeleteFlag(s), text, cursor).text == text
    ensures Rebuild.IsDeletion(DeleteText(doc, s, true))
  {
  }

  /**
   * A recomputed part follows its group: None exactly when it was None,
   * and otherwise just as far before the first kept member and after the
   * last one as the old part was from the old first and last member.
   */
  predicate Follows(part: Option<Range>, orig: seq<Span>, kept: seq<Rebuild.Placed>, np: Option<Range>)
  {
    && (np.None? <==> part.None?)
    && (np.Some? && |orig| > 0 && |kept| > 0 && kept[0].newRange.Some? && kept[|kept| - 1].newRange.Some? ==>
          && kept[0].newRange.value.start - np.value.start == orig[0].start - part.value.start
          && np.value.end - kept[|kept| - 1].newRange.value.end == part.value.end - orig[|orig| - 1].end)
  }

  /** A new part: None stays None; otherwise it keeps its distances to the first and last element. */
  function ShiftPart(part: Option<Range>, orig: seq<Span>, moved: seq<Rebuild.Placed>): (r: Result<Option<Range>>)
    ensures r.Err? <==> part.Some? && (|orig| == 0 || |moved| == 0)
    ensures r.Err? ==> r.error == IndexError
    ensures r.Ok? ==> Follows(part, orig, moved, r.value)
  {
    if part.None? then Ok(None)
    else if |orig| == 0 || |moved| == 0 then Err(IndexError)
    else
      var firstDist := orig[0].start - part.value.start;
      var lastDist := part.value.end - orig[|orig| - 1].end;
      var a := if moved[0].newRange.Some? then moved[0].newRange.value.start else 0;
      var b := if moved[|moved| - 1].newRange.Some? then moved[|moved| - 1].newRange.value.end else 0;
      Ok(Some(Range(a - firstDist, b + lastDist)))
  }

  /** The annex keeps its gap after the enacting part and its length; a missing enacting part is an AttributeError. */
  function MoveAnnex(doc: string, prev: Parts, newEnacting: Option<Range>): (r: Result<Option<Range>>)
    ensures prev.annex.None? ==> r == Ok(None)
    ensures prev.annex.Some? && (prev.enacting.None? || newEnacting.None?) ==> r == Err(AttributeError)
    ensures prev.annex.Some? && prev.enacting.Some? && newEnacting.Some? ==>
      && r.Ok? && r.value.Some?
      && r.value.value.start - newEnacting.value.end == prev.annex.value.start - prev.enacting.value.end
      && r.value.value.end - r.value.value.start == |PySlice(doc, prev.annex.value.start, prev.annex.value.end)|
  {
    if prev.annex.None? then Ok(None)
    else if prev.enacting.None? || newEnacting.None? then Err(AttributeError)
    else
      var gap := prev.annex.value.start - prev.enacting.value.end;
      var start := newEnacting.value.end + gap;
      Ok(Some(Range(start, start + |PySlice(doc, prev.annex.value.start, prev.annex.value.end)|)))
  }

  /**
   * The two engines agree on where the annex goes exactly when it started
   * right at the end of the enacting part.
   */
  lemma AnnexVersionsAgree(prev: Parts, newEnacting: Range, doc: string)
    requires prev.annex.Some? && prev.enacting.Some?
    ensures MoveAnnex(doc, prev, Some(newEnacting)).Ok? && Rebuild.NewAnnex(prev, Some(newEnacting)).Ok?
    ensures MoveAnnex(doc, prev, Some(newEnacting)).value.value.start == Rebuild.NewAnnex(prev, Some(newEnacting)).value.value.start
            <==> prev.annex.value.start == prev.enacting.value.end
  {
  }

  /** A part whose group loses every member (or never had one): recomputing it raises IndexError. */
  predicate Emptied(part: Option<Range>, g: seq<Span>)
  {
    part.Some? && Rebuild.CountDeletions(g) == |g|
  }

  /** The early rebuild fails exactly when some part's group is emptied, or an annex has no enacting part. */
  predicate EarlyFails(d: EditDoc)
  {
    || Emptied(d.parts.citations, d.citations)
    || Emptied(d.parts.recitals, d.recitals)
    || Emptied(d.parts.enacting, d.articles)
    || Emptied(d.parts.enactingToc, d.articles)
    || (d.parts.annex.Some? && d.parts.enacting.None?)
  }

  /** The early rebuild's document: text, new groups and parts. */
  datatype EarlyRebuilt = EarlyRebuilt(text: string, citations: seq<Rebuild.Placed>, recitals: seq<Rebuild.Placed>,
                                       articles: seq<Rebuild.Placed>, parts: Parts)

  lemma {:induction false} RetainedCount(g: seq<Span>)
    ensures |Retained(Early, g)| == |g| - Rebuild.CountDeletions(g)
    decreases |g|
  {
    if |g| > 0 {
      RetainedCount(g[1..]);
    }
  }

  /** The members a group keeps after the early walk: as many as it had minus its deletions, each with a range that holds. */
  predicate KeptWell(g: seq<Span>, kept: seq<Rebuild.Placed>, text: string)
  {
    && SpansOf(kept) == Retained(Early, g)
    && |kept| == |g| - Rebuild.CountDeletions(g)
    && forall p | p in kept :: p.newRange.Some? && Rebuild.RangeHolds(text, p)
  }

  lemma KeptGroup(g: seq<Span>, ps: seq<Rebuild.Placed>, text: string)
    requires Placements(Early, g, ps, text)
    requires SpansOf(NewMembers(Early, ps)) == Retained(Early, g)
    ensures KeptWell(g, NewMembers(Early, ps), text)
  {
    RetainedCount(g);
    var kept := NewMembers(Early, ps);
    assert |SpansOf(kept)| == |kept|;
    forall p | p in kept ensures p.newRange.Some? && Rebuild.RangeHolds(text, p) {
      var i :| 0 <= i < |ps| && ps[i] == p;
    }
  }

  /** Every group of the early walk keeps its members well. */
  lemma EarlyMembers(d: EditDoc)
    ensures var p := Run(Early, d);
      && KeptWell(d.citations, NewMembers(Early, p.citations), p.text)
      && KeptWell(d.recitals, NewMembers(Early, p.recitals), p.text)
      && KeptWell(d.articles, NewMembers(Early, p.articles), p.text)
  {
    var p := Run(Early, d);
    RunPlaced(Early, d);
    KeptGroup(d.citations, p.citations, p.text);
    KeptGroup(d.recitals, p.recitals, p.text);
    KeptGroup(d.articles, p.articles, p.text);
  }

  /** The parts after an early rebuild, from the members each group kept. */
  function EarlyParts(d: EditDoc, cs: seq<Rebuild.Placed>, rs: seq<Rebuild.Placed>, arts: seq<Rebuild.Placed>)
    : (r: Result<Parts>)
    requires |cs| == |d.citations| - Rebuild.CountDeletions(d.citations)
    requires |rs| == |d.recitals| - Rebuild.CountDeletions(d.recitals)
    requires |arts| == |d.articles| - Rebuild.CountDeletions(d.articles)
    ensures r.Err? ==> r.error == IndexError || r.error == AttributeError
    ensures r.Ok? ==>
      && Follows(d.parts.citations, d.citations, cs, r.value.citations)
      && Follows(d.parts.recitals, d.recitals, rs, r.value.recitals)
      && Follows(d.parts.enacting, d.articles, arts, r.value.enacting)
      && Follows(d.parts.enactingToc, d.articles, arts, r.value.enactingToc)
    ensures r.Ok? ==>
      && (d.parts.annex.None? ==> r.value.annex.None?)
      && (d.parts.annex.Some? ==>
            && r.value.annex.Some? && r.value.enacting.Some? && d.parts.enacting.Some?
            && r.value.annex.value.start - r.value.enacting.value.end == d.parts.annex.value.start - d.parts.enacting.value.end
            && r.value.annex.value.end - r.value.annex.value.start
               == |PySlice(d.text, d.parts.annex.value.start, d.parts.annex.value.end)|)
  {
    var c :- ShiftPart(d.parts.citations, d.citations, cs);
    var rc :- ShiftPart(d.parts.recitals, d.recitals, rs);
    var e :- ShiftPart(d.parts.enacting, d.articles, arts);
    var t :- ShiftPart(d.parts.enactingToc, d.articles, arts);
    var a :- MoveAnnex(d.text, d.parts, e);
    Ok(Parts(c, rc, e, t, a))
  }

  /** Recomputing the parts fails exactly when a part's group was emptied, or an annex has no enacting part. */
  lemma EarlyPartsFail(d: EditDoc, cs: seq<Rebuild.Placed>, rs: seq<Rebuild.Placed>, arts: seq<Rebuild.Placed>)
    requires |cs| == |d.citations| - Rebuild.CountDeletions(d.citations)
    requires |rs| == |d.recitals| - Rebuild.CountDeletions(d.recitals)
    requires |arts| == |d.articles| - Rebuild.CountDeletions(d.articles)
    ensures EarlyParts(d, cs, rs, arts).Err? <==> EarlyFails(d)
  {
  }

  /**
   * `modify_doc` of the early version: the text, the members that were not
   * dropped, and each part moved with its first and last element.
   */
  function ModifyEarly(d: EditDoc): (r: Result<EarlyRebuilt>)
    ensures r.Err? <==> EarlyFails(d)
    ensures r.Err? ==> r.error == IndexError || r.error == AttributeError
    ensures r.Ok? ==>
      && r.value.text == Run(Early, d).text
      && KeptWell(d.citations, r.value.citations, r.value.text)
      && KeptWell(d.recitals, r.value.recitals, r.value.text)
      && KeptWell(d.articles, r.value.articles, r.value.text)
      && r.value.parts == EarlyParts(d, r.value.citations, r.value.recitals, r.value.articles).value
  {
    var p := Run(Early, d);
    var cs := NewMembers(Early, p.citations);
    var rs := NewMembers(Early, p.recitals);
    var arts := NewMembers(Early, p.articles);
    EarlyMembers(d);
    EarlyPartsFail(d, cs, rs, arts);
    var parts :- EarlyParts(d, cs, rs, arts);
    Ok(EarlyRebuilt(p.text, cs, rs, arts, parts))
  }

  /** In an untouched document the early walk keeps every member of every group. */
  lemma EarlyKeepsAll(d: EditDoc)
    requires Untouched(Early, d)
    ensures var p := Run(Early, d);
      && NewMembers(Early, p.citations) == p.citations && SpansOf(p.citations) == d.citations
      && NewMembers(Early, p.recitals) == p.recitals && SpansOf(p.recitals) == d.recitals
      && NewMembers(Early, p.articles) == p.articles && SpansOf(p.articles) == d.articles
  {
    var p := Run(Early, d);
    GroupsReady(Early, d);
    RunPlaced(Early, d);
    KeptFromPlacements(d.citations, p.citations, p.text);
    KeptFromPlacements(d.recitals, p.recitals, p.text);
    KeptFromPlacements(d.articles, p.articles, p.text);
  }

  /** Placed members copied verbatim are the old members, and the early version keeps them all. */
  lemma KeptFromPlacements(g: seq<Span>, ps: seq<Rebuild.Placed>, text: string)
    requires Placements(Early, g, ps, text) && Verbatim(Early, g)
    ensures NewMembers(Early, ps) == ps && SpansOf(ps) == g
  {
    assert forall i :: 0 <= i < |g| ==> ps[i].span == g[i] && !g[i].deleted;
    AllKept(g, ps);
  }

  /** Members that land where they stood give a part back unchanged. */
  lemma ShiftInPlace(part: Option<Range>, g: seq<Span>, ps: seq<Rebuild.Placed>)
    requires LandsAt(g, ps, 0) && (part.Some? ==> |g| > 0)
    ensures ShiftPart(part, g, ps) == Ok(part)
  {
  }

  /** With every member in place, the parts come back unchanged. */
  lemma PartsInPlace(d: EditDoc, cs: seq<Rebuild.Placed>, rs: seq<Rebuild.Placed>, arts: seq<Rebuild.Placed>)
    requires Rebuild.CountDeletions(d.citations) == 0 && Rebuild.CountDeletions(d.recitals) == 0
    requires Rebuild.CountDeletions(d.articles) == 0 && !EarlyFails(d)
    requires LandsAt(d.citations, cs, 0) && LandsAt(d.recitals, rs, 0) && LandsAt(d.articles, arts, 0)
    requires d.parts.annex.Some? ==> 0 <= d.parts.annex.value.start <= d.parts.annex.value.end <= |d.text|
    ensures EarlyParts(d, cs, rs, arts) == Ok(d.parts)
  {
    ShiftInPlace(d.parts.citations, d.citations, cs);
    ShiftInPlace(d.parts.recitals, d.recitals, rs);
    ShiftInPlace(d.parts.enacting, d.articles, arts);
    ShiftInPlace(d.parts.enactingToc, d.articles, arts);
  }

  /** No member of an untouched document counts as a deletion. */
  lemma {:induction false} NoDeletions(g: seq<Span>)
    requires forall i :: 0 <= i < |g| ==> !Drops(Early, g[i])
    ensures Rebuild.CountDeletions(g) == 0
    decreases |g|
  {
    if |g| > 0 {
      NoDeletions(g[1..]);
    }
  }

  /**
   * An early rebuild of an untouched document in order, without trailing
   * whitespace on its spans, gives back the document: the same text, the
   * same members at the same offsets, and the same parts.
   */
  lemma EarlyIdentity(d: EditDoc)
    requires Untouched(Early, d)
    requires !EarlyFails(d)
    requires d.parts.annex.Some? ==> 0 <= d.parts.annex.value.start <= d.parts.annex.value.end <= |d.text|
    ensures ModifyEarly(d).Ok?
    ensures ModifyEarly(d).value.text == d.text
    ensures SpansOf(ModifyEarly(d).value.citations) == d.citations
    ensures SpansOf(ModifyEarly(d).value.recitals) == d.recitals
    ensures SpansOf(ModifyEarly(d).value.articles) == d.articles
    ensures ModifyEarly(d).value.parts == d.parts
  {
    var p := Run(Early, d);
    RunIdentity(Early, d);
    EarlyKeepsAll(d);
    EarlyPartsInPlace(d);
    assert ModifyEarly(d) == Ok(EarlyRebuilt(p.text, p.citations, p.recitals, p.articles, d.parts));
  }

  /** The parts computed from an untouched document's walk are the old parts. */
  lemma EarlyPartsInPlace(d: EditDoc)
    requires Untouched(Early, d)
    requires !EarlyFails(d)
    requires d.parts.annex.Some? ==> 0 <= d.parts.annex.value.start <= d.parts.annex.value.end <= |d.text|
    ensures var p := Run(Early, d);
      && |p.citations| == |d.citations| - Rebuild.CountDeletions(d.citations)
      && |p.recitals| == |d.recitals| - Rebuild.CountDeletions(d.recitals)
      && |p.articles| == |d.articles| - Rebuild.CountDeletions(d.articles)
      && EarlyParts(d, p.citations, p.recitals, p.articles) == Ok(d.parts)
  {
    var p := Run(Early, d);
    RunLands(Early, d);
    GroupsReady(Early, d);
    NoDeletions(d.citations);
    NoDeletions(d.recitals);
    NoDeletions(d.articles);
    PartsInPlace(d, p.citations, p.recitals, p.articles);
  }

  lemma {:induction false} RetainedAll(g: seq<Span>)
    requires forall s | s in g :: !Drops(Early, s)
    ensures Retained(Early, g) == g
    decreases |g|
  {
    if |g| > 0 {
      assert forall s | s in g[1..] :: s in g;
      RetainedAll(g[1..]);
    }
  }

  /** With no member flagged deleted, the early version carries every placed span over. */
  lemma {:induction false} AllKept(g: seq<Span>, ps: seq<Rebuild.Placed>)
    requires |ps| == |g|
    requires forall i :: 0 <= i < |g| ==> ps[i].span == g[i] && !g[i].deleted
    ensures NewMembers(Early, ps) == ps
    decreases |g|
  {
    if |g| > 0 {
      AllKept(g[1..], ps[1..]);
      assert ps == [ps[0]] + ps[1..];
    }
  }

  // ---------------------------------------------------------------------
  // The earliest version
  // ---------------------------------------------------------------------

  /** The earliest rebuild's document: text and new groups; it recomputes no parts. */
  datatype EarliestRebuilt = EarliestRebuilt(text: string, citations: seq<Rebuild.Placed>,
                                             recitals: seq<Rebuild.Placed>, articles: seq<Rebuild.Placed>)

  /**
   * `modify_doc` of `eucy/modfiy.py`: every member, deleted or not, is
   * emitted and carried over with a range that holds its text.
   */
  function ModifyEarliest(d: EditDoc): (r: EarliestRebuilt)
    ensures SpansOf(r.citations) == d.citations
    ensures SpansOf(r.recitals) == d.recitals
    ensures SpansOf(r.articles) == d.articles
    ensures forall p :: p in r.citations || p in r.recitals || p in r.articles ==>
      p.newRange.Some? && Rebuild.RangeHolds(r.text, p)
  {
    var p := Run(Earliest, d);
    RunPlaced(Earliest, d);
    RetainedEverything(d.citations);
    RetainedEverything(d.recitals);
    RetainedEverything(d.articles);
    EveryRange(d.citations, p.citations, p.text);
    EveryRange(d.recitals, p.recitals, p.text);
    EveryRange(d.articles, p.articles, p.text);
    EarliestRebuilt(p.text, p.citations, p.recitals, p.articles)
  }

  lemma {:induction false} RetainedEverything(g: seq<Span>)
    ensures Retained(Earliest, g) == g
    decreases |g|
  {
    if |g| > 0 {
      RetainedEverything(g[1..]);
    }
  }

  /** In the earliest version every placed span has a range that holds. */
  lemma EveryRange(g: seq<Span>, ps: seq<Rebuild.Placed>, text: string)
    requires Placements(Earliest, g, ps, text)
    ensures forall p | p in ps :: p.newRange.Some? && Rebuild.RangeHolds(text, p)
  {
    forall p | p in ps ensures p.newRange.Some? && Rebuild.RangeHolds(text, p) {
      var i :| 0 <= i < |ps| && ps[i] == p;
    }
  }

  /**
   * The earliest version emits bare text, so an untouched document whose
   * spans are in order comes back unchanged whatever whitespace follows
   * its spans.
   */
  lemma EarliestIdentity(d: EditDoc)
    requires InOrder(AllSpans(d), 0, |d.text|)
    requires forall i :: 0 <= i < |AllSpans(d)| ==> AllSpans(d)[i].replacement.None?
    ensures ModifyEarliest(d).text == d.text
  {
    assert Untouched(Earliest, d);
    RunIdentity(Earliest, d);
  }

  /**
   * The early version repeats a span's trailing whitespace, as the newer
   * engine does: "ab c" with a citation "ab" comes back as "ab  c".
   */
  lemma TrailingWhitespaceEarly(d: EditDoc)
    requires d == EarlyExample()
    ensures ModifyEarly(d).Ok? && ModifyEarly(d).value.text == "ab  c"
  {
    assert TextWithWs(d.text, d.citations[0]) == "ab ";
    assert PySlice(d.text, 0, 0) == "";
    assert PySliceFrom(d.text, 2) == " c";
  }

  /** The earliest version emits the span without its whitespace: the same document comes back as "ab c". */
  lemma TrailingWhitespaceEarliest(d: EditDoc)
    requires d == EarlyExample()
    ensures ModifyEarliest(d).text == "ab c"
  {
    assert Text(d.text, d.citations[0]) == "ab";
    assert PySlice(d.text, 0, 0) == "";
    assert PySliceFrom(d.text, 2) == " c";
  }

  /** "ab c" with one citation "ab" whose trailing whitespace runs to the "c". */
  function EarlyExample(): EditDoc
  {
    EditDoc("ab c", [Plain(0, 2, 3)], [], [], None, [], Parts(None, None, None, None, None))
  }
}

=== FILE: edit_doc.dfy ===
/**
 * A document as the edit engine sees it: its text, the three element span
 * groups, the article elements and the parts; and the two document-level
 * tagging helpers of `eucy/utils.py`, `_add_element` (insert a new element
 * into a group) and `get_element_by_num` (look an element up by number).
 */
module EditDocs {
  import opened PyBase
  import opened Spans
  import opened ArticleEdits

  datatype GroupName = Citations | Recitals | Articles

  /** `doc._.parts`, each part a character range or None. */
  datatype Parts = Parts(
    citations: Option<Range>,
    recitals: Option<Range>,
    enacting: Option<Range>,
    enactingToc: Option<Range>,
    annex: Option<Range>)

  datatype EditDoc = EditDoc(
    text: string,
    citations: seq<Span>,
    recitals: seq<Span>,
    articles: seq<Span>,
    articleElements: Option<seq<Elements>>, // None when the extension is not registered
    arena: Arena,                           // the article-element span objects
    parts: Parts)

  /** `doc.spans[k]`. */
  function Group(d: EditDoc, k: GroupName): seq<Span>
  {
    match k
    case Citations => d.citations
    case Recitals => d.recitals
    case Articles => d.articles
  }

  /** `doc.spans[k] = g`. */
  function WithGroup(d: EditDoc, k: GroupName, g: seq<Span>): (r: EditDoc)
    ensures Group(r, k) == g
    ensures forall k' :: k' != k ==> Group(r, k') == Group(d, k')
    ensures r.text == d.text && r.articleElements == d.articleElements && r.arena == d.arena && r.parts == d.parts
  {
    match k
    case Citations => d.(citations := g)
    case Recitals => d.(recitals := g)
    case Articles => d.(articles := g)
  }

  /** `sg_without_new_elements(k)`: the members not flagged as new. */
  function NonNew(g: seq<Span>): (r: seq<Span>)
    ensures |r| <= |g|
    ensures forall i :: 0 <= i < |r| ==> !r[i].newElement
    ensures forall i :: 0 <= i < |g| && !g[i].newElement ==> g[i] in r
    ensures forall i :: 0 <= i < |r| ==> r[i] in g
  {
    if |g| == 0 then []
    else if g[0].newElement then NonNew(g[1..])
    else [g[0]] + NonNew(g[1..])
  }

  /** Every new element knows where it goes: `_add_element` always sets `char_pos`. */
  predicate PositionsSet(d: EditDoc)
  {
    forall k: GroupName :: Placeable(Group(d, k))
  }

  // ---------------------------------------------------------------------
  // _add_element
  // ---------------------------------------------------------------------

  /** The `element_type` argument. */
  datatype ElementType = Citation | Recital | Article | OtherType

  /** The `position` argument: 'end', 'start', an integer, or anything else. */
  datatype Position = End | Start | Index(i: int) | OtherPosition

  /** The `new_text` argument: a string, or an existing span. */
  datatype NewContent = NewText(text: string) | ExistingSpan(span: Span)

  function GroupOf(t: ElementType): GroupName
    requires t != OtherType
  {
    match t
    case Citation => Citations
    case Recital => Recitals
    case Article => Articles
  }

  /** The second assertion: 'end', 'start', an index of the group, or 0. */
  predicate PositionAccepted(p: Position, n: nat)
  {
    match p
    case End => true
    case Start => true
    case Index(i) => (0 <= i < n) || i == 0
    case OtherPosition => false
  }

  /** 'end' is the group length, 'start' is 0, and larger integers are cut down to the length. */
  function InsertIndex(p: Position, n: nat): (r: nat)
    requires PositionAccepted(p, n)
    ensures r <= n
    ensures p.End? ==> r == n
    ensures p.Start? ==> r == 0
    ensures p.Index? ==> r == p.i
  {
    match p
    case End => n
    case Start => 0
    case Index(i) => if i > n then n else i
  }

  /**
   * Where the new element will be placed in the old text. In a group with
   * original members: the start of the original member at the insert index,
   * or else the end of the last original member. In a group without any:
   * an article cannot be placed; a recital goes after the last original
   * citation, else before the first original article; a citation looks up
   * the misspelt group 'rectials', which fails, and so always goes before
   * the first original article.
   */
  function NewCharPos(d: EditDoc, k: GroupName, pos: nat): (r: Result<nat>)
    ensures var nn := NonNew(Group(d, k));
      && (|nn| > 0 && pos < |nn| ==> r == Ok(nn[pos].start))
      && (|nn| > 0 && pos >= |nn| ==> r == Ok(nn[|nn| - 1].end))
    ensures |NonNew(Group(d, k))| == 0 && k == Articles ==> r == Err(ValueError)
    ensures |NonNew(Group(d, k))| == 0 && k == Citations ==>
      r == (if |NonNew(d.articles)| > 0 then Ok(NonNew(d.articles)[0].start) else Err(IndexError))
    ensures |NonNew(Group(d, k))| == 0 && k == Recitals ==>
      r == (if |NonNew(d.citations)| > 0 then Ok(NonNew(d.citations)[|NonNew(d.citations)| - 1].end)
            else if |NonNew(d.articles)| > 0 then Ok(NonNew(d.articles)[0].start)
            else Err(IndexError))
  {
    var nn := NonNew(Group(d, k));
    if |nn| == 0 then
      var arts := NonNew(d.articles);
      var firstArticle := if |arts| > 0 then Ok(arts[0].start) else Err(IndexError);
      match k
      case Recitals =>
        var cits := NonNew(d.citations);
        if |cits| > 0 then Ok(cits[|cits| - 1].end) else firstArticle
      case Citations => firstArticle
      case Articles => Err(ValueError)
    else if pos < |nn| then Ok(nn[pos].start)
    else Ok(nn[|nn| - 1].end)
  }

  /**
   * The span `_add_element` inserts, before its `char_pos` is known: the
   * random placeholder span carrying the new text, or the given span with
   * its text as replacement if it had none; with `add_ws` the replacement is
   * the new text (for a span, its text WITH trailing whitespace) between
   * blank lines.
   */
  function NewSpan(doc: string, content: NewContent, addWs: bool, placeholder: Span): (r: Span)
    ensures r.newElement
    ensures addWs && content.NewText? ==> r.replacement == Some("\n\n" + content.text + "\n\n")
    ensures addWs && content.ExistingSpan? ==>
      r.replacement == Some("\n\n" + TextWithWs(doc, content.span) + "\n\n")
    ensures !addWs && content.NewText? ==> r.replacement == Some(content.text)
    ensures !addWs && content.ExistingSpan? ==>
      r.replacement == Some(ElementText(doc, content.span, true))
    ensures content.ExistingSpan? ==> SameOffsets(r, content.span)
  {
    var (s, text) := match content
      case NewText(t) => (placeholder.(replacement := Some(t)), t)
      case ExistingSpan(sp) =>
        (if sp.replacement.None? then sp.(replacement := Some(Text(doc, sp))) else sp, TextWithWs(doc, sp));
    var s' := if addWs then s.(replacement := Some("\n\n" + text + "\n\n")) else s;
    s'.(newElement := true)
  }

  /**
   * The group after `_add_element` writes the new span's replacement text,
   * new flag and `char_pos`. spaCy keys extension values by character range
   * (group spans carry no label), so every member with the new span's
   * offsets sees the writes; every other member is left as it was.
   */
  function Written(g: seq<Span>, s: Span): (r: seq<Span>)
    ensures |r| == |g|
    ensures forall i :: 0 <= i < |g| ==> r[i] == WrittenOne(g[i], s)
  {
    seq(|g|, i requires 0 <= i < |g| => WrittenOne(g[i], s))
  }

  /** One member after the writes of `s`. */
  function WrittenOne(m: Span, s: Span): (r: Span)
    ensures SameChars(m, s) ==> r == m.(replacement := s.replacement, newElement := s.newElement, charPos := s.charPos)
    ensures !SameChars(m, s) ==> r == m
  {
    if SameChars(m, s) then m.(replacement := s.replacement, newElement := s.newElement, charPos := s.charPos) else m
  }

  /** The writes seen through all three span groups of the document. */
  function WrittenDoc(d: EditDoc, s: Span): (r: EditDoc)
    ensures forall k :: Group(r, k) == Written(Group(d, k), s)
    ensures r.text == d.text && r.articleElements == d.articleElements && r.arena == d.arena && r.parts == d.parts
  {
    d.(citations := Written(d.citations, s), recitals := Written(d.recitals, s), articles := Written(d.articles, s))
  }

  /**
   * `_add_element(doc, new_text, element_type, position, add_ws)`, with the
   * random placeholder span as a parameter. The replacement text and the
   * new flag are written first, so members sharing the new span's range are
   * no longer original when `char_pos` is looked up; then `char_pos` is
   * written, and the new span is spliced into its group at the normalised
   * index. The two writes touch the same members, so the document after
   * them is the one written once with the placed span.
   */
  function AddElement(d: EditDoc, content: NewContent, t: ElementType, p: Position, addWs: bool,
                      placeholder: Span): (r: Result<EditDoc>)
    ensures t == OtherType ==> r == Err(AssertionError)
    ensures t != OtherType && !PositionAccepted(p, |Group(d, GroupOf(t))|) ==> r == Err(AssertionError)
    ensures t != OtherType && PositionAccepted(p, |Group(d, GroupOf(t))|) ==>
      var k := GroupOf(t);
      var g := Group(d, k);
      var idx := InsertIndex(p, |g|);
      var s := NewSpan(d.text, content, addWs, placeholder);
      var cp := NewCharPos(WrittenDoc(d, s), k, idx);
      && (r.Err? <==> cp.Err?)
      && (r.Ok? ==>
            var placed := s.(charPos := Some(cp.value));
            && r.value.text == d.text
            && |Group(r.value, k)| == |g| + 1
            && Group(r.value, k)[..idx] == Written(g, placed)[..idx]
            && Group(r.value, k)[idx + 1..] == Written(g, placed)[idx..]
            && Group(r.value, k)[idx] == placed
            && (forall k' :: k' != k ==> Group(r.value, k') == Written(Group(d, k'), placed)))
  {
    if t == OtherType then Err(AssertionError)
    else
      var k := GroupOf(t);
      var g := Group(d, k);
      if !PositionAccepted(p, |g|) then Err(AssertionError)
      else
        var idx := InsertIndex(p, |g|);
        var s := NewSpan(d.text, content, addWs, placeholder);
        var cp :- NewCharPos(WrittenDoc(d, s), k, idx);
        Ok(Spliced(d, k, idx, s.(charPos := Some(cp))))
  }

  /** The document with the placed span written through its range and spliced into group `k` at `idx`. */
  function Spliced(d: EditDoc, k: GroupName, idx: nat, placed: Span): (r: EditDoc)
    requires idx <= |Group(d, k)|
    ensures r.text == d.text
    ensures |Group(r, k)| == |Group(d, k)| + 1 && Group(r, k)[idx] == placed
    ensures Group(r, k)[..idx] == Written(Group(d, k), placed)[..idx]
    ensures Group(r, k)[idx + 1..] == Written(Group(d, k), placed)[idx..]
    ensures forall k' :: k' != k ==> Group(r, k') == Written(Group(d, k'), placed)
  {
    var d' := WrittenDoc(d, placed);
    WithGroup(d', k, InsertAt(Group(d', k), idx, placed))
  }

  /**
   * Removing the new element again gives back the old group with the
   * writes seen through the members of its range; when no member shares
   * that range, it gives back the old group itself.
   */
  lemma AddElementRemovable(d: EditDoc, content: NewContent, t: ElementType, p: Position, addWs: bool,
                            placeholder: Span)
    requires AddElement(d, content, t, p, addWs, placeholder).Ok?
    ensures t != OtherType
    ensures var k := GroupOf(t);
            var idx := InsertIndex(p, |Group(d, k)|);
            var g' := Group(AddElement(d, content, t, p, addWs, placeholder).value, k);
            && g'[..idx] + g'[idx + 1..] == Written(Group(d, k), g'[idx])
            && ((forall i :: 0 <= i < |Group(d, k)| ==> !SameChars(Group(d, k)[i], g'[idx])) ==>
                  g'[..idx] + g'[idx + 1..] == Group(d, k))
  {
    var placed := AddElementSplices(d, content, t, p, addWs, placeholder);
    SplicedRemovable(d, GroupOf(t), InsertIndex(p, |Group(d, GroupOf(t))|), placed);
  }

  lemma SplicedRemovable(d: EditDoc, k: GroupName, idx: nat, placed: Span)
    requires idx <= |Group(d, k)|
    ensures var g' := Group(Spliced(d, k, idx, placed), k);
            && g'[..idx] + g'[idx + 1..] == Written(Group(d, k), placed)
            && ((forall i :: 0 <= i < |Group(d, k)| ==> !SameChars(Group(d, k)[i], placed)) ==>
                  g'[..idx] + g'[idx + 1..] == Group(d, k))
  {
    var w := Written(Group(d, k), placed);
    assert Group(Spliced(d, k, idx, placed), k) == InsertAt(w, idx, placed);
    assert w[..idx] + w[idx..] == w;
    WrittenApart(Group(d, k), placed);
  }

  /** Writes to a range no member has leave the group as it was. */
  lemma WrittenApart(g: seq<Span>, s: Span)
    ensures (forall i :: 0 <= i < |g| ==> !SameChars(g[i], s)) ==> Written(g, s) == g
  {
  }

  /** A successful `_add_element` is the splice of the span it places. */
  lemma AddElementSplices(d: EditDoc, content: NewContent, t: ElementType, p: Position, addWs: bool,
                          placeholder: Span) returns (placed: Span)
    requires AddElement(d, content, t, p, addWs, placeholder).Ok?
    ensures t != OtherType && PositionAccepted(p, |Group(d, GroupOf(t))|)
    ensures placed.charPos.Some?
    ensures var idx := InsertIndex(p, |Group(d, GroupOf(t))|);
            AddElement(d, content, t, p, addWs, placeholder).value == Spliced(d, GroupOf(t), idx, placed)
  {
    var k := GroupOf(t);
    var idx := InsertIndex(p, |Group(d, k)|);
    var s := NewSpan(d.text, content, addWs, placeholder);
    placed := s.(charPos := Some(NewCharPos(WrittenDoc(d, s), k, idx).value));
  }

  /** Every new member of the group has a `char_pos`. */
  predicate Placeable(g: seq<Span>)
  {
    forall i :: 0 <= i < |g| && g[i].newElement ==> g[i].charPos.Some?
  }

  /** Writing a placed span keeps every new member placeable. */
  lemma WrittenPlaceable(g: seq<Span>, s: Span)
    requires Placeable(g) && s.charPos.Some?
    ensures Placeable(Written(g, s))
  {
  }

  /** Adding an element keeps every new element placeable. */
  lemma AddElementKeepsPositions(d: EditDoc, content: NewContent, t: ElementType, p: Position, addWs: bool,
                                 placeholder: Span)
    requires PositionsSet(d)
    requires AddElement(d, content, t, p, addWs, placeholder).Ok?
    ensures PositionsSet(AddElement(d, content, t, p, addWs, placeholder).value)
  {
    var placed := AddElementSplices(d, content, t, p, addWs, placeholder);
    SplicedPlaceable(d, GroupOf(t), InsertIndex(p, |Group(d, GroupOf(t))|), placed);
  }

  lemma SplicedPlaceable(d: EditDoc, k: GroupName, idx: nat, placed: Span)
    requires idx <= |Group(d, k)|
    requires PositionsSet(d) && placed.charPos.Some?
    ensures PositionsSet(Spliced(d, k, idx, placed))
  {
    var d' := WrittenDoc(d, placed);
    forall k': GroupName ensures Placeable(Group(d', k')) {
      WrittenPlaceable(Group(d, k'), placed);
    }
    InsertPlaceable(Group(d', k), idx, placed);
  }

  /** Inserting a placed span into a group of placeable members keeps it placeable. */
  lemma InsertPlaceable(g: seq<Span>, idx: nat, x: Span)
    requires idx <= |g| && Placeable(g) && x.charPos.Some?
    ensures Placeable(InsertAt(g, idx, x))
  {
    var r := InsertAt(g, idx, x);
    forall i | 0 <= i < |r| && r[i].newElement ensures r[i].charPos.Some? {
      if i < idx {
        assert r[i] == r[..idx][i] == g[i];
      } else if i > idx {
        assert r[i] == r[idx + 1..][i - idx - 1] == g[i - 1];
      }
    }
  }

  /**
   * Adding a group member again as an existing span marks the member itself
   * new, since it shares the range: with citations at 0-10 and 11-20 and the
   * second one added at index 1, the only original citation left is the
   * first, so the new element is placed at its end, and the old member is
   * flagged new with the same `char_pos`.
   */
  lemma AddedSpanMarksItsRange(d: EditDoc, c0: Span, c1: Span)
    requires c0 == Plain(0, 10, 11) && c1 == Plain(11, 20, 20)
    requires d.citations == [c0, c1]
    ensures var r := AddElement(d, ExistingSpan(c1), Citation, Index(1), false, c0);
            && r.Ok?
            && r.value.citations[1].charPos == Some(10)
            && r.value.citations[2].newElement
            && r.value.citations[2].charPos == Some(10)
  {
    var s := NewSpan(d.text, ExistingSpan(c1), false, c0);
    var w := Written(d.citations, s);
    assert w == [c0, w[1]] && w[1].newElement;
    assert NonNew(w[1..]) == [];
    assert NonNew(w) == [c0];
  }

  /**
   * An inserted citation in a document without original citations is always
   * placed before the first original article, whatever the recitals are.
   */
  lemma CitationAlwaysBeforeArticles(d: EditDoc, content: NewContent, p: Position, addWs: bool, placeholder: Span)
    requires |NonNew(d.citations)| == 0
    requires AddElement(d, content, Citation, p, addWs, placeholder).Ok?
    ensures var idx := InsertIndex(p, |d.citations|);
            var arts := NonNew(Written(d.articles, NewSpan(d.text, content, addWs, placeholder)));
            |arts| > 0
            && AddElement(d, content, Citation, p, addWs, placeholder).value.citations[idx].charPos == Some(arts[0].start)
  {
    WrittenKeepsNew(d.citations, NewSpan(d.text, content, addWs, placeholder));
  }

  /** The writes flag members new and never clear a flag, so they only shrink the original members. */
  lemma {:induction false} WrittenKeepsNew(g: seq<Span>, s: Span)
    requires s.newElement
    ensures |NonNew(Written(g, s))| <= |NonNew(g)|
    decreases |g|
  {
    if |g| > 0 {
      WrittenKeepsNew(g[1..], s);
      assert Written(g, s)[1..] == Written(g[1..], s);
    }
  }

  // ---------------------------------------------------------------------
  // get_element_by_num and get_element_text
  // ---------------------------------------------------------------------

  /** Python truthiness of an optional integer argument. */
  predicate Falsy(x: Option<int>)
  {
    x.None? || x.value == 0
  }

  /**
   * `get_element_by_num(doc, citation, recital, article, par, subpar, point,
   * indent)`. Its two assertions, as written, require `article` and `par` to
   * be None and `subpar`, `point`, `indent` to be falsy; after them only the
   * citation and recital lookups (1-based, so 0 reaches the last element)
   * remain, and with neither given it raises ValueError.
   */
  function GetElementByNum(d: EditDoc, citation: Option<int>, recital: Option<int>, article: Option<int>,
                           par: Option<int>, subpar: Option<int>, point: Option<int>, indent: Option<int>)
    : (r: Result<Span>)
    ensures !(article.None? && par.None? && Falsy(subpar) && Falsy(point) && Falsy(indent)) ==> r == Err(AssertionError)
    ensures article.Some? ==> r == Err(AssertionError)
    ensures article.None? && par.None? && Falsy(subpar) && Falsy(point) && Falsy(indent) ==>
      && (citation.Some? ==> r == PyGet(d.citations, citation.value - 1))
      && (citation.None? && recital.Some? ==> r == PyGet(d.recitals, recital.value - 1))
      && (citation.None? && recital.None? ==> r == Err(ValueError))
    ensures r.Ok? ==> r.value in d.citations || r.value in d.recitals
  {
    if !(article.None? && par.None? && Falsy(subpar) && Falsy(point) && Falsy(indent)) then Err(AssertionError)
    else if citation.Some? then PyGet(d.citations, citation.value - 1)
    else if recital.Some? then PyGet(d.recitals, recital.value - 1)
    else Err(ValueError)
  }
}

=== FILE: flatten.dfy ===
/**
 * `flatten`: the items of arbitrarily nested lists, in reading order.
 */
module Nesting {

  /** A Python list element: a nested list or any other value. */
  datatype Nested<T> = Item(value: T) | Sub(items: seq<Nested<T>>)

  /** `flatten(l)`: depth-first, left to right. */
  function Flatten<T>(l: seq<Nested<T>>): seq<T>
    decreases l
  {
    if |l| == 0 then []
    else
      (match l[0]
       case Item(v) => [v]
       case Sub(xs) => Flatten(xs))
      + Flatten(l[1..])
  }

  /** The number of non-list items at any depth. */
  function ItemCount<T>(l: seq<Nested<T>>): nat
    decreases l
  {
    if |l| == 0 then 0
    else
      (match l[0]
       case Item(_) => 1
       case Sub(xs) => ItemCount(xs))
      + ItemCount(l[1..])
  }

  /** Flattening distributes over concatenation of the outer list. */
  lemma {:induction false} FlattenAppend<T>(a: seq<Nested<T>>, b: seq<Nested<T>>)
    ensures Flatten(a + b) == Flatten(a) + Flatten(b)
    decreases a
  {
    if |a| > 0 {
      assert (a + b)[0] == a[0];
      assert (a + b)[1..] == a[1..] + b;
      FlattenAppend(a[1..], b);
    } else {
      assert a + b == b;
    }
  }

  /** Every item appears once: the flat list is as long as the item count. */
  lemma {:induction false} FlattenLength<T>(l: seq<Nested<T>>)
    ensures |Flatten(l)| == ItemCount(l)
    decreases l
  {
    if |l| > 0 {
      if l[0].Sub? {
        FlattenLength(l[0].items);
      }
      FlattenLength(l[1..]);
    }
  }

  /** A list without nested lists flattens to its own items. */
  lemma {:induction false} FlattenShallow<T>(l: seq<Nested<T>>)
    requires forall i :: 0 <= i < |l| ==> l[i].Item?
    ensures |Flatten(l)| == |l|
    ensures forall i :: 0 <= i < |l| ==> Flatten(l)[i] == l[i].value
    decreases l
  {
    if |l| > 0 {
      FlattenShallow(l[1..]);
    }
  }

  /** Wrapping a list in another list changes nothing. */
  lemma FlattenWrap<T>(l: seq<Nested<T>>)
    ensures Flatten([Sub(l)]) == Flatten(l)
  {
    assert [Sub(l)][1..] == [];
  }
}

=== FILE: markup.dfy ===
/**
 * `element_text_to_markup`: wrapping an element's text in an XML-like tag
 * that carries its type, its number and further attributes.
 */
module Markup {
  import opened PyBase

  /** One keyword argument `k=v`, already formatted as text. */
  datatype Attr = Attr(key: string, val: string)

  function Quote(v: string): string
  {
    "'" + v + "'"
  }

  /** `' '.join(f"{k}='{v}'" for k, v in kwargs.items())`. */
  function JoinAttrs(attrs: seq<Attr>): string
  {
    if |attrs| == 0 then ""
    else if |attrs| == 1 then attrs[0].key + "=" + Quote(attrs[0].val)
    else attrs[0].key + "=" + Quote(attrs[0].val) + " " + JoinAttrs(attrs[1..])
  }

  /** The opening tag `<type num='n' k='v'>`. */
  function OpenTag(elementType: string, elementNum: Option<string>, attrs: seq<Attr>): (r: string)
    ensures |r| >= 2 + |elementType| && r[0] == '<' && r[|r| - 1] == '>'
    ensures r[1..1 + |elementType|] == elementType
  {
    "<" + elementType
    + (if elementNum.Some? then " " else "")
    + (if elementNum.Some? then "num=" + Quote(elementNum.value) else "")
    + (if |attrs| > 0 then " " else "")
    + JoinAttrs(attrs)
    + ">"
  }

  function CloseTag(elementType: string): string
  {
    "</" + elementType + ">"
  }

  /**
   * `element_text_to_markup(text, element_type, element_num, keep_open, **kwargs)`;
   * the number is given as the text Python's formatting produces for it.
   */
  function ElementTextToMarkup(text: string, elementType: Option<string>, elementNum: Option<string>,
                               keepOpen: bool, attrs: seq<Attr>): (r: string)
    ensures elementType.None? ==> r == text
    ensures elementType.Some? ==> |r| >= |text| + 2 && r[0] == '<'
    ensures elementType.Some? && !keepOpen ==>
      |r| >= |CloseTag(elementType.value)| && r[|r| - |CloseTag(elementType.value)|..] == CloseTag(elementType.value)
    ensures elementType.Some? && keepOpen ==> r[|r| - |text|..] == text
  {
    match elementType
    case None => text
    case Some(t) => OpenTag(t, elementNum, attrs) + text + (if keepOpen then "" else CloseTag(t))
  }

  /**
   * Reads the element text back out of markup produced for a known tag: it
   * checks the opening tag and (unless kept open) the closing tag and
   * returns what lies between them.
   */
  function MarkupText(markup: string, elementType: Option<string>, elementNum: Option<string>,
                      keepOpen: bool, attrs: seq<Attr>): Option<string>
  {
    match elementType
    case None => Some(markup)
    case Some(t) =>
      var o := OpenTag(t, elementNum, attrs);
      var c := if keepOpen then "" else CloseTag(t);
      if |o| + |c| <= |markup| && markup[..|o|] == o && markup[|markup| - |c|..] == c
      then Some(markup[|o|..|markup| - |c|])
      else None
  }

  /** The markup wrapper loses nothing: the element text can always be read back. */
  lemma MarkupRoundTrip(text: string, elementType: Option<string>, elementNum: Option<string>,
                        keepOpen: bool, attrs: seq<Attr>)
    ensures MarkupText(ElementTextToMarkup(text, elementType, elementNum, keepOpen, attrs),
                       elementType, elementNum, keepOpen, attrs) == Some(text)
  {
    if elementType.Some? {
      var t := elementType.value;
      var o := OpenTag(t, elementNum, attrs);
      var c := if keepOpen then "" else CloseTag(t);
      var m := o + text + c;
      assert m[..|o|] == o;
      assert m[|m| - |c|..] == c;
      assert m[|o|..|m| - |c|] == text;
    }
  }
}

=== FILE: metrics.dfy ===
/**
 * The complexity measures of eucy/eucy.py: the structural size of the
 * enacting terms, the depth levels behind `avg_depth`, the group counts,
 * `reference_count`, and the `no_text` gate that decides whether any of
 * them is computed.
 */
module Metrics {
  import opened PyBase
  import opened Tokens
  import opened Segmentation

  // ---------------------------------------------------------------------
  // Element totals
  // ---------------------------------------------------------------------

  /** How many elements the lists hold together. */
  function Total(xs: seq<seq<Element>>): nat
  {
    if |xs| == 0 then 0 else |xs[0]| + Total(xs[1..])
  }

  /** How many elements the nested lists hold together. */
  function Total2(xs: seq<seq<seq<Element>>>): nat
  {
    if |xs| == 0 then 0 else Total(xs[0]) + Total2(xs[1..])
  }

  // ---------------------------------------------------------------------
  // structural_size
  // ---------------------------------------------------------------------

  /** `for indents, points in zip(subparindents, subparpoints)`: the indents and points counted. */
  function PairsSize(indents: seq<seq<Element>>, points: seq<seq<Element>>): nat
  {
    if |indents| == 0 || |points| == 0 then 0
    else |indents[0]| + |points[0]| + PairsSize(indents[1..], points[1..])
  }

  /**
   * `for subpar, subparpoints, subparindents in zip(...)`: per paragraph
   * entry its subparagraphs and their indents and points. `zip` stops at
   * the shortest list.
   */
  function EntriesSize(subpars: seq<seq<Element>>, points: seq<seq<seq<Element>>>, indents: seq<seq<seq<Element>>>): nat
  {
    if |subpars| == 0 || |points| == 0 || |indents| == 0 then 0
    else |subpars[0]| + PairsSize(indents[0], points[0]) + EntriesSize(subpars[1..], points[1..], indents[1..])
  }

  function ArticleSize(a: ArticleTree): nat
  {
    EntriesSize(a.subpars, a.points, a.indents)
  }

  /** The enacting size: summed over the articles. */
  function EnactingSize(arts: seq<ArticleTree>): nat
  {
    if |arts| == 0 then 0 else ArticleSize(arts[0]) + EnactingSize(arts[1..])
  }

  /**
   * `structural_size(doc, parts)`: the enacting size, plus the number of
   * recitals unless `parts` is exactly "enacting".
   */
  function StructuralSize(arts: seq<ArticleTree>, recitals: nat, parts: string): (r: nat)
    ensures parts == "enacting" ==> r == EnactingSize(arts)
    ensures parts != "enacting" ==> r == EnactingSize(arts) + recitals
  {
    if parts == "enacting" then EnactingSize(arts) else EnactingSize(arts) + recitals
  }

  /** `len(pars[p])` points and indents per subparagraph, every list as long as its partner. */
  predicate PairsShaped(subs: seq<Element>, points: seq<seq<Element>>, indents: seq<seq<Element>>)
  {
    |points| == |subs| && |indents| == |subs|
  }

  lemma {:induction false} PairsSizeCounts(indents: seq<seq<Element>>, points: seq<seq<Element>>)
    requires |indents| == |points|
    ensures PairsSize(indents, points) == Total(indents) + Total(points)
  {
    if |indents| > 0 {
      PairsSizeCounts(indents[1..], points[1..]);
    }
  }

  lemma {:induction false} EntriesSizeCounts(subpars: seq<seq<Element>>, points: seq<seq<seq<Element>>>, indents: seq<seq<seq<Element>>>)
    requires |points| == |subpars| && |indents| == |subpars|
    requires forall p :: 0 <= p < |subpars| ==> PairsShaped(subpars[p], points[p], indents[p])
    ensures EntriesSize(subpars, points, indents) == Total(subpars) + Total2(points) + Total2(indents)
  {
    if |subpars| > 0 {
      PairsSizeCounts(indents[0], points[0]);
      EntriesSizeCounts(subpars[1..], points[1..], indents[1..]);
    }
  }

  /**
   * For the trees `article_elements` returns, the structural size of an
   * article is the number of its subparagraphs, points and indents: the
   * zips lose nothing.
   */
  lemma ArticleSizeCounts(a: ArticleTree)
    requires Shaped(a)
    ensures ArticleSize(a) == Total(a.subpars) + Total2(a.points) + Total2(a.indents)
  {
    assert forall p :: 0 <= p < |a.subpars| ==> PairsShaped(a.subpars[p], a.points[p], a.indents[p]);
    EntriesSizeCounts(a.subpars, a.points, a.indents);
  }

  // ---------------------------------------------------------------------
  // avg_depth
  // ---------------------------------------------------------------------

  function Repeat(level: nat, n: nat): (r: seq<nat>)
    ensures |r| == n && forall i :: 0 <= i < n ==> r[i] == level
  {
    if n == 0 then [] else [level] + Repeat(level, n - 1)
  }

  /** One level per indent, then one per point, of each subparagraph in turn. */
  function PairsLevels(level: nat, indents: seq<seq<Element>>, points: seq<seq<Element>>): seq<nat>
  {
    if |indents| == 0 || |points| == 0 then []
    else Repeat(level, |indents[0]|) + Repeat(level, |points[0]|) + PairsLevels(level, indents[1..], points[1..])
  }

  /** Per paragraph entry: the paragraph level once, then its indents and points one level deeper. */
  function EntriesLevels(par: nat, subpars: seq<seq<Element>>, points: seq<seq<seq<Element>>>, indents: seq<seq<seq<Element>>>): seq<nat>
  {
    if |subpars| == 0 || |points| == 0 || |indents| == 0 then []
    else [par] + PairsLevels(par + 1, indents[0], points[0]) + EntriesLevels(par, subpars[1..], points[1..], indents[1..])
  }

  /** Paragraphs sit at level 2 when the article has more than one, else at level 1. */
  function ParLevel(a: ArticleTree): nat
  {
    if |a.subpars| > 1 then 2 else 1
  }

  /** `article_levels` of one article. */
  function ArticleLevels(a: ArticleTree): seq<nat>
  {
    EntriesLevels(ParLevel(a), a.subpars, a.points, a.indents)
  }

  /** Every level is the paragraph level or one below it. */
  predicate LevelsIn(ls: seq<nat>, lo: nat, hi: nat)
  {
    forall i :: 0 <= i < |ls| ==> lo <= ls[i] <= hi
  }

  /** How often `level` occurs. */
  function CountOf(ls: seq<nat>, level: nat): nat
  {
    if |ls| == 0 then 0 else (if ls[0] == level then 1 else 0) + CountOf(ls[1..], level)
  }

  lemma {:induction false} CountOfAppend(a: seq<nat>, b: seq<nat>, level: nat)
    ensures CountOf(a + b, level) == CountOf(a, level) + CountOf(b, level)
  {
    if |a| > 0 {
      assert (a + b)[1..] == a[1..] + b;
      CountOfAppend(a[1..], b, level);
    } else {
      assert a + b == b;
    }
  }

  lemma {:induction false} CountOfRepeat(level: nat, n: nat, other: nat)
    requires other != level
    ensures CountOf(Repeat(level, n), other) == 0
  {
    if n > 0 {
      CountOfRepeat(level, n - 1, other);
    }
  }

  lemma {:induction false} PairsLevelsFacts(level: nat, indents: seq<seq<Element>>, points: seq<seq<Element>>, other: nat)
    requires |indents| == |points| && other != level
    ensures |PairsLevels(level, indents, points)| == Total(indents) + Total(points)
    ensures LevelsIn(PairsLevels(level, indents, points), level, level)
    ensures CountOf(PairsLevels(level, indents, points), other) == 0
  {
    if |indents| > 0 {
      var a := Repeat(level, |indents[0]|);
      var b := Repeat(level, |points[0]|);
      var c := PairsLevels(level, indents[1..], points[1..]);
      PairsLevelsFacts(level, indents[1..], points[1..], other);
      CountOfRepeat(level, |indents[0]|, other);
      CountOfRepeat(level, |points[0]|, other);
      CountOfAppend(a, b, other);
      CountOfAppend(a + b, c, other);
    }
  }

  lemma {:induction false} EntriesLevelsFacts(par: nat, subpars: seq<seq<Element>>, points: seq<seq<seq<Element>>>, indents: seq<seq<seq<Element>>>)
    requires |points| == |subpars| && |indents| == |subpars|
    requires forall p :: 0 <= p < |subpars| ==> PairsShaped(subpars[p], points[p], indents[p])
    ensures |EntriesLevels(par, subpars, points, indents)| == |subpars| + Total2(points) + Total2(indents)
    ensures LevelsIn(EntriesLevels(par, subpars, points, indents), par, par + 1)
    ensures CountOf(EntriesLevels(par, subpars, points, indents), par) == |subpars|
  {
    if |subpars| > 0 {
      var a := PairsLevels(par + 1, indents[0], points[0]);
      var b := EntriesLevels(par, subpars[1..], points[1..], indents[1..]);
      PairsLevelsFacts(par + 1, indents[0], points[0], par);
      EntriesLevelsFacts(par, subpars[1..], points[1..], indents[1..]);
      CountOfAppend([par], a, par);
      CountOfAppend([par] + a, b, par);
      assert CountOf([par], par) == 1;
    }
  }

  /**
   * For the trees `article_elements` returns, the levels of an article are
   * one entry per paragraph at the paragraph level (2 with more than one
   * paragraph, else 1) and one per indent and point one level deeper.
   */
  lemma ArticleLevelsFacts(a: ArticleTree)
    requires Shaped(a)
    ensures |ArticleLevels(a)| == |a.pars| + Total2(a.points) + Total2(a.indents)
    ensures CountOf(ArticleLevels(a), ParLevel(a)) == |a.pars|
    ensures LevelsIn(ArticleLevels(a), ParLevel(a), ParLevel(a) + 1)
    ensures LevelsIn(ArticleLevels(a), 1, 3)
  {
    assert forall p :: 0 <= p < |a.subpars| ==> PairsShaped(a.subpars[p], a.points[p], a.indents[p]);
    EntriesLevelsFacts(ParLevel(a), a.subpars, a.points, a.indents);
  }

  function Sum(ls: seq<nat>): nat
  {
    if |ls| == 0 then 0 else ls[0] + Sum(ls[1..])
  }

  lemma {:induction false} SumBounds(ls: seq<nat>, lo: nat, hi: nat)
    requires LevelsIn(ls, lo, hi)
    ensures lo * |ls| <= Sum(ls) <= hi * |ls|
  {
    if |ls| > 0 {
      var n := |ls| - 1;
      assert LevelsIn(ls[1..], lo, hi) by {
        forall i | 0 <= i < n ensures lo <= ls[1..][i] <= hi {
          assert ls[1..][i] == ls[i + 1];
        }
      }
      assert lo <= ls[0] <= hi;
      SumBounds(ls[1..], lo, hi);
      MulStep(lo, n);
      MulStep(hi, n);
    }
  }

  /** `len(lvl)` summed over the articles. */
  function LevelCount(ls: seq<seq<nat>>): nat
  {
    if |ls| == 0 then 0 else |ls[0]| + LevelCount(ls[1..])
  }

  /** `sum(lvl)` summed over the articles. */
  function LevelSum(ls: seq<seq<nat>>): nat
  {
    if |ls| == 0 then 0 else Sum(ls[0]) + LevelSum(ls[1..])
  }

  /** `sum(lvl) / len(lvl)` summed over the articles with any level. */
  function ArticleMeans(ls: seq<seq<nat>>): real
  {
    if |ls| == 0 then 0.0
    else (if |ls[0]| == 0 then 0.0 else Sum(ls[0]) as real / |ls[0]| as real) + ArticleMeans(ls[1..])
  }

  function AllLevels(arts: seq<ArticleTree>): (r: seq<seq<nat>>)
    ensures |r| == |arts| && forall i :: 0 <= i < |arts| ==> r[i] == ArticleLevels(arts[i])
  {
    if |arts| == 0 then [] else [ArticleLevels(arts[0])] + AllLevels(arts[1..])
  }

  /**
   * `avg_depth(doc, basis)` in exact arithmetic. "element": all levels
   * averaged together, `None` without articles, and `None` too when no
   * article has a level (the division by zero is caught). "article": the
   * per-article means of the articles with levels, divided by the number of
   * all articles. Any other basis falls through to `None`.
   */
  function AvgDepth(arts: seq<ArticleTree>, basis: string): (r: Option<real>)
    ensures |arts| == 0 ==> r.None?
    ensures basis != "article" && basis != "element" ==> r.None?
    ensures basis == "element" && |arts| > 0 ==> (r.None? <==> LevelCount(AllLevels(arts)) == 0)
    ensures basis == "article" ==> (r.Some? <==> |arts| > 0)
  {
    var ls := AllLevels(arts);
    if basis == "article" then
      if |ls| == 0 then None else Some(ArticleMeans(ls) / |ls| as real)
    else if basis == "element" then
      if |ls| == 0 || LevelCount(ls) == 0 then None
      else Some(LevelSum(ls) as real / LevelCount(ls) as real)
    else None
  }

  predicate AllLevelsIn(ls: seq<seq<nat>>, lo: nat, hi: nat)
  {
    forall i :: 0 <= i < |ls| ==> LevelsIn(ls[i], lo, hi)
  }

  lemma {:induction false} LevelSumBounds(ls: seq<seq<nat>>)
    requires AllLevelsIn(ls, 1, 3)
    ensures LevelCount(ls) <= LevelSum(ls) <= 3 * LevelCount(ls)
  {
    if |ls| > 0 {
      SumBounds(ls[0], 1, 3);
      LevelSumBounds(ls[1..]);
    }
  }

  lemma {:induction false} ArticleMeansBounds(ls: seq<seq<nat>>)
    requires AllLevelsIn(ls, 1, 3)
    ensures 0.0 <= ArticleMeans(ls) <= 3.0 * |ls| as real
  {
    if |ls| > 0 {
      ArticleMeansBounds(ls[1..]);
      if |ls[0]| > 0 {
        SumBounds(ls[0], 1, 3);
        MeanBounds(Sum(ls[0]), |ls[0]|);
      }
    }
  }

  lemma MeanBounds(s: nat, n: nat)
    requires 0 < n && n <= s <= 3 * n
    ensures 1.0 <= s as real / n as real <= 3.0
  {
    var q := s as real / n as real;
    assert q * n as real == s as real;
  }

  /**
   * For the trees `article_elements` returns, the element-basis average
   * depth lies between 1 and 3, and the article-basis one between 0 and 3
   * (articles without levels count in the denominator only).
   */
  lemma AvgDepthBounds(arts: seq<ArticleTree>)
    requires forall i :: 0 <= i < |arts| ==> Shaped(arts[i])
    ensures var r := AvgDepth(arts, "element"); r.Some? ==> 1.0 <= r.value <= 3.0
    ensures var r := AvgDepth(arts, "article"); r.Some? ==> 0.0 <= r.value <= 3.0
  {
    var ls := AllLevels(arts);
    forall i | 0 <= i < |ls|
      ensures LevelsIn(ls[i], 1, 3)
    {
      ArticleLevelsFacts(arts[i]);
    }
    if |ls| > 0 {
      LevelSumBounds(ls);
      if LevelCount(ls) > 0 {
        MeanBounds(LevelSum(ls), LevelCount(ls));
      }
      ArticleMeansBounds(ls);
      var n := |ls| as real;
      var q := ArticleMeans(ls) / n;
      assert q * n == ArticleMeans(ls);
    }
  }

  // ---------------------------------------------------------------------
  // reference_count
  // ---------------------------------------------------------------------

  /** A reference found in an entity: its `relation` entry, if the dict has one. */
  datatype Reference = Reference(relation: Option<string>)

  /** A named entity: its label (`label_`) and, for references, the `references` extension. */
  datatype Entity = Entity(kind: string, references: seq<Reference>)

  /** `ref.get('relation', 'NONE')`. */
  function RelationKey(r: Reference): string
  {
    if r.relation.Some? then r.relation.value else "NONE"
  }

  function Bump(m: map<string, nat>, k: string): (r: map<string, nat>)
    ensures r.Keys == m.Keys + {k}
    ensures r[k] == (if k in m then m[k] else 0) + 1
    ensures forall j :: j in m && j != k ==> r[j] == m[j]
  {
    m[k := (if k in m then m[k] else 0) + 1]
  }

  function BumpAll(m: map<string, nat>, refs: seq<Reference>): map<string, nat>
    decreases |refs|
  {
    if |refs| == 0 then m else BumpAll(Bump(m, RelationKey(refs[0])), refs[1..])
  }

  function CountEntities(m: map<string, nat>, ents: seq<Entity>): map<string, nat>
    decreases |ents|
  {
    if |ents| == 0 then m
    else CountEntities(if ents[0].kind == "REFERENCE" then BumpAll(m, ents[0].references) else m, ents[1..])
  }

  /** `reference_count(doc)` over `doc.ents`. */
  function ReferenceCount(ents: seq<Entity>): map<string, nat>
  {
    CountEntities(map["internal" := 0, "external" := 0], ents)
  }

  /** The references with relation `k`, counted independently of the map. */
  function RefTally(refs: seq<Reference>, k: string): nat
  {
    if |refs| == 0 then 0 else (if RelationKey(refs[0]) == k then 1 else 0) + RefTally(refs[1..], k)
  }

  /** The references with relation `k` in the REFERENCE entities. */
  function Tally(ents: seq<Entity>, k: string): nat
  {
    if |ents| == 0 then 0
    else (if ents[0].kind == "REFERENCE" then RefTally(ents[0].references, k) else 0) + Tally(ents[1..], k)
  }

  function Get0(m: map<string, nat>, k: string): nat
  {
    if k in m then m[k] else 0
  }

  lemma {:induction false} BumpAllCounts(m: map<string, nat>, refs: seq<Reference>, k: string)
    ensures Get0(BumpAll(m, refs), k) == Get0(m, k) + RefTally(refs, k)
    ensures k in BumpAll(m, refs) <==> k in m || RefTally(refs, k) > 0
    decreases |refs|
  {
    if |refs| > 0 {
      BumpAllCounts(Bump(m, RelationKey(refs[0])), refs[1..], k);
    }
  }

  lemma {:induction false} CountEntitiesCounts(m: map<string, nat>, ents: seq<Entity>, k: string)
    ensures Get0(CountEntities(m, ents), k) == Get0(m, k) + Tally(ents, k)
    ensures k in CountEntities(m, ents) <==> k in m || Tally(ents, k) > 0
    decreases |ents|
  {
    if |ents| > 0 {
      if ents[0].kind == "REFERENCE" {
        BumpAllCounts(m, ents[0].references, k);
        CountEntitiesCounts(BumpAll(m, ents[0].references), ents[1..], k);
      } else {
        CountEntitiesCounts(m, ents[1..], k);
      }
    }
  }

  /**
   * The counter always has the keys "internal" and "external"; every other
   * key is a relation that occurs; each key maps to the number of
   * references in REFERENCE entities with that relation.
   */
  lemma ReferenceCountTallies(ents: seq<Entity>, k: string)
    ensures "internal" in ReferenceCount(ents) && "external" in ReferenceCount(ents)
    ensures k in ReferenceCount(ents) <==> k == "internal" || k == "external" || Tally(ents, k) > 0
    ensures k in ReferenceCount(ents) ==> ReferenceCount(ents)[k] == Tally(ents, k)
  {
    var m0 := map["internal" := 0, "external" := 0];
    CountEntitiesCounts(m0, ents, k);
    CountEntitiesCounts(m0, ents, "internal");
    CountEntitiesCounts(m0, ents, "external");
  }

  // ---------------------------------------------------------------------
  // The no_text gate and the complexity measures
  // ---------------------------------------------------------------------

  /** `len(doc.text.strip()) - len(doc._.title.strip()) < 500`. */
  predicate NoText(text: string, title: string)
  {
    |Strip(text)| - |Strip(title)| < 500
  }

  /** `doc._.complexity`. */
  datatype Complexity = Complexity(
    citations: nat,
    recitals: nat,
    articles: nat,
    structuralSize: nat,
    structuralSizeEnacting: nat,
    references: map<string, nat>,
    avgDepth: Option<real>,
    avgArticleDepth: Option<real>)

  /** What the pipeline holds once structure, elements and references are found. */
  datatype Analysed = Analysed(
    citations: seq<TokSpan>,
    recitals: seq<TokSpan>,
    articles: seq<Element>,
    articleElements: seq<ArticleTree>,
    ents: seq<Entity>)

  /**
   * The measures `EuWrapper.__call__` stores, or nothing when the text is
   * too short besides its title (`no_text`), in which case no measure is
   * computed at all.
   */
  function Measure(text: string, title: string, a: Analysed): (r: Option<Complexity>)
    ensures r.None? <==> NoText(text, title)
    ensures r.Some? ==>
      r.value.citations == |a.citations| && r.value.recitals == |a.recitals| && r.value.articles == |a.articles|
      && r.value.structuralSize == r.value.structuralSizeEnacting + |a.recitals|
      && r.value.structuralSizeEnacting == StructuralSize(a.articleElements, |a.recitals|, "enacting")
      && r.value.references == ReferenceCount(a.ents)
      && r.value.avgDepth == AvgDepth(a.articleElements, "element")
      && r.value.avgArticleDepth == AvgDepth(a.articleElements, "article")
    ensures r.Some? ==>
      && "internal" in r.value.references && "external" in r.value.references
      && forall k :: k in r.value.references ==> r.value.references[k] == Tally(a.ents, k)
    ensures r.Some? && (forall i :: 0 <= i < |a.articleElements| ==> Shaped(a.articleElements[i])) ==>
      && (r.value.avgDepth.Some? ==> 1.0 <= r.value.avgDepth.value <= 3.0)
      && (r.value.avgArticleDepth.Some? ==> 0.0 <= r.value.avgArticleDepth.value <= 3.0)
  {
    if NoText(text, title) then None
    else
      ReferenceCountTallies(a.ents, "internal");
      CountsAreTallies(a.ents);
      DepthsBounded(a.articleElements);
      Some(Complexity(
        |a.citations|,
        |a.recitals|,
        |a.articles|,
        StructuralSize(a.articleElements, |a.recitals|, "all"),
        StructuralSize(a.articleElements, |a.recitals|, "enacting"),
        ReferenceCount(a.ents),
        AvgDepth(a.articleElements, "element"),
        AvgDepth(a.articleElements, "article")))
  }

  /** Every key of the reference counter holds its independent tally. */
  lemma CountsAreTallies(ents: seq<Entity>)
    ensures forall k :: k in ReferenceCount(ents) ==> ReferenceCount(ents)[k] == Tally(ents, k)
  {
    forall k | k in ReferenceCount(ents) ensures ReferenceCount(ents)[k] == Tally(ents, k) {
      ReferenceCountTallies(ents, k);
    }
  }

  /** The depth bounds of `AvgDepthBounds`, whenever every article tree is shaped. */
  lemma DepthsBounded(arts: seq<ArticleTree>)
    ensures (forall i :: 0 <= i < |arts| ==> Shaped(arts[i])) ==>
      && (var r := AvgDepth(arts, "element"); r.Some? ==> 1.0 <= r.value <= 3.0)
      && (var r := AvgDepth(arts, "article"); r.Some? ==> 0.0 <= r.value <= 3.0)
  {
    if forall i :: 0 <= i < |arts| ==> Shaped(arts[i]) {
      AvgDepthBounds(arts);
    }
  }
}

=== FILE: numerals.dfy ===
/**
 * The numeral conversions used when references name ranges of points or
 * paragraphs ("points (a) to (d)", "paragraphs II to IV"): letters to
 * integers and back, Roman numerals to integers and back.
 */
module Numerals {
  import opened PyBase

  // ---------------------------------------------------------------------
  // Letters
  // ---------------------------------------------------------------------

  /**
   * `ord(letter.lower().strip()) - 96`; `ord` raises TypeError unless the
   * stripped text is exactly one character. Lower-casing is ASCII-only.
   */
  function LetterToInt(letter: string): (r: Result<int>)
    ensures r.Ok? <==> |Strip(Lower(letter))| == 1
    ensures |letter| == 1 && IsAsciiLowerLetter(letter[0]) ==> r == Ok(letter[0] as int - 96)
    ensures |letter| == 1 && IsAsciiUpperLetter(letter[0]) ==> r == Ok(letter[0] as int - 64)
  {
    if |letter| == 1 && (IsAsciiLowerLetter(letter[0]) || IsAsciiUpperLetter(letter[0])) then
      SingleLetter(letter);
      Ok(LowerChar(letter[0]) as int - 96)
    else
      var t := Strip(Lower(letter));
      if |t| != 1 then Err(TypeError) else Ok(t[0] as int - 96)
  }

  lemma SingleLetter(letter: string)
    requires |letter| == 1 && (IsAsciiLowerLetter(letter[0]) || IsAsciiUpperLetter(letter[0]))
    ensures Strip(Lower(letter)) == [LowerChar(letter[0])]
  {
    assert Lower(letter) == [LowerChar(letter[0])];
    StripNonSpace(LowerChar(letter[0]));
  }

  /**
   * `chr(96 + num)`; `chr` raises ValueError outside the code point range.
   * Dafny's characters are Unicode scalar values, so surrogates raise too.
   */
  function IntToLetter(num: int): (r: Result<char>)
    ensures 1 <= num <= 26 ==> r.Ok? && IsAsciiLowerLetter(r.value)
    ensures r.Ok? ==> r.value as int == 96 + num
    ensures 96 + num < 0 || 96 + num > 0x10FFFF ==> r.Err?
  {
    var c := 96 + num;
    if 0 <= c < 0xD800 || 0xE000 <= c <= 0x10FFFF then Ok(c as char) else Err(ValueError)
  }

  /** A letter goes to its alphabet position and back to its lower-case form. */
  lemma LetterRoundTrip(c: char)
    requires IsAsciiLowerLetter(c) || IsAsciiUpperLetter(c)
    ensures LetterToInt([c]).Ok?
    ensures 1 <= LetterToInt([c]).value <= 26
    ensures IntToLetter(LetterToInt([c]).value) == Ok(LowerChar(c))
  {
  }

  /** An alphabet position goes to its letter and back. */
  lemma LetterPositionRoundTrip(n: int)
    requires 1 <= n <= 26
    ensures IntToLetter(n).Ok?
    ensures LetterToInt([IntToLetter(n).value]) == Ok(n)
  {
  }

  // ---------------------------------------------------------------------
  // Roman numerals
  // ---------------------------------------------------------------------

  predicate IsRomanChar(c: char)
  {
    c == 'I' || c == 'V' || c == 'X' || c == 'L' || c == 'C' || c == 'D' || c == 'M'
  }

  predicate AllRoman(s: string)
  {
    forall i :: 0 <= i < |s| ==> IsRomanChar(s[i])
  }

  /** The lookup table of `roman_to_int`. */
  function RomanDigit(c: char): nat
    requires IsRomanChar(c)
  {
    match c
    case 'I' => 1
    case 'V' => 5
    case 'X' => 10
    case 'L' => 50
    case 'C' => 100
    case 'D' => 500
    case _ => 1000
  }

  /**
   * The value `roman_to_int` accumulates: every digit but the last is added,
   * or subtracted when the digit after it is larger; the last is added.
   */
  function RomanSum(s: string): int
    requires |s| >= 1 && AllRoman(s)
    decreases |s|
  {
    if |s| == 1 then RomanDigit(s[0])
    else
      (if RomanDigit(s[0]) < RomanDigit(s[1]) then -(RomanDigit(s[0]) as int) else RomanDigit(s[0]))
      + RomanSum(s[1..])
  }

  /**
   * `roman_to_int(s)`: the empty string fails on `s[-1]` with IndexError and
   * any character outside IVXLCDM fails the table lookup with KeyError.
   */
  function RomanToInt(s: string): (r: Result<int>)
    ensures r == Err(IndexError) <==> |s| == 0
    ensures r == Err(KeyError) <==> |s| > 0 && !AllRoman(s)
    ensures r.Ok? <==> |s| > 0 && AllRoman(s)
  {
    if |s| == 0 then Err(IndexError)
    else if !AllRoman(s) then Err(KeyError)
    else Ok(RomanSum(s))
  }

  /** One entry of `int_to_roman`'s ordered table. */
  datatype RomanEntry = RomanEntry(value: nat, symbol: string)

  /** The thirteen entries of the table, in the order the generator visits them. */
  const RomanTable: seq<RomanEntry> := [
    RomanEntry(1000, "M"), RomanEntry(900, "CM"), RomanEntry(500, "D"), RomanEntry(400, "CD"),
    RomanEntry(100, "C"), RomanEntry(90, "XC"), RomanEntry(50, "L"), RomanEntry(40, "XL"),
    RomanEntry(10, "X"), RomanEntry(9, "IX"), RomanEntry(5, "V"), RomanEntry(4, "IV"),
    RomanEntry(1, "I")]

  /** `s * x`, which is empty for `x <= 0`. */
  function Repeat(s: string, x: int): (r: string)
    ensures x <= 0 ==> r == []
    ensures AllRoman(s) ==> AllRoman(r)
    decreases x
  {
    if x <= 0 then [] else AppendRoman(s, Repeat(s, x - 1))
  }

  /** Concatenation, with the fact that it keeps a string within IVXLCDM. */
  function AppendRoman(a: string, b: string): (r: string)
    ensures r == a + b
    ensures AllRoman(a) && AllRoman(b) ==> AllRoman(r)
  {
    a + b
  }

  predicate SymbolsRoman(table: seq<RomanEntry>)
  {
    forall i :: 0 <= i < |table| ==> AllRoman(table[i].symbol)
  }

  /**
   * The generator in `int_to_roman` over the remaining `table`: emit the
   * symbol `num // value` times (floor division), subtract, and stop once
   * `num <= 0` or the table is exhausted.
   */
  function Greedy(num: int, table: seq<RomanEntry>): (r: string)
    requires forall i :: 0 <= i < |table| ==> table[i].value >= 1
    ensures SymbolsRoman(table) ==> AllRoman(r)
    decreases |table|
  {
    if |table| == 0 then []
    else
      var e := table[0];
      var x := num / e.value;
      var piece := Repeat(e.symbol, x);
      var rest := num - e.value * x;
      if rest <= 0 then piece else AppendRoman(piece, Greedy(rest, table[1..]))
  }

  /** `int_to_roman(num)`. */
  function IntToRoman(num: int): (r: string)
    ensures AllRoman(r)
  {
    RomanTableShape();
    Greedy(num, RomanTable)
  }

  /** What the round trip needs of an entry: its symbol spells its value, no subtraction at its end. */
  predicate EntryOk(e: RomanEntry)
  {
    1 <= |e.symbol| && AllRoman(e.symbol) && e.value >= 1 && RomanSum(e.symbol) == e.value
    && RomanDigit(e.symbol[0]) <= e.value <= RomanDigit(e.symbol[|e.symbol| - 1])
    && RomanDigit(e.symbol[0]) <= RomanDigit(e.symbol[|e.symbol| - 1])
  }

  predicate TableOk(table: seq<RomanEntry>)
  {
    |table| >= 1 && table[|table| - 1].value == 1
    && forall i :: 0 <= i < |table| ==> EntryOk(table[i])
  }

  lemma RomanTableOk()
    ensures TableOk(RomanTable)
  {
    RomanTableHigh();
    RomanTableLow();
  }

  lemma RomanTableHigh()
    ensures forall i :: 0 <= i < 7 ==> EntryOk(RomanTable[i])
  {
  }

  lemma RomanTableLow()
    ensures forall i :: 7 <= i < 13 ==> EntryOk(RomanTable[i])
  {
  }

  /** Every symbol of the table is written in IVXLCDM and every value is positive. */
  lemma RomanTableShape()
    ensures SymbolsRoman(RomanTable)
    ensures forall i :: 0 <= i < |RomanTable| ==> RomanTable[i].value >= 1
  {
  }

  /** Appending keeps the sum additive when no subtraction straddles the join. */
  lemma {:induction false} RomanSumAppend(a: string, b: string)
    requires |a| >= 1 && |b| >= 1 && AllRoman(a) && AllRoman(b)
    requires RomanDigit(a[|a| - 1]) >= RomanDigit(b[0])
    ensures AllRoman(a + b)
    ensures RomanSum(a + b) == RomanSum(a) + RomanSum(b)
    decreases |a|
  {
    var ab := a + b;
    assert ab[1..] == a[1..] + b;
    if |a| > 1 {
      RomanSumAppend(a[1..], b);
    }
  }

  lemma RepeatFacts(s: string, x: int)
    requires 1 <= |s| && AllRoman(s) && RomanDigit(s[0]) <= RomanDigit(s[|s| - 1])
    ensures x >= 1 ==>
      |Repeat(s, x)| >= 1 && Repeat(s, x)[0] == s[0]
      && Repeat(s, x)[|Repeat(s, x)| - 1] == s[|s| - 1]
      && RomanSum(Repeat(s, x)) == x * RomanSum(s)
  {
    if x >= 1 {
      RepeatEnds(s, x);
      RepeatSum(s, x);
    }
  }

  /** A positive number of copies starts and ends like the copied symbol. */
  lemma {:induction false} RepeatEnds(s: string, x: int)
    requires 1 <= |s| && x >= 1
    ensures |Repeat(s, x)| >= 1 && Repeat(s, x)[0] == s[0]
    ensures Repeat(s, x)[|Repeat(s, x)| - 1] == s[|s| - 1]
    decreases x
  {
    if x > 1 {
      RepeatEnds(s, x - 1);
      assert Repeat(s, x) == s + Repeat(s, x - 1);
    } else {
      assert Repeat(s, x) == s + [];
    }
  }

  /** Copies of a symbol that does not end in a subtraction add up. */
  lemma {:induction false} RepeatSum(s: string, x: int)
    requires 1 <= |s| && AllRoman(s) && RomanDigit(s[0]) <= RomanDigit(s[|s| - 1]) && x >= 1
    ensures |Repeat(s, x)| >= 1 && RomanSum(Repeat(s, x)) == x * RomanSum(s)
    decreases x
  {
    if x > 1 {
      RepeatSum(s, x - 1);
      RepeatEnds(s, x - 1);
      var rest := Repeat(s, x - 1);
      assert Repeat(s, x) == s + rest;
      RomanSumAppend(s, rest);
      AddOneMore(RomanSum(Repeat(s, x)), RomanSum(s), x - 1);
    } else {
      assert Repeat(s, x) == s + [];
      assert s + [] == s;
    }
  }

  lemma AddOneMore(total: int, w: int, k: int)
    requires total == w + k * w
    ensures total == (k + 1) * w
  {
  }

  lemma DivFacts(n: int, v: int)
    requires n >= 1 && v >= 1
    ensures n / v >= 0 && 0 <= n - v * (n / v) < v
    ensures n / v == 0 <==> n < v
    ensures (n / v) * v <= n
    ensures v == 1 ==> n - v * (n / v) == 0
  {
  }

  /** The first entry's run of symbols when it fits at least once into `n`. */
  lemma HeadPiece(n: int, e: RomanEntry)
    requires n >= 1 && EntryOk(e) && n >= e.value
    ensures var piece := Repeat(e.symbol, n / e.value);
      |piece| >= 1 && AllRoman(piece)
      && RomanSum(piece) == n - (n - e.value * (n / e.value))
      && RomanDigit(piece[0]) <= n
      && RomanDigit(piece[|piece| - 1]) >= e.value
  {
    var v := e.value;
    var x := n / v;
    DivFacts(n, v);
    RepeatFacts(e.symbol, x);
  }

  /** A table that does not end yet still satisfies the round-trip conditions after its head. */
  lemma TableTail(table: seq<RomanEntry>)
    requires TableOk(table) && table[0].value > 1
    ensures |table| > 1 && TableOk(table[1..])
  {
    assert |table| > 1;
    forall i | 0 <= i < |table[1..]|
      ensures EntryOk(table[1..][i])
    {
      assert table[1..][i] == table[i + 1];
    }
  }

  /** The property the generator keeps: a non-empty numeral worth `n` whose first digit is at most `n`. */
  predicate SpellsValue(g: string, n: int)
  {
    |g| >= 1 && AllRoman(g) && RomanSum(g) == n && RomanDigit(g[0]) <= n
  }

  /** Over a well-formed table, a positive number is spelt out with exactly its value. */
  lemma {:induction false} GreedyValue(n: int, table: seq<RomanEntry>)
    requires n >= 1 && TableOk(table)
    ensures SpellsValue(Greedy(n, table), n)
    decreases |table|
  {
    var e := table[0];
    assert EntryOk(e);
    DivFacts(n, e.value);
    if n < e.value {
      TableTail(table);
      GreedyValue(n, table[1..]);
      GreedyBelowHead(n, table);
    } else if n - e.value * (n / e.value) == 0 {
      GreedyExact(n, table);
    } else {
      TableTail(table);
      var rest := n - e.value * (n / e.value);
      GreedyValue(rest, table[1..]);
      GreedySplit(n, table);
    }
  }

  lemma GreedyExact(n: int, table: seq<RomanEntry>)
    requires n >= 1 && TableOk(table) && n >= table[0].value
    requires n - table[0].value * (n / table[0].value) == 0
    ensures SpellsValue(Greedy(n, table), n)
  {
    var e := table[0];
    assert EntryOk(e);
    HeadPiece(n, e);
    assert Greedy(n, table) == Repeat(e.symbol, n / e.value);
  }

  lemma GreedySplit(n: int, table: seq<RomanEntry>)
    requires n >= 1 && TableOk(table) && n >= table[0].value && |table| > 1 && TableOk(table[1..])
    requires var rest := n - table[0].value * (n / table[0].value);
      rest > 0 && SpellsValue(Greedy(rest, table[1..]), rest)
    ensures SpellsValue(Greedy(n, table), n)
  {
    var e := table[0];
    assert EntryOk(e);
    DivFacts(n, e.value);
    HeadPiece(n, e);
    var rest := n - e.value * (n / e.value);
    var piece := Repeat(e.symbol, n / e.value);
    var tail := Greedy(rest, table[1..]);
    assert Greedy(n, table) == piece + tail;
    RomanSumAppend(piece, tail);
  }

  /** `roman_to_int(int_to_roman(n)) == n` for every positive integer. */
  lemma RomanRoundTrip(n: int)
    requires n >= 1
    ensures RomanToInt(IntToRoman(n)) == Ok(n)
  {
    RomanTableOk();
    GreedyValue(n, RomanTable);
    assert SpellsValue(IntToRoman(n), n);
  }

  /** Zero and negative inputs: zero gives the empty string, which does not convert back. */
  lemma IntToRomanZero()
    ensures IntToRoman(0) == ""
    ensures RomanToInt(IntToRoman(0)) == Err(IndexError)
  {
    assert Greedy(0, RomanTable) == Repeat("M", 0);
  }

  /**
   * Between -999 and -1 the first floor division borrows a thousand, so the
   * result is the numeral of `n + 1000` (for example -5 gives "CMXCV").
   */
  lemma IntToRomanNegative(n: int)
    requires -1000 < n < 0
    ensures IntToRoman(n) == IntToRoman(n + 1000)
    ensures RomanToInt(IntToRoman(n)) == Ok(n + 1000)
  {
    RomanTableOk();
    GreedyBorrow(n, RomanTable);
    GreedyBelowHead(n + 1000, RomanTable);
    RomanRoundTrip(n + 1000);
  }

  /** A negative number above minus the head value borrows one head value. */
  lemma GreedyBorrow(n: int, table: seq<RomanEntry>)
    requires |table| >= 1 && forall i :: 0 <= i < |table| ==> table[i].value >= 1
    requires n < 0 && n + table[0].value > 0
    ensures Greedy(n, table) == Greedy(n + table[0].value, table[1..])
  {
    var v := table[0].value;
    DivUnique(n, v, -1);
    assert n - v * (n / v) == n + v;
    assert Repeat(table[0].symbol, n / v) == [];
    var g := Greedy(n + v, table[1..]);
    assert [] + g == g;
  }

  /** Floor division is determined by the bounds it leaves the remainder in. */
  lemma DivUnique(n: int, v: int, q: int)
    requires v >= 1 && v * q <= n < v * q + v
    ensures n / v == q
  {
    var q2 := n / v;
    var r2 := n % v;
    assert n == v * q2 + r2 && 0 <= r2 < v;
    if q2 > q {
      assert v * q2 == v * q + v * (q2 - q);
      MulAtLeast(v, q2 - q);
    } else if q2 < q {
      assert v * q == v * q2 + v * (q - q2);
      MulAtLeast(v, q - q2);
    }
  }

  lemma {:induction false} MulAtLeast(v: int, d: int)
    requires v >= 0 && d >= 1
    ensures v * d >= v
    decreases d
  {
    if d > 1 {
      MulAtLeast(v, d - 1);
      assert v * d == v * (d - 1) + v;
    }
  }

  /** A positive number below the head value skips the head entry. */
  lemma GreedyBelowHead(n: int, table: seq<RomanEntry>)
    requires |table| >= 1 && forall i :: 0 <= i < |table| ==> table[i].value >= 1
    requires 0 < n < table[0].value
    ensures Greedy(n, table) == Greedy(n, table[1..])
  {
    var v := table[0].value;
    assert n / v == 0;
  }
}

=== FILE: py_base.dfy ===
/**
 * The slice of Python's built-in behaviour that the euCy code relies on:
 * exceptions as an error datatype, slicing and negative indexing, the
 * whitespace set of `str.isspace`, `strip`, `replace`, `lower`, and the
 * conversions between `int` and decimal strings.
 */
module PyBase {

  datatype Option<+T> = None | Some(value: T)
  {
    predicate IsSome() { Some? }
  }

  /** The Python exceptions the modelled code can raise or lets escape. */
  datatype PyError =
    | StructureException  // eucy's own exception for an unparsable document
    | ValueError
    | IndexError
    | KeyError
    | TypeError
    | AttributeError
    | AssertionError
    | NonTermination      // a `while True` loop that never reaches a `break`

  /** A value, or the exception raised instead; `:-` propagates the exception. */
  datatype Result<+T> = Ok(value: T) | Err(error: PyError)
  {
    predicate IsFailure() { Err? }

    function PropagateFailure<U>(): Result<U>
      requires Err?
    {
      Err(error)
    }

    function Extract(): T
      requires Ok?
    {
      value
    }
  }

  /** An argument that Python checks with `isinstance(x, str)`. */
  datatype Arg = StrArg(s: string) | OtherArg

  /**
   * A loop `for x in xs: out.append(f(x))`: every result in order, or the
   * exception of the first `x` whose call raises.
   */
  function MapAll<T, U>(xs: seq<T>, f: T --> Result<U>): (r: Result<seq<U>>)
    requires forall i :: 0 <= i < |xs| ==> f.requires(xs[i])
    ensures r.Ok? <==> forall i :: 0 <= i < |xs| ==> f(xs[i]).Ok?
    ensures r.Ok? ==> |r.value| == |xs| && forall i :: 0 <= i < |xs| ==> f(xs[i]) == Ok(r.value[i])
    ensures r.Err? ==> FirstFailure(xs, f, r.error)
  {
    if |xs| == 0 then Ok([])
    else
      var head := f(xs[0]);
      if head.Err? then Err(head.error)
      else
        var rest := MapAll(xs[1..], f);
        assert forall i :: 0 < i < |xs| ==> xs[i] == xs[1..][i - 1];
        if rest.Err? then
          FirstFailureShift(xs, f, rest.error);
          Err(rest.error)
        else Ok([head.value] + rest.value)
  }

  /** A failure first in the tail is first in the whole list when the head returned. */
  lemma FirstFailureShift<T, U>(xs: seq<T>, f: T --> Result<U>, e: PyError)
    requires |xs| > 0 && forall i :: 0 <= i < |xs| ==> f.requires(xs[i])
    requires f(xs[0]).Ok? && FirstFailure(xs[1..], f, e)
    ensures FirstFailure(xs, f, e)
  {
    var i :| 0 <= i < |xs[1..]| && f(xs[1..][i]) == Err(e) && forall j :: 0 <= j < i ==> f(xs[1..][j]).Ok?;
    assert forall j :: 0 < j < |xs| ==> xs[j] == xs[1..][j - 1];
    assert f(xs[i + 1]) == Err(e) && forall j :: 0 <= j < i + 1 ==> f(xs[j]).Ok?;
  }

  /** When every call that raises raises `e`, so does the whole loop. */
  lemma MapAllRaises<T, U>(xs: seq<T>, f: T --> Result<U>, e: PyError)
    requires forall i :: 0 <= i < |xs| ==> f.requires(xs[i])
    requires forall i :: 0 <= i < |xs| && f(xs[i]).Err? ==> f(xs[i]).error == e
    ensures MapAll(xs, f).Err? ==> MapAll(xs, f).error == e
  {
    var r := MapAll(xs, f);
    if r.Err? {
      assert FirstFailure(xs, f, r.error);
      var i :| 0 <= i < |xs| && f(xs[i]) == Err(r.error) && forall j :: 0 <= j < i ==> f(xs[j]).Ok?;
    }
  }

  /** `e` is what the call on some `xs[i]` raised, and every call before it returned. */
  ghost predicate FirstFailure<T, U>(xs: seq<T>, f: T --> Result<U>, e: PyError)
    requires forall i :: 0 <= i < |xs| ==> f.requires(xs[i])
  {
    exists i :: 0 <= i < |xs| && f(xs[i]) == Err(e) && forall j :: 0 <= j < i ==> f(xs[j]).Ok?
  }

  // ---------------------------------------------------------------------
  // Slicing and indexing
  // ---------------------------------------------------------------------

  /** How Python normalises one slice bound against a sequence of length `n`. */
  function SliceBound(n: nat, i: int): (b: nat)
    ensures b <= n
    ensures 0 <= i <= n ==> b == i
    ensures i < 0 && -i <= n ==> b == n + i
    ensures i > n ==> b == n
    ensures i < 0 && -i > n ==> b == 0
  {
    if i < 0 then (if n + i < 0 then 0 else n + i)
    else if i > n then n
    else i
  }

  /** `s[i:j]` with Python's clamping and negative indices. */
  function PySlice<T>(s: seq<T>, i: int, j: int): (r: seq<T>)
    ensures |r| <= |s|
    ensures 0 <= i <= j <= |s| ==> r == s[i..j]
    ensures 0 <= j <= i ==> r == []
    ensures SliceBound(|s|, j) <= SliceBound(|s|, i) ==> r == []
    ensures SliceBound(|s|, i) < SliceBound(|s|, j) ==>
              r == s[SliceBound(|s|, i)..SliceBound(|s|, j)]
  {
    var a := SliceBound(|s|, i);
    var b := SliceBound(|s|, j);
    if b <= a then [] else s[a..b]
  }

  /** `s[i:]`. */
  function PySliceFrom<T>(s: seq<T>, i: int): (r: seq<T>)
    ensures 0 <= i <= |s| ==> r == s[i..]
    ensures i >= |s| ==> r == []
  {
    PySlice(s, i, |s|)
  }

  /** `s[i]`, raising IndexError outside `-len(s) <= i < len(s)`. */
  function PyGet<T>(s: seq<T>, i: int): (r: Result<T>)
    ensures r.Ok? <==> -|s| <= i < |s|
    ensures 0 <= i < |s| ==> r == Ok(s[i])
    ensures -|s| <= i < 0 ==> r == Ok(s[|s| + i])
  {
    if 0 <= i < |s| then Ok(s[i])
    else if -|s| <= i < 0 then Ok(s[|s| + i])
    else Err(IndexError)
  }

  /** `s[:i] + [x] + s[i:]` for a clamped non-negative `i`, i.e. `list.insert`. */
  function InsertAt<T>(s: seq<T>, i: nat, x: T): (r: seq<T>)
    requires i <= |s|
    ensures |r| == |s| + 1 && r[i] == x
    ensures r[..i] == s[..i] && r[i + 1..] == s[i..]
  {
    s[..i] + [x] + s[i..]
  }

  // ---------------------------------------------------------------------
  // Characters and whitespace
  // ---------------------------------------------------------------------

  /** `c.isspace()`: the characters Python treats as whitespace, also `\s` in `re`. */
  predicate IsSpace(c: char)
  {
    var n := c as int;
    (9 <= n <= 13) || (28 <= n <= 32) || n == 0x85 || n == 0xA0 || n == 0x1680
    || (0x2000 <= n <= 0x200A) || n == 0x2028 || n == 0x2029 || n == 0x202F
    || n == 0x205F || n == 0x3000
  }

  predicate IsAsciiDigit(c: char) { '0' <= c <= '9' }

  predicate IsAsciiLowerLetter(c: char) { 'a' <= c <= 'z' }

  predicate IsAsciiUpperLetter(c: char) { 'A' <= c <= 'Z' }

  /** `c.lower()` on the ASCII letters; every other character is left as it is. */
  function LowerChar(c: char): (r: char)
    ensures IsAsciiUpperLetter(c) ==> IsAsciiLowerLetter(r) && r as int == c as int + 32
    ensures !IsAsciiUpperLetter(c) ==> r == c
  {
    if IsAsciiUpperLetter(c) then (c as int + 32) as char else c
  }

  /** `c.upper()` on the ASCII letters. */
  function UpperChar(c: char): (r: char)
    ensures IsAsciiLowerLetter(c) ==> IsAsciiUpperLetter(r) && r as int == c as int - 32
    ensures !IsAsciiLowerLetter(c) ==> r == c
  {
    if IsAsciiLowerLetter(c) then (c as int - 32) as char else c
  }

  function Lower(s: string): (r: string)
    ensures |r| == |s|
    ensures forall i :: 0 <= i < |s| ==> r[i] == LowerChar(s[i])
  {
    if |s| == 0 then [] else [LowerChar(s[0])] + Lower(s[1..])
  }

  function Upper(s: string): (r: string)
    ensures |r| == |s|
    ensures forall i :: 0 <= i < |s| ==> r[i] == UpperChar(s[i])
  {
    if |s| == 0 then [] else [UpperChar(s[0])] + Upper(s[1..])
  }

  // ---------------------------------------------------------------------
  // strip and its parts
  // ---------------------------------------------------------------------

  /** The number of whitespace characters that `s.lstrip()` removes. */
  function LeadingWsLen(s: string): (n: nat)
    ensures n <= |s|
    ensures n < |s| ==> !IsSpace(s[n])
  {
    if |s| > 0 && IsSpace(s[0]) then LeadingWsLen(s[1..]) + 1 else 0
  }

  /** Every character the leading count covers is whitespace. */
  lemma {:induction false} LeadingWsAllSpace(s: string)
    ensures forall i :: 0 <= i < LeadingWsLen(s) ==> IsSpace(s[i])
    decreases |s|
  {
    if |s| > 0 && IsSpace(s[0]) {
      LeadingWsAllSpace(s[1..]);
      assert forall i :: 1 <= i < LeadingWsLen(s) ==> s[i] == s[1..][i - 1];
    }
  }

  /** The whitespace that `s.lstrip()` removes. */
  function LeadingWs(s: string): (r: string)
    ensures r <= s
    ensures forall i :: 0 <= i < |r| ==> IsSpace(r[i])
    ensures |r| < |s| ==> !IsSpace(s[|r|])
  {
    LeadingWsAllSpace(s);
    s[..LeadingWsLen(s)]
  }

  /** The number of whitespace characters that `s.rstrip()` removes. */
  function TrailingWsLen(s: string): (n: nat)
    ensures n <= |s|
    ensures n < |s| ==> !IsSpace(s[|s| - n - 1])
  {
    if |s| > 0 && IsSpace(s[|s| - 1]) then TrailingWsLen(s[..|s| - 1]) + 1 else 0
  }

  /** Every character the trailing count covers is whitespace. */
  lemma {:induction false} TrailingWsAllSpace(s: string)
    ensures forall i :: |s| - TrailingWsLen(s) <= i < |s| ==> IsSpace(s[i])
    decreases |s|
  {
    if |s| > 0 && IsSpace(s[|s| - 1]) {
      TrailingWsAllSpace(s[..|s| - 1]);
    }
  }

  /** The whitespace that `s.rstrip()` removes. */
  function TrailingWs(s: string): (r: string)
    ensures |r| <= |s| && r == s[|s| - |r|..]
    ensures forall i :: 0 <= i < |r| ==> IsSpace(r[i])
    ensures |r| < |s| ==> !IsSpace(s[|s| - |r| - 1])
  {
    TrailingWsAllSpace(s);
    s[|s| - TrailingWsLen(s)..]
  }

  function LStrip(s: string): (r: string)
    ensures LeadingWs(s) + r == s
    ensures |r| > 0 ==> !IsSpace(r[0])
  {
    s[|LeadingWs(s)|..]
  }

  function RStrip(s: string): (r: string)
    ensures r + TrailingWs(s) == s
    ensures |r| > 0 ==> !IsSpace(r[|r| - 1])
  {
    s[..|s| - |TrailingWs(s)|]
  }

  /** `s.strip()`. */
  function Strip(s: string): (r: string)
    ensures |r| <= |s|
    ensures |r| > 0 ==> !IsSpace(r[0]) && !IsSpace(r[|r| - 1])
    ensures LeadingWs(s) + r + TrailingWs(LStrip(s)) == s
  {
    StripParts(s);
    StripFirst(LStrip(s));
    RStrip(LStrip(s))
  }

  /** A single non-space character is its own strip. */
  lemma StripNonSpace(c: char)
    requires !IsSpace(c)
    ensures Strip([c]) == [c]
  {
    assert LeadingWs([c]) == [];
    assert LStrip([c]) == [c];
    assert TrailingWs([c]) == [];
  }

  lemma StripParts(s: string)
    ensures LeadingWs(s) + RStrip(LStrip(s)) + TrailingWs(LStrip(s)) == s
  {
    var l := LStrip(s);
    JoinThree(LeadingWs(s), RStrip(l), TrailingWs(l), s);
  }

  lemma JoinThree<T>(a: seq<T>, b: seq<T>, c: seq<T>, s: seq<T>)
    requires a + (b + c) == s
    ensures a + b + c == s
  {
  }

  /** A slice of a slice is a slice of the whole. */
  lemma SliceOfSlice<T>(t: seq<T>, o: nat, n: nat, a: nat, b: nat)
    requires o + n <= |t| && a <= b <= n
    ensures t[o..o + n][a..b] == t[o + a..o + b]
  {
    var u := t[o..o + n];
    assert |u[a..b]| == |t[o + a..o + b]|;
    forall i | 0 <= i < b - a
      ensures u[a..b][i] == t[o + a..o + b][i]
    {
      assert u[a..b][i] == u[a + i] == t[o + a + i];
    }
  }

  /** A prefix followed by the next slice is the longer prefix. */
  lemma PrefixJoin<T>(t: seq<T>, a: nat, b: nat)
    requires a <= b <= |t|
    ensures t[..a] + t[a..b] == t[..b]
  {
  }

  /** A slice followed by the rest is the longer suffix. */
  lemma SuffixJoin<T>(t: seq<T>, a: nat, b: nat)
    requires a <= b <= |t|
    ensures t[a..b] + t[b..] == t[a..]
  {
  }

  lemma StripFirst(s: string)
    ensures |RStrip(s)| > 0 ==> RStrip(s)[0] == s[0]
  {
    var r := RStrip(s);
    if |r| > 0 {
      assert (r + TrailingWs(s))[0] == r[0];
    }
  }

  /** Multiplication distributes over a successor. */
  lemma MulStep(k: int, n: int)
    ensures k * (n + 1) == k + k * n
  {
  }

  function StartsWith(s: string, prefix: string): bool
  {
    prefix <= s
  }

  // ---------------------------------------------------------------------
  // str.replace
  // ---------------------------------------------------------------------

  /** `s.replace(pat, rep)`: every non-overlapping occurrence, left to right. */
  function Replace(s: string, pat: string, rep: string): (r: string)
    decreases |s|
  {
    if |pat| == 0 then ReplaceEmpty(s, rep)
    else if |s| < |pat| then s
    else if s[..|pat|] == pat then rep + Replace(s[|pat|..], pat, rep)
    else [s[0]] + Replace(s[1..], pat, rep)
  }

  /** `s.replace('', rep)` puts `rep` before every character and at the end. */
  function ReplaceEmpty(s: string, rep: string): (r: string)
    ensures |r| == |s| + (|s| + 1) * |rep|
  {
    if |s| == 0 then rep else rep + [s[0]] + ReplaceEmpty(s[1..], rep)
  }

  predicate OccursAt(s: string, pat: string, i: int)
  {
    0 <= i <= |s| - |pat| && s[i..i + |pat|] == pat
  }

  predicate Occurs(s: string, pat: string)
  {
    exists i | 0 <= i <= |s| - |pat| :: OccursAt(s, pat, i)
  }

  /** Replacing a pattern that does not occur leaves the string as it was. */
  lemma {:induction false} ReplaceAbsent(s: string, pat: string, rep: string)
    requires |pat| > 0 && !Occurs(s, pat)
    ensures Replace(s, pat, rep) == s
    decreases |s|
  {
    if |s| >= |pat| {
      assert !OccursAt(s, pat, 0);
      assert s[0..0 + |pat|] == s[..|pat|];
      assert !Occurs(s[1..], pat) by {
        forall i | OccursAt(s[1..], pat, i)
          ensures false
        {
          assert s[1..][i..i + |pat|] == s[i + 1..i + 1 + |pat|];
          assert OccursAt(s, pat, i + 1);
        }
      }
      ReplaceAbsent(s[1..], pat, rep);
    }
  }

  /** A string replaced by itself with the empty string vanishes. */
  lemma ReplaceWhole(s: string)
    requires |s| > 0
    ensures Replace(s, s, "") == ""
  {
    assert s[..|s|] == s;
    assert s[|s|..] == [];
  }

  // ---------------------------------------------------------------------
  // int <-> decimal string
  // ---------------------------------------------------------------------

  function DigitChar(d: nat): (c: char)
    requires d < 10
    ensures IsAsciiDigit(c) && c as int - '0' as int == d
  {
    ('0' as int + d) as char
  }

  /** The decimal digits of a natural number, as `str(n)` prints them. */
  function NatToDigits(n: nat): (r: string)
    ensures |r| > 0
    ensures forall i :: 0 <= i < |r| ==> IsAsciiDigit(r[i])
    ensures |r| > 1 ==> r[0] != '0'
    decreases n
  {
    if n < 10 then [DigitChar(n)] else NatToDigits(n / 10) + [DigitChar(n % 10)]
  }

  /** `str(n)` for any integer. */
  function IntToStr(n: int): (r: string)
    ensures n >= 0 ==> r == NatToDigits(n)
    ensures n < 0 ==> r == "-" + NatToDigits(-n)
  {
    if n >= 0 then NatToDigits(n) else "-" + NatToDigits(-n)
  }

  predicate AllDigits(s: string)
  {
    forall i :: 0 <= i < |s| ==> IsAsciiDigit(s[i])
  }

  /** The value of a string of ASCII digits, read left to right. */
  function DigitsValue(s: string): nat
    requires AllDigits(s)
    decreases |s|
  {
    if |s| == 0 then 0
    else DigitsValue(s[..|s| - 1]) * 10 + (s[|s| - 1] as int - '0' as int)
  }

  /**
   * `int(s)` on the strings the reference patterns can capture: optional
   * surrounding whitespace and ASCII digits; anything else is a ValueError.
   */
  function ParseInt(s: string): (r: Result<int>)
    ensures r.Ok? <==> |Strip(s)| > 0 && AllDigits(Strip(s))
    ensures r.Ok? ==> r.value >= 0
  {
    var t := Strip(s);
    if |t| > 0 && AllDigits(t) then Ok(DigitsValue(t)) else Err(ValueError)
  }

  lemma {:induction false} DigitsRoundTrip(n: nat)
    ensures AllDigits(NatToDigits(n)) && DigitsValue(NatToDigits(n)) == n
    decreases n
  {
    var r := NatToDigits(n);
    if n >= 10 {
      DigitsRoundTrip(n / 10);
      assert r[..|r| - 1] == NatToDigits(n / 10);
    }
  }

  /** `int(str(n)) == n` for every natural number. */
  lemma ParseIntOfStr(n: nat)
    ensures ParseInt(IntToStr(n)) == Ok(n)
  {
    var r := NatToDigits(n);
    DigitsRoundTrip(n);
    assert LeadingWs(r) == [] && TrailingWs(r) == [];
    assert LStrip(r) == r;
    assert Strip(r) == r;
  }
}

=== FILE: rebuild.dfy ===
/**
 * `modify_doc` in `eucy/modify/__init__.py`: the rebuild of a document's
 * text from the original text and the edit metadata on its element spans,
 * the surviving span groups with their new offsets, and the recomputed
 * parts.
 *
 * The groups are walked in order with a read cursor into the old text. A
 * deletion emits only its stored whitespace; a new element copies old text
 * up to its `char_pos` and then its replacement; a kept span copies the
 * gap before it and then its replacement text, its text with trailing
 * whitespace, or (for an article with modified elements) the article
 * rebuilt paragraph by paragraph.
 */
module Rebuild {
  import opened PyBase
  import opened Spans
  import opened ArticleEdits
  import opened EditDocs

  /** The document and the helpers the rebuild calls but that are not part of this model. */
  datatype Env = Env(
    doc: EditDoc,
    isModified: Span -> bool,              // `is_modified_span`
    segment: string -> SubElements)        // `subparagraphs`, `points`, `indents` on a paragraph text

  // ---------------------------------------------------------------------
  // Group order
  // ---------------------------------------------------------------------

  function MinStart(g: seq<Span>): (r: int)
    requires |g| > 0
    ensures forall i :: 0 <= i < |g| ==> r <= g[i].start
    ensures exists i :: 0 <= i < |g| && r == g[i].start
  {
    if |g| == 1 then g[0].start
    else
      var m := MinStart(g[1..]);
      assert forall i :: 1 <= i < |g| ==> g[i] == g[1..][i - 1];
      if g[0].start <= m then g[0].start else m
  }

  /** `min([s._.char_pos for s in g] + [bound])`, for groups whose members all carry a `char_pos`. */
  function MinPos(g: seq<Span>, bound: int): (r: int)
    ensures r <= bound
    ensures forall i :: 0 <= i < |g| && g[i].charPos.Some? ==> r <= g[i].charPos.value
    ensures r == bound || exists i :: 0 <= i < |g| && g[i].charPos.Some? && r == g[i].charPos.value
  {
    if |g| == 0 then bound
    else
      var m := MinPos(g[1..], bound);
      assert forall i :: 1 <= i < |g| ==> g[i] == g[1..][i - 1];
      if g[0].charPos.Some? && g[0].charPos.value <= m then g[0].charPos.value else m
  }

  /** Every member carries a `char_pos`. */
  predicate AllPositioned(g: seq<Span>)
  {
    forall i :: 0 <= i < |g| ==> g[i].charPos.Some?
  }

  /**
   * The sort key of a group: the smallest start among its original members,
   * or, when it has none, the smallest `char_pos` of its new members and the
   * length of the text. A new member without a `char_pos` puts None into
   * `min`, which raises TypeError.
   */
  function GroupKey(d: EditDoc, k: GroupName): (r: Result<int>)
    ensures r.Err? <==> |NonNew(Group(d, k))| == 0 && !AllPositioned(Group(d, k))
    ensures r.Err? ==> r.error == TypeError
    ensures r.Ok? && |NonNew(Group(d, k))| > 0 ==>
      forall i :: 0 <= i < |Group(d, k)| && !Group(d, k)[i].newElement ==> r.value <= Group(d, k)[i].start
    ensures r.Ok? && |NonNew(Group(d, k))| == 0 ==>
      r.value <= |d.text| && forall i :: 0 <= i < |Group(d, k)| ==> r.value <= Group(d, k)[i].charPos.value
  {
    var g := Group(d, k);
    var nn := NonNew(g);
    if |nn| > 0 then
      var m := MinStart(nn);
      assert forall i :: 0 <= i < |g| && !g[i].newElement ==> m <= g[i].start by {
        forall i | 0 <= i < |g| && !g[i].newElement ensures m <= g[i].start {
          assert g[i] in nn;
          var j :| 0 <= j < |nn| && nn[j] == g[i];
        }
      }
      Ok(m)
    else if !AllPositioned(g) then Err(TypeError)
    else Ok(MinPos(g, |d.text|))
  }

  /** The key used for sorting once every key is known to exist. */
  function KeyOr(d: EditDoc, k: GroupName): int
  {
    if GroupKey(d, k).Ok? then GroupKey(d, k).value else 0
  }

  /** The sort key as a function value. */
  function Key(d: EditDoc): GroupName -> int
  {
    k => KeyOr(d, k)
  }

  /** The order the rebuild walks the named groups in: first occurrences, stably sorted by key. */
  function WalkOrder(d: EditDoc, order: seq<GroupName>): seq<GroupName>
  {
    SortGroups(Key(d), Dedup(order))
  }

  predicate GroupsSorted(key: GroupName -> int, ks: seq<GroupName>)
  {
    forall i, j :: 0 <= i < j < |ks| ==> key(ks[i]) <= key(ks[j])
  }

  function InsertGroup(key: GroupName -> int, k: GroupName, ks: seq<GroupName>): (r: seq<GroupName>)
    requires GroupsSorted(key, ks)
    ensures GroupsSorted(key, r)
    ensures multiset(r) == multiset(ks) + multiset{k}
    ensures |r| == |ks| + 1
    ensures r[0] == k || (|ks| > 0 && r[0] == ks[0])
  {
    if |ks| == 0 then [k]
    else if key(ks[0]) <= key(k) then
      SortedTail(key, ks);
      var rest := InsertGroup(key, k, ks[1..]);
      assert ks == [ks[0]] + ks[1..];
      assert key(ks[0]) <= key(rest[0]);
      SortedCons(key, ks[0], rest);
      [ks[0]] + rest
    else
      SortedCons(key, k, ks);
      [k] + ks
  }

  lemma SortedTail(key: GroupName -> int, ks: seq<GroupName>)
    requires |ks| > 0 && GroupsSorted(key, ks)
    ensures GroupsSorted(key, ks[1..])
  {
    forall i, j | 0 <= i < j < |ks| - 1
      ensures key(ks[1..][i]) <= key(ks[1..][j])
    {
      assert ks[1..][i] == ks[i + 1] && ks[1..][j] == ks[j + 1];
    }
  }

  /** A key no larger than the head of a sorted list can go in front of it. */
  lemma SortedCons(key: GroupName -> int, x: GroupName, ks: seq<GroupName>)
    requires GroupsSorted(key, ks) && (|ks| > 0 ==> key(x) <= key(ks[0]))
    ensures GroupsSorted(key, [x] + ks)
  {
    var r := [x] + ks;
    forall i, j | 0 <= i < j < |r|
      ensures key(r[i]) <= key(r[j])
    {
      if i == 0 {
        assert r[j] == ks[j - 1];
        assert key(ks[0]) <= key(ks[j - 1]) || j - 1 == 0;
      } else {
        assert r[i] == ks[i - 1] && r[j] == ks[j - 1];
      }
    }
  }

  /** The stable sort of the group names by `key`. */
  function SortGroups(key: GroupName -> int, ks: seq<GroupName>): (r: seq<GroupName>)
    ensures GroupsSorted(key, r)
    ensures multiset(r) == multiset(ks)
  {
    if |ks| == 0 then []
    else
      assert ks == ks[..|ks| - 1] + [ks[|ks| - 1]];
      InsertGroup(key, ks[|ks| - 1], SortGroups(key, ks[..|ks| - 1]))
  }

  /** The keys of a dict built from a list: first occurrences, in order. */
  function Dedup(ks: seq<GroupName>): (r: seq<GroupName>)
    ensures forall i, j :: 0 <= i < j < |r| ==> r[i] != r[j]
    ensures forall k :: k in r <==> k in ks
  {
    if |ks| == 0 then []
    else
      var p := Dedup(ks[..|ks| - 1]);
      assert forall k :: k in ks <==> k in ks[..|ks| - 1] || k == ks[|ks| - 1];
      if ks[|ks| - 1] in p then p else p + [ks[|ks| - 1]]
  }

  // ---------------------------------------------------------------------
  // One span
  // ---------------------------------------------------------------------

  /** A span after the walk, with its new range (if it got one) and the text emitted for it. */
  datatype Placed = Placed(span: Span, newRange: Option<Range>, emitted: string)

  /**
   * The text built so far, the read cursor into the old text, and the
   * article-element spans. The cursor is None after a new element without
   * a `char_pos`.
   */
  datatype State = State(text: string, cursor: Option<nat>, arena: Arena)

  /** Where a slice from the cursor starts: Python reads a None bound as the start of the text. */
  function From(c: Option<nat>): nat
  {
    if c.Some? then c.value else 0
  }

  /** The deletion test: flagged deleted, or a replacement of fewer than five non-blank-edged characters. */
  predicate IsDeletion(s: Span)
  {
    s.deleted || (s.replacement.Some? && |Strip(s.replacement.value)| < 5)
  }

  /** The replacement text, else the text with trailing whitespace. */
  function DefaultText(doc: string, s: Span): string
  {
    if s.replacement.Some? then s.replacement.value else TextWithWs(doc, s)
  }

  /** The replacement text, or nothing. */
  function StoredText(s: Span): string
  {
    if s.replacement.Some? then s.replacement.value else ""
  }

  /**
   * The opener put before the first new recital of a document without
   * original recitals, unless its text already starts with "whereas".
   */
  function Intro(doc: string, k: GroupName, spanI: nat, noOriginals: bool, s: Span): (r: string)
    ensures r != "" <==> spanI == 0 && k == Recitals && noOriginals
                         && !StartsWith(Strip(Lower(ElementText(doc, s, true))), "whereas")
  {
    if spanI == 0 && (k == Citations || k == Recitals) && noOriginals
       && k == Recitals && !StartsWith(Strip(Lower(ElementText(doc, s, true))), "whereas")
    then "Whereas:\n\n"
    else ""
  }

  /**
   * The text emitted for a kept article: rebuilt from its paragraphs when
   * its elements are modified, else its replacement or text. The rebuild
   * result is unpacked into two names, which a bare string only survives
   * when it has exactly two characters.
   */
  function ArticleText(env: Env, s: Span, elementI: nat, arena: Arena, newStart: int): (r: Result<(string, Arena)>)
    ensures env.doc.articleElements.None? ==> r == Ok((DefaultText(env.doc.text, s), arena))
    ensures env.doc.articleElements.Some? && elementI >= |env.doc.articleElements.value| ==> r == Err(IndexError)
  {
    var doc := env.doc.text;
    match env.doc.articleElements
    case None => Ok((DefaultText(doc, s), arena))
    case Some(aes) =>
      var ae :- PyGet(aes, elementI);
      var modified :- AnyModified(ae, arena, env.isModified);
      if !modified then Ok((DefaultText(doc, s), arena))
      else
        var pr :- ProcessArticle(doc, ae, arena, TextWithWs(doc, s), s.start, newStart, env.segment);
        match pr.0
        case Pair(t, _) => Ok((t, pr.1))
        case Bare(t) => if |t| == 2 then Ok(([t[0]], pr.1)) else Err(ValueError)
  }

  /** How a kept article is emitted, from the span, the article counter, the arena and the new start offset. */
  type ArticleEmit = (Span, nat, Arena, int) -> Result<(string, Arena)>

  /** The rebuild's own article emitter. */
  function Emitter(env: Env): ArticleEmit
  {
    (s: Span, i: nat, a: Arena, n: int) => ArticleText(env, s, i, a, n)
  }

  /** An emitter that writes every article as its replacement or text and leaves the arena alone. */
  ghost predicate PlainArticles(doc: string, art: ArticleEmit)
  {
    forall s, i, a, n :: art(s, i, a, n) == Ok((DefaultText(doc, s), a))
  }

  /** Without article elements the rebuild's emitter is plain. */
  lemma EmitterPlain(env: Env)
    requires env.doc.articleElements.None?
    ensures PlainArticles(env.doc.text, Emitter(env))
  {
  }

  /** The outcome of one span: the new state, the placed span, and the article counter. */
  datatype StepOut = StepOut(st: State, placed: Placed, elementI: nat)

  /** A placed span's recorded range holds the text emitted for it. */
  predicate RangeHolds(text: string, p: Placed)
  {
    p.newRange.Some? ==>
      0 <= p.newRange.value.start <= p.newRange.value.end <= |text|
      && text[p.newRange.value.start..p.newRange.value.end] == p.emitted
  }

  /** A placed span keeps its offsets and is flagged deleted, and left without a range, exactly for a deletion. */
  predicate PlacedFor(p: Placed, s: Span)
  {
    && SameOffsets(p.span, s)
    && (p.span.deleted <==> IsDeletion(s))
    && (p.newRange.Some? <==> !IsDeletion(s))
    && p.span.newElement == s.newElement
  }

  /**
   * A deletion: the old text before it is copied only when nothing has been
   * read yet, then its stored replacement text is emitted (the whitespace
   * `_delete_text` kept, or a replacement of fewer than five non-blank
   * characters); the span is marked processed and deleted and gets no new
   * range.
   */
  function DeletionStep(doc: string, s: Span, elementI: nat, st: State): (r: StepOut)
    requires IsDeletion(s)
    ensures PlacedFor(r.placed, s) && r.placed.newRange.None? && r.placed.span.added
    ensures r.st.text == st.text + (if st.cursor == Some(0) && s.start > 0 then PySlice(doc, 0, s.start) else [])
                         + StoredText(s)
    ensures r.st.cursor == Some(s.end) && r.elementI == elementI + 1 && r.st.arena == st.arena
  {
    var lead := if st.cursor == Some(0) && s.start > 0 then PySlice(doc, 0, s.start) else [];
    StepOut(State(st.text + lead + StoredText(s), Some(s.end), st.arena),
            Placed(s.(added := true, deleted := true), None, StoredText(s)), elementI + 1)
  }

  /** Appends `x` to `text` and records the range `x` occupies. */
  function Emit(text: string, x: string): (r: (string, Range))
    ensures r.0 == text + x && r.1 == Range(|text|, |r.0|)
    ensures text <= r.0 && r.0[|text|..|r.0|] == x
  {
    (text + x, Range(|text|, |text| + |x|))
  }

  /**
   * A new element: the old text up to its `char_pos` (to the end when it
   * has none) is copied, then `intro` (the recital opener, if due), then its
   * text, whose range is recorded; the cursor moves to `char_pos` and the
   * article counter stays.
   */
  function NewStep(doc: string, intro: string, s: Span, elementI: nat, st: State): (r: StepOut)
    requires !IsDeletion(s) && s.newElement
    ensures var before := st.text + PySlice(doc, From(st.cursor), if s.charPos.Some? then s.charPos.value else |doc|) + intro;
      && r.st.text == before + StoredText(s)
      && r.placed == Placed(s, Some(Range(|before|, |r.st.text|)), StoredText(s))
    ensures r.st.cursor == s.charPos && r.elementI == elementI && r.st.arena == st.arena
    ensures st.text <= r.st.text && PlacedFor(r.placed, s) && RangeHolds(r.st.text, r.placed)
  {
    var gap := PySlice(doc, From(st.cursor), if s.charPos.Some? then s.charPos.value else |doc|);
    var e := Emit(st.text + gap + intro, StoredText(s));
    assert st.text <= st.text + gap + intro;
    StepOut(State(e.0, s.charPos, st.arena), Placed(s, Some(e.1), StoredText(s)), elementI)
  }

  /**
   * A kept original span: the gap before it is copied, then its text, whose
   * range is recorded; the cursor moves to its end. Outside the articles the
   * text is the replacement or the text with whitespace.
   */
  function KeptStep(env: Env, art: ArticleEmit, k: GroupName, s: Span, elementI: nat, st: State): (r: Result<StepOut>)
    requires !IsDeletion(s) && !s.newElement
    ensures r.Ok? ==>
      var before := st.text + PySlice(env.doc.text, From(st.cursor), s.start);
      && r.value.st.text == before + r.value.placed.emitted
      && r.value.placed == Placed(s, Some(Range(|before|, |r.value.st.text|)), r.value.placed.emitted)
      && r.value.st.cursor == Some(s.end) && r.value.elementI == elementI + 1
    ensures r.Ok? ==> st.text <= r.value.st.text && PlacedFor(r.value.placed, s) && RangeHolds(r.value.st.text, r.value.placed)
    ensures k != Articles ==> r.Ok? && r.value.placed.emitted == DefaultText(env.doc.text, s) && r.value.st.arena == st.arena
  {
    var before := st.text + PySlice(env.doc.text, From(st.cursor), s.start);
    var out := if k == Articles then art(s, elementI, st.arena, |before|) else Ok((DefaultText(env.doc.text, s), st.arena));
    match out
    case Err(e) => Err(e)
    case Ok(o) =>
      var e := Emit(before, o.0);
      Ok(StepOut(State(e.0, Some(s.end), o.1), Placed(s, Some(e.1), o.0), elementI + 1))
  }

  /** The walk's treatment of one span of group `k`, at index `spanI` of its group. */
  function Step(env: Env, art: ArticleEmit, k: GroupName, noOriginals: bool, spanI: nat, s: Span, elementI: nat, st: State)
    : (r: Result<StepOut>)
    ensures r.Ok? ==> st.text <= r.value.st.text && RangeHolds(r.value.st.text, r.value.placed)
    ensures r.Ok? ==> PlacedFor(r.value.placed, s)
    ensures IsDeletion(s) || s.newElement || k != Articles ==> r.Ok?
  {
    if IsDeletion(s) then Ok(DeletionStep(env.doc.text, s, elementI, st))
    else if s.newElement then Ok(NewStep(env.doc.text, Intro(env.doc.text, k, spanI, noOriginals, s), s, elementI, st))
    else KeptStep(env, art, k, s, elementI, st)
  }

  // ---------------------------------------------------------------------
  // Groups
  // ---------------------------------------------------------------------

  /** One step of the walk, as a value: span index, span, article counter, state. */
  type StepFn = (nat, Span, nat, State) -> Result<StepOut>

  /** The step the walk over group `k` takes. */
  function GroupStep(env: Env, art: ArticleEmit, k: GroupName, noOriginals: bool): StepFn
  {
    (i: nat, s: Span, e: nat, st: State) => Step(env, art, k, noOriginals, i, s, e, st)
  }

  /** A step that only appends, and places each span as `PlacedFor` says with a range that holds. */
  ghost predicate GoodStep(step: StepFn)
  {
    forall i, s, e, st :: step(i, s, e, st).Ok? ==>
      && st.text <= step(i, s, e, st).value.st.text
      && PlacedFor(step(i, s, e, st).value.placed, s)
      && RangeHolds(step(i, s, e, st).value.st.text, step(i, s, e, st).value.placed)
  }

  lemma StepGood(env: Env, art: ArticleEmit, k: GroupName, noOriginals: bool)
    ensures GoodStep(GroupStep(env, art, k, noOriginals))
  {
    var step := GroupStep(env, art, k, noOriginals);
    forall i, s, e, st | step(i, s, e, st).Ok?
      ensures && st.text <= step(i, s, e, st).value.st.text
              && PlacedFor(step(i, s, e, st).value.placed, s)
              && RangeHolds(step(i, s, e, st).value.st.text, step(i, s, e, st).value.placed)
    {
      assert step(i, s, e, st) == Step(env, art, k, noOriginals, i, s, e, st);
    }
  }

  lemma RangeHoldsGrow1(t: string, t': string, p: Placed)
    requires t <= t' && RangeHolds(t, p)
    ensures RangeHolds(t', p)
  {
    if p.newRange.Some? {
      var rg := p.newRange.value;
      assert t'[rg.start..rg.end] == t[rg.start..rg.end];
    }
  }

  /** The placed spans `ps` correspond to the members of `g` from index `from` on, and their ranges hold in `t`. */
  predicate PlacedAll(ps: seq<Placed>, g: seq<Span>, from: nat, t: string)
  {
    forall j :: 0 <= j < |ps| ==> PlacedAt(ps[j], g, from + j, t)
  }

  /** `p` is placed for member `i` of `g` and its range holds in `t`. */
  predicate PlacedAt(p: Placed, g: seq<Span>, i: nat, t: string)
  {
    i < |g| && PlacedFor(p, g[i]) && RangeHolds(t, p)
  }

  lemma PlacedAllGrow(ps: seq<Placed>, g: seq<Span>, from: nat, t: string, t': string)
    requires PlacedAll(ps, g, from, t) && t <= t'
    ensures PlacedAll(ps, g, from, t')
  {
    forall j | 0 <= j < |ps| ensures PlacedAt(ps[j], g, from + j, t') {
      assert PlacedAt(ps[j], g, from + j, t);
      RangeHoldsGrow1(t, t', ps[j]);
    }
  }

  lemma ConsPlaced(g: seq<Span>, spanI: nat, t0: string, p: Placed, t: string, ps: seq<Placed>)
    requires spanI < |g|
    requires PlacedFor(p, g[spanI]) && RangeHolds(t0, p) && t0 <= t
    requires PlacedAll(ps, g, spanI + 1, t)
    ensures PlacedAll([p] + ps, g, spanI, t)
  {
    RangeHoldsGrow1(t0, t, p);
    var all := [p] + ps;
    forall j | 0 <= j < |all|
      ensures PlacedAt(all[j], g, spanI + j, t)
    {
      if j == 0 {
        assert all[j] == p;
      } else {
        var k := j - 1;
        assert all[j] == ps[k];
        assert spanI + 1 + k == spanI + j;
        assert PlacedAt(ps[k], g, spanI + 1 + k, t);
      }
    }
  }

  /** The walk over group `g` from index `spanI` on. */
  function WalkGroup(step: StepFn, g: seq<Span>, spanI: nat, elementI: nat, st: State): (r: Result<(State, seq<Placed>)>)
    ensures r.Ok? && spanI <= |g| ==> |r.value.1| == |g| - spanI
    decreases |g| - spanI
  {
    if spanI >= |g| then Ok((st, []))
    else
      var out :- step(spanI, g[spanI], elementI, st);
      var rest :- WalkGroup(step, g, spanI + 1, out.elementI, out.st);
      Ok((rest.0, [out.placed] + rest.1))
  }

  /** Each span the walk places corresponds to the group member at its index, and its range holds in the final text. */
  lemma {:induction false} WalkGroupPlaced(step: StepFn, g: seq<Span>, spanI: nat, elementI: nat, st: State)
    requires GoodStep(step) && spanI <= |g|
    ensures var r := WalkGroup(step, g, spanI, elementI, st);
      r.Ok? ==> st.text <= r.value.0.text && PlacedAll(r.value.1, g, spanI, r.value.0.text)
    decreases |g| - spanI
  {
    var r := WalkGroup(step, g, spanI, elementI, st);
    if spanI < |g| && r.Ok? {
      var out := step(spanI, g[spanI], elementI, st).value;
      var rest := WalkGroup(step, g, spanI + 1, out.elementI, out.st).value;
      assert r.value == (rest.0, [out.placed] + rest.1);
      WalkGroupPlaced(step, g, spanI + 1, out.elementI, out.st);
      ConsPlaced(g, spanI, out.st.text, out.placed, rest.0.text, rest.1);
    }
  }

  /** The step for each group, given its name and whether it has no original members. */
  type StepMaker = (GroupName, bool) -> StepFn

  /** The rebuild's own steps. */
  function Steps(env: Env, art: ArticleEmit): StepMaker
  {
    (k: GroupName, noOriginals: bool) => GroupStep(env, art, k, noOriginals)
  }

  ghost predicate AllGood(steps: StepMaker)
  {
    forall k, b :: GoodStep(steps(k, b))
  }

  lemma StepsGood(env: Env, art: ArticleEmit)
    ensures AllGood(Steps(env, art))
  {
    forall k, b ensures GoodStep(Steps(env, art)(k, b)) {
      StepGood(env, art, k, b);
    }
  }

  /** The walk over the groups named in `ks`, in that order, each with its own article counter. */
  function WalkGroups(d: EditDoc, steps: StepMaker, ks: seq<GroupName>, st: State): (r: Result<(State, seq<seq<Placed>>)>)
    ensures r.Ok? ==> |r.value.1| == |ks|
    ensures r.Ok? ==> forall i :: 0 <= i < |ks| ==> |r.value.1[i]| == |Group(d, ks[i])|
    decreases |ks|
  {
    if |ks| == 0 then Ok((st, []))
    else
      var g := Group(d, ks[0]);
      var here :- WalkGroup(steps(ks[0], |NonNew(g)| == 0), g, 0, 0, st);
      var rest :- WalkGroups(d, steps, ks[1..], here.0);
      Ok((rest.0, [here.1] + rest.1))
  }

  /** Every group's placed spans correspond to its members, and every range holds in the final text. */
  lemma {:induction false} WalkGroupsPlaced(d: EditDoc, steps: StepMaker, ks: seq<GroupName>, st: State)
    requires AllGood(steps)
    ensures var r := WalkGroups(d, steps, ks, st);
      r.Ok? ==> st.text <= r.value.0.text
                && forall i :: 0 <= i < |ks| ==> PlacedAll(r.value.1[i], Group(d, ks[i]), 0, r.value.0.text)
    decreases |ks|
  {
    var r := WalkGroups(d, steps, ks, st);
    if |ks| > 0 && r.Ok? {
      var g := Group(d, ks[0]);
      var step := steps(ks[0], |NonNew(g)| == 0);
      var here := WalkGroup(step, g, 0, 0, st).value;
      var rest := WalkGroups(d, steps, ks[1..], here.0).value;
      assert r.value == (rest.0, [here.1] + rest.1);
      WalkGroupPlaced(step, g, 0, 0, st);
      WalkGroupsPlaced(d, steps, ks[1..], here.0);
      PlacedAllGrow(here.1, g, 0, here.0.text, rest.0.text);
      var all := [here.1] + rest.1;
      forall i | 0 <= i < |ks|
        ensures PlacedAll(all[i], Group(d, ks[i]), 0, rest.0.text)
      {
        if i > 0 {
          assert all[i] == rest.1[i - 1] && ks[i] == ks[1..][i - 1];
        }
      }
    }
  }

  /**
   * The members copied into the new span group: all that are not deleted,
   * in order, with a member marked processed losing its new-element flag.
   */
  function Survivors(ps: seq<Placed>): (r: seq<Placed>)
    ensures |r| == |ps| - CountDeleted(ps)
    ensures forall i :: 0 <= i < |r| ==> !r[i].span.deleted
  {
    if |ps| == 0 then []
    else if ps[0].span.deleted then Survivors(ps[1..])
    else
      var p := ps[0];
      var p' := if p.span.added then p.(span := p.span.(newElement := false)) else p;
      [p'] + Survivors(ps[1..])
  }

  function CountDeleted(ps: seq<Placed>): (r: nat)
    ensures r <= |ps|
  {
    if |ps| == 0 then 0 else (if ps[0].span.deleted then 1 else 0) + CountDeleted(ps[1..])
  }

  /** The number of members of a group the rebuild deletes. */
  function CountDeletions(g: seq<Span>): (r: nat)
    ensures r <= |g|
  {
    if |g| == 0 then 0 else (if IsDeletion(g[0]) then 1 else 0) + CountDeletions(g[1..])
  }

  lemma {:induction false} CountMatches(ps: seq<Placed>, g: seq<Span>)
    requires |ps| == |g|
    requires forall j :: 0 <= j < |ps| ==> PlacedFor(ps[j], g[j])
    ensures CountDeleted(ps) == CountDeletions(g)
    decreases |g|
  {
    if |g| > 0 {
      assert forall j :: 0 <= j < |ps| - 1 ==> ps[1..][j] == ps[j + 1] && g[1..][j] == g[j + 1];
      CountMatches(ps[1..], g[1..]);
    }
  }

  /** Every survivor still has a range, and it still holds the survivor's text. */
  lemma {:induction false} SurvivorsHold(t: string, ps: seq<Placed>)
    requires forall j :: 0 <= j < |ps| ==> RangeHolds(t, ps[j]) && (ps[j].newRange.Some? || ps[j].span.deleted)
    ensures forall i :: 0 <= i < |Survivors(ps)| ==>
      Survivors(ps)[i].newRange.Some? && RangeHolds(t, Survivors(ps)[i])
  {
    if |ps| > 0 {
      assert forall j :: 0 <= j < |ps| - 1 ==> ps[1..][j] == ps[j + 1];
      SurvivorsHold(t, ps[1..]);
    }
  }

  /** The new group for `k`: the survivors of its walk, or empty when it was not walked. */
  function NewGroup(ks: seq<GroupName>, placed: seq<seq<Placed>>, k: GroupName): seq<Placed>
    requires |placed| == |ks|
  {
    if |ks| == 0 then []
    else if ks[0] == k then Survivors(placed[0])
    else NewGroup(ks[1..], placed[1..], k)
  }

  // ---------------------------------------------------------------------
  // Parts
  // ---------------------------------------------------------------------

  /** A part recomputed from its group: None when empty, else first member's start to last member's end. */
  function PartOf(g: seq<Placed>): (r: Option<Range>)
    ensures |g| == 0 <==> r.None?
    ensures |g| > 0 && g[0].newRange.Some? && g[|g| - 1].newRange.Some? ==>
      r == Some(Range(g[0].newRange.value.start, g[|g| - 1].newRange.value.end))
  {
    if |g| == 0 then None
    else
      var a := if g[0].newRange.Some? then g[0].newRange.value.start else 0;
      var b := if g[|g| - 1].newRange.Some? then g[|g| - 1].newRange.value.end else 0;
      Some(Range(a, b))
  }

  /**
   * The annex moved with the enacting part: None if it was None; otherwise
   * it keeps its length and starts at the new enacting end plus
   * (old enacting end - old annex start). A missing enacting part, old or
   * new, raises AttributeError.
   */
  function NewAnnex(prev: Parts, newEnacting: Option<Range>): (r: Result<Option<Range>>)
    ensures prev.annex.None? ==> r == Ok(None)
    ensures prev.annex.Some? && (prev.enacting.None? || newEnacting.None?) ==> r == Err(AttributeError)
    ensures prev.annex.Some? && prev.enacting.Some? && newEnacting.Some? ==>
      && r.Ok? && r.value.Some?
      && r.value.value.end - r.value.value.start == prev.annex.value.end - prev.annex.value.start
      && r.value.value.start - newEnacting.value.end == prev.enacting.value.end - prev.annex.value.start
  {
    if prev.annex.None? then Ok(None)
    else if prev.enacting.None? || newEnacting.None? then Err(AttributeError)
    else
      var dist := prev.enacting.value.end - prev.annex.value.start;
      var start := newEnacting.value.end + dist;
      Ok(Some(Range(start, start + (prev.annex.value.end - prev.annex.value.start))))
  }

  /**
   * The annex offset is taken with the wrong sign: an annex that started
   * `gap` characters after the old enacting part now starts `gap`
   * characters BEFORE the end of the new one.
   */
  lemma AnnexMovesBack(prev: Parts, newEnacting: Range, gap: int)
    requires prev.annex.Some? && prev.enacting.Some?
    requires prev.annex.value.start == prev.enacting.value.end + gap
    ensures NewAnnex(prev, Some(newEnacting)).Ok?
    ensures NewAnnex(prev, Some(newEnacting)).value.value.start == newEnacting.end - gap
  {
  }

  /** The rebuilt document: text, new groups, new parts, and the article-element spans. */
  datatype Rebuilt = Rebuilt(
    text: string,
    order: seq<GroupName>,
    placed: seq<seq<Placed>>,
    citations: seq<Placed>,
    recitals: seq<Placed>,
    articles: seq<Placed>,
    parts: Parts,
    arena: Arena)

  /** Some named group has no sort key. */
  predicate KeyMissing(d: EditDoc, order: seq<GroupName>)
  {
    exists k | k in order :: GroupKey(d, k).Err?
  }

  /**
   * The rebuilt document from the walk over the groups `ks`: the old text
   * from the final cursor is appended, the new groups are the survivors of
   * each group's walk, and the parts are recomputed from them; moving an
   * annex without an enacting part fails.
   */
  function Assemble(d: EditDoc, ks: seq<GroupName>, walked: (State, seq<seq<Placed>>)): (r: Result<Rebuilt>)
    requires |walked.1| == |ks|
    ensures r.Err? <==> NewAnnex(d.parts, PartOf(NewGroup(ks, walked.1, Articles))).Err?
    ensures r.Err? ==> r == Err(AttributeError)
    ensures r.Ok? ==>
      && r.value.order == ks && r.value.placed == walked.1 && r.value.arena == walked.0.arena
      && r.value.text == walked.0.text + PySliceFrom(d.text, From(walked.0.cursor))
    ensures r.Ok? ==>
      && r.value.citations == NewGroup(ks, walked.1, Citations)
      && r.value.recitals == NewGroup(ks, walked.1, Recitals)
      && r.value.articles == NewGroup(ks, walked.1, Articles)
    ensures r.Ok? ==>
      && r.value.parts.citations == PartOf(r.value.citations)
      && r.value.parts.recitals == PartOf(r.value.recitals)
      && r.value.parts.enacting == PartOf(r.value.articles)
      && r.value.parts.enactingToc == PartOf(r.value.articles)
      && NewAnnex(d.parts, PartOf(r.value.articles)) == Ok(r.value.parts.annex)
  {
    var text := walked.0.text + PySliceFrom(d.text, From(walked.0.cursor));
    var cits := NewGroup(ks, walked.1, Citations);
    var recs := NewGroup(ks, walked.1, Recitals);
    var arts := NewGroup(ks, walked.1, Articles);
    var annex :- NewAnnex(d.parts, PartOf(arts));
    var parts := Parts(PartOf(cits), PartOf(recs), PartOf(arts), PartOf(arts), annex);
    Ok(Rebuilt(text, ks, walked.1, cits, recs, arts, parts, walked.0.arena))
  }

  /**
   * The rebuild over any steps: unless a named group has no sort key, the
   * named groups, deduplicated and sorted by their keys, are walked from an
   * empty text with the cursor at 0, and the result is assembled.
   */
  function ModifyDocWith(d: EditDoc, steps: StepMaker, order: seq<GroupName>): (r: Result<Rebuilt>)
    ensures KeyMissing(d, order) ==> r == Err(TypeError)
    ensures r.Ok? ==> r.value.order == WalkOrder(d, order)
    ensures r.Ok? ==> GroupsSorted(Key(d), r.value.order) && multiset(r.value.order) == multiset(Dedup(order))
  {
    if KeyMissing(d, order) then Err(TypeError)
    else
      var ks := WalkOrder(d, order);
      var w := WalkGroups(d, steps, ks, State("", Some(0), d.arena));
      if w.Err? then Err(w.error) else Assemble(d, ks, w.value)
  }

  /**
   * `modify_doc(doc)` with `determine_span_group_order(doc)` given as
   * `order`. The new doc's tokenisation is not modelled: new spans and
   * parts are the character ranges the rebuild records.
   */
  function ModifyDoc(env: Env, order: seq<GroupName>): Result<Rebuilt>
  {
    ModifyDocWith(env.doc, Steps(env, Emitter(env)), order)
  }

  /** The group `k` was walked at its first position in `ks`; that walk's survivors are the new group. */
  lemma {:induction false} NewGroupIndex(ks: seq<GroupName>, placed: seq<seq<Placed>>, k: GroupName) returns (i: nat)
    requires |placed| == |ks| && k in ks
    ensures i < |ks| && ks[i] == k && NewGroup(ks, placed, k) == Survivors(placed[i])
  {
    if ks[0] == k {
      i := 0;
    } else {
      var i' := NewGroupIndex(ks[1..], placed[1..], k);
      i := i' + 1;
    }
  }

  lemma {:induction false} NewGroupAbsent(ks: seq<GroupName>, placed: seq<seq<Placed>>, k: GroupName)
    requires |placed| == |ks| && k !in ks
    ensures NewGroup(ks, placed, k) == []
  {
    if |ks| > 0 {
      NewGroupAbsent(ks[1..], placed[1..], k);
    }
  }

  /** The group of `k` in a rebuilt document. */
  function RebuiltGroup(r: Rebuilt, k: GroupName): seq<Placed>
  {
    match k
    case Citations => r.citations
    case Recitals => r.recitals
    case Articles => r.articles
  }

  /**
   * A rebuild keeps every member of a group it walks except the deletions,
   * drops the groups it does not walk, and every member it keeps has a new
   * range that holds exactly the text emitted for it, whatever good steps
   * the walk takes.
   */
  lemma WithGroups(d: EditDoc, steps: StepMaker, order: seq<GroupName>, k: GroupName)
    requires AllGood(steps)
    requires ModifyDocWith(d, steps, order).Ok?
    ensures var r := ModifyDocWith(d, steps, order).value;
      && (k in order ==> |RebuiltGroup(r, k)| == |Group(d, k)| - CountDeletions(Group(d, k)))
      && (k !in order ==> RebuiltGroup(r, k) == [])
      && forall i :: 0 <= i < |RebuiltGroup(r, k)| ==>
           RebuiltGroup(r, k)[i].newRange.Some? && RangeHolds(r.text, RebuiltGroup(r, k)[i])
  {
    var r := ModifyDocWith(d, steps, order).value;
    var ks := WalkOrder(d, order);
    var st0 := State("", Some(0), d.arena);
    var walked := WalkGroups(d, steps, ks, st0).value;
    WalkGroupsPlaced(d, steps, ks, st0);
    assert r.order == ks && r.placed == walked.1;
    assert r.text == walked.0.text + PySliceFrom(d.text, From(walked.0.cursor));
    assert RebuiltGroup(r, k) == NewGroup(ks, walked.1, k);
    assert k in order <==> k in ks by {
      assert k in ks <==> k in multiset(ks);
      assert k in Dedup(order) <==> k in multiset(Dedup(order));
    }
    if k in ks {
      var i := NewGroupIndex(ks, walked.1, k);
      var ps := walked.1[i];
      var g := Group(d, k);
      assert |ps| == |g|;
      assert PlacedAll(ps, g, 0, walked.0.text);
      PlacedAllGrow(ps, g, 0, walked.0.text, r.text);
      assert forall j :: 0 <= j < |ps| ==> PlacedFor(ps[j], g[j]) && RangeHolds(r.text, ps[j]) by {
        forall j | 0 <= j < |ps| ensures PlacedFor(ps[j], g[j]) && RangeHolds(r.text, ps[j]) {
          assert g[0 + j] == g[j];
        }
      }
      CountMatches(ps, g);
      SurvivorsHold(r.text, ps);
    } else {
      NewGroupAbsent(ks, walked.1, k);
    }
  }

  /**
   * `modify_doc` keeps every member of a group it walks except the
   * deletions, drops the groups it does not walk, and every member it keeps
   * has a new range that holds exactly the text emitted for it.
   */
  lemma ModifyDocGroups(env: Env, order: seq<GroupName>, k: GroupName)
    requires ModifyDoc(env, order).Ok?
    ensures var r := ModifyDoc(env, order).value;
      && (k in order ==> |RebuiltGroup(r, k)| == |Group(env.doc, k)| - CountDeletions(Group(env.doc, k)))
      && (k !in order ==> RebuiltGroup(r, k) == [])
      && forall i :: 0 <= i < |RebuiltGroup(r, k)| ==>
           RebuiltGroup(r, k)[i].newRange.Some? && RangeHolds(r.text, RebuiltGroup(r, k)[i])
  {
    StepsGood(env, Emitter(env));
    WithGroups(env.doc, Steps(env, Emitter(env)), order, k);
  }

  // ---------------------------------------------------------------------
  // Untouched documents
  // ---------------------------------------------------------------------

  /** A span carrying no edit: not deleted, no replacement, not new. */
  predicate Pristine(s: Span)
  {
    !s.deleted && s.replacement.None? && !s.newElement
  }

  /** What a rebuild emits for untouched spans: each gap from the cursor, then the span's text with its whitespace. */
  function Reference(doc: string, g: seq<Span>, c: Option<nat>): string
  {
    if |g| == 0 then []
    else PySlice(doc, From(c), g[0].start) + TextWithWs(doc, g[0]) + Reference(doc, g[1..], Some(g[0].end))
  }

  /** Where the cursor stands after the spans `g`. */
  function LastEnd(g: seq<Span>, c: Option<nat>): Option<nat>
  {
    if |g| == 0 then c else LastEnd(g[1..], Some(g[0].end))
  }

  lemma {:induction false} ReferenceAppend(doc: string, a: seq<Span>, b: seq<Span>, c: Option<nat>)
    ensures Reference(doc, a + b, c) == Reference(doc, a, c) + Reference(doc, b, LastEnd(a, c))
    ensures LastEnd(a + b, c) == LastEnd(b, LastEnd(a, c))
    decreases |a|
  {
    if |a| == 0 {
      assert a + b == b;
    } else {
      assert (a + b)[1..] == a[1..] + b;
      var c' := Some(a[0].end);
      ReferenceAppend(doc, a[1..], b, c');
      var head := PySlice(doc, From(c), a[0].start) + TextWithWs(doc, a[0]);
      assert Reference(doc, a + b, c) == head + Reference(doc, a[1..] + b, c');
      assert Reference(doc, a, c) == head + Reference(doc, a[1..], c');
      Assoc(head, Reference(doc, a[1..], c'), Reference(doc, b, LastEnd(a[1..], c')));
    }
  }

  lemma ReferenceCons(doc: string, g: seq<Span>, i: nat, c: Option<nat>)
    requires i < |g|
    ensures Reference(doc, g[i..], c) == PySlice(doc, From(c), g[i].start) + TextWithWs(doc, g[i]) + Reference(doc, g[i + 1..], Some(g[i].end))
    ensures LastEnd(g[i..], c) == LastEnd(g[i + 1..], Some(g[i].end))
  {
    assert g[i..][1..] == g[i + 1..];
  }

  /** A step that emits an untouched span as its gap and its text with whitespace. */
  ghost predicate PlainStep(step: StepFn, doc: string)
  {
    forall i, s, e, st :: Pristine(s) ==>
      && step(i, s, e, st).Ok?
      && step(i, s, e, st).value.st.text == st.text + PySlice(doc, From(st.cursor), s.start) + TextWithWs(doc, s)
      && step(i, s, e, st).value.st.cursor == Some(s.end)
  }

  lemma StepPlain(env: Env, art: ArticleEmit, k: GroupName, noOriginals: bool)
    requires k != Articles || PlainArticles(env.doc.text, art)
    ensures PlainStep(GroupStep(env, art, k, noOriginals), env.doc.text)
  {
    var step := GroupStep(env, art, k, noOriginals);
    forall i, s, e, st | Pristine(s)
      ensures && step(i, s, e, st).Ok?
              && step(i, s, e, st).value.st.text == st.text + PySlice(env.doc.text, From(st.cursor), s.start) + TextWithWs(env.doc.text, s)
              && step(i, s, e, st).value.st.cursor == Some(s.end)
    {
      assert !IsDeletion(s);
      assert step(i, s, e, st) == KeptStep(env, art, k, s, e, st);
      if k == Articles {
        var before := st.text + PySlice(env.doc.text, From(st.cursor), s.start);
        assert art(s, e, st.arena, |before|) == Ok((DefaultText(env.doc.text, s), st.arena));
      }
    }
  }

  /** The walk over a group of untouched spans emits exactly `Reference`. */
  lemma {:induction false} WalkGroupReference(step: StepFn, doc: string, g: seq<Span>, spanI: nat, elementI: nat, st: State)
    requires PlainStep(step, doc) && spanI <= |g|
    requires forall j :: spanI <= j < |g| ==> Pristine(g[j])
    ensures var r := WalkGroup(step, g, spanI, elementI, st);
      && r.Ok?
      && r.value.0.text == st.text + Reference(doc, g[spanI..], st.cursor)
      && r.value.0.cursor == LastEnd(g[spanI..], st.cursor)
    decreases |g| - spanI
  {
    var r := WalkGroup(step, g, spanI, elementI, st);
    if spanI < |g| {
      var o := step(spanI, g[spanI], elementI, st);
      assert o.Ok?;
      var out := o.value;
      var gap := PySlice(doc, From(st.cursor), g[spanI].start) + TextWithWs(doc, g[spanI]);
      assert out.st.text == st.text + gap && out.st.cursor == Some(g[spanI].end);
      var rest := WalkGroup(step, g, spanI + 1, out.elementI, out.st);
      WalkGroupReference(step, doc, g, spanI + 1, out.elementI, out.st);
      assert r == Ok((rest.value.0, [out.placed] + rest.value.1));
      ReferenceCons(doc, g, spanI, st.cursor);
      Assoc(st.text, gap, Reference(doc, g[spanI + 1..], Some(g[spanI].end)));
    } else {
      assert g[spanI..] == [];
    }
  }

  lemma Assoc(a: string, b: string, c: string)
    ensures (a + b) + c == a + (b + c)
  {
  }

  /** The spans of the groups `ks`, in walk order. */
  function AllSpans(d: EditDoc, ks: seq<GroupName>): seq<Span>
  {
    if |ks| == 0 then [] else Group(d, ks[0]) + AllSpans(d, ks[1..])
  }

  predicate AllPristine(d: EditDoc)
  {
    forall k: GroupName, i :: 0 <= i < |Group(d, k)| ==> Pristine(Group(d, k)[i])
  }

  ghost predicate AllPlain(steps: StepMaker, doc: string)
  {
    forall k, b :: PlainStep(steps(k, b), doc)
  }

  lemma StepsPlain(env: Env, art: ArticleEmit)
    requires PlainArticles(env.doc.text, art)
    ensures AllPlain(Steps(env, art), env.doc.text)
  {
    forall k, b ensures PlainStep(Steps(env, art)(k, b), env.doc.text) {
      StepPlain(env, art, k, b);
    }
  }

  /** The walk over group `k` from state `st` emits exactly `Reference` for it. */
  ghost predicate GroupWalksPlain(d: EditDoc, steps: StepMaker, k: GroupName, st: State)
  {
    var g := Group(d, k);
    var r := WalkGroup(steps(k, |NonNew(g)| == 0), g, 0, 0, st);
    && r.Ok?
    && r.value.0.text == st.text + Reference(d.text, g, st.cursor)
    && r.value.0.cursor == LastEnd(g, st.cursor)
  }

  ghost predicate AllGroupsPlain(d: EditDoc, steps: StepMaker)
  {
    forall k, st :: GroupWalksPlain(d, steps, k, st)
  }

  lemma GroupsPlain(d: EditDoc, steps: StepMaker)
    requires AllPristine(d)
    requires AllPlain(steps, d.text)
    ensures AllGroupsPlain(d, steps)
  {
    forall k, st ensures GroupWalksPlain(d, steps, k, st) {
      var g := Group(d, k);
      WalkGroupReference(steps(k, |NonNew(g)| == 0), d.text, g, 0, 0, st);
      assert g[0..] == g;
    }
  }

  lemma {:induction false} WalkGroupsReference(d: EditDoc, steps: StepMaker, ks: seq<GroupName>, st: State)
    requires AllGroupsPlain(d, steps)
    ensures var r := WalkGroups(d, steps, ks, st);
      && r.Ok?
      && r.value.0.text == st.text + Reference(d.text, AllSpans(d, ks), st.cursor)
      && r.value.0.cursor == LastEnd(AllSpans(d, ks), st.cursor)
    decreases |ks|
  {
    if |ks| > 0 {
      var g := Group(d, ks[0]);
      assert GroupWalksPlain(d, steps, ks[0], st);
      var here := WalkGroup(steps(ks[0], |NonNew(g)| == 0), g, 0, 0, st).value;
      var tail := AllSpans(d, ks[1..]);
      WalkGroupsReference(d, steps, ks[1..], here.0);
      ReferenceAppend(d.text, g, tail, st.cursor);
      Assoc(st.text, Reference(d.text, g, st.cursor), Reference(d.text, tail, LastEnd(g, st.cursor)));
    }
  }

  /** Untouched groups always have a sort key. */
  lemma PristineKeys(d: EditDoc, k: GroupName)
    requires AllPristine(d)
    ensures GroupKey(d, k).Ok?
  {
    var g := Group(d, k);
    if |g| > 0 {
      assert !g[0].newElement;
      assert g[0] in NonNew(g);
    }
  }

  /** With every key present, the rebuild walks the sorted groups and appends the rest of the old text. */
  lemma PristineKeysPresent(d: EditDoc, order: seq<GroupName>)
    requires AllPristine(d)
    ensures !KeyMissing(d, order)
  {
    forall k | k in order ensures GroupKey(d, k).Ok? {
      PristineKeys(d, k);
    }
  }

  lemma WithReference(d: EditDoc, steps: StepMaker, order: seq<GroupName>)
    requires AllPristine(d)
    requires AllGroupsPlain(d, steps)
    ensures var r := ModifyDocWith(d, steps, order);
      && (r.Err? ==> r == Err(AttributeError) && d.parts.annex.Some?)
      && (r.Ok? ==>
            var all := AllSpans(d, r.value.order);
            r.value.text == Reference(d.text, all, Some(0)) + PySliceFrom(d.text, From(LastEnd(all, Some(0)))))
  {
    PristineKeysPresent(d, order);
    var ks := WalkOrder(d, order);
    var st0 := State("", Some(0), d.arena);
    WalkGroupsReference(d, steps, ks, st0);
    var w := WalkGroups(d, steps, ks, st0).value;
    var all := AllSpans(d, ks);
    assert w.0.text == Reference(d.text, all, Some(0)) by {
      assert st0.text + Reference(d.text, all, Some(0)) == Reference(d.text, all, Some(0));
    }
    assert ModifyDocWith(d, steps, order) == Assemble(d, ks, w);
  }

  /**
   * A rebuild of a document without edits emits every gap and every span's
   * text with its trailing whitespace, and then the old text from the end
   * of the last span; it can only fail by moving an annex without an
   * enacting part.
   */
  lemma ModifyDocReference(env: Env, order: seq<GroupName>)
    requires AllPristine(env.doc)
    requires env.doc.articleElements.None?
    ensures var r := ModifyDoc(env, order);
      && (r.Err? ==> r == Err(AttributeError) && env.doc.parts.annex.Some?)
      && (r.Ok? ==>
            var all := AllSpans(env.doc, r.value.order);
            r.value.text == Reference(env.doc.text, all, Some(0)) + PySliceFrom(env.doc.text, From(LastEnd(all, Some(0)))))
  {
    EmitterPlain(env);
    StepsPlain(env, Emitter(env));
    GroupsPlain(env.doc, Steps(env, Emitter(env)));
    WithReference(env.doc, Steps(env, Emitter(env)), order);
  }

  /** Spans in text order that end where their whitespace ends, all inside the text. */
  predicate Ordered(g: seq<Span>, c: nat, n: nat)
  {
    |g| == 0 || (c <= g[0].start <= g[0].end && g[0].wsEnd == g[0].end && g[0].end <= n && Ordered(g[1..], g[0].end, n))
  }

  lemma SliceJoin(doc: string, a: nat, b: nat, c: nat, e: nat)
    requires a <= b <= c <= e <= |doc|
    ensures doc[a..b] + doc[b..c] + doc[c..e] == doc[a..e]
  {
  }

  lemma {:induction false} ReferenceCopies(doc: string, g: seq<Span>, c: nat)
    requires c <= |doc| && Ordered(g, c, |doc|)
    ensures LastEnd(g, Some(c)).Some? && c <= LastEnd(g, Some(c)).value <= |doc|
    ensures Reference(doc, g, Some(c)) == doc[c..LastEnd(g, Some(c)).value]
    decreases |g|
  {
    if |g| > 0 {
      var h := g[0];
      ReferenceCopies(doc, g[1..], h.end);
      var e := LastEnd(g[1..], Some(h.end)).value;
      assert LastEnd(g, Some(c)) == Some(e);
      assert Reference(doc, g, Some(c)) == PySlice(doc, c, h.start) + TextWithWs(doc, h) + Reference(doc, g[1..], Some(h.end));
      assert PySlice(doc, c, h.start) == doc[c..h.start];
      assert TextWithWs(doc, h) == doc[h.start..h.end];
      SliceJoin(doc, c, h.start, h.end, e);
    }
  }

  /** Ordered spans emitted as `Reference`, followed by the old text after the last of them, give back the text. */
  lemma ReferenceThenRest(doc: string, g: seq<Span>)
    requires Ordered(g, 0, |doc|)
    ensures Reference(doc, g, Some(0)) + PySliceFrom(doc, From(LastEnd(g, Some(0)))) == doc
  {
    ReferenceCopies(doc, g, 0);
    var e := LastEnd(g, Some(0)).value;
    assert doc[0..e] + doc[e..] == doc;
  }

  lemma WithIdentity(d: EditDoc, steps: StepMaker, order: seq<GroupName>)
    requires AllPristine(d)
    requires AllGroupsPlain(d, steps)
    requires Ordered(AllSpans(d, WalkOrder(d, order)), 0, |d.text|)
    ensures ModifyDocWith(d, steps, order).Ok? ==> ModifyDocWith(d, steps, order).value.text == d.text
  {
    WithReference(d, steps, order);
    ReferenceThenRest(d.text, AllSpans(d, WalkOrder(d, order)));
  }

  /** A document without edits whose spans follow each other and end where their whitespace ends is rebuilt unchanged. */
  lemma ModifyDocIdentity(env: Env, order: seq<GroupName>)
    requires AllPristine(env.doc)
    requires Ordered(AllSpans(env.doc, WalkOrder(env.doc, order)), 0, |env.doc.text|)
    requires env.doc.articleElements.None?
    ensures ModifyDoc(env, order).Ok? ==> ModifyDoc(env, order).value.text == env.doc.text
  {
    EmitterPlain(env);
    StepsPlain(env, Emitter(env));
    GroupsPlain(env.doc, Steps(env, Emitter(env)));
    WithIdentity(env.doc, Steps(env, Emitter(env)), order);
  }

  /** "ab c" with one citation "ab" whose trailing whitespace runs to the "c". */
  function ExampleDoc(): EditDoc
  {
    EditDoc("ab c", [Plain(0, 2, 3)], [], [], None, [], Parts(Some(Range(0, 2)), None, None, None, None))
  }

  /**
   * A span's trailing whitespace is emitted with it and then copied again
   * from the old text: "ab c" with a citation "ab" comes back as "ab  c",
   * whatever the modification test and the segmenter.
   */
  lemma TrailingWhitespaceRepeats(env: Env)
    requires env.doc == ExampleDoc()
    ensures ModifyDoc(env, [Citations]).Ok? && ModifyDoc(env, [Citations]).value.text == "ab  c"
  {
    var d := env.doc;
    assert AllPristine(d) && d.articleElements.None? && d.parts.annex.None?;
    ModifyDocReference(env, [Citations]);
    var r := ModifyDoc(env, [Citations]);
    assert r.Ok?;
    assert r.value.order == WalkOrder(d, [Citations]);
    ExampleOrder(d);
    ExampleText();
  }

  lemma ExampleOrder(d: EditDoc)
    requires d.citations == [Plain(0, 2, 3)]
    ensures AllSpans(d, WalkOrder(d, [Citations])) == [Plain(0, 2, 3)]
  {
    assert Dedup([Citations]) == [Citations];
    assert WalkOrder(d, [Citations]) == [Citations];
  }

  lemma ExampleText()
    ensures var g := [Plain(0, 2, 3)];
            Reference("ab c", g, Some(0)) + PySliceFrom("ab c", From(LastEnd(g, Some(0)))) == "ab  c"
  {
    var g := [Plain(0, 2, 3)];
    assert Reference("ab c", g, Some(0)) == "ab ";
    assert LastEnd(g, Some(0)) == Some(2);
    assert PySliceFrom("ab c", 2) == " c";
  }
}

=== FILE: references.dfy ===
/**
 * The offset and list logic of euplexcy/entities/references.py: expanding a
 * range such as "points (a) to (d)" into its members, intersecting ranges,
 * merging the overlapping candidate matches of one sentence, and splitting
 * one match at the positions of the references inside it. The regular
 * expressions that find the candidates and split positions are inputs.
 */
module References {
  import opened PyBase
  import opened Numerals

  // ---------------------------------------------------------------------
  // _resolve_range
  // ---------------------------------------------------------------------

  /** How the two bounds were read. */
  datatype Reading = Decimal | Roman | Letter

  /** Whether `s` contains I, V or X (`re.search(r'[IVX]', s)`). */
  predicate HasRomanMark(s: string)
  {
    'I' in s || 'V' in s || 'X' in s
  }

  /** Whether `s` contains an ASCII lower-case letter (`re.search(r'[a-z]', s)`). */
  predicate HasLetter(s: string)
  {
    exists i :: 0 <= i < |s| && IsAsciiLowerLetter(s[i])
  }

  /** `s[-1]` when `len(s) > 1`, else `s` itself. */
  function LastChar(s: string): (r: string)
    ensures |s| > 1 ==> r == [s[|s| - 1]]
    ensures |s| <= 1 ==> r == s
  {
    if |s| > 1 then s[|s| - 1..] else s
  }

  /**
   * The reading of the two captured bounds and the integers it gives, or
   * `None` when every reading fails and `_resolve_range` falls back to
   * `[text]`. Decimal first; when only the lower bound is decimal it is
   * already an `int`, and the `.upper()` call on it fails. Roman next, when
   * both bounds contain I, V or X; then letters, read from each bound's
   * last character. Bounds that fit no reading leave strings behind, on
   * which `range` fails.
   */
  function ReadBounds(lower: string, upper: string): (r: Option<(Reading, int, int)>)
    ensures r.Some? && r.value.0 == Decimal <==> ParseInt(lower).Ok? && ParseInt(upper).Ok?
    ensures r.Some? && r.value.0 == Decimal ==> r.value.1 == ParseInt(lower).value && r.value.2 == ParseInt(upper).value
    ensures ParseInt(lower).Ok? && ParseInt(upper).Err? ==> r.None?
  {
    var lo := ParseInt(lower);
    var hi := ParseInt(upper);
    if lo.Ok? && hi.Ok? then Some((Decimal, lo.value, hi.value))
    else if lo.Ok? then None
    else if HasRomanMark(Upper(lower)) && HasRomanMark(Upper(upper)) then RomanBounds(lower, upper)
    else if HasLetter(Lower(lower)) && HasLetter(Lower(upper)) then LetterBounds(lower, upper)
    else None
  }

  /** Both bounds as Roman numerals, upper-cased. */
  function RomanBounds(lower: string, upper: string): (r: Option<(Reading, int, int)>)
    ensures r.Some? <==> RomanToInt(Upper(lower)).Ok? && RomanToInt(Upper(upper)).Ok?
    ensures r.Some? ==> r.value == (Roman, RomanToInt(Upper(lower)).value, RomanToInt(Upper(upper)).value)
  {
    var a := RomanToInt(Upper(lower));
    var b := RomanToInt(Upper(upper));
    if a.Ok? && b.Ok? then Some((Roman, a.value, b.value)) else None
  }

  /** Both bounds as letters, each read from its last character. */
  function LetterBounds(lower: string, upper: string): (r: Option<(Reading, int, int)>)
    ensures r.Some? <==> LetterToInt(Lower(LastChar(lower))).Ok? && LetterToInt(Lower(LastChar(upper))).Ok?
    ensures r.Some? ==> r.value == (Letter, LetterToInt(Lower(LastChar(lower))).value, LetterToInt(Lower(LastChar(upper))).value)
  {
    var a := LetterToInt(Lower(LastChar(lower)));
    var b := LetterToInt(Lower(LastChar(upper)));
    if a.Ok? && b.Ok? then Some((Letter, a.value, b.value)) else None
  }

  /**
   * When the lower bound is not decimal and both bounds contain I, V or X,
   * the Roman reading is the only one tried: the bounds are read as Roman
   * numerals or not at all.
   */
  lemma RomanBeforeLetter(lower: string, upper: string)
    requires ParseInt(lower).Err? && HasRomanMark(Upper(lower)) && HasRomanMark(Upper(upper))
    ensures ReadBounds(lower, upper).None? || ReadBounds(lower, upper).value.0 == Roman
  {
  }

  /** A Roman reading gives the values of the upper-cased bounds. */
  lemma RomanReadingValues(lower: string, upper: string, lo: int, hi: int)
    requires ReadBounds(lower, upper) == Some((Roman, lo, hi))
    ensures RomanToInt(Upper(lower)) == Ok(lo) && RomanToInt(Upper(upper)) == Ok(hi)
  {
  }

  /**
   * Bounds that are not decimal and not both marked Roman, that both contain
   * a letter and whose last characters convert, are read as letters.
   */
  lemma LetterReading(lower: string, upper: string, lo: int, hi: int)
    requires ParseInt(lower).Err? && !(HasRomanMark(Upper(lower)) && HasRomanMark(Upper(upper)))
    requires HasLetter(Lower(lower)) && HasLetter(Lower(upper))
    requires LetterToInt(Lower(LastChar(lower))) == Ok(lo) && LetterToInt(Lower(LastChar(upper))) == Ok(hi)
    ensures ReadBounds(lower, upper) == Some((Letter, lo, hi))
  {
  }

  /** `len(range(lo, hi + 1))`. */
  function RangeLen(lo: int, hi: int): (n: nat)
    ensures hi < lo ==> n == 0
    ensures hi >= lo ==> n == hi - lo + 1
  {
    if hi < lo then 0 else hi - lo + 1
  }

  /** `range(lo, lo + n)`. */
  function Numbers(lo: int, n: nat): (r: seq<int>)
    ensures |r| == n && forall i :: 0 <= i < n ==> r[i] == lo + i
    decreases n
  {
    if n == 0 then [] else [lo] + Numbers(lo + 1, n - 1)
  }

  /** `[f(num) for num in xs]`. */
  function MapInts<T>(xs: seq<int>, f: int -> T): (r: seq<T>)
    ensures |r| == |xs| && forall i :: 0 <= i < |xs| ==> r[i] == f(xs[i])
  {
    if |xs| == 0 then [] else [f(xs[0])] + MapInts(xs[1..], f)
  }

  /** `[int_to_letter(num) for num in range(lo, lo + n)]`; `chr` may raise ValueError. */
  function LettersFrom(lo: int, n: nat): (r: Result<seq<string>>)
    ensures 1 <= lo && lo + n <= 27 ==> r.Ok?
    ensures r.Ok? ==> |r.value| == n && forall i :: 0 <= i < n ==> |r.value[i]| == 1 && IntToLetter(lo + i) == Ok(r.value[i][0])
    ensures r.Err? ==> r.error == ValueError
    decreases n
  {
    if n == 0 then Ok([])
    else
      var c := IntToLetter(lo);
      if c.Err? then Err(ValueError)
      else
        var rest := LettersFrom(lo + 1, n - 1);
        if rest.Err? then Err(ValueError) else Ok([[c.value]] + rest.value)
  }

  /** The list comprehension that converts `range(lo, hi + 1)` back with the reading's converter. */
  function Expand(reading: Reading, lo: int, hi: int): (r: Result<seq<string>>)
    ensures r.Err? ==> reading == Letter && r.error == ValueError
  {
    match reading
    case Decimal => Ok(MapInts(Numbers(lo, RangeLen(lo, hi)), IntToStr))
    case Roman => Ok(MapInts(Numbers(lo, RangeLen(lo, hi)), IntToRoman))
    case Letter => LettersFrom(lo, RangeLen(lo, hi))
  }

  /**
   * `_resolve_range(text)`. `bounds` is what the range pattern captured in
   * groups 1 and 2, or `None` when it did not match; then, and whenever no
   * reading of the bounds works, the text comes back alone. Only the letter
   * conversion back, which sits outside any `try`, can raise.
   */
  function ResolveRange(text: string, bounds: Option<(string, string)>): (r: Result<seq<string>>)
    ensures bounds.None? ==> r == Ok([text])
    ensures bounds.Some? && ReadBounds(bounds.value.0, bounds.value.1).None? ==> r == Ok([text])
    ensures bounds.Some? && ReadBounds(bounds.value.0, bounds.value.1).Some? ==>
      var rd := ReadBounds(bounds.value.0, bounds.value.1).value;
      r == Expand(rd.0, rd.1, rd.2)
    ensures r.Err? ==> r.error == ValueError
  {
    if bounds.None? then Ok([text])
    else
      var rd := ReadBounds(bounds.value.0, bounds.value.1);
      if rd.None? then Ok([text]) else Expand(rd.value.0, rd.value.1, rd.value.2)
  }

  lemma DecimalReadsBack(xs: seq<int>, i: nat)
    requires i < |xs| && xs[i] >= 0
    ensures ParseInt(MapInts(xs, IntToStr)[i]) == Ok(xs[i])
  {
    ParseIntOfStr(xs[i]);
  }

  lemma RomanReadsBack(xs: seq<int>, i: nat)
    requires i < |xs| && xs[i] >= 1
    ensures RomanToInt(MapInts(xs, IntToRoman)[i]) == Ok(xs[i])
  {
    RomanRoundTrip(xs[i]);
  }

  lemma LetterReadsBack(lo: int, n: nat, xs: seq<int>, i: nat)
    requires 1 <= lo && lo + n <= 27 && xs == Numbers(lo, n) && i < n
    ensures LetterToInt(LettersFrom(lo, n).value[i]) == Ok(xs[i])
  {
    var s := LettersFrom(lo, n).value[i];
    var k := xs[i];
    assert IntToLetter(k) == Ok(s[0]);
    LetterPositionRoundTrip(k);
    assert s == [s[0]];
  }

  /** Reading every string of `strs` back with `parse` gives exactly `xs`. */
  predicate ReadsBack(strs: seq<string>, parse: string -> Result<int>, xs: seq<int>)
  {
    |strs| == |xs| && forall i :: 0 <= i < |xs| ==> parse(strs[i]) == Ok(xs[i])
  }

  lemma ExpandDecimal(lo: nat, hi: int)
    ensures Expand(Decimal, lo, hi).Ok?
    ensures ReadsBack(Expand(Decimal, lo, hi).value, ParseInt, Numbers(lo, RangeLen(lo, hi)))
  {
    var xs := Numbers(lo, RangeLen(lo, hi));
    forall i | 0 <= i < |xs|
      ensures ParseInt(MapInts(xs, IntToStr)[i]) == Ok(xs[i])
    {
      DecimalReadsBack(xs, i);
    }
  }

  lemma ExpandRoman(lo: int, hi: int)
    requires lo >= 1
    ensures Expand(Roman, lo, hi).Ok?
    ensures ReadsBack(Expand(Roman, lo, hi).value, RomanToInt, Numbers(lo, RangeLen(lo, hi)))
  {
    var xs := Numbers(lo, RangeLen(lo, hi));
    forall i | 0 <= i < |xs|
      ensures RomanToInt(MapInts(xs, IntToRoman)[i]) == Ok(xs[i])
    {
      RomanReadsBack(xs, i);
    }
  }

  lemma ExpandLetter(lo: int, hi: int)
    requires 1 <= lo && hi <= 26
    ensures Expand(Letter, lo, hi).Ok?
    ensures ReadsBack(Expand(Letter, lo, hi).value, LetterToInt, Numbers(lo, RangeLen(lo, hi)))
  {
    var n := RangeLen(lo, hi);
    var xs := Numbers(lo, n);
    forall i | 0 <= i < n
      ensures LetterToInt(LettersFrom(lo, n).value[i]) == Ok(xs[i])
    {
      LetterReadsBack(lo, n, xs, i);
    }
  }

  /**
   * Decimal bounds expand to every number from the lower to the upper bound,
   * in order, each of which reads back as that number; an upper bound below
   * the lower one gives nothing.
   */
  lemma ResolveRangeDecimal(text: string, lower: string, upper: string, lo: nat, hi: nat)
    requires ParseInt(lower) == Ok(lo) && ParseInt(upper) == Ok(hi)
    ensures ResolveRange(text, Some((lower, upper))) == Expand(Decimal, lo, hi)
    ensures Expand(Decimal, lo, hi).Ok?
    ensures ReadsBack(Expand(Decimal, lo, hi).value, ParseInt, Numbers(lo, RangeLen(lo, hi)))
  {
    assert ReadBounds(lower, upper) == Some((Decimal, lo, hi));
    ExpandDecimal(lo, hi);
  }

  /**
   * Roman bounds with a positive lower value expand to the Roman numerals of
   * every number in between, each of which reads back as that number.
   */
  lemma ResolveRangeRoman(text: string, lower: string, upper: string, lo: int, hi: int)
    requires ReadBounds(lower, upper) == Some((Roman, lo, hi)) && lo >= 1
    ensures var r := ResolveRange(text, Some((lower, upper)));
      r.Ok? && ReadsBack(r.value, RomanToInt, Numbers(lo, RangeLen(lo, hi)))
  {
    ExpandRoman(lo, hi);
  }

  /**
   * Letter bounds within the alphabet expand to the letters in between,
   * each of which reads back as its alphabet position.
   */
  lemma ResolveRangeLetter(text: string, lower: string, upper: string, lo: int, hi: int)
    requires ReadBounds(lower, upper) == Some((Letter, lo, hi)) && 1 <= lo && hi <= 26
    ensures var r := ResolveRange(text, Some((lower, upper)));
      r.Ok? && ReadsBack(r.value, LetterToInt, Numbers(lo, RangeLen(lo, hi)))
  {
    ExpandLetter(lo, hi);
  }

  // ---------------------------------------------------------------------
  // range_intersect
  // ---------------------------------------------------------------------

  /** A Python `range(start, stop)` with step 1. */
  datatype IntRange = IntRange(start: int, stop: int)

  predicate InRange(x: int, r: IntRange)
  {
    r.start <= x < r.stop
  }

  /** `range(max(r1.start, r2.start), min(r1.stop, r2.stop)) or None`. */
  function RangeIntersect(r1: IntRange, r2: IntRange): Option<IntRange>
  {
    var lo := if r1.start < r2.start then r2.start else r1.start;
    var hi := if r1.stop < r2.stop then r1.stop else r2.stop;
    if lo < hi then Some(IntRange(lo, hi)) else None
  }

  /**
   * The intersection is `None` exactly when the two ranges share no
   * integer, and otherwise holds exactly the integers they share.
   */
  lemma RangeIntersectMeaning(r1: IntRange, r2: IntRange)
    ensures var r := RangeIntersect(r1, r2);
      (r.None? <==> forall x :: !(InRange(x, r1) && InRange(x, r2)))
      && (r.Some? ==> forall x :: InRange(x, r.value) <==> InRange(x, r1) && InRange(x, r2))
  {
    var r := RangeIntersect(r1, r2);
    if r.Some? {
      assert InRange(r.value.start, r1) && InRange(r.value.start, r2);
    }
  }

  // ---------------------------------------------------------------------
  // Candidate matches and add_matches
  // ---------------------------------------------------------------------

  /** The `type` entry: which pattern found the match; split pieces have none. */
  datatype MatchKind = ElementAct | ElementRef | ActRef | Untyped

  /**
   * A candidate match dict: `start`/`end`, the match's character offsets in
   * the document; the character range `strStart`..`strEnd` in its sentence;
   * the sentence; and the text.
   */
  datatype RefMatch = RefMatch(kind: MatchKind, start: int, end: int, strStart: int, strEnd: int, sentence: string, text: string)

  function Chars(m: RefMatch): IntRange
  {
    IntRange(m.strStart, m.strEnd)
  }

  /** `a`'s character range contains `b`'s. */
  predicate Encloses(a: RefMatch, b: RefMatch)
  {
    a.strStart <= b.strStart && a.strEnd >= b.strEnd
  }

  /** An element match inside an element-act or act match is left to it. */
  predicate Swallows(a: RefMatch, b: RefMatch)
  {
    Encloses(a, b) && (a.kind == ElementAct || a.kind == ActRef) && b.kind == ElementRef
  }

  /** The text of a match is its range of the sentence. */
  predicate Sliced(m: RefMatch)
  {
    m.text == PySlice(m.sentence, m.strStart, m.strEnd)
  }

  /**
   * `add_matches(ma1, ma2)`: the enclosing match when one swallows the
   * other, else a match of `ma1`'s kind running from `ma1`'s start to
   * `ma2`'s end of `ma1`'s sentence.
   */
  function AddMatches(ma1: RefMatch, ma2: RefMatch): (r: RefMatch)
    ensures ma1.kind != ElementRef ==> r.kind == ma1.kind
    ensures ma1.sentence == ma2.sentence ==> r.sentence == ma1.sentence
  {
    if Swallows(ma2, ma1) then ma2
    else if Swallows(ma1, ma2) then ma1
    else RefMatch(ma1.kind, ma1.start, ma2.end, ma1.strStart, ma2.strEnd, ma1.sentence,
                  PySlice(ma1.sentence, ma1.strStart, ma2.strEnd))
  }

  /**
   * The three outcomes of `add_matches`: the swallowing match, or the span
   * from the first match's start to the second's end, cut from the first
   * match's sentence. A merge of two sliced matches of one sentence is
   * sliced from it, and a merge of matches in order encloses both.
   */
  lemma AddMatchesCases(ma1: RefMatch, ma2: RefMatch)
    ensures var r := AddMatches(ma1, ma2);
      (Swallows(ma2, ma1) ==> r == ma2)
      && (Swallows(ma1, ma2) ==> r == ma1)
      && (!Swallows(ma1, ma2) && !Swallows(ma2, ma1) ==>
            r.kind == ma1.kind && r.strStart == ma1.strStart && r.strEnd == ma2.strEnd
            && r.start == ma1.start && r.end == ma2.end && r.sentence == ma1.sentence && Sliced(r))
      && (ma1.sentence == ma2.sentence && Sliced(ma1) && Sliced(ma2) ==> Sliced(r))
      && (ma1.strStart <= ma2.strStart && ma1.strEnd <= ma2.strEnd ==> Encloses(r, ma1) && Encloses(r, ma2))
  {
  }

  // ---------------------------------------------------------------------
  // _combine_overlapping_matches
  // ---------------------------------------------------------------------

  /** `[m for m in ms if m['type'] == k]`. */
  function OfKind(ms: seq<RefMatch>, k: MatchKind): (r: seq<RefMatch>)
    ensures forall i :: 0 <= i < |r| ==> r[i].kind == k
    ensures forall m :: m in r <==> m in ms && m.kind == k
  {
    if |ms| == 0 then []
    else if ms[0].kind == k then [ms[0]] + OfKind(ms[1..], k)
    else OfKind(ms[1..], k)
  }

  /** `[m for m in ms if m['type'] != k]`. */
  function NotOfKind(ms: seq<RefMatch>, k: MatchKind): (r: seq<RefMatch>)
    ensures forall i :: 0 <= i < |r| ==> r[i].kind != k
    ensures forall m :: m in r <==> m in ms && m.kind != k
    ensures |r| + |OfKind(ms, k)| == |ms|
  {
    if |ms| == 0 then []
    else if ms[0].kind == k then NotOfKind(ms[1..], k)
    else [ms[0]] + NotOfKind(ms[1..], k)
  }

  /** `xs.remove(x)` when `x` is present: the first equal element goes. */
  function RemoveFirst(xs: seq<RefMatch>, x: RefMatch): (r: seq<RefMatch>)
    requires x in xs
    ensures multiset(r) == multiset(xs) - multiset{x}
  {
    assert xs == [xs[0]] + xs[1..];
    if xs[0] == x then xs[1..]
    else [xs[0]] + RemoveFirst(xs[1..], x)
  }

  /**
   * Whether the inner loop merges `mo` into `m`: same sentence, and the
   * ranges intersect, or (in the first pass) `mo` starts where `m` ends.
   */
  predicate Joins(m: RefMatch, mo: RefMatch, adjacent: bool)
  {
    m.sentence == mo.sentence
    && (RangeIntersect(Chars(m), Chars(mo)).Some? || (adjacent && m.strEnd == mo.strStart))
  }

  /** What one outer iteration leaves: the grown match, what it absorbed, and what is left. */
  datatype Absorbed = Absorbed(merged: RefMatch, absorbed: seq<RefMatch>, rest: seq<RefMatch>)

  /**
   * `for mo in list(pool): if joins: m = add_matches(m, mo); pool.remove(mo)`:
   * `snap` is what is left of the copy, `pool` the live list.
   */
  function Absorb(m: RefMatch, snap: seq<RefMatch>, pool: seq<RefMatch>, adjacent: bool): (r: Absorbed)
    requires multiset(snap) <= multiset(pool)
    ensures multiset(r.absorbed) + multiset(r.rest) == multiset(pool)
    decreases |snap|
  {
    if |snap| == 0 then Absorbed(m, [], pool)
    else
      var mo := snap[0];
      assert snap == [mo] + snap[1..];
      if Joins(m, mo, adjacent) then
        assert mo in multiset(snap);
        var next := AddMatches(m, mo);
        var pool' := RemoveFirst(pool, mo);
        var a := Absorb(next, snap[1..], pool', adjacent);
        Absorbed(a.merged, [mo] + a.absorbed, a.rest)
      else
        Absorb(m, snap[1..], pool, adjacent)
  }

  /** Every match of `ms` lies in `sentence`. */
  predicate InSentence(ms: seq<RefMatch>, sentence: string)
  {
    forall i :: 0 <= i < |ms| ==> ms[i].sentence == sentence
  }

  lemma InSentenceCons(m: RefMatch, ms: seq<RefMatch>, sentence: string)
    requires m.sentence == sentence && InSentence(ms, sentence)
    ensures InSentence([m] + ms, sentence)
  {
  }

  /**
   * What a match absorbs lies in its sentence, and the grown match stays in
   * that sentence and, unless it was an element match, keeps its kind.
   */
  lemma {:induction false} AbsorbKeeps(m: RefMatch, snap: seq<RefMatch>, pool: seq<RefMatch>, adjacent: bool)
    requires multiset(snap) <= multiset(pool)
    ensures var r := Absorb(m, snap, pool, adjacent);
      InSentence(r.absorbed, m.sentence)
      && r.merged.sentence == m.sentence
      && (m.kind != ElementRef ==> r.merged.kind == m.kind)
    decreases |snap|
  {
    if |snap| > 0 {
      var mo := snap[0];
      assert snap == [mo] + snap[1..];
      if Joins(m, mo, adjacent) {
        assert mo in multiset(snap);
        var pool' := RemoveFirst(pool, mo);
        var next := AddMatches(m, mo);
        AbsorbKeeps(next, snap[1..], pool', adjacent);
        var a := Absorb(next, snap[1..], pool', adjacent);
        InSentenceCons(mo, a.absorbed, m.sentence);
        assert Absorb(m, snap, pool, adjacent) == Absorbed(a.merged, [mo] + a.absorbed, a.rest);
      } else {
        AbsorbKeeps(m, snap[1..], pool, adjacent);
        assert Absorb(m, snap, pool, adjacent) == Absorb(m, snap[1..], pool, adjacent);
      }
    }
  }

  /** The outer loop of one pass: each match of `ms` in turn absorbs from what is left of `pool`. */
  datatype Pass = Pass(merged: seq<RefMatch>, absorbed: seq<RefMatch>, rest: seq<RefMatch>)

  function RunPass(ms: seq<RefMatch>, pool: seq<RefMatch>, adjacent: bool): (r: Pass)
    ensures |r.merged| == |ms|
    ensures forall i :: 0 <= i < |ms| ==> r.merged[i].sentence == ms[i].sentence
    ensures forall i :: 0 <= i < |ms| ==> ms[i].kind != ElementRef ==> r.merged[i].kind == ms[i].kind
    ensures multiset(r.absorbed) + multiset(r.rest) == multiset(pool)
  {
    if |ms| == 0 then Pass([], [], pool)
    else
      var a := Absorb(ms[0], pool, pool, adjacent);
      AbsorbKeeps(ms[0], pool, pool, adjacent);
      var p := RunPass(ms[1..], a.rest, adjacent);
      Pass([a.merged] + p.merged, a.absorbed + p.absorbed, p.rest)
  }

  /** Every match came from one of the three patterns. */
  predicate Typed(ms: seq<RefMatch>)
  {
    forall i :: 0 <= i < |ms| ==> ms[i].kind != Untyped
  }

  /** The two passes, with what each absorbed. */
  datatype Combined = Combined(result: seq<RefMatch>, first: Pass, second: Pass)

  /**
   * `_combine_overlapping_matches`: element-act matches absorb the other
   * matches that overlap them or start where they end; then element matches
   * absorb the overlapping act matches. The element-act results come first,
   * then the element results, then the act matches nobody absorbed.
   */
  function CombineParts(ms: seq<RefMatch>): (r: Combined)
  {
    var first := RunPass(OfKind(ms, ElementAct), NotOfKind(ms, ElementAct), true);
    var c1 := first.merged + first.rest;
    var second := RunPass(OfKind(c1, ElementRef), OfKind(c1, ActRef), false);
    Combined(OfKind(c1, ElementAct) + second.merged + second.rest, first, second)
  }

  function CombineOverlapping(ms: seq<RefMatch>): (r: seq<RefMatch>)
  {
    CombineParts(ms).result
  }

  lemma {:induction false} OfKindAppend(a: seq<RefMatch>, b: seq<RefMatch>, k: MatchKind)
    ensures OfKind(a + b, k) == OfKind(a, k) + OfKind(b, k)
  {
    if |a| > 0 {
      assert (a + b)[1..] == a[1..] + b;
      OfKindAppend(a[1..], b, k);
    } else {
      assert a + b == b;
    }
  }

  lemma {:induction false} OfKindAll(ms: seq<RefMatch>, k: MatchKind)
    requires forall i :: 0 <= i < |ms| ==> ms[i].kind == k
    ensures OfKind(ms, k) == ms
  {
    if |ms| > 0 {
      OfKindAll(ms[1..], k);
    }
  }

  lemma {:induction false} OfKindNone(ms: seq<RefMatch>, k: MatchKind)
    requires forall i :: 0 <= i < |ms| ==> ms[i].kind != k
    ensures OfKind(ms, k) == []
  {
    if |ms| > 0 {
      OfKindNone(ms[1..], k);
    }
  }

  /** Matches of the other two kinds split into those of one and those of the other. */
  lemma {:induction false} SplitTwoKinds(ms: seq<RefMatch>)
    requires ElementsOrActs(ms)
    ensures |OfKind(ms, ElementRef)| + |OfKind(ms, ActRef)| == |ms|
  {
    if |ms| > 0 {
      SplitTwoKinds(ms[1..]);
    }
  }

  /** Two bags that add up to a third: the lengths add up too. */
  lemma PartitionSize(a: seq<RefMatch>, b: seq<RefMatch>, c: seq<RefMatch>)
    requires multiset(a) + multiset(b) == multiset(c)
    ensures |a| + |b| == |c|
  {
    assert |multiset(a) + multiset(b)| == |multiset(c)|;
  }

  /**
   * The first pass: every element-act match is kept, and each other match
   * is absorbed or left over, the leftovers being element or act matches.
   */
  lemma FirstPassShape(ms: seq<RefMatch>)
    requires Typed(ms)
    ensures var first := RunPass(OfKind(ms, ElementAct), NotOfKind(ms, ElementAct), true);
      |first.merged| + |first.absorbed| + |first.rest| == |ms|
      && (forall i :: 0 <= i < |first.merged| ==> first.merged[i].kind == ElementAct)
      && ElementsOrActs(first.rest)
  {
    var others := NotOfKind(ms, ElementAct);
    var first := RunPass(OfKind(ms, ElementAct), others, true);
    PartitionSize(first.absorbed, first.rest, others);
    OthersElementsOrActs(ms);
    SubBagElementsOrActs(first.rest, others);
  }

  /** Every match is an element match or an act match. */
  predicate ElementsOrActs(ms: seq<RefMatch>)
  {
    forall i :: 0 <= i < |ms| ==> ms[i].kind == ElementRef || ms[i].kind == ActRef
  }

  lemma {:induction false} OthersElementsOrActs(ms: seq<RefMatch>)
    requires Typed(ms)
    ensures ElementsOrActs(NotOfKind(ms, ElementAct))
  {
    if |ms| > 0 {
      OthersElementsOrActs(ms[1..]);
    }
  }

  lemma SubBagElementsOrActs(a: seq<RefMatch>, b: seq<RefMatch>)
    requires multiset(a) <= multiset(b) && ElementsOrActs(b)
    ensures ElementsOrActs(a)
  {
    forall i | 0 <= i < |a|
      ensures a[i].kind == ElementRef || a[i].kind == ActRef
    {
      assert a[i] in multiset(b);
    }
  }

  /** What the second pass sorts by kind: the element-act matches, then elements and acts between them. */
  lemma SecondPassInputs(merged: seq<RefMatch>, rest: seq<RefMatch>)
    requires forall i :: 0 <= i < |merged| ==> merged[i].kind == ElementAct
    requires ElementsOrActs(rest)
    ensures OfKind(merged + rest, ElementAct) == merged
    ensures |OfKind(merged + rest, ElementRef)| + |OfKind(merged + rest, ActRef)| == |rest|
  {
    OfKindAppend(merged, rest, ElementAct);
    OfKindAll(merged, ElementAct);
    OfKindNone(rest, ElementAct);
    assert merged + [] == merged;
    OfKindAppend(merged, rest, ElementRef);
    OfKindAppend(merged, rest, ActRef);
    OfKindNone(merged, ElementRef);
    OfKindNone(merged, ActRef);
    SplitTwoKinds(rest);
  }

  /**
   * Every input match is either in the result, standing for itself and what
   * it absorbed, or absorbed exactly once: the result is as much shorter as
   * the number of matches absorbed, and the element-act matches open the
   * result in their order, each still in its own sentence.
   */
  lemma CombineConserves(ms: seq<RefMatch>)
    requires Typed(ms)
    ensures var c := CombineParts(ms);
      |c.result| + |c.first.absorbed| + |c.second.absorbed| == |ms|
    ensures var c := CombineParts(ms); var ea := OfKind(ms, ElementAct);
      |ea| <= |c.result|
      && forall i :: 0 <= i < |ea| ==> c.result[i].kind == ElementAct && c.result[i].sentence == ea[i].sentence
  {
    var c := CombineParts(ms);
    var first := c.first;
    var second := c.second;
    var c1 := first.merged + first.rest;
    FirstPassShape(ms);
    SecondPassInputs(first.merged, first.rest);
    PartitionSize(second.absorbed, second.rest, OfKind(c1, ActRef));
    assert c.result == first.merged + second.merged + second.rest;
  }

  /** Without element-act and act matches there is nothing to merge: the result is the input. */
  lemma CombineOnlyElements(ms: seq<RefMatch>)
    requires forall i :: 0 <= i < |ms| ==> ms[i].kind == ElementRef
    ensures CombineOverlapping(ms) == ms
  {
    OfKindNone(ms, ElementAct);
    NotOfKindAll(ms, ElementAct);
    var first := RunPass([], ms, true);
    assert first == Pass([], [], ms);
    var c1 := first.merged + first.rest;
    assert c1 == ms;
    OfKindAll(ms, ElementRef);
    OfKindNone(ms, ActRef);
    OfKindNone(ms, ElementAct);
    RunPassEmptyPool(ms, false);
    var second := RunPass(ms, [], false);
    assert CombineParts(ms).result == [] + second.merged + second.rest;
  }

  lemma {:induction false} NotOfKindAll(ms: seq<RefMatch>, k: MatchKind)
    requires forall i :: 0 <= i < |ms| ==> ms[i].kind != k
    ensures NotOfKind(ms, k) == ms
  {
    if |ms| > 0 {
      NotOfKindAll(ms[1..], k);
    }
  }

  /** With nothing to absorb, a pass returns its matches as they are. */
  lemma {:induction false} RunPassEmptyPool(ms: seq<RefMatch>, adjacent: bool)
    ensures RunPass(ms, [], adjacent) == Pass(ms, [], [])
  {
    if |ms| > 0 {
      RunPassEmptyPool(ms[1..], adjacent);
      assert [ms[0]] + ms[1..] == ms;
    }
  }

  // ---------------------------------------------------------------------
  // _split_match_dict
  // ---------------------------------------------------------------------

  /** Where piece `i` starts: 0, else where split `i - 1` ends. */
  function PieceStart(pos: seq<(int, int)>, i: nat): int
    requires 0 < |pos| && i <= |pos|
  {
    if i == 0 then 0 else pos[i - 1].1
  }

  /** Where piece `i` ends: where split `i` starts; the last runs a full match length past the last split. */
  function PieceEnd(pos: seq<(int, int)>, i: nat, n: nat): int
    requires 0 < |pos| && i <= |pos|
  {
    if i < |pos| then pos[i].0 else pos[|pos| - 1].1 + n
  }

  function Piece(m: RefMatch, s0: int, s1: int): RefMatch
  {
    RefMatch(Untyped, m.start, m.end, m.strStart + s0, m.strStart + s1, m.sentence, PySlice(m.text, s0, s1))
  }

  /**
   * `_split_match_dict(match, pos)`: the match alone without split
   * positions; else one untyped piece before each split and one after the
   * last, each with its text cut from the match text, its range shifted by
   * the match start, and the match's document offsets copied. The last
   * piece's range ends a full match length past the end of the last split,
   * whatever the text's length.
   */
  function SplitMatch(m: RefMatch, pos: seq<(int, int)>): (r: seq<RefMatch>)
    ensures |pos| == 0 ==> r == [m]
    ensures |pos| > 0 ==> (
      |r| == |pos| + 1
      && r[0].strStart == m.strStart
      && (forall i :: 0 < i <= |pos| ==> r[i].strStart == m.strStart + pos[i - 1].1)
      && (forall i :: 0 <= i < |pos| ==> r[i].strEnd == m.strStart + pos[i].0)
      && r[|pos|].strEnd == m.strStart + pos[|pos| - 1].1 + |m.text|
      && (forall i :: 0 <= i <= |pos| ==>
            r[i].kind == Untyped && r[i].sentence == m.sentence && r[i].start == m.start && r[i].end == m.end))
  {
    if |pos| == 0 then [m] else SplitPieces(m, pos)
  }

  /** The pieces around non-empty split positions. */
  function SplitPieces(m: RefMatch, pos: seq<(int, int)>): seq<RefMatch>
    requires |pos| > 0
  {
    seq(|pos| + 1, i requires 0 <= i <= |pos| => Piece(m, PieceStart(pos, i), PieceEnd(pos, i, |m.text|)))
  }

  /** Split positions in order, inside the text, not overlapping. */
  predicate Ordered(pos: seq<(int, int)>, n: nat)
  {
    (forall i :: 0 <= i < |pos| ==> 0 <= pos[i].0 <= pos[i].1 <= n)
    && (forall i :: 0 < i < |pos| ==> pos[i - 1].1 <= pos[i].0)
  }

  /** The texts of pieces `i..` with the split texts between them. */
  function Rejoin(pieces: seq<RefMatch>, text: string, pos: seq<(int, int)>, i: nat): string
    requires |pieces| == |pos| + 1 && i <= |pos| && Ordered(pos, |text|)
    decreases |pos| - i
  {
    if i == |pos| then pieces[i].text
    else pieces[i].text + text[pos[i].0..pos[i].1] + Rejoin(pieces, text, pos, i + 1)
  }

  lemma {:induction false} RejoinFrom(m: RefMatch, pos: seq<(int, int)>, i: nat)
    requires |pos| > 0 && i <= |pos| && Ordered(pos, |m.text|)
    ensures 0 <= PieceStart(pos, i) <= |m.text|
    ensures Rejoin(SplitPieces(m, pos), m.text, pos, i) == m.text[PieceStart(pos, i)..]
    decreases |pos| - i
  {
    var t := m.text;
    var r := SplitPieces(m, pos);
    var s := PieceStart(pos, i);
    if i == |pos| {
      assert r[i].text == PySlice(t, s, s + |t|);
    } else {
      RejoinFrom(m, pos, i + 1);
      var a := pos[i].0;
      var b := pos[i].1;
      assert r[i] == Piece(m, s, a);
      assert r[i].text == t[s..a];
      var rest := Rejoin(r, t, pos, i + 1);
      assert rest == t[b..];
      assert Rejoin(r, t, pos, i) == r[i].text + t[a..b] + rest;
      SlicesJoin(t, s, a, b);
    }
  }

  lemma SlicesJoin<T>(t: seq<T>, a: nat, b: nat, c: nat)
    requires a <= b <= c <= |t|
    ensures t[a..b] + t[b..c] + t[c..] == t[a..]
  {
    assert t[a..b] + t[b..c] == t[a..c];
  }

  /**
   * For split positions in order, the pieces with the split texts put back
   * between them spell the match text: splitting loses only the splits.
   */
  lemma SplitMatchTiles(m: RefMatch, pos: seq<(int, int)>)
    requires |pos| > 0 && Ordered(pos, |m.text|)
    ensures Rejoin(SplitMatch(m, pos), m.text, pos, 0) == m.text
  {
    assert SplitMatch(m, pos) == SplitPieces(m, pos);
    RejoinFrom(m, pos, 0);
  }
}

=== FILE: regex.dfy ===
/**
 * Regular-expression searches as an oracle. The segmentation code only ever
 * asks Python's `re` for the matches of a named pattern over a text; which
 * pattern, which flags and whether the pattern was prefixed with a
 * `(?<=.{n}).*?` look-behind are the three things that tell the calls
 * apart. What comes back is taken as given: the model verifies the cascades
 * and partitions built on top of the matches, not the patterns.
 */
module Regex {
  import opened PyBase

  /** The patterns of the `eucy.regex` tables that the segmentation code uses. */
  datatype Name =
    // eucy.regex.elements
    | Citation
    | RecitalNumStart
    | RecitalWhereasStart
    | RecitalParStart
    | ArticleIdentifier
    | SingleArticleIdentifier
    | ArticleNum
    | ArticleAnyNum
    | ArticleNumParagraph
    | ArticleUnnumParagraph
    | ArticleSubparStart
    | ArticleSectionTitles
    | ArticlePointId
    | ArticleIndentId
    // eucy.regex.structure and the inline patterns of text_parts
    | EnactingStart
    | EnactingStartLenient
    | ArticleStart
    | DoneAtStart
    | AnnexStart
    | BackMatterIndicator
    | ExplanatoryMemorandum
    | ProposalStart
    | ProposalLawStart
    | CitationsStart
    | RecitalsStartWhereas
    | RecitalsStartHaving
    | TocStart
    | Article1Start

  /** `re.IGNORECASE`, `re.MULTILINE`, `re.DOTALL`. */
  datatype Flags = Flags(ignoreCase: bool, multiline: bool, dotAll: bool)

  const M := Flags(false, true, false)
  const MI := Flags(true, true, false)
  const MD := Flags(false, true, true)
  const MID := Flags(true, true, true)
  const I := Flags(true, false, false)
  const NoFlags := Flags(false, false, false)

  /**
   * One call: a pattern, its flags, and the `n` of a `(?<=.{n}).*?` prefix
   * when the code builds one with an f-string.
   */
  datatype Query = Query(name: Name, flags: Flags, after: Option<int>)

  function Q(name: Name, flags: Flags): Query
  {
    Query(name, flags, None)
  }

  function After(n: int, name: Name, flags: Flags): Query
  {
    Query(name, flags, Some(n))
  }

  /** Where a capture group matched. */
  datatype GroupPos = GroupPos(start: nat, end: nat)

  /**
   * A match object: `m.start()`, `m.end()`, `len(m.groups())` and where
   * group 1 matched, if it took part in the match.
   */
  datatype Match = Match(start: nat, end: nat, groupCount: nat, group1: Option<GroupPos>)

  /** `re.finditer(pattern, text, flags)`, in the order the matches are found. */
  type Finder = (Query, string) -> seq<Match>

  /** `re.search`: the first match, if any. */
  function Search(find: Finder, q: Query, text: string): (r: Option<Match>)
    ensures r.None? <==> |find(q, text)| == 0
    ensures r.Some? ==> r.value == find(q, text)[0]
  {
    var ms := find(q, text);
    if |ms| == 0 then None else Some(ms[0])
  }

  /**
   * A cascade of searches tried in order until one finds something: the
   * position in `qs` of the first query with a match, and that match.
   */
  function FirstHit(find: Finder, qs: seq<Query>, text: string): (r: Option<(nat, Match)>)
    ensures r.None? <==> forall i :: 0 <= i < |qs| ==> |find(qs[i], text)| == 0
    ensures r.Some? ==>
      r.value.0 < |qs| && |find(qs[r.value.0], text)| > 0 && r.value.1 == find(qs[r.value.0], text)[0]
      && forall i :: 0 <= i < r.value.0 ==> |find(qs[i], text)| == 0
  {
    if |qs| == 0 then None
    else if |find(qs[0], text)| > 0 then Some((0, find(qs[0], text)[0]))
    else
      var rest := FirstHit(find, qs[1..], text);
      assert forall i :: 0 < i < |qs| ==> qs[i] == qs[1..][i - 1];
      if rest.None? then None else Some((rest.value.0 + 1, rest.value.1))
  }

  /** `m.group(0)`. */
  function MatchText(text: string, m: Match): string
  {
    PySlice(text, m.start, m.end)
  }

  /** `m.start(1)`, which is -1 when group 1 did not take part in the match. */
  function Group1Start(m: Match): int
  {
    if m.group1.Some? then m.group1.value.start else -1
  }

  /** `m.group(1)`, which is `None` when group 1 did not take part in the match. */
  function Group1Text(text: string, m: Match): Option<string>
  {
    if m.group1.Some? then Some(PySlice(text, m.group1.value.start, m.group1.value.end)) else None
  }

  /** `[m.start() for m in ms]`. */
  function Starts(ms: seq<Match>): (r: seq<int>)
    ensures |r| == |ms|
    ensures forall i :: 0 <= i < |ms| ==> r[i] == ms[i].start
  {
    if |ms| == 0 then [] else [ms[0].start] + Starts(ms[1..])
  }

  /** The matches whose `group(0)` is longer than `k` characters, in their order. */
  function LongMatches(text: string, ms: seq<Match>, k: int): (r: seq<Match>)
    ensures |r| <= |ms|
    ensures forall m :: m in r <==> m in ms && |MatchText(text, m)| > k
  {
    if |ms| == 0 then []
    else if |MatchText(text, ms[0])| > k then [ms[0]] + LongMatches(text, ms[1..], k)
    else LongMatches(text, ms[1..], k)
  }

  /** Filtering keeps matches in order: the result is a subsequence of the input. */
  lemma {:induction false} LongMatchesSubsequence(text: string, ms: seq<Match>, k: int)
    ensures Subsequence(LongMatches(text, ms, k), ms)
  {
    if |ms| > 0 {
      LongMatchesSubsequence(text, ms[1..], k);
      if |MatchText(text, ms[0])| > k {
        SubsequenceCons(ms[0], LongMatches(text, ms[1..], k), ms[1..]);
      } else {
        SubsequenceSkip(ms[0], LongMatches(text, ms[1..], k), ms[1..]);
      }
      assert [ms[0]] + ms[1..] == ms;
    }
  }

  /** `a` is obtained from `b` by deleting elements. */
  predicate Subsequence<T(==)>(a: seq<T>, b: seq<T>)
    decreases |b|
  {
    if |a| == 0 then true
    else if |b| == 0 then false
    else if a[0] == b[0] then Subsequence(a[1..], b[1..])
    else Subsequence(a, b[1..])
  }

  lemma SubsequenceCons<T>(x: T, a: seq<T>, b: seq<T>)
    requires Subsequence(a, b)
    ensures Subsequence([x] + a, [x] + b)
  {
    assert ([x] + a)[1..] == a;
    assert ([x] + b)[1..] == b;
  }

  /** Putting an element in front of the longer side keeps it a subsequence. */
  lemma {:induction false} SubsequenceSkip<T>(x: T, a: seq<T>, b: seq<T>)
    requires Subsequence(a, b)
    ensures Subsequence(a, [x] + b)
    decreases |b|, 1
  {
    assert ([x] + b)[1..] == b;
    if |a| > 0 && a[0] == x {
      SubsequenceDrop(a, b);
    }
  }

  /** Dropping the head of the shorter side keeps it a subsequence. */
  lemma {:induction false} SubsequenceDrop<T>(a: seq<T>, b: seq<T>)
    requires |a| > 0 && Subsequence(a, b)
    ensures Subsequence(a[1..], b)
    decreases |b|, 0
  {
    assert [b[0]] + b[1..] == b;
    if a[0] != b[0] {
      SubsequenceDrop(a, b[1..]);
    }
    SubsequenceSkip(b[0], a[1..], b[1..]);
  }
}

=== FILE: segmentation.dfy ===
/**
 * `citations`, `recitals`, `articles` and `article_elements` of
 * eucy/elements.py: ordered fallback cascades of regex searches whose
 * matches are cut into elements, each running from its match start to the
 * next match start and the last one to the end of the enclosing text. The
 * character ranges are turned into token spans of the enclosing span with
 * `char_to_token` (contract at the start, expand at the end).
 */
module Segmentation {
  import opened PyBase
  import opened Tokens
  import opened Regex

  /** A segmented element: its span and the `element_pos` and `element_numstr` extensions. */
  datatype Element = Element(span: TokSpan, pos: int, numstr: Option<string>)

  predicate Inside(c: TokSpan, p: TokSpan)
  {
    p.start <= c.start <= c.end <= p.end
  }

  // ---------------------------------------------------------------------
  // Partition into pieces
  // ---------------------------------------------------------------------

  /**
   * The character ranges of elements that begin at `starts`: each runs to
   * the next start, the last one to `n`.
   */
  function Pieces(starts: seq<int>, n: int): (r: seq<(int, int)>)
    ensures |r| == |starts|
    ensures forall i {:trigger r[i]} :: 0 <= i < |r| ==> r[i].0 == starts[i]
    ensures forall i {:trigger r[i]} :: 0 <= i < |r| - 1 ==> r[i].1 == starts[i + 1]
    ensures |r| > 0 ==> r[|r| - 1].1 == n
    ensures forall i {:trigger r[i]} :: 0 <= i < |r| ==> r[i] == (starts[i], PieceEnd(starts, i, n))
  {
    if |starts| == 0 then []
    else if |starts| == 1 then [(starts[0], n)]
    else [(starts[0], starts[1])] + Pieces(starts[1..], n)
  }

  predicate Ascending(starts: seq<int>, n: int)
  {
    (forall i, j :: 0 <= i < j < |starts| ==> starts[i] <= starts[j])
    && (forall i :: 0 <= i < |starts| ==> 0 <= starts[i] <= n)
  }

  /** The texts of the pieces, joined. */
  function Joined(text: string, rs: seq<(int, int)>): string
  {
    if |rs| == 0 then [] else PySlice(text, rs[0].0, rs[0].1) + Joined(text, rs[1..])
  }

  /**
   * For starts in increasing order the pieces tile the text: joined, they
   * give back everything from the first start to the end, with no gap and no
   * overlap.
   */
  lemma {:induction false} PiecesTile(text: string, starts: seq<int>)
    requires |starts| > 0 && Ascending(starts, |text|)
    ensures Joined(text, Pieces(starts, |text|)) == text[starts[0]..]
    decreases |starts|
  {
    var rs := Pieces(starts, |text|);
    var a := starts[0];
    if |starts| > 1 {
      var tail := starts[1..];
      var b := starts[1];
      AscendingTail(starts, |text|);
      PiecesTile(text, tail);
      assert rs == [(a, b)] + Pieces(tail, |text|);
      assert Joined(text, rs) == PySlice(text, a, b) + Joined(text, Pieces(tail, |text|));
      assert PySlice(text, a, b) == text[a..b];
      SuffixJoin(text, a, b);
    } else {
      assert rs == [(a, |text|)];
      assert Joined(text, rs) == PySlice(text, a, |text|) + [];
    }
  }

  lemma AscendingTail(starts: seq<int>, n: int)
    requires |starts| > 1 && Ascending(starts, n)
    ensures Ascending(starts[1..], n)
    ensures 0 <= starts[0] <= starts[1] <= n
  {
    assert forall i :: 0 <= i < |starts| - 1 ==> starts[1..][i] == starts[i + 1];
  }

  // ---------------------------------------------------------------------
  // Character ranges to token spans
  // ---------------------------------------------------------------------

  /**
   * `span[char_to_token(a, ix) : char_to_token(b, ix, alignment_mode="expand")]`
   * for the character index `ix`.
   */
  function IndexRange(ix: CharIndex, s: TokSpan, a: int, b: int): Result<TokSpan>
    requires s.start <= s.end
  {
    var lo := CharToToken(ix, a, Contract);
    var hi := CharToToken(ix, b, Expand);
    if lo.Err? then Err(lo.error)
    else if hi.Err? then Err(hi.error)
    else Ok(SubSpan(s, BoundOr(lo.value, 0), BoundOr(hi.value, s.end - s.start)))
  }

  /** `IndexRange` with the span's own character index, as every segmenter slices. */
  function CharRange(d: Doc, s: TokSpan, a: int, b: int): (r: Result<TokSpan>)
    requires ValidSpan(d, s)
    ensures r.Err? <==> !AnyKeys(SpanIndex(d, s))
    ensures r.Err? ==> r.error == ValueError
    ensures r.Ok? ==> Inside(r.value, s)
  {
    IndexRange(SpanIndex(d, s), s, a, b)
  }

  /**
   * The slice `CharRange` takes: from the token the contract lookup of `a`
   * finds to the token the expand lookup of `b` finds, each `None` read as
   * the slice's default, and clamped by spaCy's slice normalisation.
   */
  lemma CharRangeLooksUp(d: Doc, s: TokSpan, a: int, b: int)
    requires ValidSpan(d, s)
    ensures var r := CharRange(d, s, a, b);
      var ix := SpanIndex(d, s);
      r.Ok? ==>
        && CharToToken(ix, a, Contract).Ok? && CharToToken(ix, b, Expand).Ok?
        && r.value == SubSpan(s, BoundOr(CharToToken(ix, a, Contract).value, 0),
                                 BoundOr(CharToToken(ix, b, Expand).value, s.end - s.start))
  {
  }

  /** The spans of a list of character ranges; the first failing lookup raises. */
  function Slices(d: Doc, s: TokSpan, rs: seq<(int, int)>): (r: Result<seq<TokSpan>>)
    requires ValidSpan(d, s)
    ensures r.Err? <==> |rs| > 0 && !AnyKeys(SpanIndex(d, s))
    ensures r.Ok? ==> |r.value| == |rs|
    ensures r.Ok? ==> forall i :: 0 <= i < |rs| ==> Inside(r.value[i], s)
  {
    if |rs| == 0 then Ok([])
    else
      var first :- CharRange(d, s, rs[0].0, rs[0].1);
      var rest := Slices(d, s, rs[1..]);
      if rest.Err? then rest
      else Ok([first] + rest.value)
  }

  /** Span `i` of a successful `Slices` is the span of range `i`. */
  lemma {:induction false} SlicesAt(d: Doc, s: TokSpan, rs: seq<(int, int)>, i: nat)
    requires ValidSpan(d, s) && i < |rs| && Slices(d, s, rs).Ok?
    ensures CharRange(d, s, rs[i].0, rs[i].1) == Ok(Slices(d, s, rs).value[i])
  {
    if i > 0 {
      SlicesAt(d, s, rs[1..], i - 1);
      assert rs[1..][i - 1] == rs[i];
    }
  }

  /** Where the piece that begins at `starts[i]` ends: at the next start, the last one at `n`. */
  function PieceEnd(starts: seq<int>, i: nat, n: int): int
    requires i < |starts|
  {
    if i + 1 < |starts| then starts[i + 1] else n
  }

  /** The span of the piece that begins at `starts[i]` and runs to the next start or to the end of `s`. */
  function PieceSpan(d: Doc, s: TokSpan, starts: seq<int>, i: nat): Result<TokSpan>
    requires ValidSpan(d, s) && i < |starts|
  {
    CharRange(d, s, starts[i], PieceEnd(starts, i, |SpanText(d, s)|))
  }

  /** The spans of the pieces that begin at `starts`, each running to the next start. */
  function PieceSpans(d: Doc, s: TokSpan, starts: seq<int>): (r: Result<seq<TokSpan>>)
    requires ValidSpan(d, s)
    ensures r.Ok? ==> |r.value| == |starts| && forall i :: 0 <= i < |starts| ==> Inside(r.value[i], s)
    ensures r.Ok? ==> forall i {:trigger PieceSpan(d, s, starts, i)} :: 0 <= i < |starts| ==>
      PieceSpan(d, s, starts, i) == Ok(r.value[i])
    ensures r.Err? <==> |starts| > 0 && !AnyKeys(SpanIndex(d, s))
    ensures r.Err? ==> r.error == ValueError
    ensures |starts| == 0 ==> r == Ok([])
  {
    SlicesArePieces(d, s, starts);
    Slices(d, s, Pieces(starts, |SpanText(d, s)|))
  }

  lemma SlicesArePieces(d: Doc, s: TokSpan, starts: seq<int>)
    requires ValidSpan(d, s)
    ensures var r := Slices(d, s, Pieces(starts, |SpanText(d, s)|));
      r.Ok? ==> forall i :: 0 <= i < |starts| ==> PieceSpan(d, s, starts, i) == Ok(r.value[i])
  {
    var rs := Pieces(starts, |SpanText(d, s)|);
    var r := Slices(d, s, rs);
    if r.Ok? {
      forall i | 0 <= i < |starts| ensures PieceSpan(d, s, starts, i) == Ok(r.value[i]) {
        SlicesAt(d, s, rs, i);
        SliceIsPiece(d, s, starts, rs, r.value[i], i);
      }
    }
  }

  lemma SliceIsPiece(d: Doc, s: TokSpan, starts: seq<int>, rs: seq<(int, int)>, v: TokSpan, i: nat)
    requires ValidSpan(d, s) && i < |starts| && rs == Pieces(starts, |SpanText(d, s)|)
    requires CharRange(d, s, rs[i].0, rs[i].1) == Ok(v)
    ensures PieceSpan(d, s, starts, i) == Ok(v)
  {
    assert rs[i] == (starts[i], PieceEnd(starts, i, |SpanText(d, s)|));
  }

  /** The span token that holds span-relative character `c`, or the span's token count when none does. */
  function TokenOf(d: Doc, s: TokSpan, c: int): int
    requires ValidSpan(d, s)
  {
    BoundOr(Get(SpanIndex(d, s), c), s.end - s.start)
  }

  /**
   * At the token level the pieces tile the span when the starts ascend and
   * each falls inside a token: every element begins at the token holding its
   * start, ends where the next element begins, and the last one ends with
   * the span.
   */
  lemma PieceSpansTile(d: Doc, s: TokSpan, starts: seq<int>)
    requires WellFormed(d) && ValidSpan(d, s)
    requires Ascending(starts, |SpanText(d, s)|)
    requires forall i :: 0 <= i < |starts| ==> Covers(SpanIndex(d, s), starts[i])
    ensures var r := PieceSpans(d, s, starts);
      && r.Ok?
      && (forall i :: 0 <= i < |starts| ==> r.value[i].start == s.start + TokenOf(d, s, starts[i]))
      && (forall i :: 0 <= i < |starts| - 1 ==> r.value[i].end == r.value[i + 1].start)
      && (|starts| > 0 ==> r.value[|starts| - 1].end == s.end)
  {
    if |starts| > 0 {
      var ix := SpanIndex(d, s);
      var n := |SpanText(d, s)|;
      CoveredHasKeys(ix, starts[0]);
      var r := PieceSpans(d, s, starts);
      forall i | 0 <= i < |starts|
        ensures Get(ix, starts[i]).Some? && 0 <= Get(ix, starts[i]).value < s.end - s.start
        ensures TokenOf(d, s, starts[i]) == Get(ix, starts[i]).value
      {
        TokenInSpan(d, s, starts[i]);
      }
      forall i | 0 <= i < |starts| - 1
        ensures Get(ix, starts[i]).value <= Get(ix, starts[i + 1]).value
      {
        TokensAscend(d, s, starts[i], starts[i + 1]);
      }
      EndIsPastLastToken(d, s);
      forall i | 0 <= i < |starts|
        ensures IndexRange(ix, s, starts[i], PieceEnd(starts, i, n)) == Ok(r.value[i])
      {
        assert PieceSpan(d, s, starts, i) == Ok(r.value[i]);
      }
      IndexPiecesTile(ix, s, starts, n, r.value);
    }
  }

  /**
   * `PieceSpansTile` for any index whose lookups of the starts ascend and
   * whose expand lookup of the text's end gives the span's length.
   */
  lemma IndexPiecesTile(ix: CharIndex, s: TokSpan, starts: seq<int>, n: int, r: seq<TokSpan>)
    requires s.start <= s.end && |starts| > 0 && |r| == |starts|
    requires forall i :: 0 <= i < |starts| ==>
      Covers(ix, starts[i]) && 0 <= Get(ix, starts[i]).value < s.end - s.start
    requires forall i :: 0 <= i < |starts| - 1 ==> Get(ix, starts[i]).value <= Get(ix, starts[i + 1]).value
    requires CharToToken(ix, n, Expand) == Ok(Some(s.end - s.start))
    requires forall i :: 0 <= i < |starts| ==> IndexRange(ix, s, starts[i], PieceEnd(starts, i, n)) == Ok(r[i])
    ensures forall i :: 0 <= i < |starts| ==> r[i].start == s.start + Get(ix, starts[i]).value
    ensures forall i :: 0 <= i < |starts| - 1 ==> r[i].end == r[i + 1].start
    ensures r[|starts| - 1].end == s.end
  {
    forall i | 0 <= i < |starts|
      ensures r[i] == TokSpan(s.start + Get(ix, starts[i]).value,
                              s.start + if i + 1 < |starts| then Get(ix, starts[i + 1]).value else s.end - s.start)
    {
      IndexPiece(ix, s, starts, i, n);
    }
  }

  /** One piece of `IndexPiecesTile`: from the token of its start to the token of the next start, or to the span's end. */
  lemma IndexPiece(ix: CharIndex, s: TokSpan, starts: seq<int>, i: nat, n: int)
    requires s.start <= s.end && i < |starts|
    requires Covers(ix, starts[i]) && 0 <= Get(ix, starts[i]).value
    requires i + 1 < |starts| ==>
      (Covers(ix, starts[i + 1]) && Get(ix, starts[i]).value <= Get(ix, starts[i + 1]).value <= s.end - s.start)
    requires i + 1 == |starts| ==>
      (Get(ix, starts[i]).value <= s.end - s.start && CharToToken(ix, n, Expand) == Ok(Some(s.end - s.start)))
    ensures IndexRange(ix, s, starts[i], PieceEnd(starts, i, n))
            == Ok(TokSpan(s.start + Get(ix, starts[i]).value,
                          s.start + if i + 1 < |starts| then Get(ix, starts[i + 1]).value else s.end - s.start))
  {
    LookupCovered(ix, starts[i], Contract);
    if i + 1 < |starts| {
      LookupCovered(ix, starts[i + 1], Expand);
      RangeBetween(ix, s, starts[i], starts[i + 1], Get(ix, starts[i]).value, Get(ix, starts[i + 1]).value);
    } else {
      RangeBetween(ix, s, starts[i], n, Get(ix, starts[i]).value, s.end - s.start);
    }
  }

  /** A range whose two lookups find tokens in order is the sub-span between them. */
  lemma RangeBetween(ix: CharIndex, s: TokSpan, a: int, b: int, lo: int, hi: int)
    requires s.start <= s.end && 0 <= lo <= hi <= s.end - s.start
    requires CharToToken(ix, a, Contract) == Ok(Some(lo))
    requires CharToToken(ix, b, Expand) == Ok(Some(hi))
    ensures IndexRange(ix, s, a, b) == Ok(TokSpan(s.start + lo, s.start + hi))
  {
    var sub := SubSpan(s, lo, hi);
    assert sub == TokSpan(s.start + lo, s.start + hi);
  }

  /** A lookup of a character the index holds finds its token, in every mode. */
  lemma LookupCovered(ix: CharIndex, c: int, mode: Alignment)
    requires Covers(ix, c)
    ensures Get(ix, c).Some? && CharToToken(ix, c, mode) == Ok(Get(ix, c))
  {
  }

  /** A character some entry holds means the index has keys. */
  lemma CoveredHasKeys(ix: CharIndex, c: int)
    requires Covers(ix, c)
    ensures AnyKeys(ix)
  {
    var i :| 0 <= i < |ix| && ix[i].lo <= c < ix[i].hi;
  }

  /** A character the span index holds maps to one of the span's tokens. */
  lemma TokenInSpan(d: Doc, s: TokSpan, c: int)
    requires ValidSpan(d, s) && Covers(SpanIndex(d, s), c)
    ensures Get(SpanIndex(d, s), c).Some? && 0 <= TokenOf(d, s, c) < s.end - s.start
    ensures TokenCovers(d, s, TokenOf(d, s, c), c)
  {
    SpanIndexSound(d, s, c);
  }

  /** Tokens follow the text: a later character lies in the same or a later token. */
  lemma TokensAscend(d: Doc, s: TokSpan, c1: int, c2: int)
    requires WellFormed(d) && ValidSpan(d, s) && c1 <= c2
    requires Covers(SpanIndex(d, s), c1) && Covers(SpanIndex(d, s), c2)
    ensures 0 <= TokenOf(d, s, c1) <= TokenOf(d, s, c2) < s.end - s.start
  {
    TokenInSpan(d, s, c1);
    TokenInSpan(d, s, c2);
  }

  /**
   * The expand lookup of the span's text length, where the last piece ends,
   * falls past the last token: the slice runs to the span's end.
   */
  lemma EndIsPastLastToken(d: Doc, s: TokSpan)
    requires WellFormed(d) && ValidSpan(d, s) && s.start < s.end
    ensures CharToToken(SpanIndex(d, s), |SpanText(d, s)|, Expand) == Ok(Some(s.end - s.start))
  {
    KeysBelowLength(d, s);
    LastCharKey(d, s);
    ExpandPastLastKey(SpanIndex(d, s), |SpanText(d, s)|, s.end - s.start - 1);
  }

  /** When `n - 1` is the largest key, the expand lookup of `n` gives the token after its token. */
  lemma ExpandPastLastKey(ix: CharIndex, n: int, t: int)
    requires forall c :: Covers(ix, c) ==> c < n
    requires Get(ix, n - 1) == Some(t)
    ensures CharToToken(ix, n, Expand) == Ok(Some(t + 1))
  {
    CoveredHasKeys(ix, n - 1);
    assert MaxKey(ix) == n - 1;
    var (k, past) := ExpandKey(ix, n);
    assert past;
  }

  /** Every key of the span index is below the length of the span's text. */
  lemma KeysBelowLength(d: Doc, s: TokSpan)
    requires WellFormed(d) && ValidSpan(d, s) && s.start < s.end
    ensures forall c :: Covers(SpanIndex(d, s), c) ==> c < |SpanText(d, s)|
  {
    var ix := SpanIndex(d, s);
    forall c | Covers(ix, c) ensures c < |SpanText(d, s)| {
      var i :| 0 <= i < |ix| && ix[i].lo <= c < ix[i].hi;
      EntryBelowLength(d, s, i);
    }
  }

  /** Entry `i` of the span index ends no later than the span's text. */
  lemma EntryBelowLength(d: Doc, s: TokSpan, i: nat)
    requires WellFormed(d) && ValidSpan(d, s) && i < s.end - s.start
    ensures SpanIndex(d, s)[i].hi <= |SpanText(d, s)|
  {
    var last := d.tokens[s.end - 1];
    SpanTextLength(d, s);
    SpanEntry(d, s, i);
    if i < s.end - s.start - 1 {
      assert d.tokens[s.start + i].idx + d.tokens[s.start + i].length + d.tokens[s.start + i].ws <= last.idx;
    }
  }

  /** The last character of the span's text is a key, and it maps to the last token. */
  lemma LastCharKey(d: Doc, s: TokSpan)
    requires WellFormed(d) && ValidSpan(d, s) && s.start < s.end
    ensures |SpanText(d, s)| > 0
    ensures Get(SpanIndex(d, s), |SpanText(d, s)| - 1) == Some(s.end - s.start - 1)
  {
    SpanTextLength(d, s);
    SpanIndexComplete(d, s, |SpanText(d, s)| - 1, s.end - s.start - 1);
  }

  /** A non-empty span's text runs from its first token's start to its last token's end. */
  lemma SpanTextLength(d: Doc, s: TokSpan)
    requires WellFormed(d) && ValidSpan(d, s) && s.start < s.end
    ensures |SpanText(d, s)|
            == d.tokens[s.end - 1].idx + d.tokens[s.end - 1].length - d.tokens[s.start].idx
  {
    CharBounds(d, s);
  }

  /**
   * The elements that begin at `starts`, numbered from 1 in list order and
   * carrying the given number strings.
   */
  function NumberedPieces(d: Doc, s: TokSpan, starts: seq<int>, nums: seq<Option<string>>): (r: Result<seq<Element>>)
    requires ValidSpan(d, s) && |nums| == |starts|
    ensures r.Ok? ==> |r.value| == |starts| && AllInside(r.value, s)
    ensures r.Ok? ==> forall i :: 0 <= i < |r.value| ==> r.value[i].pos == i + 1 && r.value[i].numstr == nums[i]
    ensures r.Ok? ==> forall i {:trigger PieceSpan(d, s, starts, i)} :: 0 <= i < |starts| ==>
      PieceSpan(d, s, starts, i) == Ok(r.value[i].span)
    ensures r.Err? <==> |starts| > 0 && !AnyKeys(SpanIndex(d, s))
    ensures r.Err? ==> r.error == ValueError
    ensures |starts| == 0 ==> r == Ok([])
  {
    var spans :- PieceSpans(d, s, starts);
    Ok(Enumerate(spans, nums, 0))
  }

  /** `(m.start(), m.end())` of each match. */
  function MatchRanges(ms: seq<Match>): (r: seq<(int, int)>)
    ensures |r| == |ms|
    ensures forall i :: 0 <= i < |ms| ==> r[i] == (ms[i].start, ms[i].end)
  {
    if |ms| == 0 then [] else [(ms[0].start, ms[0].end)] + MatchRanges(ms[1..])
  }

  /**
   * The spans of more than `k` tokens, in their order: each long span as
   * often as in the input, no other span.
   */
  function LongSpans(spans: seq<TokSpan>, k: int): (r: seq<TokSpan>)
    ensures |r| <= |spans|
    ensures forall x :: x in r <==> x in spans && Len(x) > k
    ensures forall x :: multiset(r)[x] == if Len(x) > k then multiset(spans)[x] else 0
  {
    if |spans| == 0 then []
    else
      assert spans == [spans[0]] + spans[1..];
      if Len(spans[0]) > k then [spans[0]] + LongSpans(spans[1..], k)
      else LongSpans(spans[1..], k)
  }

  /** The long spans keep their order: the result is a subsequence of the input. */
  lemma {:induction false} LongSpansSubsequence(spans: seq<TokSpan>, k: int)
    ensures Subsequence(LongSpans(spans, k), spans)
  {
    if |spans| > 0 {
      LongSpansSubsequence(spans[1..], k);
      if Len(spans[0]) > k {
        SubsequenceCons(spans[0], LongSpans(spans[1..], k), spans[1..]);
      } else {
        SubsequenceSkip(spans[0], LongSpans(spans[1..], k), spans[1..]);
      }
      assert [spans[0]] + spans[1..] == spans;
    }
  }

  // ---------------------------------------------------------------------
  // citations
  // ---------------------------------------------------------------------

  /**
   * The matches `citations` keeps: the case-insensitive search is consulted
   * only when the case-sensitive one finds nothing, and only matches of more
   * than four characters survive.
   */
  function CitationMatches(find: Finder, text: string): (r: seq<Match>)
    ensures forall m :: m in r ==> |MatchText(text, m)| > 4
    ensures forall m :: m in r ==> m in find(Q(Citation, M), text) || m in find(Q(Citation, MI), text)
    ensures |find(Q(Citation, M), text)| > 0 ==>
      forall m :: m in r <==> m in find(Q(Citation, M), text) && |MatchText(text, m)| > 4
  {
    var ms := find(Q(Citation, M), text);
    LongMatches(text, if |ms| > 0 then ms else find(Q(Citation, MI), text), 4)
  }

  /** `citations(part)`: one span per kept match, from its start to its end. */
  function Citations(d: Doc, part: Option<TokSpan>, find: Finder): (r: Result<seq<TokSpan>>)
    requires part.Some? ==> ValidSpan(d, part.value)
    ensures part.None? ==> r == Ok([])
    ensures r.Err? ==> r.error == ValueError
    ensures r.Ok? && part.Some? ==>
      |r.value| == |CitationMatches(find, SpanText(d, part.value))|
      && forall i :: 0 <= i < |r.value| ==> Inside(r.value[i], part.value)
    ensures r.Ok? && part.Some? ==>
      var ms := CitationMatches(find, SpanText(d, part.value));
      forall i :: 0 <= i < |r.value| ==> CharRange(d, part.value, ms[i].start, ms[i].end) == Ok(r.value[i])
  {
    if part.None? then Ok([])
    else
      var s := part.value;
      var ms := CitationMatches(find, SpanText(d, s));
      SlicesAreMatches(d, s, ms);
      Slices(d, s, MatchRanges(ms))
  }

  lemma SlicesAreMatches(d: Doc, s: TokSpan, ms: seq<Match>)
    requires ValidSpan(d, s)
    ensures var r := Slices(d, s, MatchRanges(ms));
      r.Ok? ==> forall i :: 0 <= i < |ms| ==> CharRange(d, s, ms[i].start, ms[i].end) == Ok(r.value[i])
  {
    var rs := MatchRanges(ms);
    var r := Slices(d, s, rs);
    if r.Ok? {
      forall i | 0 <= i < |ms| ensures CharRange(d, s, ms[i].start, ms[i].end) == Ok(r.value[i]) {
        SlicesAt(d, s, rs, i);
        assert rs[i] == (ms[i].start, ms[i].end);
      }
    }
  }

  /**
   * The case-insensitive retry is a fallback only: two searches that agree
   * on the case-sensitive pattern, and find something with it, give the same
   * citations whatever the case-insensitive pattern would find.
   */
  lemma CitationsRetryOnlyOnMiss(d: Doc, s: TokSpan, f: Finder, g: Finder)
    requires ValidSpan(d, s)
    requires f(Q(Citation, M), SpanText(d, s)) == g(Q(Citation, M), SpanText(d, s))
    requires |f(Q(Citation, M), SpanText(d, s))| > 0
    ensures Citations(d, Some(s), f) == Citations(d, Some(s), g)
  {
  }

  // ---------------------------------------------------------------------
  // recitals
  // ---------------------------------------------------------------------

  /** The characters allowed before the recital number: `[\s\(]`, or `[\s]` for the dot form. */
  predicate Lead(c: char, parens: bool)
  {
    IsSpace(c) || (parens && c == '(')
  }

  function Close(parens: bool): char
  {
    if parens then ')' else '.'
  }

  function SkipLead(s: string, i: nat, parens: bool): (j: nat)
    requires i <= |s|
    ensures i <= j <= |s|
    ensures forall k :: i <= k < j ==> Lead(s[k], parens)
    ensures j < |s| ==> !Lead(s[j], parens)
    decreases |s| - i
  {
    if i < |s| && Lead(s[i], parens) then SkipLead(s, i + 1, parens) else i
  }

  function SkipDigits(s: string, i: nat): (j: nat)
    requires i <= |s|
    ensures i <= j <= |s|
    ensures forall k :: i <= k < j ==> IsAsciiDigit(s[k])
    ensures j < |s| ==> !IsAsciiDigit(s[j])
    decreases |s| - i
  {
    if i < |s| && IsAsciiDigit(s[i]) then SkipDigits(s, i + 1) else i
  }

  function SkipSpace(s: string, i: nat): (j: nat)
    requires i <= |s|
    ensures i <= j <= |s|
    ensures forall k :: i <= k < j ==> IsSpace(s[k])
    ensures j < |s| ==> !IsSpace(s[j])
    decreases |s| - i
  {
    if i < |s| && IsSpace(s[i]) then SkipSpace(s, i + 1) else i
  }

  /**
   * `re.search(r'^[\s\(]*[0-9]+\s*\)', s)` (parens) or
   * `re.search(r'^[\s]*[0-9]+\s*\.', s)`, by a greedy scan: the character
   * classes of consecutive parts are disjoint, so no backtracking is needed.
   */
  predicate Numbered(s: string, parens: bool)
  {
    var a := SkipLead(s, 0, parens);
    var b := SkipDigits(s, a);
    var c := SkipSpace(s, b);
    a < b && c < |s| && s[c] == Close(parens)
  }

  /** The regex read literally: a lead, one or more digits, spaces, the closing character. */
  predicate Shape(s: string, parens: bool, a: int, b: int, c: int)
  {
    0 <= a < b <= c < |s|
    && (forall k :: 0 <= k < a ==> Lead(s[k], parens))
    && (forall k :: a <= k < b ==> IsAsciiDigit(s[k]))
    && (forall k :: b <= k < c ==> IsSpace(s[k]))
    && s[c] == Close(parens)
  }

  lemma DigitNotLead(c: char, parens: bool)
    requires IsAsciiDigit(c)
    ensures !Lead(c, parens)
  {
  }

  lemma NotDigit(c: char)
    requires IsSpace(c) || c == ')' || c == '.'
    ensures !IsAsciiDigit(c)
  {
  }

  lemma CloseNotSpace(parens: bool)
    ensures !IsSpace(Close(parens))
  {
  }

  /** The greedy scan accepts exactly the strings the regex matches at position 0. */
  lemma NumberedIffShape(s: string, parens: bool)
    ensures Numbered(s, parens) <==> exists a, b, c :: Shape(s, parens, a, b, c)
  {
    var a0 := SkipLead(s, 0, parens);
    var b0 := SkipDigits(s, a0);
    var c0 := SkipSpace(s, b0);
    if Numbered(s, parens) {
      assert Shape(s, parens, a0, b0, c0);
    }
    if exists a, b, c :: Shape(s, parens, a, b, c) {
      var a, b, c :| Shape(s, parens, a, b, c);
      DigitNotLead(s[a], parens);
      assert a0 == a;
      NotDigit(s[b]);
      assert b0 == b;
      CloseNotSpace(parens);
      assert c0 == c;
    }
  }

  /** The three kinds of numbered recital start. */
  datatype Classes = Classes(parens: seq<Match>, dots: seq<Match>, other: seq<Match>)

  predicate ParenMatch(text: string, m: Match)
  {
    Numbered(MatchText(text, m), true)
  }

  predicate DotMatch(text: string, m: Match)
  {
    !ParenMatch(text, m) && Numbered(MatchText(text, m), false)
  }

  /** The classifying loop: parentheses first, then dot, everything else is "other". */
  function Classify(text: string, ms: seq<Match>): (r: Classes)
    ensures |r.parens| + |r.dots| + |r.other| == |ms|
    ensures forall m :: m in r.parens <==> m in ms && ParenMatch(text, m)
    ensures forall m :: m in r.dots <==> m in ms && DotMatch(text, m)
    ensures forall m :: m in r.other <==> m in ms && !ParenMatch(text, m) && !DotMatch(text, m)
  {
    if |ms| == 0 then Classes([], [], [])
    else
      var c := Classify(text, ms[1..]);
      var m := ms[0];
      assert forall x :: x in ms <==> x == m || x in ms[1..];
      if ParenMatch(text, m) then Classes([m] + c.parens, c.dots, c.other)
      else if DotMatch(text, m) then Classes(c.parens, [m] + c.dots, c.other)
      else Classes(c.parens, c.dots, [m] + c.other)
  }

  /**
   * `len(par) > 0 and len(par) > len(dot) and len(par) > len(other) == 0`,
   * a chained comparison: "other" must be empty.
   */
  predicate OnlyParens(c: Classes)
  {
    |c.parens| > 0 && |c.parens| > |c.dots| && |c.parens| > |c.other| && |c.other| == 0
  }

  /**
   * The numbered recital starts that are used. Choosing the parenthesised
   * starts only ever drops dot-numbered ones: every parenthesised start is
   * kept, and the selection never invents a start.
   */
  function NumberedStarts(text: string, ms: seq<Match>): (r: seq<Match>)
    ensures forall m :: m in r ==> m in ms
    ensures forall m :: m in ms && ParenMatch(text, m) ==> m in r
    ensures forall m :: m in ms && m !in r ==> DotMatch(text, m)
    ensures r != ms ==> OnlyParens(Classify(text, ms))
  {
    var c := Classify(text, ms);
    if OnlyParens(c) then c.parens else ms
  }

  /** `get_recitals` followed by dropping recitals of six tokens or fewer. */
  function RecitalsFrom(d: Doc, s: TokSpan, ms: seq<Match>): (r: Result<seq<TokSpan>>)
    requires ValidSpan(d, s)
    ensures r.Err? <==> |ms| > 0 && !AnyKeys(SpanIndex(d, s))
    ensures r.Err? ==> r.error == ValueError
    ensures r.Ok? ==> forall i :: 0 <= i < |r.value| ==> Len(r.value[i]) > 6 && Inside(r.value[i], s)
    ensures r.Ok? ==> (PieceSpans(d, s, Starts(ms)).Ok?
      && Subsequence(r.value, PieceSpans(d, s, Starts(ms)).value)
      && forall x :: multiset(r.value)[x] == if Len(x) > 6 then multiset(PieceSpans(d, s, Starts(ms)).value)[x] else 0)
  {
    var spans :- PieceSpans(d, s, Starts(ms));
    LongSpansSubsequence(spans, 6);
    Ok(LongSpans(spans, 6))
  }

  /** The three strategies in the order the loop tries them. */
  function NumberedRecitals(d: Doc, s: TokSpan, find: Finder): Result<seq<TokSpan>>
    requires ValidSpan(d, s)
  {
    var text := SpanText(d, s);
    RecitalsFrom(d, s, NumberedStarts(text, find(Q(RecitalNumStart, M), text)))
  }

  function WhereasRecitals(d: Doc, s: TokSpan, find: Finder): Result<seq<TokSpan>>
    requires ValidSpan(d, s)
  {
    RecitalsFrom(d, s, find(Q(RecitalWhereasStart, MI), SpanText(d, s)))
  }

  function ParagraphRecitals(d: Doc, s: TokSpan, find: Finder): Result<seq<TokSpan>>
    requires ValidSpan(d, s)
  {
    RecitalsFrom(d, s, find(Q(RecitalParStart, MI), SpanText(d, s)))
  }

  /**
   * `recitals(part)`: numbered, then "whereas", then plain paragraphs; the
   * first strategy that yields a recital of more than six tokens wins. The
   * `while True` loop repeats the same searches, so when none of them yields
   * one it never ends.
   */
  function Recitals(d: Doc, part: Option<TokSpan>, find: Finder): (r: Result<seq<TokSpan>>)
    requires part.Some? ==> ValidSpan(d, part.value)
    ensures r == Ok([]) <==> part.None?
    ensures r.Ok? && part.Some? ==>
      forall i :: 0 <= i < |r.value| ==> Len(r.value[i]) > 6 && Inside(r.value[i], part.value)
    ensures r == Err(NonTermination) <==>
      part.Some?
      && NumberedRecitals(d, part.value, find) == Ok([])
      && WhereasRecitals(d, part.value, find) == Ok([])
      && ParagraphRecitals(d, part.value, find) == Ok([])
    ensures r.Err? ==> r.error in {ValueError, NonTermination}
    ensures r.Ok? && part.Some? ==>
      || r == NumberedRecitals(d, part.value, find)
      || (NumberedRecitals(d, part.value, find) == Ok([])
          && (|| r == WhereasRecitals(d, part.value, find)
              || (WhereasRecitals(d, part.value, find) == Ok([]) && r == ParagraphRecitals(d, part.value, find))))
  {
    if part.None? then Ok([])
    else
      var s := part.value;
      var numbered :- NumberedRecitals(d, s, find);
      if |numbered| > 0 then Ok(numbered)
      else
        var whereas :- WhereasRecitals(d, s, find);
        if |whereas| > 0 then Ok(whereas)
        else
          var pars :- ParagraphRecitals(d, s, find);
          if |pars| > 0 then Ok(pars) else Err(NonTermination)
  }

  /**
   * The cascade stops at the first strategy that yields recitals: once the
   * numbered starts do, the "whereas" and paragraph searches make no
   * difference.
   */
  lemma RecitalsFirstStrategyWins(d: Doc, s: TokSpan, f: Finder, g: Finder)
    requires ValidSpan(d, s)
    requires f(Q(RecitalNumStart, M), SpanText(d, s)) == g(Q(RecitalNumStart, M), SpanText(d, s))
    requires NumberedRecitals(d, s, f).Ok? && |NumberedRecitals(d, s, f).value| > 0
    ensures Recitals(d, Some(s), f) == Recitals(d, Some(s), g) == NumberedRecitals(d, s, f)
  {
  }

  // ---------------------------------------------------------------------
  // articles
  // ---------------------------------------------------------------------

  /**
   * The article-identifier matches, else whatever the single-article
   * pattern finds, then only matches of more than four characters.
   */
  function ArticleMatches(find: Finder, text: string): (r: seq<Match>)
    ensures forall m :: m in r ==> |MatchText(text, m)| > 4
    ensures |find(Q(ArticleIdentifier, MI), text)| > 0 ==>
      forall m :: m in r <==> m in find(Q(ArticleIdentifier, MI), text) && |MatchText(text, m)| > 4
    ensures |find(Q(ArticleIdentifier, MI), text)| == 0 ==>
      forall m :: m in r <==> m in find(Q(SingleArticleIdentifier, MI), text) && |MatchText(text, m)| > 4
  {
    var ms := find(Q(ArticleIdentifier, MI), text);
    LongMatches(text, if |ms| > 0 then ms else find(Q(SingleArticleIdentifier, MI), text), 4)
  }

  /** The number candidates: group 1 of `article_num`, else group 0 of `article_any_num`. */
  function NumberCandidates(find: Finder, t: string): (r: seq<Option<string>>)
    ensures |find(Q(ArticleNum, I), t)| > 0 ==> |r| == |find(Q(ArticleNum, I), t)|
    ensures |find(Q(ArticleNum, I), t)| == 0 ==>
      |r| == |find(Q(ArticleAnyNum, NoFlags), t)| && forall i :: 0 <= i < |r| ==> r[i].Some?
  {
    var ms := find(Q(ArticleNum, I), t);
    if |ms| > 0 then seq(|ms|, i requires 0 <= i < |ms| => Group1Text(t, ms[i]))
    else
      var any := find(Q(ArticleAnyNum, NoFlags), t);
      seq(|any|, i requires 0 <= i < |any| => Some(MatchText(t, any[i])))
  }

  /**
   * `element_numstr` from the candidates: the first one, stripped, but only
   * when there is more than one; a first candidate that is `None` (group 1
   * did not take part) fails in `.strip()`.
   */
  function FirstCandidate(c: seq<Option<string>>): (r: Result<Option<string>>)
    ensures r.Ok? && r.value.Some? <==> |c| > 1 && c[0].Some?
    ensures r.Ok? && r.value.Some? ==> r.value.value == Strip(c[0].value)
    ensures |c| <= 1 ==> r == Ok(None)
    ensures r.Err? <==> |c| > 1 && c[0].None?
    ensures r.Err? ==> r.error == AttributeError
  {
    if |c| > 1 then
      if c[0].Some? then Ok(Some(Strip(c[0].value))) else Err(AttributeError)
    else Ok(None)
  }

  /** `element_numstr` of an article, searched for in its stripped text. */
  function ArticleNumstr(find: Finder, articleText: string): Result<Option<string>>
  {
    FirstCandidate(NumberCandidates(find, Strip(articleText)))
  }

  /** The number candidates of each article, searched for in its stripped text. */
  function CandidateLists(d: Doc, spans: seq<TokSpan>, find: Finder): (r: seq<seq<Option<string>>>)
    requires forall i :: 0 <= i < |spans| ==> ValidSpan(d, spans[i])
    ensures |r| == |spans|
  {
    seq(|spans|, i requires 0 <= i < |spans| => NumberCandidates(find, Strip(SpanText(d, spans[i]))))
  }

  /**
   * The number strings in article order; the first failing one raises, and
   * only a `None` first candidate can fail.
   */
  function FirstCandidates(cs: seq<seq<Option<string>>>): (r: Result<seq<Option<string>>>)
    ensures r.Ok? ==> |r.value| == |cs|
    ensures r.Err? ==> r.error == AttributeError
    ensures r.Err? <==> exists i :: 0 <= i < |cs| && |cs[i]| > 1 && cs[i][0].None?
  {
    MapAll(cs, FirstCandidate)
  }

  /** `articles(part)`: pieces between consecutive article matches, numbered from 1. */
  function Articles(d: Doc, part: Option<TokSpan>, find: Finder): (r: Result<seq<Element>>)
    requires part.Some? ==> ValidSpan(d, part.value)
    ensures part.None? ==> r == Ok([])
    ensures r.Ok? && part.Some? ==>
      |r.value| == |ArticleMatches(find, SpanText(d, part.value))|
      && forall i :: 0 <= i < |r.value| ==> r.value[i].pos == i + 1 && Inside(r.value[i].span, part.value)
    ensures r.Ok? && part.Some? ==>
      var starts := Starts(ArticleMatches(find, SpanText(d, part.value)));
      forall i {:trigger PieceSpan(d, part.value, starts, i)} :: 0 <= i < |r.value| ==>
        PieceSpan(d, part.value, starts, i) == Ok(r.value[i].span)
    ensures r.Ok? && part.Some? ==> forall i :: 0 <= i < |r.value| ==>
      ValidSpan(d, r.value[i].span) && ArticleNumstr(find, SpanText(d, r.value[i].span)) == Ok(r.value[i].numstr)
  {
    if part.None? then Ok([])
    else
      var s := part.value;
      var text := SpanText(d, s);
      var spans :- PieceSpans(d, s, Starts(ArticleMatches(find, text)));
      var nums :- FirstCandidates(CandidateLists(d, spans, find));
      ArticlesNumbered(d, s, find, spans, nums);
      Ok(Enumerate(spans, nums, 0))
  }

  /** The articles `Articles` returns once every piece has its number. */
  lemma ArticlesNumbered(d: Doc, s: TokSpan, find: Finder, spans: seq<TokSpan>, nums: seq<Option<string>>)
    requires ValidSpan(d, s)
    requires PieceSpans(d, s, Starts(ArticleMatches(find, SpanText(d, s)))) == Ok(spans)
    requires forall i :: 0 <= i < |spans| ==> ValidSpan(d, spans[i])
    requires FirstCandidates(CandidateLists(d, spans, find)) == Ok(nums)
    ensures var starts := Starts(ArticleMatches(find, SpanText(d, s)));
      var r := Enumerate(spans, nums, 0);
      && |nums| == |spans| && |r| == |starts|
      && (forall i :: 0 <= i < |r| ==> r[i].pos == i + 1 && Inside(r[i].span, s))
      && (forall i {:trigger PieceSpan(d, s, starts, i)} :: 0 <= i < |r| ==> PieceSpan(d, s, starts, i) == Ok(r[i].span))
      && (forall i :: 0 <= i < |r| ==>
            ValidSpan(d, r[i].span) && ArticleNumstr(find, SpanText(d, r[i].span)) == Ok(r[i].numstr))
  {
    var starts := Starts(ArticleMatches(find, SpanText(d, s)));
    ArticleNumstrs(d, find, spans, nums);
    var r := Enumerate(spans, nums, 0);
    forall i | 0 <= i < |r|
      ensures r[i].pos == i + 1 && Inside(r[i].span, s)
      ensures PieceSpan(d, s, starts, i) == Ok(r[i].span)
      ensures ArticleNumstr(find, SpanText(d, r[i].span)) == Ok(r[i].numstr)
    {
      assert r[i] == Element(spans[i], i + 1, nums[i]);
      assert PieceSpan(d, s, starts, i) == Ok(spans[i]);
    }
  }

  /** The number strings the loop found are each article's own `element_numstr`. */
  lemma ArticleNumstrs(d: Doc, find: Finder, spans: seq<TokSpan>, nums: seq<Option<string>>)
    requires forall i :: 0 <= i < |spans| ==> ValidSpan(d, spans[i])
    requires FirstCandidates(CandidateLists(d, spans, find)) == Ok(nums)
    ensures |nums| == |spans|
    ensures forall i :: 0 <= i < |spans| ==> ArticleNumstr(find, SpanText(d, spans[i])) == Ok(nums[i])
  {
    var cs := CandidateLists(d, spans, find);
    forall i | 0 <= i < |spans| ensures ArticleNumstr(find, SpanText(d, spans[i])) == Ok(nums[i]) {
      assert FirstCandidate(cs[i]) == Ok(nums[i]);
    }
  }

  /**
   * The single-article pattern is used whatever its count: when the
   * identifier pattern finds nothing, every long single-article match
   * becomes an article, not only a lone one.
   */
  lemma SingleArticleAnyCount(find: Finder, text: string)
    requires |find(Q(ArticleIdentifier, MI), text)| == 0
    requires forall m :: m in find(Q(SingleArticleIdentifier, MI), text) ==> |MatchText(text, m)| > 4
    ensures ArticleMatches(find, text) == find(Q(SingleArticleIdentifier, MI), text)
  {
    AllLongKept(text, find(Q(SingleArticleIdentifier, MI), text), 4);
  }

  lemma {:induction false} AllLongKept(text: string, ms: seq<Match>, k: int)
    requires forall m :: m in ms ==> |MatchText(text, m)| > k
    ensures LongMatches(text, ms, k) == ms
  {
    if |ms| > 0 {
      AllLongKept(text, ms[1..], k);
      assert [ms[0]] + ms[1..] == ms;
    }
  }

  // ---------------------------------------------------------------------
  // article_elements
  // ---------------------------------------------------------------------

  /**
   * Where a paragraph starts: group 1 of an unnumbered-paragraph match when
   * the pattern has groups, else the match start. (`len(m.groups())` is the
   * pattern's group count, the same for every match.)
   */
  function ParStarts(ms: seq<Match>, unnumbered: bool): (r: seq<int>)
    ensures |r| == |ms|
    ensures forall i :: 0 <= i < |ms| ==>
      r[i] == if unnumbered && ms[i].groupCount > 0 then Group1Start(ms[i]) else ms[i].start
  {
    if |ms| == 0 then []
    else
      var m := ms[0];
      [if unnumbered && m.groupCount > 0 then Group1Start(m) else m.start] + ParStarts(ms[1..], unnumbered)
  }

  /** `element_numstr` of a paragraph: group 1 when the pattern has groups. */
  function ParNumstrs(text: string, ms: seq<Match>): (r: seq<Option<string>>)
    ensures |r| == |ms|
    ensures forall i :: 0 <= i < |ms| ==> r[i] == if ms[i].groupCount > 0 then Group1Text(text, ms[i]) else None
  {
    if |ms| == 0 then []
    else [if ms[0].groupCount > 0 then Group1Text(text, ms[0]) else None] + ParNumstrs(text, ms[1..])
  }

  /** Elements numbered from `k + 1` in list order. */
  function Enumerate(spans: seq<TokSpan>, nums: seq<Option<string>>, k: int): (r: seq<Element>)
    requires |nums| == |spans|
    ensures |r| == |spans|
    ensures forall i :: 0 <= i < |spans| ==> r[i] == Element(spans[i], k + i + 1, nums[i])
  {
    if |spans| == 0 then [] else [Element(spans[0], k + 1, nums[0])] + Enumerate(spans[1..], nums[1..], k + 1)
  }

  /** The paragraph matches: numbered ones, else the unnumbered pattern. */
  function ParMatches(find: Finder, text: string): seq<Match>
  {
    var numbered := find(Q(ArticleNumParagraph, M), text);
    if |numbered| > 0 then numbered else find(Q(ArticleUnnumParagraph, MD), text)
  }

  /**
   * `_paragraphs(article)`. Without any paragraph match, an article whose
   * stripped text is longer than one character is its own single paragraph.
   */
  function Paragraphs(d: Doc, article: Element, find: Finder): (r: Result<seq<Element>>)
    requires ValidSpan(d, article.span)
    ensures r.Ok? ==> AllInside(r.value, article.span)
    ensures r.Err? ==> r.error == ValueError
  {
    var s := article.span;
    var text := SpanText(d, s);
    var unnumbered := |find(Q(ArticleNumParagraph, M), text)| == 0;
    var ms := ParMatches(find, text);
    var pars :- NumberedPieces(d, s, ParStarts(ms, unnumbered), ParNumstrs(text, ms));
    assert Inside(article.span, s);
    if |pars| == 0 && |Strip(text)| > 1 then Ok([article]) else Ok(pars)
  }

  /**
   * Without any paragraph match, an article whose stripped text is longer
   * than one character is its own single paragraph; otherwise there are none.
   */
  lemma ParagraphsFallback(d: Doc, article: Element, find: Finder)
    requires ValidSpan(d, article.span) && |ArticleParMatches(d, article, find)| == 0
    ensures Paragraphs(d, article, find)
            == if |Strip(SpanText(d, article.span))| > 1 then Ok([article]) else Ok([])
    ensures forall i :: 0 <= i < |Paragraphs(d, article, find).value| ==> Paragraphs(d, article, find).value[i] == article
  {
  }

  /** With paragraph matches, there is one paragraph per match, numbered from 1. */
  lemma ParagraphsNumbered(d: Doc, article: Element, find: Finder)
    requires ValidSpan(d, article.span) && |ArticleParMatches(d, article, find)| > 0
    ensures var r := Paragraphs(d, article, find);
      var text := SpanText(d, article.span);
      var ms := ArticleParMatches(d, article, find);
      var starts := ParStarts(ms, |find(Q(ArticleNumParagraph, M), text)| == 0);
      r.Ok? ==> |r.value| == |ms|
                && forall i :: 0 <= i < |r.value| ==>
                     && r.value[i].pos == i + 1
                     && r.value[i].numstr == ParNumstrs(text, ms)[i]
                     && PieceSpan(d, article.span, starts, i) == Ok(r.value[i].span)
  {
    var text := SpanText(d, article.span);
    var ms := ParMatches(find, text);
    var unnumbered := |find(Q(ArticleNumParagraph, M), text)| == 0;
    var pars := NumberedPieces(d, article.span, ParStarts(ms, unnumbered), ParNumstrs(text, ms));
    if pars.Ok? {
      assert |pars.value| == |ms| > 0;
      assert Paragraphs(d, article, find) == pars;
    }
  }

  /** The paragraph matches in an article's text. */
  function ArticleParMatches(d: Doc, article: Element, find: Finder): seq<Match>
    requires ValidSpan(d, article.span)
  {
    ParMatches(find, SpanText(d, article.span))
  }

  /** A short piece that the section-title pattern hits is a chapter or section heading. */
  predicate IsTitle(d: Doc, find: Finder, s: TokSpan)
    requires ValidSpan(d, s)
  {
    |Strip(SpanText(d, s))| < 200 && |find(Q(ArticleSectionTitles, MI), SpanText(d, s))| > 0
  }

  /**
   * Drops the pieces flagged as headings and numbers the rest by their place
   * before dropping, from `k + 1`.
   */
  function DropTitles(spans: seq<TokSpan>, titles: seq<bool>, k: int): (r: seq<Element>)
    requires |titles| == |spans|
    ensures |r| == Kept(titles)
  {
    if |spans| == 0 then []
    else
      var rest := DropTitles(spans[1..], titles[1..], k + 1);
      if titles[0] then rest
      else [Element(spans[0], k + 1, None)] + rest
  }

  /** `e` is the piece at its place, counted from `k + 1`, and that piece is not a heading. */
  predicate KeptAt(e: Element, spans: seq<TokSpan>, titles: seq<bool>, k: int)
    requires |titles| == |spans|
  {
    k < e.pos <= k + |spans| && e.numstr.None?
    && e.span == spans[e.pos - k - 1] && !titles[e.pos - k - 1]
  }

  predicate KeptPieces(r: seq<Element>, spans: seq<TokSpan>, titles: seq<bool>, k: int)
    requires |titles| == |spans|
  {
    forall i :: 0 <= i < |r| ==> KeptAt(r[i], spans, titles, k)
  }

  predicate AscendingPos(r: seq<Element>)
  {
    forall i, j :: 0 <= i < j < |r| ==> r[i].pos < r[j].pos
  }

  /** The elements kept are the non-heading pieces, numbered by their place, in ascending order. */
  lemma DropTitlesMeaning(spans: seq<TokSpan>, titles: seq<bool>, k: int)
    requires |titles| == |spans|
    ensures KeptPieces(DropTitles(spans, titles, k), spans, titles, k)
    ensures AscendingPos(DropTitles(spans, titles, k))
  {
    var r := DropTitles(spans, titles, k);
    forall i | 0 <= i < |r|
      ensures KeptAt(r[i], spans, titles, k)
    {
      DropTitlesAt(spans, titles, k, i);
    }
    forall i, j | 0 <= i < j < |r|
      ensures r[i].pos < r[j].pos
    {
      DropTitlesAscending(spans, titles, k, i, j);
    }
  }

  /** The `i`-th element kept comes from a non-heading piece and carries that piece's place. */
  lemma {:induction false} DropTitlesAt(spans: seq<TokSpan>, titles: seq<bool>, k: int, i: nat)
    requires |titles| == |spans| && i < |DropTitles(spans, titles, k)|
    ensures KeptAt(DropTitles(spans, titles, k)[i], spans, titles, k)
    decreases |spans|, 1
  {
    var r := DropTitles(spans, titles, k);
    var rest := DropTitles(spans[1..], titles[1..], k + 1);
    if titles[0] {
      assert r == rest;
      DropTitlesStep(spans, titles, k, i);
    } else if i > 0 {
      assert r == [Element(spans[0], k + 1, None)] + rest;
      assert r[i] == rest[i - 1];
      DropTitlesStep(spans, titles, k, i - 1);
    }
  }

  /** The induction step of `DropTitlesAt`: a place in the tail is one more in the whole. */
  lemma DropTitlesStep(spans: seq<TokSpan>, titles: seq<bool>, k: int, i: nat)
    requires |titles| == |spans| > 0 && i < |DropTitles(spans[1..], titles[1..], k + 1)|
    ensures KeptAt(DropTitles(spans[1..], titles[1..], k + 1)[i], spans, titles, k)
    decreases |spans|, 0
  {
    DropTitlesAt(spans[1..], titles[1..], k + 1, i);
    var e := DropTitles(spans[1..], titles[1..], k + 1)[i];
    assert KeptAt(e, spans[1..], titles[1..], k + 1);
    var p := e.pos - (k + 1) - 1;
    assert e.span == spans[1..][p] && !titles[1..][p];
    assert spans[1..][p] == spans[p + 1];
    assert titles[1..][p] == titles[p + 1];
  }

  /** The places of the elements kept ascend. */
  lemma {:induction false} DropTitlesAscending(spans: seq<TokSpan>, titles: seq<bool>, k: int, i: nat, j: nat)
    requires |titles| == |spans| && i < j < |DropTitles(spans, titles, k)|
    ensures DropTitles(spans, titles, k)[i].pos < DropTitles(spans, titles, k)[j].pos
  {
    var r := DropTitles(spans, titles, k);
    var rest := DropTitles(spans[1..], titles[1..], k + 1);
    if titles[0] {
      assert r == rest;
      DropTitlesAscending(spans[1..], titles[1..], k + 1, i, j);
    } else if i == 0 {
      assert r == [Element(spans[0], k + 1, None)] + rest;
      DropTitlesAt(spans[1..], titles[1..], k + 1, j - 1);
      assert KeptAt(rest[j - 1], spans[1..], titles[1..], k + 1);
      assert r[j] == rest[j - 1];
    } else {
      assert r == [Element(spans[0], k + 1, None)] + rest;
      DropTitlesAscending(spans[1..], titles[1..], k + 1, i - 1, j - 1);
      assert r[i] == rest[i - 1] && r[j] == rest[j - 1];
    }
  }

  /** How many pieces are not headings. */
  function Kept(titles: seq<bool>): (n: nat)
    ensures n <= |titles|
  {
    if |titles| == 0 then 0 else (if titles[0] then 0 else 1) + Kept(titles[1..])
  }

  /** Which pieces are headings. */
  function Titles(d: Doc, spans: seq<TokSpan>, find: Finder): (r: seq<bool>)
    requires forall i :: 0 <= i < |spans| ==> ValidSpan(d, spans[i])
    ensures |r| == |spans|
    ensures forall i :: 0 <= i < |spans| ==> r[i] == IsTitle(d, find, spans[i])
  {
    seq(|spans|, i requires 0 <= i < |spans| => IsTitle(d, find, spans[i]))
  }

  /** `_subparagraphs(par)`: pieces between subparagraph starts, headings dropped. */
  function Subparagraphs(d: Doc, par: TokSpan, find: Finder): (r: Result<seq<Element>>)
    requires ValidSpan(d, par)
    ensures SubparsFrom(d, par, find, find(Q(ArticleSubparStart, M), SpanText(d, par)), r)
  {
    var text := SpanText(d, par);
    var ms := find(Q(ArticleSubparStart, M), text);
    var pieces := PieceSpans(d, par, Starts(ms));
    SubparsOutcome(d, par, find, ms, pieces);
    if pieces.Err? then Err(pieces.error) else Ok(DropTitles(pieces.value, Titles(d, pieces.value, find), 0))
  }

  /**
   * The sub-paragraphs `r` of `par` for the start matches `ms`: none without
   * a match, a ValueError or else at most one element per match, each inside
   * the paragraph, unnumbered, not a heading, and the piece at its place,
   * in ascending order of place.
   */
  predicate SubparsFrom(d: Doc, par: TokSpan, find: Finder, ms: seq<Match>, r: Result<seq<Element>>)
    requires ValidSpan(d, par)
  {
    && (|ms| == 0 ==> r == Ok([]))
    && (r.Ok? ==> |r.value| <= |ms|)
    && (r.Err? ==> r.error == ValueError)
    && (r.Ok? ==> AllInside(r.value, par))
    && (r.Ok? ==> AscendingPos(r.value) && forall i :: 0 <= i < |r.value| ==>
          1 <= r.value[i].pos <= |Starts(ms)| && r.value[i].numstr.None?
          && PieceSpan(d, par, Starts(ms), r.value[i].pos - 1) == Ok(r.value[i].span)
          && !IsTitle(d, find, r.value[i].span))
  }

  /** What `Subparagraphs` returns for the pieces between its matches. */
  lemma SubparsOutcome(d: Doc, par: TokSpan, find: Finder, ms: seq<Match>, pieces: Result<seq<TokSpan>>)
    requires ValidSpan(d, par) && pieces == PieceSpans(d, par, Starts(ms))
    ensures SubparsFrom(d, par, find, ms, if pieces.Err? then Err(pieces.error)
                                          else Ok(DropTitles(pieces.value, Titles(d, pieces.value, find), 0)))
  {
    if pieces.Ok? {
      SubparsKept(d, par, find, ms, pieces.value);
    }
  }

  /** The pieces `_subparagraphs` keeps are the non-heading pieces, each at its place among all pieces. */
  lemma SubparsKept(d: Doc, par: TokSpan, find: Finder, ms: seq<Match>, spans: seq<TokSpan>)
    requires ValidSpan(d, par) && PieceSpans(d, par, Starts(ms)) == Ok(spans)
    ensures SubparsFrom(d, par, find, ms, Ok(DropTitles(spans, Titles(d, spans, find), 0)))
  {
    var starts := Starts(ms);
    var titles := Titles(d, spans, find);
    var r := DropTitles(spans, titles, 0);
    DropTitlesMeaning(spans, titles, 0);
    forall i | 0 <= i < |r|
      ensures 1 <= r[i].pos <= |starts| && r[i].numstr.None?
      ensures PieceSpan(d, par, starts, r[i].pos - 1) == Ok(r[i].span) && !IsTitle(d, find, r[i].span)
      ensures Inside(r[i].span, par)
    {
      assert KeptAt(r[i], spans, titles, 0);
      PieceOf(d, par, starts, spans, r[i].pos - 1);
    }
    if |ms| == 0 {
      assert r == [];
    }
  }

  /** Piece `p` of a successful `PieceSpans`, as `PieceSpans` promises it. */
  lemma PieceOf(d: Doc, s: TokSpan, starts: seq<int>, spans: seq<TokSpan>, p: nat)
    requires ValidSpan(d, s) && PieceSpans(d, s, starts) == Ok(spans) && p < |spans|
    ensures |spans| == |starts| && PieceSpan(d, s, starts, p) == Ok(spans[p]) && Inside(spans[p], s)
  {
  }

  /** Every element lies inside `p`. */
  predicate AllInside(es: seq<Element>, p: TokSpan)
  {
    forall i :: 0 <= i < |es| ==> Inside(es[i].span, p)
  }

  /** `_points(subpar)`: pieces between point identifiers, numbered by the identifier text. */
  function Points(d: Doc, sub: TokSpan, find: Finder): (r: Result<seq<Element>>)
    requires ValidSpan(d, sub)
    ensures var ms := find(Q(ArticlePointId, M), SpanText(d, sub));
      && (r.Ok? ==> |r.value| == |ms|)
      && (r.Ok? ==> forall i :: 0 <= i < |r.value| ==>
            r.value[i].pos == i + 1 && r.value[i].numstr == Some(MatchText(SpanText(d, sub), ms[i])))
      && (r.Ok? ==> forall i {:trigger PieceSpan(d, sub, Starts(ms), i)} :: 0 <= i < |r.value| ==>
            PieceSpan(d, sub, Starts(ms), i) == Ok(r.value[i].span))
      && (r.Err? ==> r.error == ValueError)
    ensures r.Ok? ==> AllInside(r.value, sub)
  {
    var text := SpanText(d, sub);
    var ms := find(Q(ArticlePointId, M), text);
    NumberedPieces(d, sub, Starts(ms), MatchTexts(text, ms))
  }

  /** `m.group(0)` of each match. */
  function MatchTexts(text: string, ms: seq<Match>): (r: seq<Option<string>>)
    ensures |r| == |ms|
    ensures forall i :: 0 <= i < |ms| ==> r[i] == Some(MatchText(text, ms[i]))
  {
    if |ms| == 0 then [] else [Some(MatchText(text, ms[0]))] + MatchTexts(text, ms[1..])
  }

  /** `_indents(subpar)`: pieces between indent identifiers. */
  function Indents(d: Doc, sub: TokSpan, find: Finder): (r: Result<seq<Element>>)
    requires ValidSpan(d, sub)
    ensures var ms := find(Q(ArticleIndentId, M), SpanText(d, sub));
      && (r.Ok? ==> |r.value| == |ms|)
      && (r.Ok? ==> forall i :: 0 <= i < |r.value| ==> r.value[i].pos == i + 1 && r.value[i].numstr.None?)
      && (r.Ok? ==> forall i {:trigger PieceSpan(d, sub, Starts(ms), i)} :: 0 <= i < |r.value| ==>
            PieceSpan(d, sub, Starts(ms), i) == Ok(r.value[i].span))
      && (r.Err? ==> r.error == ValueError)
    ensures r.Ok? ==> AllInside(r.value, sub)
  {
    var text := SpanText(d, sub);
    var ms := find(Q(ArticleIndentId, M), text);
    NumberedPieces(d, sub, Starts(ms), seq(|ms|, i requires 0 <= i < |ms| => None))
  }

  /** The dict `article_elements` returns. */
  datatype ArticleTree = ArticleTree(
    pars: seq<Element>,
    subpars: seq<seq<Element>>,
    points: seq<seq<seq<Element>>>,
    indents: seq<seq<seq<Element>>>)

  /** The points and the indents of one subparagraph. */
  datatype Kids = Kids(points: seq<Element>, indents: seq<Element>)

  /** The subparagraphs of one paragraph, with the points and indents of each. */
  datatype SubparTree = SubparTree(subpars: seq<Element>, kids: seq<Kids>)

  predicate ValidElements(d: Doc, es: seq<Element>)
  {
    forall i :: 0 <= i < |es| ==> ValidSpan(d, es[i].span)
  }

  /** One pass of the inner loop: `_points(subpar)`, then `_indents(subpar)`. */
  function SubparKids(d: Doc, sub: Element, find: Finder): (r: Result<Kids>)
    requires ValidSpan(d, sub.span)
    ensures r.Ok? <==> Points(d, sub.span, find).Ok? && Indents(d, sub.span, find).Ok?
    ensures r.Ok? ==> Points(d, sub.span, find) == Ok(r.value.points) && Indents(d, sub.span, find) == Ok(r.value.indents)
    ensures r.Err? ==> r.error == ValueError
  {
    var pts :- Points(d, sub.span, find);
    var ins :- Indents(d, sub.span, find);
    Ok(Kids(pts, ins))
  }

  function KidsOf(d: Doc, find: Finder): Element --> Result<Kids>
  {
    (sub: Element) requires ValidSpan(d, sub.span) => SubparKids(d, sub, find)
  }

  /** One pass of the outer loop: the subparagraphs of `par` and their points and indents. */
  function ParTree(d: Doc, par: Element, find: Finder): (r: Result<SubparTree>)
    requires ValidSpan(d, par.span)
    ensures r.Ok? ==> Subparagraphs(d, par.span, find) == Ok(r.value.subpars) && |r.value.kids| == |r.value.subpars|
    ensures r.Ok? ==> forall q :: 0 <= q < |r.value.subpars| ==> SubparKids(d, r.value.subpars[q], find) == Ok(r.value.kids[q])
    ensures r.Err? ==> r.error == ValueError
  {
    var subs :- Subparagraphs(d, par.span, find);
    KidsRaise(d, subs, find);
    var kids :- MapAll(subs, KidsOf(d, find));
    Ok(SubparTree(subs, kids))
  }

  lemma KidsRaise(d: Doc, subs: seq<Element>, find: Finder)
    requires ValidElements(d, subs)
    ensures MapAll(subs, KidsOf(d, find)).Err? ==> MapAll(subs, KidsOf(d, find)).error == ValueError
  {
    forall i | 0 <= i < |subs| && KidsOf(d, find)(subs[i]).Err?
      ensures KidsOf(d, find)(subs[i]).error == ValueError
    {
      assert KidsOf(d, find)(subs[i]) == SubparKids(d, subs[i], find);
    }
    MapAllRaises(subs, KidsOf(d, find), ValueError);
  }

  function ParTreeOf(d: Doc, find: Finder): Element --> Result<SubparTree>
  {
    (par: Element) requires ValidSpan(d, par.span) => ParTree(d, par, find)
  }

  /** `len(subpars) == len(pars)` and per paragraph one entry of points and indents per subparagraph. */
  predicate Shaped(t: ArticleTree)
  {
    |t.subpars| == |t.pars| && |t.points| == |t.pars| && |t.indents| == |t.pars|
    && forall p :: 0 <= p < |t.pars| ==> |t.points[p]| == |t.subpars[p]| && |t.indents[p]| == |t.subpars[p]|
  }

  /** Every element lies inside its parent: paragraph in article, down to points and indents. */
  predicate Nested(t: ArticleTree, article: TokSpan)
    requires Shaped(t)
  {
    AllInside(t.pars, article)
    && forall p :: 0 <= p < |t.pars| ==>
         AllInside(t.subpars[p], t.pars[p].span)
         && forall q :: 0 <= q < |t.subpars[p]| ==>
              AllInside(t.points[p][q], t.subpars[p][q].span) && AllInside(t.indents[p][q], t.subpars[p][q].span)
  }

  /** What `article_elements` is handed: a spaCy span, or something else. */
  datatype ArticleInput = ArticleSpan(article: Element) | NotASpan

  /**
   * `article_elements(article)`: paragraphs, the subparagraphs of each, and
   * the points and indents of each subparagraph.
   */
  function ArticleElements(d: Doc, arg: ArticleInput, find: Finder): (r: Result<ArticleTree>)
    requires arg.ArticleSpan? ==> ValidSpan(d, arg.article.span)
    ensures arg.NotASpan? <==> r == Err(TypeError)
    ensures r.Ok? ==> Shaped(r.value)
  {
    if arg.NotASpan? then Err(TypeError) else ArticleOf(d, arg.article, find)
  }

  /**
   * The paragraphs of a span, then the loop over them; every element then
   * reads the extension values last written to its range.
   */
  function ArticleOf(d: Doc, article: Element, find: Finder): (r: Result<ArticleTree>)
    requires ValidSpan(d, article.span)
    ensures r.Err? ==> r.error == ValueError
    ensures r.Ok? ==> Shaped(r.value)
  {
    var pars :- Paragraphs(d, article, find);
    assert ValidElements(d, pars);
    var raw :- ArticleFrom(d, pars, find);
    Ok(SettleTree(ArticleWrites(d, article, find, raw), raw))
  }

  /**
   * The loop over the paragraphs, once `_paragraphs` has returned. Each
   * element carries the values its own call writes.
   */
  function ArticleFrom(d: Doc, pars: seq<Element>, find: Finder): (r: Result<ArticleTree>)
    requires ValidElements(d, pars)
    ensures r.Ok? ==> r.value.pars == pars && Shaped(r.value)
    ensures r.Err? ==> r.error == ValueError
  {
    TreesRaise(d, pars, find);
    var trees :- MapAll(pars, ParTreeOf(d, find));
    TreesShaped(d, pars, find, trees);
    Ok(Tree(pars, trees))
  }

  lemma TreesRaise(d: Doc, pars: seq<Element>, find: Finder)
    requires ValidElements(d, pars)
    ensures MapAll(pars, ParTreeOf(d, find)).Err? ==> MapAll(pars, ParTreeOf(d, find)).error == ValueError
  {
    forall i | 0 <= i < |pars| && ParTreeOf(d, find)(pars[i]).Err?
      ensures ParTreeOf(d, find)(pars[i]).error == ValueError
    {
      assert ParTreeOf(d, find)(pars[i]) == ParTree(d, pars[i], find);
    }
    MapAllRaises(pars, ParTreeOf(d, find), ValueError);
  }

  /** Each paragraph tree has one entry of points and indents per subparagraph. */
  lemma TreesShaped(d: Doc, pars: seq<Element>, find: Finder, trees: seq<SubparTree>)
    requires ValidElements(d, pars) && MapAll(pars, ParTreeOf(d, find)) == Ok(trees)
    ensures |trees| == |pars| && forall p :: 0 <= p < |trees| ==> |trees[p].kids| == |trees[p].subpars|
  {
    forall p | 0 <= p < |trees|
      ensures |trees[p].kids| == |trees[p].subpars|
    {
      assert ParTreeOf(d, find)(pars[p]) == ParTree(d, pars[p], find) == Ok(trees[p]);
    }
  }

  /** Regroups the paragraph trees into the four lists of the result. */
  function Tree(pars: seq<Element>, trees: seq<SubparTree>): (t: ArticleTree)
    requires |trees| == |pars| && forall p :: 0 <= p < |trees| ==> |trees[p].kids| == |trees[p].subpars|
    ensures t.pars == pars && Shaped(t)
    ensures forall p :: 0 <= p < |pars| ==> t.subpars[p] == trees[p].subpars
    ensures forall p, q :: 0 <= p < |pars| && 0 <= q < |trees[p].kids| ==>
      t.points[p][q] == trees[p].kids[q].points && t.indents[p][q] == trees[p].kids[q].indents
  {
    ArticleTree(
      pars,
      seq(|trees|, p requires 0 <= p < |trees| => trees[p].subpars),
      seq(|trees|, p requires 0 <= p < |trees| => PointLists(trees[p].kids)),
      seq(|trees|, p requires 0 <= p < |trees| => IndentLists(trees[p].kids)))
  }

  function PointLists(kids: seq<Kids>): (r: seq<seq<Element>>)
    ensures |r| == |kids| && forall q :: 0 <= q < |kids| ==> r[q] == kids[q].points
  {
    seq(|kids|, q requires 0 <= q < |kids| => kids[q].points)
  }

  function IndentLists(kids: seq<Kids>): (r: seq<seq<Element>>)
    ensures |r| == |kids| && forall q :: 0 <= q < |kids| ==> r[q] == kids[q].indents
  {
    seq(|kids|, q requires 0 <= q < |kids| => kids[q].indents)
  }

  /**
   * Every element `article_elements` finds lies inside its parent: the
   * paragraphs inside the article, each subparagraph inside its paragraph,
   * each point and indent inside its subparagraph.
   */
  lemma ArticleElementsNested(d: Doc, article: Element, find: Finder)
    requires ValidSpan(d, article.span)
    ensures var r := ArticleElements(d, ArticleSpan(article), find);
      r.Ok? ==> Nested(r.value, article.span)
  {
    var pars := Paragraphs(d, article, find);
    if pars.Ok? {
      assert ValidElements(d, pars.value);
      ArticleFromNested(d, pars.value, find);
      var raw := ArticleFrom(d, pars.value, find);
      if raw.Ok? {
        SettleTreeNested(ArticleWrites(d, article, find, raw.value), raw.value, article.span);
      }
    }
  }

  /** Below the paragraphs: each subparagraph inside its paragraph, and so on down. */
  lemma ArticleFromNested(d: Doc, pars: seq<Element>, find: Finder)
    requires ValidElements(d, pars)
    ensures var r := ArticleFrom(d, pars, find);
      r.Ok? ==> forall p :: 0 <= p < |pars| ==>
        AllInside(r.value.subpars[p], pars[p].span)
        && forall q :: 0 <= q < |r.value.subpars[p]| ==>
             AllInside(r.value.points[p][q], r.value.subpars[p][q].span)
             && AllInside(r.value.indents[p][q], r.value.subpars[p][q].span)
  {
    var trees := MapAll(pars, ParTreeOf(d, find));
    if trees.Ok? {
      var t := Tree(pars, trees.value);
      forall p | 0 <= p < |pars|
        ensures AllInside(t.subpars[p], pars[p].span)
        ensures forall q :: 0 <= q < |t.subpars[p]| ==>
          AllInside(t.points[p][q], t.subpars[p][q].span) && AllInside(t.indents[p][q], t.subpars[p][q].span)
      {
        assert ParTree(d, pars[p], find) == Ok(trees.value[p]);
        SubtreeNested(d, pars[p], find, trees.value[p]);
      }
    }
  }

  lemma SubtreeNested(d: Doc, par: Element, find: Finder, t: SubparTree)
    requires ValidSpan(d, par.span) && ParTree(d, par, find) == Ok(t)
    ensures AllInside(t.subpars, par.span)
    ensures forall q :: 0 <= q < |t.subpars| ==>
      AllInside(t.kids[q].points, t.subpars[q].span) && AllInside(t.kids[q].indents, t.subpars[q].span)
  {
    assert Subparagraphs(d, par.span, find) == Ok(t.subpars);
    forall q | 0 <= q < |t.subpars|
      ensures AllInside(t.kids[q].points, t.subpars[q].span) && AllInside(t.kids[q].indents, t.subpars[q].span)
    {
      var sub := t.subpars[q];
      assert ValidSpan(d, sub.span);
      assert SubparKids(d, sub, find) == Ok(t.kids[q]);
      assert Points(d, sub.span, find) == Ok(t.kids[q].points);
      assert Indents(d, sub.span, find) == Ok(t.kids[q].indents);
    }
  }

  // ---------------------------------------------------------------------
  // Extension values per character range
  // ---------------------------------------------------------------------

  /**
   * One write to the extension values of a range: `element_pos`, and
   * `element_numstr` when `setsNumstr`. spaCy keeps a span's extension
   * values per character range (these spans carry no label), so every span
   * over the range reads the last write to it.
   */
  datatype Write = Write(span: TokSpan, pos: int, setsNumstr: bool, numstr: Option<string>)

  /** The last `element_pos` written to `x`, or `dflt` when none is. */
  function LastPos(ws: seq<Write>, x: TokSpan, dflt: int): (r: int)
    ensures (forall i :: 0 <= i < |ws| ==> ws[i].span != x) ==> r == dflt
    decreases |ws|
  {
    if |ws| == 0 then dflt
    else if ws[|ws| - 1].span == x then ws[|ws| - 1].pos
    else LastPos(ws[..|ws| - 1], x, dflt)
  }

  /** The last `element_numstr` written to `x`, or `None`, the default, when none is. */
  function LastNumstr(ws: seq<Write>, x: TokSpan): (r: Option<string>)
    ensures (forall i :: 0 <= i < |ws| ==> !(ws[i].span == x && ws[i].setsNumstr)) ==> r.None?
    decreases |ws|
  {
    if |ws| == 0 then None
    else if ws[|ws| - 1].span == x && ws[|ws| - 1].setsNumstr then ws[|ws| - 1].numstr
    else LastNumstr(ws[..|ws| - 1], x)
  }

  /** The last write to a range wins: no later write to `x` follows write `i`. */
  lemma {:induction false} LastPosWins(ws: seq<Write>, x: TokSpan, dflt: int, i: nat)
    requires i < |ws| && ws[i].span == x
    requires forall j :: i < j < |ws| ==> ws[j].span != x
    ensures LastPos(ws, x, dflt) == ws[i].pos
    decreases |ws|
  {
    if i < |ws| - 1 {
      var init := ws[..|ws| - 1];
      LastPosWins(init, x, dflt, i);
    }
  }

  /** The last write of a number string to a range wins. */
  lemma {:induction false} LastNumstrWins(ws: seq<Write>, x: TokSpan, i: nat)
    requires i < |ws| && ws[i].span == x && ws[i].setsNumstr
    requires forall j :: i < j < |ws| ==> !(ws[j].span == x && ws[j].setsNumstr)
    ensures LastNumstr(ws, x) == ws[i].numstr
    decreases |ws|
  {
    if i < |ws| - 1 {
      var init := ws[..|ws| - 1];
      LastNumstrWins(init, x, i);
    }
  }

  /** An element as it reads after the writes `ws`. */
  function Settle(ws: seq<Write>, e: Element): (r: Element)
    ensures r.span == e.span
  {
    Element(e.span, LastPos(ws, e.span, e.pos), LastNumstr(ws, e.span))
  }

  function SettleAll(ws: seq<Write>, es: seq<Element>): (r: seq<Element>)
    ensures |r| == |es| && forall i :: 0 <= i < |es| ==> r[i] == Settle(ws, es[i])
  {
    seq(|es|, i requires 0 <= i < |es| => Settle(ws, es[i]))
  }

  /** Every element of the tree as it reads after the writes `ws`. */
  function SettleTree(ws: seq<Write>, t: ArticleTree): (r: ArticleTree)
    requires Shaped(t)
    ensures Shaped(r)
    ensures r.pars == SettleAll(ws, t.pars)
    ensures |r.points| == |t.points| && |r.indents| == |t.indents|
    ensures forall p :: 0 <= p < |t.pars| ==> |r.points[p]| == |t.points[p]| && |r.indents[p]| == |t.indents[p]|
    ensures forall p :: 0 <= p < |t.pars| ==> r.subpars[p] == SettleAll(ws, t.subpars[p])
    ensures forall p, q :: 0 <= p < |t.pars| && 0 <= q < |t.subpars[p]| ==>
      r.points[p][q] == SettleAll(ws, t.points[p][q]) && r.indents[p][q] == SettleAll(ws, t.indents[p][q])
  {
    ArticleTree(
      SettleAll(ws, t.pars),
      seq(|t.subpars|, p requires 0 <= p < |t.subpars| => SettleAll(ws, t.subpars[p])),
      seq(|t.points|, p requires 0 <= p < |t.points| =>
        seq(|t.points[p]|, q requires 0 <= q < |t.points[p]| => SettleAll(ws, t.points[p][q]))),
      seq(|t.indents|, p requires 0 <= p < |t.indents| =>
        seq(|t.indents[p]|, q requires 0 <= q < |t.indents[p]| => SettleAll(ws, t.indents[p][q]))))
  }

  /** The writes of one call over its elements, in list order. */
  function Writes(es: seq<Element>, setsNumstr: bool): (r: seq<Write>)
    ensures |r| == |es|
    ensures forall i :: 0 <= i < |es| ==> r[i] == Write(es[i].span, es[i].pos, setsNumstr, es[i].numstr)
  {
    seq(|es|, i requires 0 <= i < |es| => OwnWrite(es[i], setsNumstr))
  }

  /** `_points` (position and number string), then `_indents` (position), for each subparagraph in turn. */
  function KidWrites(points: seq<seq<Element>>, indents: seq<seq<Element>>): seq<Write>
    requires |points| == |indents|
    decreases |points|
  {
    if |points| == 0 then []
    else Writes(points[0], true) + Writes(indents[0], false) + KidWrites(points[1..], indents[1..])
  }

  /** From paragraph `p` on: `_subparagraphs` (position), then the points and indents of each subparagraph. */
  function TreeWrites(t: ArticleTree, p: nat): seq<Write>
    requires Shaped(t) && p <= |t.pars|
    decreases |t.pars| - p
  {
    if p == |t.pars| then []
    else Writes(t.subpars[p], false) + KidWrites(t.points[p], t.indents[p]) + TreeWrites(t, p + 1)
  }

  /**
   * `_paragraphs` writes the position of each paragraph it cuts, and its
   * number string when the pattern has groups; the article that serves as
   * its own paragraph gets no write.
   */
  function ParWrites(pars: seq<Element>, ms: seq<Match>): seq<Write>
  {
    if |ms| == 0 then []
    else
      seq(|pars|, i requires 0 <= i < |pars| =>
        Write(pars[i].span, pars[i].pos, i < |ms| && ms[i].groupCount > 0, pars[i].numstr))
  }

  /**
   * Every write of `article_elements`, in the order the calls make them,
   * after the article's own values.
   */
  function ArticleWrites(d: Doc, article: Element, find: Finder, t: ArticleTree): seq<Write>
    requires ValidSpan(d, article.span) && Shaped(t)
  {
    [Write(article.span, article.pos, true, article.numstr)]
    + ParWrites(t.pars, ParMatches(find, SpanText(d, article.span)))
    + TreeWrites(t, 0)
  }

  /**
   * A subparagraph over its whole paragraph overwrites the paragraph's
   * position: with paragraphs `a` and `b`, each its own single
   * subparagraph, the second paragraph reads position 1, which its
   * subparagraph wrote after `_paragraphs` wrote 2.
   */
  lemma SubparOverwritesPar(d: Doc, article: Element, find: Finder, a: TokSpan, b: TokSpan)
    requires ValidSpan(d, article.span)
    ensures var t := ArticleTree([Element(a, 1, None), Element(b, 2, None)],
                                 [[Element(a, 1, None)], [Element(b, 1, None)]],
                                 [[[]], [[]]], [[[]], [[]]]);
      && Shaped(t)
      && SettleTree(ArticleWrites(d, article, find, t), t).pars[1].pos == 1
  {
    var t := ArticleTree([Element(a, 1, None), Element(b, 2, None)],
                         [[Element(a, 1, None)], [Element(b, 1, None)]],
                         [[[]], [[]]], [[[]], [[]]]);
    var front := [Write(article.span, article.pos, true, article.numstr)]
                 + ParWrites(t.pars, ParMatches(find, SpanText(d, article.span)));
    var tw := TreeWrites(t, 0);
    assert TreeWrites(t, 1) == [Write(b, 1, false, None)];
    assert tw[|tw| - 1] == Write(b, 1, false, None);
    var ws := front + tw;
    assert ws == ArticleWrites(d, article, find, t);
    assert ws[|ws| - 1] == tw[|tw| - 1];
  }

  /** Settling keeps every range, so it keeps every element inside its parent. */
  lemma SettleTreeNested(ws: seq<Write>, t: ArticleTree, s: TokSpan)
    requires Shaped(t) && Nested(t, s)
    ensures Nested(SettleTree(ws, t), s)
  {
    var r := SettleTree(ws, t);
    SettledInside(ws, t.pars, s);
    forall p | 0 <= p < |t.pars|
      ensures AllInside(r.subpars[p], r.pars[p].span)
      ensures forall q :: 0 <= q < |r.subpars[p]| ==>
        AllInside(r.points[p][q], r.subpars[p][q].span) && AllInside(r.indents[p][q], r.subpars[p][q].span)
    {
      assert r.pars[p].span == t.pars[p].span;
      SettledInside(ws, t.subpars[p], t.pars[p].span);
      forall q | 0 <= q < |t.subpars[p]|
        ensures AllInside(r.points[p][q], r.subpars[p][q].span) && AllInside(r.indents[p][q], r.subpars[p][q].span)
      {
        assert r.subpars[p][q].span == t.subpars[p][q].span;
        SettledInside(ws, t.points[p][q], t.subpars[p][q].span);
        SettledInside(ws, t.indents[p][q], t.subpars[p][q].span);
      }
    }
  }

  lemma SettledInside(ws: seq<Write>, es: seq<Element>, s: TokSpan)
    requires AllInside(es, s)
    ensures AllInside(SettleAll(ws, es), s)
  {
  }

  /** No two writes reach the same range. */
  predicate Apart(ws: seq<Write>)
  {
    forall i, j :: 0 <= i < j < |ws| ==> ws[i].span != ws[j].span
  }

  /** The write a call makes for its element `e`. */
  function OwnWrite(e: Element, setsNumstr: bool): Write
  {
    Write(e.span, e.pos, setsNumstr, e.numstr)
  }

  /** `ws` holds the write of `e`'s own call: with its number string, or without one when `e` has none. */
  predicate HasOwnWrite(ws: seq<Write>, e: Element)
  {
    OwnWrite(e, true) in ws || (OwnWrite(e, false) in ws && e.numstr.None?)
  }

  /** An element whose range only its own write reaches reads its own values. */
  lemma SettleOwn(ws: seq<Write>, e: Element)
    requires Apart(ws) && HasOwnWrite(ws, e)
    ensures Settle(ws, e) == e
  {
    if OwnWrite(e, true) in ws {
      var i :| 0 <= i < |ws| && ws[i] == OwnWrite(e, true);
      LastPosWins(ws, e.span, e.pos, i);
      LastNumstrWins(ws, e.span, i);
    } else {
      var i :| 0 <= i < |ws| && ws[i] == OwnWrite(e, false);
      LastPosWins(ws, e.span, e.pos, i);
    }
  }

  /** Settling a list whose elements all have their own writes changes nothing. */
  lemma SettleAllOwn(ws: seq<Write>, es: seq<Element>)
    requires Apart(ws) && forall i :: 0 <= i < |es| ==> HasOwnWrite(ws, es[i])
    ensures SettleAll(ws, es) == es
  {
    forall i | 0 <= i < |es| ensures SettleAll(ws, es)[i] == es[i] {
      SettleOwn(ws, es[i]);
    }
  }

  /** The writes for subparagraph `q` are among the writes of the whole list. */
  lemma {:induction false} KidWritesHave(points: seq<seq<Element>>, indents: seq<seq<Element>>, q: nat)
    requires |points| == |indents| && q < |points|
    ensures forall w :: w in Writes(points[q], true) ==> w in KidWrites(points, indents)
    ensures forall w :: w in Writes(indents[q], false) ==> w in KidWrites(points, indents)
    decreases q
  {
    if q > 0 {
      KidWritesHave(points[1..], indents[1..], q - 1);
      assert points[1..][q - 1] == points[q] && indents[1..][q - 1] == indents[q];
    }
  }

  /** The writes below paragraph `p` are among the writes from paragraph `p0` on. */
  lemma {:induction false} TreeWritesHave(t: ArticleTree, p0: nat, p: nat)
    requires Shaped(t) && p0 <= p < |t.pars|
    ensures forall w :: w in Writes(t.subpars[p], false) ==> w in TreeWrites(t, p0)
    ensures forall q, w :: 0 <= q < |t.subpars[p]| && w in Writes(t.points[p][q], true) ==> w in TreeWrites(t, p0)
    ensures forall q, w :: 0 <= q < |t.subpars[p]| && w in Writes(t.indents[p][q], false) ==> w in TreeWrites(t, p0)
    decreases p - p0
  {
    if p0 < p {
      TreeWritesHave(t, p0 + 1, p);
    } else {
      forall q | 0 <= q < |t.subpars[p]|
        ensures forall w :: w in Writes(t.points[p][q], true) ==> w in TreeWrites(t, p0)
        ensures forall w :: w in Writes(t.indents[p][q], false) ==> w in TreeWrites(t, p0)
      {
        KidWritesHave(t.points[p], t.indents[p], q);
      }
    }
  }

  /** No subparagraph and no indent carries a number string: their calls write none. */
  predicate SubsUnnumbered(t: ArticleTree)
    requires Shaped(t)
  {
    forall p, q :: 0 <= p < |t.pars| && 0 <= q < |t.subpars[p]| ==>
      t.subpars[p][q].numstr.None? && forall k :: 0 <= k < |t.indents[p][q]| ==> t.indents[p][q][k].numstr.None?
  }

  /**
   * Settling a tree whose writes below the paragraphs all lie in `ws`, and
   * whose paragraphs have their own writes there, changes nothing when no
   * two writes share a range.
   */
  lemma SettleTreeOwn(ws: seq<Write>, t: ArticleTree)
    requires Shaped(t) && Apart(ws) && SubsUnnumbered(t)
    requires forall i :: 0 <= i < |t.pars| ==> HasOwnWrite(ws, t.pars[i])
    requires forall w :: w in TreeWrites(t, 0) ==> w in ws
    ensures SettleTree(ws, t) == t
  {
    var r := SettleTree(ws, t);
    SettleAllOwn(ws, t.pars);
    forall p | 0 <= p < |t.pars|
      ensures r.subpars[p] == t.subpars[p] && r.points[p] == t.points[p] && r.indents[p] == t.indents[p]
    {
      TreeWritesHave(t, 0, p);
      forall i | 0 <= i < |t.subpars[p]| ensures HasOwnWrite(ws, t.subpars[p][i]) {
        assert Writes(t.subpars[p], false)[i] == OwnWrite(t.subpars[p][i], false);
      }
      SettleAllOwn(ws, t.subpars[p]);
      forall q | 0 <= q < |t.subpars[p]|
        ensures r.points[p][q] == t.points[p][q] && r.indents[p][q] == t.indents[p][q]
      {
        forall k | 0 <= k < |t.points[p][q]| ensures HasOwnWrite(ws, t.points[p][q][k]) {
          assert Writes(t.points[p][q], true)[k] == OwnWrite(t.points[p][q][k], true);
        }
        forall k | 0 <= k < |t.indents[p][q]| ensures HasOwnWrite(ws, t.indents[p][q][k]) {
          assert Writes(t.indents[p][q], false)[k] == OwnWrite(t.indents[p][q][k], false);
        }
        SettleAllOwn(ws, t.points[p][q]);
        SettleAllOwn(ws, t.indents[p][q]);
      }
    }
  }

  /** `_subparagraphs` and `_indents` never set a number string. */
  lemma ArticleFromUnnumbered(d: Doc, pars: seq<Element>, find: Finder)
    requires ValidElements(d, pars)
    ensures var r := ArticleFrom(d, pars, find);
      r.Ok? ==> SubsUnnumbered(r.value)
  {
    var trees := MapAll(pars, ParTreeOf(d, find));
    if trees.Ok? {
      var t := Tree(pars, trees.value);
      forall p | 0 <= p < |t.pars|
        ensures forall q :: 0 <= q < |t.subpars[p]| ==>
          t.subpars[p][q].numstr.None? && forall k :: 0 <= k < |t.indents[p][q]| ==> t.indents[p][q][k].numstr.None?
      {
        assert ParTree(d, pars[p], find) == Ok(trees.value[p]);
        SubtreeUnnumbered(d, pars[p], find, trees.value[p]);
      }
    }
  }

  lemma SubtreeUnnumbered(d: Doc, par: Element, find: Finder, t: SubparTree)
    requires ValidSpan(d, par.span) && ParTree(d, par, find) == Ok(t)
    ensures forall q :: 0 <= q < |t.subpars| ==>
      t.subpars[q].numstr.None? && forall k :: 0 <= k < |t.kids[q].indents| ==> t.kids[q].indents[k].numstr.None?
  {
    assert Subparagraphs(d, par.span, find) == Ok(t.subpars);
    forall q | 0 <= q < |t.subpars|
      ensures t.subpars[q].numstr.None?
      ensures forall k :: 0 <= k < |t.kids[q].indents| ==> t.kids[q].indents[k].numstr.None?
    {
      var sub := t.subpars[q];
      assert ValidSpan(d, sub.span);
      assert SubparKids(d, sub, find) == Ok(t.kids[q]);
      assert Indents(d, sub.span, find) == Ok(t.kids[q].indents);
    }
  }

  /**
   * When no two writes of `article_elements` reach the same range, every
   * element reads what its own call wrote: the result is the tree of the
   * calls, paragraphs as `_paragraphs` numbered them.
   */
  lemma ArticleElementsApart(d: Doc, article: Element, find: Finder)
    requires ValidSpan(d, article.span)
    ensures var pars := Paragraphs(d, article, find);
      pars.Ok? && ArticleFrom(d, pars.value, find).Ok?
      && Apart(ArticleWrites(d, article, find, ArticleFrom(d, pars.value, find).value)) ==>
        ArticleElements(d, ArticleSpan(article), find) == ArticleFrom(d, pars.value, find)
  {
    var pars := Paragraphs(d, article, find);
    if pars.Ok? && ArticleFrom(d, pars.value, find).Ok? {
      var raw := ArticleFrom(d, pars.value, find).value;
      var ws := ArticleWrites(d, article, find, raw);
      if Apart(ws) {
        assert ValidElements(d, pars.value);
        ArticleFromUnnumbered(d, pars.value, find);
        ParagraphsFit(d, article, find);
        ParsOwnWrites(article, pars.value, ParMatches(find, SpanText(d, article.span)), TreeWrites(raw, 0));
        SettleTreeOwn(ws, raw);
      }
    }
  }

  /**
   * What `_paragraphs` hands on: with no paragraph match at most the article
   * itself; otherwise one paragraph per match, without a number string
   * when the match has no group.
   */
  predicate ParsFit(article: Element, pars: seq<Element>, ms: seq<Match>)
  {
    && (|ms| == 0 ==> forall i :: 0 <= i < |pars| ==> pars[i] == article)
    && (|ms| > 0 ==> |pars| == |ms| && forall i :: 0 <= i < |pars| ==> ms[i].groupCount == 0 ==> pars[i].numstr.None?)
  }

  lemma ParagraphsFit(d: Doc, article: Element, find: Finder)
    requires ValidSpan(d, article.span)
    ensures var r := Paragraphs(d, article, find);
      r.Ok? ==> ParsFit(article, r.value, ParMatches(find, SpanText(d, article.span)))
  {
    if |ParMatches(find, SpanText(d, article.span))| == 0 {
      ParagraphsFallback(d, article, find);
    } else {
      NumberedParsFit(d, article, find);
    }
  }

  lemma NumberedParsFit(d: Doc, article: Element, find: Finder)
    requires ValidSpan(d, article.span) && |ParMatches(find, SpanText(d, article.span))| > 0
    ensures var r := Paragraphs(d, article, find);
      r.Ok? ==> ParsFit(article, r.value, ParMatches(find, SpanText(d, article.span)))
  {
    var text := SpanText(d, article.span);
    var ms := ParMatches(find, text);
    ParagraphsNumbered(d, article, find);
    var r := Paragraphs(d, article, find);
    if r.Ok? {
      var pars := r.value;
      assert |pars| == |ms|;
      forall i | 0 <= i < |pars| ensures ms[i].groupCount == 0 ==> pars[i].numstr.None? {
        assert pars[i].numstr == ParNumstrs(text, ms)[i];
      }
    }
  }

  /** Every paragraph has its own write: its `_paragraphs` write, or the article's values. */
  lemma ParsOwnWrites(article: Element, pars: seq<Element>, ms: seq<Match>, rest: seq<Write>)
    requires ParsFit(article, pars, ms)
    ensures var ws := [OwnWrite(article, true)] + ParWrites(pars, ms) + rest;
      forall i :: 0 <= i < |pars| ==> HasOwnWrite(ws, pars[i])
  {
    var ws := [OwnWrite(article, true)] + ParWrites(pars, ms) + rest;
    if |ms| == 0 {
      assert ws[0] == OwnWrite(article, true);
    } else {
      forall i | 0 <= i < |pars| ensures HasOwnWrite(ws, pars[i]) {
        assert ws[1 + i] == ParWrites(pars, ms)[i] == OwnWrite(pars[i], ms[i].groupCount > 0);
      }
    }
  }
}

=== FILE: spans.dfy ===
/**
 * The per-span edit metadata that euCy attaches through spaCy extension
 * attributes, and the two tagging operations that set it: marking a span
 * deleted and giving it replacement text.
 *
 * A span is a record of character offsets into one immutable document text;
 * its `text` is `doc[start:end]` and its `text_with_ws` runs on to the end
 * of the whitespace that follows it.
 */
module Spans {
  import opened PyBase

  datatype Span = Span(
    start: nat,                  // start_char
    end: nat,                    // end_char
    wsEnd: nat,                  // end of text_with_ws
    deleted: bool,               // ._.deleted
    replacement: Option<string>, // ._.replacement_text
    newElement: bool,            // ._.new_element
    charPos: Option<nat>,        // ._.char_pos, where a new element is placed
    added: bool                  // ._.added, "already processed" during a rebuild
  )

  /** A fresh span as spaCy hands it out: every extension at its default. */
  function Plain(start: nat, end: nat, wsEnd: nat): Span
  {
    Span(start, end, wsEnd, false, None, false, None, false)
  }

  /** `span.text`. */
  function Text(doc: string, s: Span): string
  {
    PySlice(doc, s.start, s.end)
  }

  /** `span.text_with_ws`. */
  function TextWithWs(doc: string, s: Span): string
  {
    PySlice(doc, s.start, s.wsEnd)
  }

  /** `get_element_text(element, replace_text)`. */
  function ElementText(doc: string, s: Span, replaceText: bool): (r: string)
    ensures replaceText && s.replacement.Some? ==> r == s.replacement.value
    ensures !(replaceText && s.replacement.Some?) ==> r == Text(doc, s)
  {
    if replaceText && s.replacement.Some? then s.replacement.value else Text(doc, s)
  }

  /** The whitespace a replacement keeps: `^\s*` of the text and `\s*$` of the text with whitespace. */
  function WsStart(doc: string, s: Span): string
  {
    LeadingWs(Text(doc, s))
  }

  function WsEnd(doc: string, s: Span): string
  {
    TrailingWs(TextWithWs(doc, s))
  }

  /** `_delete_text(span, keep_ws)`: flagged deleted, keeping only the surrounding whitespace. */
  function DeleteText(doc: string, s: Span, keepWs: bool): (r: Span)
    ensures r.deleted
    ensures keepWs ==> r.replacement == Some(WsStart(doc, s) + WsEnd(doc, s))
    ensures keepWs ==> forall i :: 0 <= i < |r.replacement.value| ==> IsSpace(r.replacement.value[i])
    ensures !keepWs ==> r.replacement.None?
    ensures r.(deleted := s.deleted, replacement := s.replacement) == s
  {
    s.(deleted := true,
       replacement := if keepWs then Some(WsStart(doc, s) + WsEnd(doc, s)) else None)
  }

  /** What `_replace_text` does with the new text: hands it back, or stores it on the span. */
  datatype ReplaceOutcome = Returned(text: string) | Stored(span: Span)

  /**
   * `_replace_text(span, new_text, keep_ws, deletion_threshold)`. A
   * non-string raises TypeError; without `keep_ws` the text is returned and
   * the span is left alone; a deleted span raises ValueError; otherwise the
   * span's own leading and trailing whitespace is put around the new text,
   * and the span is flagged deleted when the stripped result is LONGER than
   * the threshold.
   */
  function ReplaceText(doc: string, s: Span, newText: Arg, keepWs: bool, threshold: Option<int>)
    : (r: Result<ReplaceOutcome>)
    ensures newText.OtherArg? <==> r == Err(TypeError)
    ensures newText.StrArg? && !keepWs ==> r == Ok(Returned(newText.s))
    ensures newText.StrArg? && keepWs && s.deleted ==> r == Err(ValueError)
    ensures r.Ok? && r.value.Stored? ==>
      && newText.StrArg? && keepWs && !s.deleted
      && r.value.span.replacement == Some(WsStart(doc, s) + newText.s + WsEnd(doc, s))
      && (r.value.span.deleted <==> threshold.Some? && |Strip(r.value.span.replacement.value)| > threshold.value)
      && r.value.span.(deleted := false, replacement := s.replacement) == s
    ensures newText.StrArg? && keepWs && !s.deleted ==> r.Ok? && r.value.Stored?
  {
    match newText
    case OtherArg => Err(TypeError)
    case StrArg(t) =>
      if !keepWs then Ok(Returned(t))
      else if s.deleted then Err(ValueError)
      else
        var rep := WsStart(doc, s) + t + WsEnd(doc, s);
        var del := threshold.Some? && |Strip(rep)| > threshold.value;
        Ok(Stored(s.(deleted := del, replacement := Some(rep))))
  }

  /**
   * The public `replace_text(span, ...)` wrapper: it returns the span, so
   * the text handed back when `keep_ws` is off is lost.
   */
  function ReplaceTextWrapper(doc: string, s: Span, newText: Arg, keepWs: bool, threshold: Option<int>)
    : (r: Result<Span>)
    ensures newText.StrArg? && !keepWs ==> r == Ok(s)
    ensures r.Err? <==> ReplaceText(doc, s, newText, keepWs, threshold).Err?
  {
    match ReplaceText(doc, s, newText, keepWs, threshold)
    case Err(e) => Err(e)
    case Ok(Returned(_)) => Ok(s)
    case Ok(Stored(s')) => Ok(s')
  }

  /**
   * The whitespace `_replace_text` puts around new text disappears again
   * under `lstrip`: the stored replacement starts with the span's leading
   * whitespace and `lstrip` sees only the new text and the trailing
   * whitespace.
   */
  lemma StoredReplacementStrips(doc: string, s: Span, t: string)
    ensures var rep := WsStart(doc, s) + t + WsEnd(doc, s);
            WsStart(doc, s) <= rep && LStrip(rep) == LStrip(t + WsEnd(doc, s))
  {
    WrapStrips(WsStart(doc, s), t, WsEnd(doc, s));
  }

  lemma WrapStrips(w: string, t: string, e: string)
    requires forall i :: 0 <= i < |w| ==> IsSpace(w[i])
    ensures w <= w + t + e && LStrip(w + t + e) == LStrip(t + e)
  {
    assert w + t + e == w + (t + e);
    LStripSkipsSpace(w, t + e);
  }

  /** Removing a whitespace prefix does not change what `lstrip` leaves. */
  lemma {:induction false} LStripSkipsSpace(w: string, t: string)
    requires forall i :: 0 <= i < |w| ==> IsSpace(w[i])
    ensures LStrip(w + t) == LStrip(t)
    decreases |w|
  {
    if |w| > 0 {
      assert (w + t)[0] == w[0];
      assert (w + t)[1..] == w[1..] + t;
      LStripSkipsSpace(w[1..], t);
    } else {
      assert w + t == t;
    }
  }

  /**
   * Deleting with `keep_ws` and then reading the element's replacement text
   * yields whitespace only, so a rebuild that emits it drops every visible
   * character of the span.
   */
  lemma DeletedTextIsBlank(doc: string, s: Span)
    ensures Strip(ElementText(doc, DeleteText(doc, s, true), true)) == []
  {
    var w := ElementText(doc, DeleteText(doc, s, true), true);
    assert forall i :: 0 <= i < |w| ==> IsSpace(w[i]);
  }
}

=== FILE: structure.dfy ===
/**
 * `text_parts` of eucy/structure.py: where the enacting terms start, where
 * they end, how the front matter splits into citations and recitals, and
 * how a table of contents is cut off the enacting terms. Every search is an
 * ordered cascade over the regex oracle; character offsets become document
 * tokens with the local `_to_token` helper.
 */
module Structure {
  import opened PyBase
  import opened Tokens
  import opened Regex

  // ---------------------------------------------------------------------
  // _to_token
  // ---------------------------------------------------------------------

  /**
   * `_to_token(c)` over `chars_to_tokens_dict(doc)`: the token of character
   * `c`, else the downward scan. The scan decrements first and then looks
   * up one character further down, so character `c - 1` is never consulted.
   */
  function ToToken(ix: CharIndex, c: int): (r: int)
    ensures Covers(ix, c) ==> Get(ix, c) == Some(r)
    ensures !Covers(ix, c) && (exists k :: 0 <= k < c - 1 && Covers(ix, k)) ==> NearestBelow(ix, c - 1, r)
    ensures !Covers(ix, c) && (forall k :: 0 <= k < c - 1 ==> !Covers(ix, k)) ==> r == 0
  {
    var t := Get(ix, c);
    if t.Some? then t.value else ScanDown(ix, c - 1)
  }

  /** The loop of `_to_token` entered with `char` already decremented to `c`. */
  function ScanDown(ix: CharIndex, c: int): (r: int)
    ensures (exists k :: 0 <= k < c && Covers(ix, k)) ==> NearestBelow(ix, c, r)
    ensures (forall k :: 0 <= k < c ==> !Covers(ix, k)) ==> r == 0
    decreases if c < 0 then 0 else c
  {
    if c < 1 then 0
    else
      var t := Get(ix, c - 1);
      if t.Some? then
        assert NearestBelow(ix, c, t.value) by {
          assert Covers(ix, c - 1) && Get(ix, c - 1) == Some(t.value);
        }
        t.value
      else
        var r := ScanDown(ix, c - 1);
        assert !Covers(ix, c - 1);
        if exists k :: 0 <= k < c - 1 && Covers(ix, k) then
          var k :| 0 <= k < c - 1 && Get(ix, k) == Some(r) && forall j :: k < j < c - 1 ==> !Covers(ix, j);
          assert NearestBelow(ix, c, r) by {
            assert forall j :: k < j < c ==> !Covers(ix, j);
          }
          r
        else
          r
  }

  /** `r` is the token of the highest covered character below `c`. */
  ghost predicate NearestBelow(ix: CharIndex, c: int, r: int)
  {
    exists k :: 0 <= k < c && Get(ix, k) == Some(r) && forall j :: k < j < c ==> !Covers(ix, j)
  }

  /**
   * The scan skips the character right below an uncovered one: in "ab"
   * (two one-character tokens) the end of the text maps to token 0, not to
   * token 1 that holds the last character.
   */
  lemma {:induction false} ToTokenSkipsPrevious()
    ensures var ix := [IndexEntry(0, 1, 0), IndexEntry(1, 2, 1)];
      Get(ix, 1) == Some(1) && ToToken(ix, 2) == 0
  {
    var ix := [IndexEntry(0, 1, 0), IndexEntry(1, 2, 1)];
    assert !Covers(ix, 2);
    assert Get(ix, 0) == Some(0) by {
      assert ix[..1] == [IndexEntry(0, 1, 0)];
    }
  }

  // ---------------------------------------------------------------------
  // The enacting terms
  // ---------------------------------------------------------------------

  /** The strict opening formula, the lenient one, then the first article heading. */
  const EnactingQueries: seq<Query> := [Q(EnactingStart, M), Q(EnactingStartLenient, M), Q(ArticleStart, MI)]

  /** "Done at", then an annex heading. */
  const EndQueries: seq<Query> := [Q(DoneAtStart, MI), Q(AnnexStart, MI)]

  /**
   * The match that ends the enacting terms in the middle text `mt`: the
   * first "Done at" match, else the first annex heading. Without either,
   * the last-resort search runs over the whole `text` from the last article
   * heading on (or from `estimate`, the code's floating-point guess, when
   * there is none), shifted by the middle's first character `sc`; a hit
   * there is kept as the string of its group 1, on which `.end()` is called
   * next, so that branch raises.
   */
  function MiddleEnd(find: Finder, mt: string, sc: int, estimate: int, text: string): (r: Result<Option<Match>>)
    ensures |find(Q(DoneAtStart, MI), mt)| > 0 ==> r == Ok(Some(find(Q(DoneAtStart, MI), mt)[0]))
    ensures |find(Q(DoneAtStart, MI), mt)| == 0 && |find(Q(AnnexStart, MI), mt)| > 0 ==>
      r == Ok(Some(find(Q(AnnexStart, MI), mt)[0]))
    ensures |find(Q(DoneAtStart, MI), mt)| == 0 && |find(Q(AnnexStart, MI), mt)| == 0 ==>
      (r == Ok(None) <==> |find(After(LastResortFrom(find, mt, estimate) + sc, BackMatterIndicator, MD), text)| == 0)
      && (r.Err? || r == Ok(None))
    ensures r.Err? ==> r.error == AttributeError
  {
    var hit := FirstHit(find, EndQueries, mt);
    assert |EndQueries| == 2 && EndQueries[0] == Q(DoneAtStart, MI) && EndQueries[1] == Q(AnnexStart, MI);
    if hit.Some? then Ok(Some(hit.value.1))
    else if |find(After(LastResortFrom(find, mt, estimate) + sc, BackMatterIndicator, MD), text)| > 0 then
      Err(AttributeError)
    else Ok(None)
  }

  /**
   * Cuts the back matter off `middle` at the end match, in document tokens;
   * without one the middle is unchanged.
   */
  function Middle(d: Doc, find: Finder, middle: TokSpan, estimate: int): (r: Result<TokSpan>)
    requires ValidSpan(d, middle)
    ensures r.Ok? ==> ValidSpan(d, r.value)
    ensures var e := MiddleEnd(find, SpanText(d, middle), StartChar(d, middle), estimate, d.text);
      && (e == Ok(None) ==> r == Ok(middle))
      && (e.Ok? && e.value.Some? ==> r.Ok? && r.value.start == ToToken(DocIndex(d), StartChar(d, middle)))
      && (e.Err? ==> r == Err(e.error))
  {
    var sc := StartChar(d, middle);
    var e :- MiddleEnd(find, SpanText(d, middle), sc, estimate, d.text);
    if e.None? then Ok(middle)
    else
      var ix := DocIndex(d);
      Ok(DocSlice(d, ToToken(ix, sc), ToToken(ix, sc + e.value.end)))
  }

  /** Where the last-resort search starts, relative to the middle text. */
  function LastResortFrom(find: Finder, mt: string, estimate: int): int
  {
    var arts := find(Q(ArticleStart, MI), mt);
    if |arts| > 0 then arts[|arts| - 1].start else estimate
  }

  // ---------------------------------------------------------------------
  // Citations and recitals
  // ---------------------------------------------------------------------

  /** The citations and recitals of the front matter, each possibly missing. */
  datatype Front = Front(citations: Option<TokSpan>, recitals: Option<TokSpan>)

  /**
   * Where the law itself starts in the front text: after the last
   * explanatory-memorandum mark, the proposal heading, else the law heading;
   * 0 when there is no memorandum or neither heading follows it.
   */
  function LawStart(find: Finder, ft: string): (r: nat)
    ensures |find(Q(ExplanatoryMemorandum, I), ft)| == 0 ==> r == 0
  {
    var expl := find(Q(ExplanatoryMemorandum, I), ft);
    if |expl| == 0 then 0
    else
      var n := expl[|expl| - 1].end;
      var hit := FirstHit(find, [After(n, ProposalStart, MID), After(n, ProposalLawStart, MID)], ft);
      if hit.Some? then hit.value.1.end else 0
  }

  /**
   * The front-matter split: the citations opener after the law start, the
   * same ignoring case anywhere, then (no citations) the "whereas" recitals
   * opener, then the "having regard" one.
   */
  function FrontQueries(law: int): seq<Query>
  {
    [After(law, CitationsStart, MD), Q(CitationsStart, MI), Q(RecitalsStartWhereas, MI), Q(RecitalsStartHaving, MI)]
  }

  /** The recitals openers searched for after the citations opener. */
  function RecitalQueries(st: int): seq<Query>
  {
    [After(st, RecitalsStartWhereas, MID), After(st, RecitalsStartHaving, MID),
     After(st, RecitalNumStart, MID), After(st, RecitalWhereasStart, MID)]
  }

  predicate ValidFront(d: Doc, f: Front)
  {
    (f.citations.Some? ==> ValidSpan(d, f.citations.value)) && (f.recitals.Some? ==> ValidSpan(d, f.recitals.value))
  }

  /** Two consecutive parts meet: the first ends where the second starts, or is empty beyond it. */
  predicate Meets(a: TokSpan, b: TokSpan)
  {
    a.end == b.start || (a.start == a.end && a.start > b.start)
  }

  /**
   * The front matter holds both parts: recitals from the end of the first
   * recitals opener after the citations opener to the end of the front,
   * citations from the end of the citations opener up to where the
   * recitals start (the end of the front without recitals).
   */
  function BothParts(d: Doc, find: Finder, front: TokSpan, st: int): (r: Front)
    requires ValidSpan(d, front)
    ensures ValidFront(d, r)
    ensures var ft := SpanText(d, front);
      && (r.recitals.Some? <==> exists i :: 0 <= i < |RecitalQueries(st)| && |find(RecitalQueries(st)[i], ft)| > 0)
      && (r.citations.Some? <==> |find(After(st, CitationsStart, MID), ft)| > 0)
    ensures r.citations.Some? && r.recitals.Some? ==> Meets(r.citations.value, r.recitals.value)
    ensures r.recitals.Some? ==> r.recitals.value.end == front.end || r.recitals.value.start == r.recitals.value.end
    ensures r.citations.Some? && r.recitals.None? ==>
      r.citations.value.end == front.end || r.citations.value.start == r.citations.value.end
    ensures var ft := SpanText(d, front);
      var rs := FirstHit(find, RecitalQueries(st), ft);
      rs.Some? ==> r.recitals == Some(DocSlice(d, ToToken(DocIndex(d), rs.value.1.end), front.end))
    ensures var ft := SpanText(d, front);
      var cq := After(st, CitationsStart, MID);
      var rs := FirstHit(find, RecitalQueries(st), ft);
      |find(cq, ft)| > 0 ==>
        r.citations == Some(DocSlice(d, ToToken(DocIndex(d), find(cq, ft)[0].end),
                                     if rs.Some? then ToToken(DocIndex(d), rs.value.1.end) else front.end))
  {
    var ix := DocIndex(d);
    var ft := SpanText(d, front);
    var rs := FirstHit(find, RecitalQueries(st), ft);
    var cs := Search(find, After(st, CitationsStart, MID), ft);
    var recitals := if rs.Some? then Some(DocSlice(d, ToToken(ix, rs.value.1.end), front.end)) else None;
    var citations :=
      if cs.None? then None
      else Some(DocSlice(d, ToToken(ix, cs.value.end), if rs.Some? then ToToken(ix, rs.value.1.end) else front.end));
    Front(citations, recitals)
  }

  /**
   * The citations-and-recitals split of the front part. Only the
   * both-parts search can yield citations: the branch that would keep
   * citations alone after the first cascade needs "no recitals" without "no
   * citations", which that cascade never produces.
   */
  function FrontParts(d: Doc, find: Finder, front: TokSpan): (r: Front)
    requires ValidSpan(d, front)
    ensures ValidFront(d, r)
    ensures var ft := SpanText(d, front);
      var qs := FrontQueries(LawStart(find, ft));
      && ((forall i :: 0 <= i < 4 ==> |find(qs[i], ft)| == 0) ==> r == Front(None, None))
      && (|find(qs[0], ft)| == 0 && |find(qs[1], ft)| == 0 && |find(qs[2], ft)| > 0 ==>
            r == Front(None, Some(DocSlice(d, ToToken(DocIndex(d), find(qs[2], ft)[0].end), front.end))))
      && (|find(qs[0], ft)| == 0 && |find(qs[1], ft)| == 0 && |find(qs[2], ft)| == 0 && |find(qs[3], ft)| > 0 ==>
            r == Front(None, Some(DocSlice(d, ToToken(DocIndex(d), find(qs[3], ft)[0].end), front.end))))
      && (r.citations.Some? ==> |find(qs[0], ft)| > 0 || |find(qs[1], ft)| > 0)
    ensures r.citations.Some? && r.recitals.Some? ==> Meets(r.citations.value, r.recitals.value)
  {
    var ft := SpanText(d, front);
    var fm := FirstHit(find, FrontQueries(LawStart(find, ft)), ft);
    if fm.None? then Front(None, None)
    else if fm.value.0 >= 2 then Front(None, Some(DocSlice(d, ToToken(DocIndex(d), fm.value.1.end), front.end)))
    else BothParts(d, find, front, fm.value.1.start)
  }

  /**
   * When the citations opener is found, after the law start or anywhere
   * ignoring case, the front is split by `BothParts` from the start of that
   * opener's first match.
   */
  lemma FrontPartsBoth(d: Doc, find: Finder, front: TokSpan)
    requires ValidSpan(d, front)
    ensures var ft := SpanText(d, front);
      var qs := FrontQueries(LawStart(find, ft));
      |find(qs[0], ft)| > 0 || |find(qs[1], ft)| > 0 ==>
        var cm := if |find(qs[0], ft)| > 0 then find(qs[0], ft)[0] else find(qs[1], ft)[0];
        FrontParts(d, find, front) == BothParts(d, find, front, cm.start)
  {
    var ft := SpanText(d, front);
    var fm := FirstHit(find, FrontQueries(LawStart(find, ft)), ft);
    if fm.Some? && fm.value.0 == 1 {
      assert |find(FrontQueries(LawStart(find, ft))[0], ft)| == 0;
    }
  }

  // ---------------------------------------------------------------------
  // Table of contents and the result
  // ---------------------------------------------------------------------

  /** The dict `text_parts` returns. */
  datatype Parts = Parts(
    citations: Option<TokSpan>,
    recitals: Option<TokSpan>,
    enacting: TokSpan,
    enactingWithToc: TokSpan,
    annex: Option<TokSpan>)

  /** A table-of-contents heading in the first quarter of the enacting text. */
  predicate TocInEnacting(d: Doc, find: Finder, enacting: TokSpan)
    requires ValidSpan(d, enacting)
  {
    var et := SpanText(d, enacting);
    |find(Q(TocStart, MI), PySlice(et, 0, |et| / 4))| > 0
  }

  /** A table-of-contents heading anywhere in the recitals. */
  predicate TocInRecitals(d: Doc, find: Finder, recitals: Option<TokSpan>)
    requires recitals.Some? ==> ValidSpan(d, recitals.value)
  {
    recitals.Some? && |find(Q(TocStart, MI), SpanText(d, recitals.value))| > 0
  }

  /**
   * The table-of-contents step. A heading in the first quarter of the
   * enacting terms re-anchors `enacting` at the first "Article 1" between
   * character 100 and that quarter, while `enacting_with_toc` keeps the
   * whole range. Otherwise a heading in the recitals cuts the recitals at it
   * (strict alignment, so they may vanish) and `enacting_with_toc` starts
   * where the recitals, else the citations, end. Without a table of
   * contents both enacting entries are the same span.
   */
  function Toc(d: Doc, find: Finder, fp: Front, enacting: TokSpan): (r: Result<Parts>)
    requires ValidSpan(d, enacting) && ValidFront(d, fp)
    ensures r.Ok? ==> r.value.annex.None? && r.value.citations == fp.citations
    ensures !TocInEnacting(d, find, enacting) && !TocInRecitals(d, find, fp.recitals) ==>
      r == Ok(Parts(fp.citations, fp.recitals, enacting, enacting, None))
    ensures TocInEnacting(d, find, enacting) && r.Ok? ==>
      r.value.enactingWithToc == enacting && r.value.recitals == fp.recitals
      && enacting.start <= r.value.enacting.start && r.value.enacting.end == enacting.end
    ensures !TocInEnacting(d, find, enacting) && r.Ok? ==> r.value.enacting == enacting
    ensures r.Err? ==> r.error in {ValueError, AttributeError}
    ensures r == Err(AttributeError) ==> fp.citations.None? && TocInRecitals(d, find, fp.recitals)
  {
    var et := SpanText(d, enacting);
    if TocInEnacting(d, find, enacting) then
      var a1 := Search(find, Q(Article1Start, MI), PySlice(et, 100, |et| / 4));
      if a1.Some? then
        var t := CharToToken(SpanIndex(d, enacting), 100 + a1.value.start, Contract);
        if t.Err? then Err(t.error)
        else Ok(Parts(fp.citations, fp.recitals, SubSpan(enacting, BoundOr(t.value, 0), enacting.end - enacting.start), enacting, None))
      else Ok(Parts(fp.citations, fp.recitals, enacting, enacting, None))
    else if TocInRecitals(d, find, fp.recitals) then
      var toc := find(Q(TocStart, MI), SpanText(d, fp.recitals.value))[0];
      var cut := CharSpanStrict(d, fp.recitals.value, 0, toc.end);
      if cut.None? && fp.citations.None? then Err(AttributeError)
      else
        var tocStart := if cut.Some? then cut.value.end else fp.citations.value.end;
        Ok(Parts(fp.citations, cut, enacting, DocSlice(d, tocStart, enacting.end), None))
    else Ok(Parts(fp.citations, fp.recitals, enacting, enacting, None))
  }

  /**
   * The split before the enacting terms: the strict opening formula, the
   * lenient one, then the first article heading; StructureException when
   * none of them matches.
   */
  function EnactingSplit(find: Finder, text: string): (r: Result<Match>)
    ensures r == Err(StructureException) <==>
      |find(Q(EnactingStart, M), text)| == 0
      && |find(Q(EnactingStartLenient, M), text)| == 0
      && |find(Q(ArticleStart, MI), text)| == 0
    ensures r.Err? ==> r.error == StructureException
    ensures |find(Q(EnactingStart, M), text)| > 0 ==> r == Ok(find(Q(EnactingStart, M), text)[0])
    ensures |find(Q(EnactingStart, M), text)| == 0 && |find(Q(EnactingStartLenient, M), text)| > 0 ==>
      r == Ok(find(Q(EnactingStartLenient, M), text)[0])
  {
    var e := FirstHit(find, EnactingQueries, text);
    assert |EnactingQueries| == 3 && EnactingQueries[0] == Q(EnactingStart, M)
      && EnactingQueries[1] == Q(EnactingStartLenient, M) && EnactingQueries[2] == Q(ArticleStart, MI);
    if e.None? then Err(StructureException) else Ok(e.value.1)
  }

  /**
   * `text_parts(doc)`. `estimate` stands for the floating-point guess of
   * where the last article is when the middle part has no article heading.
   */
  function TextParts(d: Doc, find: Finder, estimate: int): (r: Result<Parts>)
    ensures r == Err(StructureException) <==> EnactingSplit(find, d.text).Err?
    ensures r.Err? ==> r.error in {StructureException, AttributeError, ValueError}
    ensures r.Ok? ==> r.value.annex.None?
  {
    var e :- EnactingSplit(find, d.text);
    var ix := DocIndex(d);
    var front := DocSlice(d, ToToken(ix, 0), ToToken(ix, e.end));
    var middle :- Middle(d, find, DocSlice(d, ToToken(ix, e.end), ToToken(ix, |d.text|)), estimate);
    Toc(d, find, FrontParts(d, find, front), middle)
  }
}

=== FILE: tokens.dfy ===
/**
 * The parts of a spaCy document the euCy code relies on: tokens with their
 * character offsets, token spans with spaCy's slice normalisation and
 * character boundaries, and the character-to-token index that
 * `chars_to_tokens_dict` builds and `char_to_token` searches.
 */
module Tokens {
  import opened PyBase

  /** A token: its first character `idx`, its length and the whitespace after it. */
  datatype Token = Token(idx: nat, length: nat, ws: nat)

  datatype Doc = Doc(text: string, tokens: seq<Token>)

  /** Tokens are non-empty, lie inside the text and follow each other in order. */
  predicate WellFormed(d: Doc)
  {
    (forall i :: 0 <= i < |d.tokens| ==>
       d.tokens[i].length >= 1 && d.tokens[i].idx + d.tokens[i].length + d.tokens[i].ws <= |d.text|)
    && (forall i, j :: 0 <= i < j < |d.tokens| ==>
          d.tokens[i].idx + d.tokens[i].length + d.tokens[i].ws <= d.tokens[j].idx)
  }

  /** A spaCy `Span`: the tokens `start .. end - 1` of a document. */
  datatype TokSpan = TokSpan(start: nat, end: nat)

  predicate ValidSpan(d: Doc, s: TokSpan)
  {
    s.start <= s.end <= |d.tokens|
  }

  function Len(s: TokSpan): nat
  {
    if s.end >= s.start then s.end - s.start else 0
  }

  /** `span.start_char`: the first token's offset, or the text length for an empty span at the end. */
  function StartChar(d: Doc, s: TokSpan): nat
  {
    if s.start < |d.tokens| then d.tokens[s.start].idx else |d.text|
  }

  /** `span.end_char`: the end of the last token, or the start for an empty span. */
  function EndChar(d: Doc, s: TokSpan): nat
    requires ValidSpan(d, s)
  {
    if s.start == s.end then StartChar(d, s)
    else d.tokens[s.end - 1].idx + d.tokens[s.end - 1].length
  }

  lemma CharBounds(d: Doc, s: TokSpan)
    requires WellFormed(d) && ValidSpan(d, s)
    ensures StartChar(d, s) <= EndChar(d, s) <= |d.text|
  {
    if s.start < s.end && s.start < s.end - 1 {
      assert d.tokens[s.start].idx + d.tokens[s.start].length + d.tokens[s.start].ws
        <= d.tokens[s.end - 1].idx;
    }
  }

  /** `span.text`. */
  function SpanText(d: Doc, s: TokSpan): (r: string)
    requires ValidSpan(d, s)
  {
    PySlice(d.text, StartChar(d, s), EndChar(d, s))
  }

  /** spaCy's `normalize_slice` for a container of `length` items: clamp, never reverse. */
  function NormalizeSlice(length: nat, start: int, stop: int): (r: (nat, nat))
    ensures r.0 <= r.1 <= length
    ensures 0 <= start <= length ==> r.0 == start
    ensures r.0 <= stop <= length ==> r.1 == stop
  {
    var a := if start < 0 then start + length else start;
    var a' := if a < 0 then 0 else if a > length then length else a;
    var b := if stop < 0 then stop + length else stop;
    var b' := if b < a' then a' else if b > length then length else b;
    (a', b')
  }

  /** `doc[a:b]`. */
  function DocSlice(d: Doc, a: int, b: int): (r: TokSpan)
    ensures ValidSpan(d, r)
  {
    var (i, j) := NormalizeSlice(|d.tokens|, a, b);
    TokSpan(i, j)
  }

  /** `span[a:b]`: slicing relative to the span, which stays inside it. */
  function SubSpan(s: TokSpan, a: int, b: int): (r: TokSpan)
    requires s.start <= s.end
    ensures s.start <= r.start <= r.end <= s.end
  {
    var (i, j) := NormalizeSlice(s.end - s.start, a, b);
    TokSpan(s.start + i, s.start + j)
  }

  // ---------------------------------------------------------------------
  // The character-to-token index
  // ---------------------------------------------------------------------

  /** The keys `lo .. hi - 1` of the dict all map to `token`. */
  datatype IndexEntry = IndexEntry(lo: int, hi: int, token: int)

  /** The dict built by `chars_to_tokens_dict`, as the ranges it wrote, in the order it wrote them. */
  type CharIndex = seq<IndexEntry>

  predicate Covers(ix: CharIndex, c: int)
  {
    exists i | 0 <= i < |ix| :: ix[i].lo <= c < ix[i].hi
  }

  /** `d.get(c)`: the entry written last wins. */
  function Get(ix: CharIndex, c: int): (r: Option<int>)
    ensures r.Some? <==> Covers(ix, c)
    ensures r.Some? ==>
      exists i | 0 <= i < |ix| ::
        ix[i].lo <= c < ix[i].hi && r.value == ix[i].token
        && forall j :: i < j < |ix| ==> !(ix[j].lo <= c < ix[j].hi)
  {
    if |ix| == 0 then None
    else
      var e := ix[|ix| - 1];
      if e.lo <= c < e.hi then Some(e.token)
      else
        var r := Get(ix[..|ix| - 1], c);
        assert Covers(ix, c) ==> Covers(ix[..|ix| - 1], c) by {
          if Covers(ix, c) {
            var i :| 0 <= i < |ix| && ix[i].lo <= c < ix[i].hi;
            assert i < |ix| - 1 && ix[..|ix| - 1][i] == ix[i];
          }
        }
        r
  }

  predicate AnyKeys(ix: CharIndex)
  {
    exists i | 0 <= i < |ix| :: ix[i].lo < ix[i].hi
  }

  /** `min(d.keys())`. */
  function MinKey(ix: CharIndex): (r: int)
    requires AnyKeys(ix)
    ensures Covers(ix, r)
    ensures forall c :: Covers(ix, c) ==> r <= c
  {
    var e := ix[|ix| - 1];
    var prefix := ix[..|ix| - 1];
    assert forall i :: 0 <= i < |prefix| ==> prefix[i] == ix[i];
    if !AnyKeys(prefix) then
      assert e.lo < e.hi;
      assert forall c :: Covers(ix, c) ==> e.lo <= c by {
        forall c | Covers(ix, c) ensures e.lo <= c {
          var i :| 0 <= i < |ix| && ix[i].lo <= c < ix[i].hi;
        }
      }
      e.lo
    else
      var m := MinKey(prefix);
      var r := if e.lo < e.hi && e.lo < m then e.lo else m;
      assert forall c :: Covers(ix, c) ==> r <= c by {
        forall c | Covers(ix, c) ensures r <= c {
          var i :| 0 <= i < |ix| && ix[i].lo <= c < ix[i].hi;
          if i < |ix| - 1 { assert Covers(prefix, c); }
        }
      }
      assert Covers(ix, r) by {
        if r == m {
          var i :| 0 <= i < |prefix| && prefix[i].lo <= m < prefix[i].hi;
          assert ix[i].lo <= m < ix[i].hi;
        }
      }
      r
  }

  /** `max(d.keys())`. */
  function MaxKey(ix: CharIndex): (r: int)
    requires AnyKeys(ix)
    ensures Covers(ix, r)
    ensures forall c :: Covers(ix, c) ==> c <= r
  {
    var e := ix[|ix| - 1];
    var prefix := ix[..|ix| - 1];
    assert forall i :: 0 <= i < |prefix| ==> prefix[i] == ix[i];
    if !AnyKeys(prefix) then
      assert e.lo < e.hi;
      assert forall c :: Covers(ix, c) ==> c <= e.hi - 1 by {
        forall c | Covers(ix, c) ensures c <= e.hi - 1 {
          var i :| 0 <= i < |ix| && ix[i].lo <= c < ix[i].hi;
        }
      }
      e.hi - 1
    else
      var m := MaxKey(prefix);
      var r := if e.lo < e.hi && e.hi - 1 > m then e.hi - 1 else m;
      assert forall c :: Covers(ix, c) ==> c <= r by {
        forall c | Covers(ix, c) ensures c <= r {
          var i :| 0 <= i < |ix| && ix[i].lo <= c < ix[i].hi;
          if i < |ix| - 1 { assert Covers(prefix, c); }
        }
      }
      assert Covers(ix, r) by {
        if r == m {
          var i :| 0 <= i < |prefix| && prefix[i].lo <= m < prefix[i].hi;
          assert ix[i].lo <= m < ix[i].hi;
        } else {
          assert ix[|ix| - 1].lo <= r < ix[|ix| - 1].hi;
        }
      }
      r
  }

  /**
   * The entries `chars_to_tokens_dict` writes for `tokens`, the first of which
   * is document token `first`: characters shifted by `charOffset`, token
   * numbers by `tokenOffset`.
   */
  function BuildIndex(tokens: seq<Token>, first: nat, charOffset: int, tokenOffset: int): (ix: CharIndex)
    ensures |ix| == |tokens|
    ensures forall j :: 0 <= j < |tokens| ==>
      ix[j] == IndexEntry(tokens[j].idx - charOffset, tokens[j].idx + tokens[j].length - charOffset,
                          first + j - tokenOffset)
  {
    seq(|tokens|, j requires 0 <= j < |tokens| =>
      IndexEntry(tokens[j].idx - charOffset, tokens[j].idx + tokens[j].length - charOffset,
                 first + j - tokenOffset))
  }

  /** `chars_to_tokens_dict(span)` with the default `as_ref` offsets: both relative to the span. */
  function SpanIndex(d: Doc, s: TokSpan): CharIndex
    requires ValidSpan(d, s)
  {
    BuildIndex(d.tokens[s.start..s.end], s.start, StartChar(d, s), s.start)
  }

  /** `chars_to_tokens_dict(doc)`: document offsets. */
  function DocIndex(d: Doc): CharIndex
  {
    BuildIndex(d.tokens, 0, 0, 0)
  }

  /** The token of the span whose characters include span-relative character `c`. */
  predicate TokenCovers(d: Doc, s: TokSpan, t: int, c: int)
    requires ValidSpan(d, s)
  {
    0 <= t < s.end - s.start
    && d.tokens[s.start + t].idx <= c + StartChar(d, s) < d.tokens[s.start + t].idx + d.tokens[s.start + t].length
  }

  /**
   * For a well-formed document the span index maps a character exactly to
   * the span token that contains it, and has no other keys.
   */
  lemma SpanIndexCorrect(d: Doc, s: TokSpan, c: int, t: int)
    requires WellFormed(d) && ValidSpan(d, s)
    ensures Get(SpanIndex(d, s), c) == Some(t) <==> TokenCovers(d, s, t, c)
  {
    if Get(SpanIndex(d, s), c) == Some(t) {
      SpanIndexSound(d, s, c);
    }
    if TokenCovers(d, s, t, c) {
      SpanIndexComplete(d, s, c, t);
    }
  }

  lemma SpanIndexSound(d: Doc, s: TokSpan, c: int)
    requires ValidSpan(d, s) && Get(SpanIndex(d, s), c).Some?
    ensures TokenCovers(d, s, Get(SpanIndex(d, s), c).value, c)
  {
    var i := GetEntry(SpanIndex(d, s), c);
    SpanEntry(d, s, i);
  }

  /** The entry a successful lookup took its token from. */
  lemma GetEntry(ix: CharIndex, c: int) returns (i: nat)
    requires Get(ix, c).Some?
    ensures i < |ix| && ix[i].lo <= c < ix[i].hi && Get(ix, c).value == ix[i].token
  {
    i :| 0 <= i < |ix| && ix[i].lo <= c < ix[i].hi && Get(ix, c).value == ix[i].token
         && forall j :: i < j < |ix| ==> !(ix[j].lo <= c < ix[j].hi);
  }

  /** Entry `i` of the span index is span token `i`, with characters relative to the span. */
  lemma SpanEntry(d: Doc, s: TokSpan, i: nat)
    requires ValidSpan(d, s) && i < s.end - s.start
    ensures |SpanIndex(d, s)| == s.end - s.start
    ensures SpanIndex(d, s)[i]
            == IndexEntry(d.tokens[s.start + i].idx - StartChar(d, s),
                          d.tokens[s.start + i].idx + d.tokens[s.start + i].length - StartChar(d, s), i)
  {
    var toks := d.tokens[s.start..s.end];
    assert toks[i] == d.tokens[s.start + i];
  }

  lemma SpanIndexComplete(d: Doc, s: TokSpan, c: int, t: int)
    requires WellFormed(d) && ValidSpan(d, s) && TokenCovers(d, s, t, c)
    ensures Get(SpanIndex(d, s), c) == Some(t)
  {
    OnlyCoveringEntry(d, s, c, t);
    LookupUnique(SpanIndex(d, s), c, t);
  }

  /** When exactly one entry covers `c`, the lookup returns that entry's token. */
  lemma LookupUnique(ix: CharIndex, c: int, t: nat)
    requires t < |ix| && ix[t].lo <= c < ix[t].hi && ix[t].token == t
    requires forall i :: 0 <= i < |ix| && i != t ==> !(ix[i].lo <= c < ix[i].hi)
    ensures Get(ix, c) == Some(t)
  {
    assert Covers(ix, c);
  }

  lemma OnlyCoveringEntry(d: Doc, s: TokSpan, c: int, t: int)
    requires WellFormed(d) && ValidSpan(d, s) && TokenCovers(d, s, t, c)
    ensures var ix := SpanIndex(d, s);
      0 <= t < |ix| && ix[t].lo <= c < ix[t].hi && ix[t].token == t
      && forall i :: 0 <= i < |ix| && i != t ==> !(ix[i].lo <= c < ix[i].hi)
  {
    var ix := SpanIndex(d, s);
    var off := StartChar(d, s);
    SpanEntry(d, s, t);
    forall i | 0 <= i < |ix| && i != t
      ensures !(ix[i].lo <= c < ix[i].hi)
    {
      SpanEntry(d, s, i);
      TokensDisjoint(d, s.start + i, s.start + t, c + off);
    }
  }

  /** Two different tokens of a well-formed document share no character. */
  lemma TokensDisjoint(d: Doc, i: nat, j: nat, c: int)
    requires WellFormed(d) && i < |d.tokens| && j < |d.tokens| && i != j
    ensures !(d.tokens[i].idx <= c < d.tokens[i].idx + d.tokens[i].length
              && d.tokens[j].idx <= c < d.tokens[j].idx + d.tokens[j].length)
  {
    if i < j {
      assert d.tokens[i].idx + d.tokens[i].length + d.tokens[i].ws <= d.tokens[j].idx;
    } else {
      assert d.tokens[j].idx + d.tokens[j].length + d.tokens[j].ws <= d.tokens[i].idx;
    }
  }

  // ---------------------------------------------------------------------
  // char_to_token
  // ---------------------------------------------------------------------

  /** The `alignment_mode` argument; any value other than expand and strict behaves as contract. */
  datatype Alignment = Contract | Expand | Strict

  /**
   * The key the contract search lands on, starting below a character `c`
   * that is not a key: it steps down one character at a time and jumps to
   * the smallest key once it falls below it.
   */
  function ContractKey(ix: CharIndex, c: int): (k: int)
    requires AnyKeys(ix) && !Covers(ix, c)
    ensures Covers(ix, k)
    ensures forall j :: k < j <= c ==> !Covers(ix, j)
    ensures k <= c || (k == MinKey(ix) && forall j :: j <= c ==> !Covers(ix, j))
    decreases c - MinKey(ix)
  {
    var m := MinKey(ix);
    if c - 1 < m then m
    else if Get(ix, c - 1).Some? then c - 1
    else ContractKey(ix, c - 1)
  }

  /**
   * The key the expand search lands on, starting above a character `c` that
   * is not a key, and whether it had to fall back to the largest key (the
   * `token_offset = 1` case).
   */
  function ExpandKey(ix: CharIndex, c: int): (r: (int, bool))
    requires AnyKeys(ix) && !Covers(ix, c)
    ensures Covers(ix, r.0)
    ensures !r.1 ==> c < r.0 && forall j :: c < j < r.0 ==> !Covers(ix, j)
    ensures r.1 ==> r.0 == MaxKey(ix) && forall j :: j > c ==> !Covers(ix, j)
    decreases MaxKey(ix) - c
  {
    var m := MaxKey(ix);
    if c + 1 > m then (m, true)
    else if Get(ix, c + 1).Some? then (c + 1, false)
    else ExpandKey(ix, c + 1)
  }

  /**
   * `char_to_token(c, index, alignment_mode=mode)`. A miss in strict mode is
   * `None`; a miss in the other modes on an empty index fails in `max`/`min`
   * with ValueError.
   */
  function CharToToken(ix: CharIndex, c: int, mode: Alignment): (r: Result<Option<int>>)
    ensures Covers(ix, c) ==> r == Ok(Get(ix, c))
    ensures !Covers(ix, c) && mode == Strict ==> r == Ok(None)
    ensures !Covers(ix, c) && mode != Strict && !AnyKeys(ix) ==> r == Err(ValueError)
    ensures !Covers(ix, c) && mode == Contract && AnyKeys(ix) ==>
      r == Ok(Get(ix, ContractKey(ix, c)))
    ensures !Covers(ix, c) && mode == Expand && AnyKeys(ix) ==>
      var (k, past) := ExpandKey(ix, c);
      r == Ok(Some(Get(ix, k).value + (if past then 1 else 0)))
  {
    match Get(ix, c)
    case Some(t) => Ok(Some(t))
    case None =>
      if mode == Strict then Ok(None)
      else if !AnyKeys(ix) then Err(ValueError)
      else if mode == Expand then
        var (k, past) := ExpandKey(ix, c);
        Ok(Some(Get(ix, k).value + (if past then 1 else 0)))
      else Ok(Get(ix, ContractKey(ix, c)))
  }

  /** A token found by `char_to_token`, or Python's slice default when it is `None`. */
  function BoundOr(t: Option<int>, default: int): int
  {
    if t.Some? then t.value else default
  }

  /** Every lookup that does not fail finds a token, except a strict miss. */
  lemma CharToTokenFinds(ix: CharIndex, c: int, mode: Alignment)
    requires mode != Strict && AnyKeys(ix)
    ensures CharToToken(ix, c, mode).Ok? && CharToToken(ix, c, mode).value.Some?
  {
  }

  /** The index position of the first token whose first character is `a`, if any. */
  function TokenStartingAt(d: Doc, a: int, from: nat): (r: Option<nat>)
    ensures r.Some? ==> from <= r.value < |d.tokens| && d.tokens[r.value].idx == a
    ensures r.None? ==> forall i :: from <= i < |d.tokens| ==> d.tokens[i].idx != a
    decreases |d.tokens| - from
  {
    if from >= |d.tokens| then None
    else if d.tokens[from].idx == a then Some(from)
    else TokenStartingAt(d, a, from + 1)
  }

  /** The index position of the first token whose last character ends at `b`, if any. */
  function TokenEndingAt(d: Doc, b: int, from: nat): (r: Option<nat>)
    ensures r.Some? ==> from <= r.value < |d.tokens| && d.tokens[r.value].idx + d.tokens[r.value].length == b
    ensures r.None? ==> forall i :: from <= i < |d.tokens| ==> d.tokens[i].idx + d.tokens[i].length != b
    decreases |d.tokens| - from
  {
    if from >= |d.tokens| then None
    else if d.tokens[from].idx + d.tokens[from].length == b then Some(from)
    else TokenEndingAt(d, b, from + 1)
  }

  /**
   * `span.char_span(a, b)` in the default strict alignment: the tokens from
   * the one starting at `a` to the one ending at `b` (both relative to the
   * span), or `None` when either boundary falls inside a token.
   */
  function CharSpanStrict(d: Doc, s: TokSpan, a: int, b: int): (r: Option<TokSpan>)
    ensures r.Some? ==> ValidSpan(d, r.value)
    ensures r.Some? && r.value.start < r.value.end ==>
      d.tokens[r.value.start].idx == a + StartChar(d, s)
      && d.tokens[r.value.end - 1].idx + d.tokens[r.value.end - 1].length == b + StartChar(d, s)
  {
    var sc := StartChar(d, s);
    match (TokenStartingAt(d, a + sc, 0), TokenEndingAt(d, b + sc, 0))
    case (Some(i), Some(j)) => if i <= j + 1 then Some(TokSpan(i, j + 1)) else None
    case _ => None
  }
}
